=== FILE: README.md ===
# JiraTestResultReporter in Dafny

A Dafny model of the bookkeeping at the heart of the Jenkins plugin
JiraTestResultReporter, which links failing JUnit tests to Jira issues.
The model covers:

- `TestToIssueMapping`: per job, the map from test id to linked issue key.
  It has idempotent registration (matrix projects register their
  configurations), add, remove-if-equal, lazy lookup and a read-only export.
  Every change is written through to a per-job file. Loading tries the JSON
  file, then the legacy file, then an empty map (module `TestToIssueMapping`).
- `JobConfigMapping`: one configuration entry per job, replaced on every
  save and cached lazily. Getters default to null or `false`. The issue-key
  pattern is the project key, a `-` and digits (module `JobConfigMapping`).
- `VariableExpander`: `${NAME}` placeholders. Environment variables win over
  the built-ins, and unknown names stay literal. The default-template
  built-ins recurse, bounded by fuel (module `VariableExpander`, with
  `EnvVars` and `Descriptor`).
- The four configurable field kinds. Each renders to a field input, and each
  has a tagged `{clazz, properties}` JSON form with a round trip (module
  `FieldSpecs`). The descriptors' drop-down lists are in module
  `FieldPickers`.
- `MetadataCache`: the create-issue metadata sorted into five field buckets,
  kept in a two-level get-or-fetch cache.
- `JiraUtils`:
  - issue URLs, REST error messages, the JQL queries and `escapeJQL` (module
    `JqlEscape`);
  - the layering of templates and configured fields into a new issue;
  - creation without duplicating an open issue, and the search for a test's
    issues;
  - clean-up of links to resolved issues.
- `JiraTestDataPublisher`: per build, the clean, raise, resolve and unlink
  steps. Also the test-data contribution, attachments and the default
  templates (module `Publisher`).
- `JiraTestAction` (module `TestAction`): the per-test badge with its link,
  unlink and create actions.
- `JiraTestDataRegistry` (module `TestDataRegistry`).
- The REST route `TestToIssueMappingApi.doJson` (module `MappingApi`).
- The two legacy post-build reporters: `JiraTestResultReporter.JiraReporter`
  (module `LegacyReporter`) and `com.maplesteve...JiraReporter` (module
  `MaplesteveReporter`).

The model never does I/O. The Jira server is an oracle record (`Tracker`):
search results, transitions, metadata and the key of a newly created issue are
its answers. Files are an abstract `Disk` map, and every operation that writes
one returns the new disk. Java's null is `Option`, an exception is a `Result`
failure. `String.replace`, `String.split` with a one-character pattern,
`Character.isWhitespace` and `Long.parseLong` are written out in module
`JavaStrings`; `parseLong` there reads ASCII digits only (see Left out).

Where the plugin's documentation and its code disagree, the model follows the
code:

- `escapeJQL` does not escape a bare `+`, `|` or `*` (see Findings).
- An attachment that cannot be uploaded fails the creation before the link is
  stored.
- The new publisher resolves an issue with the transition id alone and adds no
  comment. Only the legacy reporter comments "Test case fixed in build# …".

## Model

| member | source | states |
|---|---|---|
| TestToIssueMapping.GetSubJobMap | src/main/java/org/jenkinsci/plugins/JiraTestResultReporter/TestToIssueMapping.java:240-246 | The sub-job map is absent exactly when no configuration has the requested name; otherwise it is the map of a configuration with that name. |
| TestToIssueMapping.LoadMapStable | src/main/java/org/jenkinsci/plugins/JiraTestResultReporter/TestToIssueMapping.java:99-150 | Loading again after a load gives the same map and writes nothing more, so the conversion from the previous version happens once. |
| TestToIssueMapping.LoadMapFrame | src/main/java/org/jenkinsci/plugins/JiraTestResultReporter/TestToIssueMapping.java:99-150 | A load writes only the loaded job's own JSON file and does not change what any other job would load. |
| TestToIssueMapping.RegisterPlainSynced | src/main/java/org/jenkinsci/plugins/JiraTestResultReporter/TestToIssueMapping.java:168-178 | Registering an ordinary job keeps every registered map equal to what a reload from disk would give. |
| TestToIssueMapping.RegisterChildrenSynced | src/main/java/org/jenkinsci/plugins/JiraTestResultReporter/TestToIssueMapping.java:157-165 | Registering the configurations of a matrix project one by one keeps memory and disk in step. |
| TestToIssueMapping.RegisterSynced | src/main/java/org/jenkinsci/plugins/JiraTestResultReporter/TestToIssueMapping.java:156-179 | `register` of any job keeps memory and disk in step. |
| TestToIssueMapping.SaveSynced | src/main/java/org/jenkinsci/plugins/JiraTestResultReporter/TestToIssueMapping.java:70-82 | Saving one job's whole map keeps every other registered job in step with its file. |
| TestToIssueMapping.StartupSynced | src/main/java/org/jenkinsci/plugins/JiraTestResultReporter/TestToIssueMapping.java:58-63 | After the constructor registers every top-level job, memory and disk agree, whatever was on disk before. |
| TestToIssueMapping.RegisterAllSynced | src/main/java/org/jenkinsci/plugins/JiraTestResultReporter/TestToIssueMapping.java:60-62 | Registering a sequence of jobs from a synced state keeps it synced. |
| TestToIssueMapping.AddSynced | src/main/java/org/jenkinsci/plugins/JiraTestResultReporter/TestToIssueMapping.java:187-199 | A successful link saves the job's map, so memory and disk stay in step. |
| TestToIssueMapping.RemoveSynced | src/main/java/org/jenkinsci/plugins/JiraTestResultReporter/TestToIssueMapping.java:207-220 | Unlinking saves when it changes the map, so memory and disk stay in step. |
| TestToIssueMapping.AddThenLookup | src/main/java/org/jenkinsci/plugins/JiraTestResultReporter/TestToIssueMapping.java:187-199 | After a link, the lookup of that test gives the new key whatever was linked before, without a further registration, and the job's JSON file holds the new map. |
| TestToIssueMapping.AddPlainFrame | src/main/java/org/jenkinsci/plugins/JiraTestResultReporter/TestToIssueMapping.java:187-199 | Linking in a registered ordinary job always succeeds, sets only that test in that job's map, and rewrites no other job's file. |
| TestToIssueMapping.AddOverwrites | src/main/java/org/jenkinsci/plugins/JiraTestResultReporter/TestToIssueMapping.java:195-198 | A second link for the same test replaces the first. |
| TestToIssueMapping.AddToMatrixFails | src/main/java/org/jenkinsci/plugins/JiraTestResultReporter/TestToIssueMapping.java:187-196 | A matrix project that none of its configurations shares a name with has no map of its own, so linking to it fails where the source would dereference a null map. |
| TestToIssueMapping.RemoveOnlyMatching | src/main/java/org/jenkinsci/plugins/JiraTestResultReporter/TestToIssueMapping.java:207-220 | Unlinking removes the test and saves the map exactly when the stored key equals the given key; otherwise, including for an unregistered job, nothing changes. |
| TestToIssueMapping.UnregisteredJob | src/main/java/org/jenkinsci/plugins/JiraTestResultReporter/TestToIssueMapping.java:187-238 | Linking and looking up register an unknown ordinary job; unlinking leaves the store unchanged. |
| TestToIssueMapping.RegisterIdempotent | src/main/java/org/jenkinsci/plugins/JiraTestResultReporter/TestToIssueMapping.java:156-179 | `register` never replaces a registered map, does nothing for a registered ordinary job, and a second `register` of the same job changes nothing. |
| TestToIssueMapping.RegisterChildrenKeys | src/main/java/org/jenkinsci/plugins/JiraTestResultReporter/TestToIssueMapping.java:157-165 | Registering configurations keeps every existing map and adds exactly the ordinary configurations; nested matrix projects are skipped. |
| TestToIssueMapping.RegisterChildrenAgain | src/main/java/org/jenkinsci/plugins/JiraTestResultReporter/TestToIssueMapping.java:157-165 | Registering the same configurations twice changes nothing the second time. |
| TestToIssueMapping.RegisterChildrenNoop | src/main/java/org/jenkinsci/plugins/JiraTestResultReporter/TestToIssueMapping.java:168-170 | When every ordinary configuration is already registered, registering them changes nothing. |
| TestToIssueMapping.RegisterMatrix | src/main/java/org/jenkinsci/plugins/JiraTestResultReporter/TestToIssueMapping.java:156-166 | Registering a matrix project registers each ordinary configuration and never the project itself. |
| TestToIssueMapping.GetMapUnregistered | src/main/java/org/jenkinsci/plugins/JiraTestResultReporter/TestToIssueMapping.java:259-270 | The export of an unregistered ordinary job is an empty JSON object. |
| TestToIssueMapping.GetMapLinks | src/main/java/org/jenkinsci/plugins/JiraTestResultReporter/TestToIssueMapping.java:259-270 | The export of a registered ordinary job has a member for a test exactly when it is linked, holding its key as a string. |
| JobConfigMapping.NewEntry | src/main/java/org/jenkinsci/plugins/JiraTestResultReporter/JobConfigMapping.java:54-59 | A new entry carries the pattern compiled from its own project key. |
| JobConfigMapping.ReadResolve | src/main/java/org/jenkinsci/plugins/JiraTestResultReporter/JobConfigMapping.java:99-102 | `readResolve` recompiles the pattern from the project key and changes no stored field. |
| JobConfigMapping.SerializeAll | src/main/java/org/jenkinsci/plugins/JiraTestResultReporter/config/FieldConfigsJsonAdapter.java:13-18 | The field configurations are written one JSON element per configuration, in order. |
| JobConfigMapping.DeserializeAll | src/main/java/org/jenkinsci/plugins/JiraTestResultReporter/config/FieldConfigsJsonAdapter.java:21-31 | A list that reads back has one configuration per JSON element. |
| JobConfigMapping.FullMatchShape | src/main/java/org/jenkinsci/plugins/JiraTestResultReporter/JobConfigMapping.java:58 | A key fully matches the pattern exactly when it is the project key, a dash and a non-empty run of digits. |
| JobConfigMapping.IssuedKeysMatch | src/main/java/org/jenkinsci/plugins/JiraTestResultReporter/JobConfigMapping.java:58 | Every key of the form project key, dash, decimal number matches the project's pattern, including the `null-` prefix of a missing project key. |
| JobConfigMapping.LongerProjectKeyRejected | src/main/java/org/jenkinsci/plugins/JiraTestResultReporter/JobConfigMapping.java:58 | A key of a project whose key extends this one by a character other than a dash never matches. |
| JobConfigMapping.DeserializeAllSerializeAll | src/main/java/org/jenkinsci/plugins/JiraTestResultReporter/config/FieldConfigsJsonAdapter.java:13-31 | Every list of field configurations written by the adapter reads back as the same list. |
| JobConfigMapping.DeserializeAllStep | src/main/java/org/jenkinsci/plugins/JiraTestResultReporter/config/FieldConfigsJsonAdapter.java:13-31 | A configuration in front of a list that reads back still reads back. |
| JobConfigMapping.DeserializeAllCons | src/main/java/org/jenkinsci/plugins/JiraTestResultReporter/config/FieldConfigsJsonAdapter.java:21-31 | Reading a list whose first element reads as a configuration puts that configuration in front of the rest. |
| JobConfigMapping.EncodedMembers | src/main/java/org/jenkinsci/plugins/JiraTestResultReporter/JobConfigMapping.java:203-217 | Gson writes each non-null field of an entry under its own name and leaves out null fields and the transient pattern. |
| JobConfigMapping.DecodeEncode | src/main/java/org/jenkinsci/plugins/JiraTestResultReporter/JobConfigMapping.java:175-217 | An entry with a `long` issue type that Gson wrote reads back as the same entry without its transient pattern. |
| JobConfigMapping.LoadChain | src/main/java/org/jenkinsci/plugins/JiraTestResultReporter/JobConfigMapping.java:149-198 | Loading never fails. A JSON file is read and resolved, and an unparsable one gives null. Without a JSON file, the old serialized entry is used. Only that case writes to disk. Every loaded entry carries its compiled pattern. |
| JobConfigMapping.SaveLoad | src/main/java/org/jenkinsci/plugins/JiraTestResultReporter/JobConfigMapping.java:175-217 | A saved entry loads back as itself. |
| JobConfigMapping.SaveConfigReplaces | src/main/java/org/jenkinsci/plugins/JiraTestResultReporter/JobConfigMapping.java:227-235 | After `saveConfig`, the getters give back the new project key, issue type, field configurations and flag without loading, and other jobs are unaffected. |
| JobConfigMapping.SaveConfigSynced | src/main/java/org/jenkinsci/plugins/JiraTestResultReporter/JobConfigMapping.java:227-235 | `saveConfig` with a `long` issue type keeps the cache equal to what a restart would load. |
| JobConfigMapping.GetJobConfigEntryCache | src/main/java/org/jenkinsci/plugins/JiraTestResultReporter/JobConfigMapping.java:237-245 | A cached entry is returned without loading. A miss loads, and caches the result only when it is not null. |
| JobConfigMapping.GettersDefault | src/main/java/org/jenkinsci/plugins/JiraTestResultReporter/JobConfigMapping.java:252-290 | With no entry to be had, every getter gives its default: null, or false for the auto-raise flag. |
| JobConfigMapping.GetJobConfigEntryCompiled | src/main/java/org/jenkinsci/plugins/JiraTestResultReporter/JobConfigMapping.java:237-245 | Every entry handed out or cached carries the pattern of its own project key. |
| JobConfigMapping.StartupSynced | src/main/java/org/jenkinsci/plugins/JiraTestResultReporter/JobConfigMapping.java:119-127 | After the constructor loads each job, the cache agrees with what a restart would load. |
| JobConfigMapping.CacheLoadSynced | src/main/java/org/jenkinsci/plugins/JiraTestResultReporter/JobConfigMapping.java:121-126 | Loading a job and caching a non-null result keeps the store in step with the files. |
| JobConfigMapping.LoadFrame | src/main/java/org/jenkinsci/plugins/JiraTestResultReporter/JobConfigMapping.java:175-198 | A load does not change what any other job would load. |
| JobConfigMapping.LoadAgain | src/main/java/org/jenkinsci/plugins/JiraTestResultReporter/JobConfigMapping.java:149-198 | Loading again after a successful load gives the same entry. |
| JobConfigMapping.StartupLegacy | src/main/java/org/jenkinsci/plugins/JiraTestResultReporter/JobConfigMapping.java:119-127 | Starting up never changes the files of the previous version. |
| Descriptor.Template | src/main/java/org/jenkinsci/plugins/JiraTestResultReporter/JiraTestDataPublisher.java:535-547 | A configured summary or description template is used exactly when it is non-null and non-empty; otherwise the stock one is; the result is never empty. |
| Descriptor.TemplateIdempotent | src/main/java/org/jenkinsci/plugins/JiraTestResultReporter/JiraTestDataPublisher.java:535-547 | Storing the effective template back into the configuration leaves the effective template unchanged. |
| VariableExpander.FindNames | src/main/java/org/jenkinsci/plugins/JiraTestResultReporter/VariableExpander.java:215-221 | Every name the placeholder pattern reports is a non-empty run of word characters whose placeholder occurs in the text. |
| VariableExpander.PlainBuiltin | src/main/java/org/jenkinsci/plugins/JiraTestResultReporter/VariableExpander.java:38-187 | A non-template built-in fails only on a null build result (`BUILD_RESULT`); every other built-in yields a value or null. |
| VariableExpanderProofs.FindNamesPlaceholder | src/main/java/org/jenkinsci/plugins/JiraTestResultReporter/VariableExpander.java:215-221 | A placeholder at the start of the text is reported first, followed by the names of the rest. |
| VariableExpanderProofs.FindNamesDollarFree | src/main/java/org/jenkinsci/plugins/JiraTestResultReporter/VariableExpander.java:215-221 | Text without a `$` contributes no names. |
| VariableExpanderProofs.FindNamesJoin | src/main/java/org/jenkinsci/plugins/JiraTestResultReporter/VariableExpander.java:215-221 | A placeholder between `$`-free pieces is reported once per occurrence, duplicates kept. |
| VariableExpanderProofs.BuiltinOfName | src/main/java/org/jenkinsci/plugins/JiraTestResultReporter/VariableExpander.java:37-201 | Every built-in is registered under its own key. |
| VariableExpanderProofs.BuiltinOfOnly | src/main/java/org/jenkinsci/plugins/JiraTestResultReporter/VariableExpander.java:37-201 | The table knows no other key: a name it resolves is that built-in's key (the lookup is case-sensitive). |
| VariableExpanderProofs.SubstituteRepeatGone | src/main/java/org/jenkinsci/plugins/JiraTestResultReporter/VariableExpander.java:223-232 | Once a placeholder has been replaced, later duplicates of its name in the found list change nothing. |
| VariableExpanderProofs.ExpandEnvEveryOccurrence | src/main/java/org/jenkinsci/plugins/JiraTestResultReporter/VariableExpander.java:223-228 | An environment variable wins over a built-in of the same name and replaces every occurrence of its placeholder. |
| VariableExpanderProofs.ExpandBuiltinEveryOccurrence | src/main/java/org/jenkinsci/plugins/JiraTestResultReporter/VariableExpander.java:230-232 | Without an environment variable, a built-in replaces every occurrence of its placeholder, with a null value written as the empty string. |
| VariableExpanderProofs.ExpandUnknownUntouched | src/main/java/org/jenkinsci/plugins/JiraTestResultReporter/VariableExpander.java:211-234 | A placeholder naming neither an environment variable nor a built-in is left in the text. |
| VariableExpanderProofs.UnknownNamesSkipped | src/main/java/org/jenkinsci/plugins/JiraTestResultReporter/VariableExpander.java:223-232 | Unknown names leave the text unchanged however often they are found. |
| VariableExpanderProofs.ExpandFuelMonotone | src/main/java/org/jenkinsci/plugins/JiraTestResultReporter/VariableExpander.java:189-234 | The recursion bound is only a bound: an expansion that did not run out of depth gives the same text with any larger bound. |
| VariableExpanderProofs.SubstituteFuelMonotone | src/main/java/org/jenkinsci/plugins/JiraTestResultReporter/VariableExpander.java:223-232 | The same for the substitution loop over the found names. |
| VariableExpanderProofs.NoTemplateNamesTerminate | src/main/java/org/jenkinsci/plugins/JiraTestResultReporter/VariableExpander.java:223-232 | A loop over names none of which is `DEFAULT_SUMMARY` or `DEFAULT_DESCRIPTION` never recurses. |
| VariableExpanderProofs.StockSummaryNames | src/main/java/org/jenkinsci/plugins/JiraTestResultReporter/JiraTestDataPublisher.java:482 | The stock summary template names `TEST_FULL_NAME` then `TEST_ERROR_DETAILS`. |
| VariableExpanderProofs.StockDescriptionNames | src/main/java/org/jenkinsci/plugins/JiraTestResultReporter/JiraTestDataPublisher.java:483 | The stock description template names `BUILD_URL`, `CRLF` then `TEST_STACK_TRACE`. |
| VariableExpanderProofs.StockNamesPlain | src/main/java/org/jenkinsci/plugins/JiraTestResultReporter/JiraTestDataPublisher.java:482-483 | None of the names in the stock templates is a template built-in. |
| VariableExpanderProofs.StockTemplatesPlain | src/main/java/org/jenkinsci/plugins/JiraTestResultReporter/JiraTestDataPublisher.java:482-483 | With the stock templates configured, neither default template names a template built-in. |
| VariableExpanderProofs.PlainTemplatesTerminate | src/main/java/org/jenkinsci/plugins/JiraTestResultReporter/VariableExpander.java:189-200 | Default templates that name no template built-in expand without recursing, at any bound. |
| VariableExpanderProofs.StockTemplatesOneLevel | src/main/java/org/jenkinsci/plugins/JiraTestResultReporter/JiraTestDataPublisher.java:488-493 | The field templates `${DEFAULT_SUMMARY}` and `${DEFAULT_DESCRIPTION}` over the stock templates need one level of recursion and no more. |
| VariableExpanderProofs.PlainTemplatesOneLevel | src/main/java/org/jenkinsci/plugins/JiraTestResultReporter/VariableExpander.java:189-200 | The same for any default templates that name no template built-in. |
| VariableExpanderProofs.SelfReferentialTemplateDiverges | src/main/java/org/jenkinsci/plugins/JiraTestResultReporter/VariableExpander.java:189-200 | A default template consisting of its own placeholder exceeds every recursion bound, where the source overflows its stack. |
| EnvVars.Canon | src/main/java/org/jenkinsci/plugins/JiraTestResultReporter/VariableExpander.java:222-224 | A name's key has the same length, with each ASCII lower-case letter upper-cased and every other character kept, so a lookup of `varName` ignores ASCII case. |
| EnvVars.CanonCaseBlind | src/main/java/org/jenkinsci/plugins/JiraTestResultReporter/VariableExpander.java:222-224 | Names that differ only in the case of ASCII letters are the same variable. |
| EnvVars.PutGetIgnoresCase | src/main/java/org/jenkinsci/plugins/JiraTestResultReporter/VariableExpander.java:222-224 | A value put under one spelling of a name is found by `containsKey` and `get` under any spelling with the same key. |
| EnvVars.PutGetOther | src/main/java/org/jenkinsci/plugins/JiraTestResultReporter/VariableExpander.java:222-224 | Putting a name leaves every name with a different key as it was. |
| FieldSpecs.Construct | src/main/java/org/jenkinsci/plugins/JiraTestResultReporter/config/SelectableFields.java:51-56 | The constructors build the transient `fieldInput` exactly for the selectable variants; the stored fields are the arguments. |
| FieldSpecs.ReadResolve | src/main/java/org/jenkinsci/plugins/JiraTestResultReporter/config/SelectableArrayFields.java:79-86 | `readResolve` keeps the stored fields, returns the string variants unchanged, and rebuilds a selectable variant's input as its constructor would. |
| FieldSpecs.ExpandEach | src/main/java/org/jenkinsci/plugins/JiraTestResultReporter/config/StringArrayFields.java:81-87 | The array entries are expanded one by one, same length and order; the result fails exactly when one entry's expansion fails. |
| FieldSpecs.RenderStringField | src/main/java/org/jenkinsci/plugins/JiraTestResultReporter/config/StringFields.java:84-87 | A string field renders under its own key to the expansion of its value; with no test the value goes out unexpanded. |
| FieldSpecs.RenderStringArrayField | src/main/java/org/jenkinsci/plugins/JiraTestResultReporter/config/StringArrayFields.java:81-87 | A string-array field renders under its own key to its entries expanded in order; no entries give an empty list. |
| FieldSpecs.RenderSelectableIgnoresTest | src/main/java/org/jenkinsci/plugins/JiraTestResultReporter/config/SelectableFields.java:90-92 | A selectable field renders to `(fieldKey, {id: value})` (or the list of such) whatever the test and the environment. |
| FieldSpecs.ReadResolveRebuilds | src/main/java/org/jenkinsci/plugins/JiraTestResultReporter/config/SelectableFields.java:73-76 | Reading back builds what the constructor built, and resolving twice changes nothing more. |
| FieldSpecs.EntriesRoundTrip | src/main/java/org/jenkinsci/plugins/JiraTestResultReporter/config/SelectableArrayFields.java:55-63 | Entries written as `{value: …}` read back to the same values in the same order. |
| FieldSpecs.DeserializeSerialize | src/main/java/org/jenkinsci/plugins/JiraTestResultReporter/config/FieldConfigsJsonAdapter.java:13-31 | Reading back what the adapter wrote gives the same variant with the same fields, as its constructor built it. |
| FieldSpecs.DeserializeDispatch | src/main/java/org/jenkinsci/plugins/JiraTestResultReporter/config/FieldConfigsJsonAdapter.java:21-30 | The `clazz` tag decides the variant; a tag naming none of the four variants is a parse error naming the tag. |
| FieldPickers.FieldNamed | src/main/java/org/jenkinsci/plugins/JiraTestResultReporter/config/SelectableFields.java:134 | The field map's lookup by key finds a field stored under that key, and none only when no field has it. |
| FieldPickers.StringFieldKeyItemsFallback | src/main/java/org/jenkinsci/plugins/JiraTestResultReporter/config/StringFields.java:111-123 | The string-field picker offers Summary and Description exactly when a key is empty or no cache entry can be had, and the entry's string box otherwise; an empty key leaves the cache untouched. |
| FieldPickers.ValueItemsOfListed | src/main/java/org/jenkinsci/plugins/JiraTestResultReporter/config/SelectableArrayFields.java:140-164 | Only custom options and identifiable named entities (and, for the array variant, named entities with a reflective id) are listed, each as (value or name, id). |
| FieldPickers.ValueItemsVariantsAgree | src/main/java/org/jenkinsci/plugins/JiraTestResultReporter/config/SelectableFields.java:135-143 | Without named entities lacking the identifiable interface, the single and the array variant list the same values. |
| FieldPickers.NamedOnlyListing | src/main/java/org/jenkinsci/plugins/JiraTestResultReporter/config/SelectableArrayFields.java:150-160 | A named entity without the identifiable interface is listed by the array variant only when its id is non-null, and never by the single variant. |
| MetadataCache.BuildCacheEntry | src/main/java/org/jenkinsci/plugins/JiraTestResultReporter/MetadataCache.java:49-88 | The constructor's loop fills each of the five boxes with exactly the fields of its bucket, in field order, from the first issue type of the first project only. |
| MetadataCache.BucketCases | src/main/java/org/jenkinsci/plugins/JiraTestResultReporter/MetadataCache.java:63-82 | The `else if` chain stated bucket by bucket: a string field without allowed values is a string field, any non-array field with allowed values is selectable (a user field included), and so on; a field of any other type without allowed values is offered nowhere. |
| MetadataCache.BoxesPartition | src/main/java/org/jenkinsci/plugins/JiraTestResultReporter/MetadataCache.java:61-83 | Every field lands in at most one box: the boxes' sizes add up to the number of fields that have a bucket. |
| MetadataCache.OptionsForMembers | src/main/java/org/jenkinsci/plugins/JiraTestResultReporter/MetadataCache.java:61-83 | A field is offered in a box, as (display name, key), exactly when that box is its bucket. |
| MetadataCache.GetCacheEntryHit | src/main/java/org/jenkinsci/plugins/JiraTestResultReporter/MetadataCache.java:147-155 | A cached entry is returned as it is, without asking the tracker and without changing the cache. |
| MetadataCache.GetCacheEntryMiss | src/main/java/org/jenkinsci/plugins/JiraTestResultReporter/MetadataCache.java:160-206 | On a miss the result is null exactly when the issue type does not parse or the request fails; a fetched entry is stored and returned; no other entry changes. |
| MetadataCache.RemoveCacheEntryOnly | src/main/java/org/jenkinsci/plugins/JiraTestResultReporter/MetadataCache.java:131-138 | Removal forgets exactly the one (project, issue type) entry. |
| MetadataCache.RemoveThenGetRefetches | src/main/java/org/jenkinsci/plugins/JiraTestResultReporter/MetadataCache.java:131-200 | After a removal the next lookup asks the tracker again and returns the fresh entry. |
| JiraUtils.GetIssueUrl | src/main/java/org/jenkinsci/plugins/JiraTestResultReporter/JiraUtils.java:56-58 | The URL is the server address followed by `browse/<key>`, with exactly one `/` between them. An empty server address fails where the source would index past its end. |
| JiraUtils.GetIssueUrlSlash | src/main/java/org/jenkinsci/plugins/JiraTestResultReporter/JiraUtils.java:56-58 | A server address with or without its trailing `/` gives the same URL. |
| JiraUtils.CollectionText | src/main/java/org/jenkinsci/plugins/JiraTestResultReporter/JiraUtils.java:93-105 | The text of each error collection starts with `Error ` and its status. |
| JiraUtils.ErrorMessageIsJoin | src/main/java/org/jenkinsci/plugins/JiraTestResultReporter/JiraUtils.java:91-106 | `getErrorMessage` is the collections' texts joined by the newline string, each being the status line, then the messages, then the field errors. |
| JiraUtils.ErrorMessageEmpty | src/main/java/org/jenkinsci/plugins/JiraTestResultReporter/JiraUtils.java:91-106 | The error message is empty exactly when there are no error collections. |
| JiraUtils.RenderId | src/main/java/org/jenkinsci/plugins/JiraTestResultReporter/JiraUtils.java:205-211 | Every rendered field input carries its field's key, and a selectable field always renders. |
| JiraUtils.ApplyFieldsLastWins | src/main/java/org/jenkinsci/plugins/JiraTestResultReporter/JiraUtils.java:205-211 | After the field inputs are set in order, the fields set are the ones given plus the ones some configuration names. A field no configuration names keeps its value. The last configuration of a key decides that field's value. |
| JiraUtils.ApplyFieldsKeys | src/main/java/org/jenkinsci/plugins/JiraTestResultReporter/JiraUtils.java:205-211 | The fields set are exactly the ones given plus the ones some configuration names. |
| JiraUtils.ApplyFieldsKeeps | src/main/java/org/jenkinsci/plugins/JiraTestResultReporter/JiraUtils.java:205-211 | A field that no configuration names keeps the value it was given. |
| JiraUtils.ApplyFieldsLastSpec | src/main/java/org/jenkinsci/plugins/JiraTestResultReporter/JiraUtils.java:205-211 | The last configuration of a key decides that field's value, which is its rendering. |
| JiraUtils.ApplyFieldsSucceeds | src/main/java/org/jenkinsci/plugins/JiraTestResultReporter/JiraUtils.java:205-211 | Setting the fields succeeds exactly when every configuration renders. |
| JiraUtils.CreateIssueInputBadge | src/main/java/org/jenkinsci/plugins/JiraTestResultReporter/JiraUtils.java:198-213 | From the badge, the new issue input has the job's project key and issue type, and exactly two fields: the summary and the description, each rendered from its global template. |
| JiraUtils.CreateIssueInputJobRun | src/main/java/org/jenkinsci/plugins/JiraTestResultReporter/JiraUtils.java:198-213 | From a build, the job must have a configuration. A field some configured field names holds the rendering of the last configured field with that name. The summary or description, when no configured field names it, holds its template's rendering. There are no other fields. |
| JiraUtils.TemplateFields | src/main/java/org/jenkinsci/plugins/JiraTestResultReporter/JiraUtils.java:204-206 | The two templates set exactly the summary and the description fields. |
| JiraUtils.Attachments | src/main/java/org/jenkinsci/plugins/JiraTestResultReporter/JiraUtils.java:221-232 | Only non-blank outputs of a test are attached. |
| JiraUtils.AttachmentsOutputs | src/main/java/org/jenkinsci/plugins/JiraTestResultReporter/JiraUtils.java:221-226 | The standard error and standard output are attached, as `stderr.out` and `stdout.out`, exactly when they are not blank, each holding its own text. |
| JiraUtils.AttachmentsFailure | src/main/java/org/jenkinsci/plugins/JiraTestResultReporter/JiraUtils.java:227-232 | The stack trace and the error details are attached, as `stacktrace.out` and `details.out`, exactly when they are not blank, each holding its own text. |
| JiraUtils.Duplicates | src/main/java/org/jenkinsci/plugins/JiraTestResultReporter/JiraUtils.java:152-157 | The duplicates are exactly the keys of the hits whose summary equals the rendered summary. |
| JiraUtils.FailedIds | src/main/java/org/jenkinsci/plugins/JiraTestResultReporter/JiraUtils.java:114 | The ids collected are exactly those of the failed tests. |
| JiraUtils.CreateIssueAlreadyLinked | src/main/java/org/jenkinsci/plugins/JiraTestResultReporter/JiraUtils.java:141-145 | A test that is already linked gets no new issue, whatever the tracker would answer. |
| JiraUtils.LinkAllLast | src/main/java/org/jenkinsci/plugins/JiraTestResultReporter/JiraUtils.java:152-158 | Linking each duplicate in turn leaves the last one linked to the test. |
| JiraUtils.SettleDedup | src/main/java/org/jenkinsci/plugins/JiraTestResultReporter/JiraUtils.java:147-166 | When the search finds open issues with exactly the rendered summary, the test is linked to the last of them and no issue is created. Otherwise the created issue's key is linked and returned. A failed creation fails. |
| JiraUtils.SettleKeepsPromise | src/main/java/org/jenkinsci/plugins/JiraTestResultReporter/JiraUtils.java:147-166 | Once the search has answered: when some open issue has exactly the rendered summary, the test ends linked to the last such hit and nothing is created. Otherwise the created issue is linked and its key returned, and a failed creation fails. |
| JiraUtils.CreateIssueEndToEnd | src/main/java/org/jenkinsci/plugins/JiraTestResultReporter/JiraUtils.java:141-166 | For a test of a registered job that is not linked yet, a failing input or search fails the call with that error. Otherwise the hits of the search for the rendered summary decide as in `SettleKeepsPromise`: the last exact-summary hit is linked and `None` returned, or the created key is linked and returned. |
| JiraUtils.CreateThenSearch | src/main/java/org/jenkinsci/plugins/JiraTestResultReporter/JiraUtils.java:141-196 | After `createIssue` succeeds for an unlinked test, the test is linked, to the returned key when one is returned. Searching its issues afterwards gives exactly that key without asking the tracker, unless the key is blank. |
| JiraUtils.SearchLinked | src/main/java/org/jenkinsci/plugins/JiraTestResultReporter/JiraUtils.java:178-184 | A test linked to a key that is not blank searches exactly that key, with no search request and no change to the stores. |
| JiraUtils.CleanNothingLinked | src/main/java/org/jenkinsci/plugins/JiraTestResultReporter/JiraUtils.java:113-126 | When no failed test is linked, the result is `false` and the tracker is not asked. |
| JiraUtils.CollectRegistered | src/main/java/org/jenkinsci/plugins/JiraTestResultReporter/JiraUtils.java:113-121 | For a registered job, collecting reads the links without changing them. An issue key is collected exactly when some failed test is linked to it, and `keysToCheck` remembers the last such test. |
| JiraUtils.RemoveResolvedEffect | src/main/java/org/jenkinsci/plugins/JiraTestResultReporter/JiraUtils.java:127-135 | The removal loop fails with `UnknownResolvedKey` exactly when some resolved issue's key was not collected (the source's null test id). Otherwise it unlinks exactly the tests remembered for a resolved key that are still linked to it. No other link or job changes. |
| JiraUtils.CleanAsWritten | src/main/java/org/jenkinsci/plugins/JiraTestResultReporter/JiraUtils.java:112-138 | For a registered job: with no failed test linked, the result is `false` and the links are unchanged. A failed search fails the step, and so does a resolved key that was not collected. Otherwise the result is `true`, and a test loses its link exactly when it is the last failed test linked to an issue the search reports resolved. |
| JiraUtils.CleanKeepsStaleLink | src/main/java/org/jenkinsci/plugins/JiraTestResultReporter/JiraUtils.java:113-138 | As written, two failed tests linked to the same issue that is now resolved: only the test stored last for that key in `keysToCheck` loses its link, and the other keeps a stale one. |
| JiraUtils.CleanIntendedDropsBoth | src/main/java/org/jenkinsci/plugins/JiraTestResultReporter/JiraUtils.java:113-138 | The corrected clean-up unlinks both tests. |
| JiraUtils.RemovePairsClears | src/main/java/org/jenkinsci/plugins/JiraTestResultReporter/JiraUtils.java:129-136 | Removing the pairs of one key unlinks each test linked to that key and nothing else. |
| JiraUtils.RemoveAllResolvedClears | src/main/java/org/jenkinsci/plugins/JiraTestResultReporter/JiraUtils.java:129-136 | In the corrected clean-up, every linked failed test whose issue the search reports resolved is unlinked, and no other link changes. |
| JqlEscape.LastIndexOf | src/main/java/org/jenkinsci/plugins/JiraTestResultReporter/JiraUtils.java:299 | `lastIndexOf` gives -1 when the character is absent, else the index of its last occurrence. |
| JqlEscape.CutAtLastBracket | src/main/java/org/jenkinsci/plugins/JiraTestResultReporter/JiraUtils.java:298-300 | A result with a `[` is cut just before its last `[`; one without is unchanged. |
| JqlEscape.RuleChars | src/main/java/org/jenkinsci/plugins/JiraTestResultReporter/JiraUtils.java:289-297 | The nine replacements escape, in order, `'`, `"`, `+`, `-`, `&`, the vertical bar, `~`, `*` and `?`. |
| JqlEscape.DistinctRuleChars | src/main/java/org/jenkinsci/plugins/JiraTestResultReporter/JiraUtils.java:289-297 | No two replacements escape the same character. |
| JqlEscape.PairToken | src/main/java/org/jenkinsci/plugins/JiraTestResultReporter/JiraUtils.java:291-296 | A backslash followed by `+`, a vertical bar or `*` becomes two backslashes and that character. |
| JqlEscape.SingleToken | src/main/java/org/jenkinsci/plugins/JiraTestResultReporter/JiraUtils.java:289-297 | Any other single character is escaped independently: quotes get one backslash; `-`, `&`, `~` and `?` get two; the rest stay. |
| JqlEscape.ApplyRulesIsOnePass | src/main/java/org/jenkinsci/plugins/JiraTestResultReporter/JiraUtils.java:289-297 | The nine whole-string replacements in sequence equal one left-to-right pass over the characters. |
| JqlEscape.EscapeJqlIsOnePass | src/main/java/org/jenkinsci/plugins/JiraTestResultReporter/JiraUtils.java:288-301 | `escapeJQL` is that pass followed by the cut at the last `[`. |
| JqlEscape.OnePassConcat | src/main/java/org/jenkinsci/plugins/JiraTestResultReporter/JiraUtils.java:289-297 | The pass distributes over concatenation when the first part does not end in a backslash. |
| JqlEscape.OnePassLeavesPlusBare | src/main/java/org/jenkinsci/plugins/JiraTestResultReporter/JiraUtils.java:291 | In the pass, a `+` that does not follow a backslash comes out with no backslash before it. |
| JqlEscape.EscapeJqlLeavesPlusBare | src/main/java/org/jenkinsci/plugins/JiraTestResultReporter/JiraUtils.java:288-301 | As written, `escapeJQL` leaves such a `+` bare, so not every Lucene operator is escaped. |
| JqlEscape.IntendedChar | src/main/java/org/jenkinsci/plugins/JiraTestResultReporter/JiraUtils.java:270-285 | Each character escapes to text that starts with no operator and no quote. |
| JqlEscape.EscapeAll | src/main/java/org/jenkinsci/plugins/JiraTestResultReporter/JiraUtils.java:270-285 | The corrected pass starts with no operator and no quote. |
| JqlEscape.EscapeAllEscapes | src/main/java/org/jenkinsci/plugins/JiraTestResultReporter/JiraUtils.java:270-285 | In the corrected pass, every operator character is preceded by two backslashes. |
| JqlEscape.EscapeJqlIntendedEscapes | src/main/java/org/jenkinsci/plugins/JiraTestResultReporter/JiraUtils.java:270-301 | The corrected `escapeJQL` leaves no bare operator, even after the cut at `[`. |
| JqlEscape.EscapeJqlIntendedPlus | src/main/java/org/jenkinsci/plugins/JiraTestResultReporter/JiraUtils.java:270-301 | The corrected escaping of `a+b` is `a\\+b`. |
| JqlEscape.UnescapeEscapeAll | src/main/java/org/jenkinsci/plugins/JiraTestResultReporter/JiraUtils.java:270-301 | The corrected escaping loses nothing: unescaping gives back the input. |
| Publisher.GetAttachments | src/main/java/org/jenkinsci/plugins/JiraTestResultReporter/JiraTestDataPublisher.java:151-160 | An unknown class name or test name gives no files. Any files returned are the ones recorded under some class and test. |
| Publisher.ParseIssueType | src/main/java/org/jenkinsci/plugins/JiraTestResultReporter/JiraTestDataPublisher.java:225-230 | The default issue type is a Java `long`, and 1 when none is given. |
| Publisher.ParseIssueTypeCases | src/main/java/org/jenkinsci/plugins/JiraTestResultReporter/JiraTestDataPublisher.java:225-230 | Every `long` written in decimal parses back to itself. Text that does not start like a number gives 1. |
| Publisher.NewPublisher | src/main/java/org/jenkinsci/plugins/JiraTestResultReporter/JiraTestDataPublisher.java:215-251 | A pipeline invocation is recognised exactly when there is no request, and then no store changes. Otherwise the job is registered for links and the new entry is saved as its configuration. The issue type and configurations are kept as parsed. |
| Publisher.FirstResolveFrom | src/main/java/org/jenkinsci/plugins/JiraTestResultReporter/JiraTestDataPublisher.java:366-374 | The search from `i` finds a resolving transition and no earlier one, or reports that none is left. |
| Publisher.FirstResolve | src/main/java/org/jenkinsci/plugins/JiraTestResultReporter/JiraTestDataPublisher.java:366-374 | A transition is chosen exactly when some transition's lower-cased name contains `resolve`; the chosen id is one of those. |
| Publisher.ResolveAll | src/main/java/org/jenkinsci/plugins/JiraTestResultReporter/JiraTestDataPublisher.java:361-380 | Resolving a test's issues fails exactly when some REST call for one of them fails. Otherwise each issue with a resolving transition gets one, and the others get none. |
| Publisher.Steps | src/main/java/org/jenkinsci/plugins/JiraTestResultReporter/JiraTestDataPublisher.java:279-309 | A pipeline first registers the project and saves its entry. The clean-up runs and counts only with `overrideResolved`; when it fails the steps fail. On success the report is the clean-up's report or that of the later steps, and manual linking always reports. With no pipeline and the clean-up disabled, the links reach raising untouched. |
| Publisher.StepsAfterClean | src/main/java/org/jenkinsci/plugins/JiraTestResultReporter/JiraTestDataPublisher.java:289-309 | Raising runs and counts only when the project's stored entry enables it; when it fails the steps fail. On success the report is the clean-up's, raising's, or that of the later steps. Disabled, raising leaves the links as they are. |
| Publisher.StepsAfterRaise | src/main/java/org/jenkinsci/plugins/JiraTestResultReporter/JiraTestDataPublisher.java:300-309 | Resolving and unlinking each run and count only when their flag is set. On success the report is the earlier report, or resolving's, or unlinking's, or manual linking. The links are unlinking's result when it runs, else resolving's. With both disabled the stores are unchanged. |
| Publisher.StepsAllDisabled | src/main/java/org/jenkinsci/plugins/JiraTestResultReporter/JiraTestDataPublisher.java:279-309 | With no pipeline and every step disabled (also raising in the stored entry), the steps report nothing and leave the links unchanged, whatever the tracker answers. |
| Publisher.Handover | src/main/java/org/jenkinsci/plugins/JiraTestResultReporter/JiraTestDataPublisher.java:312-326 | Test data is handed over and registered only when some step reported and the build's URL had no data yet. Otherwise nothing is handed over and the registry is unchanged. |
| Publisher.UnlinkPassedEffect | src/main/java/org/jenkinsci/plugins/JiraTestResultReporter/JiraTestDataPublisher.java:329-346 | Every passed test loses its link. Links of other tests and jobs are unchanged. The step reports `true` exactly when some passed test was linked. |
| Publisher.FailedOnly | src/main/java/org/jenkinsci/plugins/JiraTestResultReporter/JiraTestDataPublisher.java:411-412 | The tests kept are exactly the failed ones. |
| Publisher.RaiseOnlyFailed | src/main/java/org/jenkinsci/plugins/JiraTestResultReporter/JiraTestDataPublisher.java:411-412 | Raising issues over all results equals raising them over the failed tests only. |
| Publisher.RaiseSkipStep | src/main/java/org/jenkinsci/plugins/JiraTestResultReporter/JiraTestDataPublisher.java:411-412 | A test that did not fail is passed over by the loop and by the filter. |
| Publisher.RaiseFailedStep | src/main/java/org/jenkinsci/plugins/JiraTestResultReporter/JiraTestDataPublisher.java:411-428 | A failed test has its issue raised in both loops, and the rest agree. |
| Publisher.RaiseReportsFailures | src/main/java/org/jenkinsci/plugins/JiraTestResultReporter/JiraTestDataPublisher.java:403-435 | When the loop completes, it reports `true` exactly when some test failed. |
| Publisher.RaiseRestErrorAborts | src/main/java/org/jenkinsci/plugins/JiraTestResultReporter/JiraTestDataPublisher.java:420-433 | A REST error while raising the first failed test's issue ends the loop: the result is `false`, and no store changes. |
| Publisher.RecoveredOnly | src/main/java/org/jenkinsci/plugins/JiraTestResultReporter/JiraTestDataPublisher.java:356-359 | The tests kept are exactly those that pass now and failed in the previous build. |
| Publisher.ResolveOnlyRecovered | src/main/java/org/jenkinsci/plugins/JiraTestResultReporter/JiraTestDataPublisher.java:356-359 | Resolving over all results equals resolving over the recovered tests only. |
| Publisher.ResolveSkipStep | src/main/java/org/jenkinsci/plugins/JiraTestResultReporter/JiraTestDataPublisher.java:356-359 | A test that has not recovered is passed over by the loop and by the filter. |
| Publisher.ResolveRecoveredStep | src/main/java/org/jenkinsci/plugins/JiraTestResultReporter/JiraTestDataPublisher.java:356-381 | A recovered test has its issues searched and resolved in both loops, and the rest agree. |
| Publisher.ResolveExecutesFirst | src/main/java/org/jenkinsci/plugins/JiraTestResultReporter/JiraTestDataPublisher.java:348-389 | Every transition the completed loop executes is the first resolving transition of its issue. |
| Publisher.ContributeOnce | src/main/java/org/jenkinsci/plugins/JiraTestResultReporter/JiraTestDataPublisher.java:266-323 | Test data is returned only when the steps succeeded and reported something, and the build's URL had no data yet; the data is then registered. A URL that already had data gets none, and the registry is unchanged. |
| Publisher.ManualAddReports | src/main/java/org/jenkinsci/plugins/JiraTestResultReporter/JiraTestDataPublisher.java:308-317 | With manual linking enabled, a build whose steps succeed hands its data over when its URL has none yet. |
| TestDataRegistry.Get | src/main/java/org/jenkinsci/plugins/JiraTestResultReporter/JiraTestDataRegistry.java:23-28 | A lookup fails exactly when the environment has no `BUILD_URL`, where the source would lock on null. Otherwise it finds data exactly when that URL has an entry. |
| TestDataRegistry.Put | src/main/java/org/jenkinsci/plugins/JiraTestResultReporter/JiraTestDataRegistry.java:30-35 | A put fails exactly when there is no `BUILD_URL`. Otherwise it adds or replaces only that URL's entry. |
| TestDataRegistry.GetNeverPut | src/main/java/org/jenkinsci/plugins/JiraTestResultReporter/JiraTestDataRegistry.java:23-28 | Nothing is found for a URL never put. |
| TestDataRegistry.PutThenGet | src/main/java/org/jenkinsci/plugins/JiraTestResultReporter/JiraTestDataRegistry.java:23-35 | After a put, any environment with the same URL finds the data holding the put environment. |
| TestDataRegistry.PutReplaces | src/main/java/org/jenkinsci/plugins/JiraTestResultReporter/JiraTestDataRegistry.java:30-35 | A second put for the same URL replaces the first. |
| TestDataRegistry.KeyedByUrlOnly | src/main/java/org/jenkinsci/plugins/JiraTestResultReporter/JiraTestDataRegistry.java:23-28 | Lookups see nothing of an environment but its `BUILD_URL`. |
| TestDataRegistry.PutOtherUrl | src/main/java/org/jenkinsci/plugins/JiraTestResultReporter/JiraTestDataRegistry.java:30-35 | A put leaves the entries of other URLs as they were. |
| TestAction.NewAction | src/main/java/org/jenkinsci/plugins/JiraTestResultReporter/JiraTestAction.java:94-108 | The badge starts with the test's current link, looked up (and registered if needed) in the job's map. |
| TestAction.IssueUrl | src/main/java/org/jenkinsci/plugins/JiraTestResultReporter/JiraTestAction.java:161 | The badge's URL exists exactly when a non-empty server address is configured, and ends in `/browse/` and the key (`null` when unlinked). |
| TestAction.IsValidIssueKey | src/main/java/org/jenkinsci/plugins/JiraTestResultReporter/JiraTestAction.java:272-285 | Validation fails when the project has no key pattern. Otherwise a key is valid exactly when it fully matches the pattern and the server finds the issue. |
| TestAction.ClearIssueKey | src/main/java/org/jenkinsci/plugins/JiraTestResultReporter/JiraTestAction.java:196-199 | Clearing always empties the badge, and changes no link when the badge showed none. |
| TestAction.LinkedIsNoOp | src/main/java/org/jenkinsci/plugins/JiraTestResultReporter/JiraTestAction.java:178-182 | A test that is already linked keeps its link: setting and creating do nothing. |
| TestAction.SetInvalidKey | src/main/java/org/jenkinsci/plugins/JiraTestResultReporter/JiraTestAction.java:183-188 | A key that does not match the pattern is refused with `Not a valid issue key`, and neither the links nor the badge change. |
| TestAction.SetValidKey | src/main/java/org/jenkinsci/plugins/JiraTestResultReporter/JiraTestAction.java:183-186 | A valid key for an unlinked test is shown and linked, and no other test's link changes. |
| TestAction.ClearRemovesShownKey | src/main/java/org/jenkinsci/plugins/JiraTestResultReporter/JiraTestAction.java:196-199 | Clearing removes the link exactly when it is the key the badge shows. |
| TestAction.SetThenClear | src/main/java/org/jenkinsci/plugins/JiraTestResultReporter/JiraTestAction.java:178-199 | Linking a valid key and clearing it again leaves the links as they were. |
| TestAction.CreateErrorMessage | src/main/java/org/jenkinsci/plugins/JiraTestResultReporter/JiraTestAction.java:252-266 | A REST error while creating gives its message and changes nothing. |
| MappingApi.DoJson | src/main/java/org/jenkinsci/plugins/JiraTestResultReporter/api/TestToIssueMappingApi.java:34-80 | Without a `job` parameter the answer is the fixed message, and only then. A top-level name answers with that job's map, or `404` when Jenkins does not know it. |
| MappingApi.MatrixRoute | src/main/java/org/jenkinsci/plugins/JiraTestResultReporter/api/TestToIssueMappingApi.java:44-52 | For `matrix/configuration`, the answer is `404` exactly when the matrix project has no configuration of that name; otherwise it is that configuration's map. |
| MappingApi.FolderRoute | src/main/java/org/jenkinsci/plugins/JiraTestResultReporter/api/TestToIssueMappingApi.java:54-62 | A path whose first part is not a matrix project is looked up by full name, and an unknown job gives `404`. |
| MappingApi.TrailingSlashFails | src/main/java/org/jenkinsci/plugins/JiraTestResultReporter/api/TestToIssueMappingApi.java:44-46 | A name whose only `/` is its last character splits into one part, and the second index fails. |
| MappingApi.UnregisteredTopLevel | src/main/java/org/jenkinsci/plugins/JiraTestResultReporter/api/TestToIssueMappingApi.java:64-70 | An unregistered plain top-level job gives an empty JSON object, not `404`. |
| LegacyReporter.NormalizeServer | src/main/java/JiraTestResultReporter/JiraReporter.java:83-87 | The stored server address ends in `/`; one is added only when it is missing. |
| LegacyReporter.NormalizeServerIdempotent | src/main/java/JiraTestResultReporter/JiraReporter.java:83-87 | Normalising an address twice gives the same as once. |
| LegacyReporter.NewConfig | src/main/java/JiraTestResultReporter/JiraReporter.java:74-99 | The stored address ends in `/`. Debugging is on exactly when debugging or verbose debugging was asked for. The other settings are kept. |
| LegacyReporter.CheckProjectKey | src/main/java/JiraTestResultReporter/JiraReporter.java:328-334 | A project key is refused, with its message, exactly when it is empty. |
| LegacyReporter.Scheme | src/main/java/JiraTestResultReporter/JiraReporter.java:340-341 | A scheme found is a non-empty prefix of the URL, followed by `:`. |
| LegacyReporter.SchemeFrom | src/main/java/JiraTestResultReporter/JiraReporter.java:340-341 | A scheme found from any position is a non-empty prefix of the URL, followed by `:`. |
| LegacyReporter.CheckServerAddress | src/main/java/JiraTestResultReporter/JiraReporter.java:336-348 | An address is accepted exactly when it is not empty and parses as a URL. An empty one gives the missing-URL message, and one that does not parse gives the invalid-URL message. |
| LegacyReporter.CheckServerAddressExamples | src/main/java/JiraTestResultReporter/JiraReporter.java:336-348 | The empty address is refused as missing, a bare word as invalid, and `http://www.google.com` is accepted. The empty project key is refused and `aaaa` accepted. |
| LegacyReporter.ValidateHttpResponse | src/main/java/JiraTestResultReporter/JiraReporter.java:421-433 | A response passes exactly when its status code is the expected one; otherwise the error names the code. |
| LegacyReporter.IssueSummaryInjective | src/main/java/JiraTestResultReporter/JiraReporter.java:363-365 | Different test names give different summaries, so a summary names one test. |
| LegacyReporter.CreatePayload | src/main/java/JiraTestResultReporter/JiraReporter.java:268-276 | The create request carries the summary `Test <name> failed` and the issue type `Bug` in its fields. |
| LegacyReporter.ReportedTests | src/main/java/JiraTestResultReporter/JiraReporter.java:255-256 | The tests reported are exactly the failed tests that are new (age 1), or all failed tests when every failure is wanted. |
| LegacyReporter.CreateSecondFails | src/main/java/JiraTestResultReporter/JiraReporter.java:247-308 | As written, the shared HTTP client is shut down after the first request. The second new failure then meets a closed client and the step ends with an exception. |
| LegacyReporter.CreateIntendedPostsAll | src/main/java/JiraTestResultReporter/JiraReporter.java:247-308 | With the client shut down once after the loop, and a server that accepts every request, each reportable failure is posted in order. |
| LegacyReporter.OldFailuresSkipped | src/main/java/JiraTestResultReporter/JiraReporter.java:255-256 | A failure that is not new is never posted unless every failure is wanted. |
| LegacyReporter.OldFailuresSkippedFrom | src/main/java/JiraTestResultReporter/JiraReporter.java:255-256 | The same holds for the loop from any state of the client. |
| LegacyReporter.LastResolveId | src/main/java/JiraTestResultReporter/JiraReporter.java:386-391 | The transition id is absent exactly when no transition is named `Resolve Issue`. Otherwise it is the id of the last transition with that name, since the loop keeps overwriting it. |
| LegacyReporter.LastResolveHere | src/main/java/JiraTestResultReporter/JiraReporter.java:386-391 | A last transition named `Resolve Issue` gives its id. |
| LegacyReporter.LastResolveBefore | src/main/java/JiraTestResultReporter/JiraReporter.java:386-391 | A last transition with another name does not change the id found. |
| LegacyReporter.TransitionId | src/main/java/JiraTestResultReporter/JiraReporter.java:369-402 | A remembered id is used as is. Otherwise the id is looked up on the issue's transitions. |
| LegacyReporter.StripConcat | src/main/java/JiraTestResultReporter/JiraReporter.java:405 | Removing separators distributes over concatenation. |
| LegacyReporter.StripNone | src/main/java/JiraTestResultReporter/JiraReporter.java:405 | A text without separators is unchanged by removing them. |
| LegacyReporter.GroupOnlyInserts | src/main/java/JiraTestResultReporter/JiraReporter.java:405 | Grouping digits only inserts separators, and leaves three digits or fewer alone. |
| LegacyReporter.GroupedNumberDigits | src/main/java/JiraTestResultReporter/JiraReporter.java:405 | The build number in the comment reads as the decimal number once the separators are removed, and is unchanged below 1000. |
| LegacyReporter.TransitionPayload | src/main/java/JiraTestResultReporter/JiraReporter.java:367-419 | The transition request fails exactly when there is no transition id; otherwise it carries that id. |
| LegacyReporter.ResolveJiraIssue | src/main/java/JiraTestResultReporter/JiraReporter.java:185-236 | Without passed tests, or when the search request fails with an I/O error, nothing is transitioned. A search not answered with 200 is an error naming the code, and the remembered transition id is kept. A search answered with 200 hands its open issues to the loop. |
| LegacyReporter.ResolveOnlyWanted | src/main/java/JiraTestResultReporter/JiraReporter.java:213-236 | Only open issues whose summary names a passed test are transitioned, each with a transition request. |
| LegacyReporter.ResolveAllWanted | src/main/java/JiraTestResultReporter/JiraReporter.java:213-236 | Conversely, when the transition id is known or can be looked up and the server accepts every transition, the loop succeeds and the transitioned keys are exactly the keys of the open issues whose summary names a passed test. |
| LegacyReporter.ResolveAllPassed | src/main/java/JiraTestResultReporter/JiraReporter.java:185-236 | The same for `resolveJiraIssue` with a search answered with 200: the transitioned keys are exactly those of the open issues found whose summary names a passed test. |
| LegacyReporter.RefusedTransitionKeepsId | src/main/java/JiraTestResultReporter/JiraReporter.java:213-236 | A transition answered with a code other than 204 ends the run with an error naming the code. The id looked up for it stays remembered, as the field set at line 389 does, so the next run does not look it up again. |
| LegacyReporter.ResolveNoPassed | src/main/java/JiraTestResultReporter/JiraReporter.java:185-188 | Without passed tests the server is not asked. |
| LegacyReporter.TransitionIdKept | src/main/java/JiraTestResultReporter/JiraReporter.java:369-402 | Once known, the transition id is never looked up again, even by a failing run, and every request carries it. |
| LegacyReporter.PerformOrder | src/main/java/JiraTestResultReporter/JiraReporter.java:121-137 | Failures are reported (by the creation loop as written) before anything is resolved. A failed creation ends the run with its error and keeps the remembered id. Resolving happens only when it is enabled; then the run succeeds exactly when resolving does, with its transitions or its error, and remembers the id resolving learned. |
| LegacyReporter.PerformNoResults | src/main/java/JiraTestResultReporter/JiraReporter.java:122-123 | Without test results nothing is sent. |
| MaplesteveReporter.NewConfig | src/main/java/com/maplesteve/jenkinsci/plugins/JiraTestResultReporter/JiraReporter.java:60-82 | The stored address ends in `/`, and an address that already ends in one is kept. Debugging is on exactly when debugging or verbose debugging was asked for. |
| MaplesteveReporter.HexDigit | src/main/java/com/maplesteve/jenkinsci/plugins/JiraTestResultReporter/JiraReporter.java:158 | Each hex digit reads back as its value. |
| MaplesteveReporter.ReadEscapeChar | src/main/java/com/maplesteve/jenkinsci/plugins/JiraTestResultReporter/JiraReporter.java:158 | Reading a character as it is written inside a JSON string gives the character back and goes on after it. |
| MaplesteveReporter.ReadShortEscape | src/main/java/com/maplesteve/jenkinsci/plugins/JiraTestResultReporter/JiraReporter.java:158 | A two-character JSON escape reads as the character it stands for. |
| MaplesteveReporter.ReadUnicodeEscape | src/main/java/com/maplesteve/jenkinsci/plugins/JiraTestResultReporter/JiraReporter.java:158 | A control character written as a `\u` escape reads back as itself. |
| MaplesteveReporter.EscapeReadsBack | src/main/java/com/maplesteve/jenkinsci/plugins/JiraTestResultReporter/JiraReporter.java:158 | The JSON string literal written from any text reads back as that text. |
| MaplesteveReporter.RawDoesNotReadBack | src/main/java/com/maplesteve/jenkinsci/plugins/JiraTestResultReporter/JiraReporter.java:158 | Written raw, a text with a `"` or a control character (and no `\`) does not read back as itself. |
| MaplesteveReporter.SplitPayload | src/main/java/com/maplesteve/jenkinsci/plugins/JiraTestResultReporter/JiraReporter.java:158 | The summary literal and the description literal of the body start at the computed positions. |
| MaplesteveReporter.RawPayloadUnreadable | src/main/java/com/maplesteve/jenkinsci/plugins/JiraTestResultReporter/JiraReporter.java:158 | As written, a summary or description with a quote or a control character in it does not read back from the body. |
| MaplesteveReporter.TwoLineTraceUnreadable | src/main/java/com/maplesteve/jenkinsci/plugins/JiraTestResultReporter/JiraReporter.java:158 | A two-line stack trace is enough for the description not to read back. |
| MaplesteveReporter.EscapedPayloadReadsBack | src/main/java/com/maplesteve/jenkinsci/plugins/JiraTestResultReporter/JiraReporter.java:158 | With the texts escaped, the summary and the description read back from the body exactly. |
| MaplesteveReporter.NewFailures | src/main/java/com/maplesteve/jenkinsci/plugins/JiraTestResultReporter/JiraReporter.java:146-147 | The tests posted are exactly the failures that are new in this build (age 1). |
| MaplesteveReporter.CreatePostsNewFailures | src/main/java/com/maplesteve/jenkinsci/plugins/JiraTestResultReporter/JiraReporter.java:142-186 | When the server accepts every body, exactly the new failures are posted, in order. |
| MaplesteveReporter.CreateRejected | src/main/java/com/maplesteve/jenkinsci/plugins/JiraTestResultReporter/JiraReporter.java:169-174 | A status other than 201 on the first new failure ends the step with an error naming the code. |
| MaplesteveReporter.CreateIoContinues | src/main/java/com/maplesteve/jenkinsci/plugins/JiraTestResultReporter/JiraReporter.java:152-181 | An I/O failure on one test does not stop the others. |
| MaplesteveReporter.Perform | src/main/java/com/maplesteve/jenkinsci/plugins/JiraTestResultReporter/JiraReporter.java:91-107 | A build without test results fails. With debugging on, a failed test without a stack trace fails the step with the null-trace error. Otherwise the step is the creation of the issues, with the texts as written. |

## Left out

- I/O, logging, the locks (`synchronized` sections and the lock over the registry's keys) and concurrency. The model is sequential, and a file write or a REST call is one step.
- `JiraTestDataPublisher.java`, `JiraTestAction.java` and `JobConfigMapping.java` in this version of the repository do not agree on one API.
  - The publisher builds its entry with a `JobConfigEntryBuilder` and the flags `autoResolve`, `autoUnlink`, `overrideResolved`, `manualAdd` and `additionalAttachments`, none of which `JobConfigMapping.java` has.
  - The publisher calls a six-argument `JiraUtils.createIssue`, and the action calls a three-argument `createIssueInput`. Neither exists in `JiraUtils.java`.
  - The model follows `JobConfigMapping.java` and `JiraUtils.java`. The publisher's flags are an input (`Publisher.Flags`), and saving stores the four-field entry.
- `additionalAttachments`, the extra files collected from the workspace, is not modelled. Only a test's own outputs are attached.
- In `JiraTestAction.createIssue`, the issue the server creates is an input (`created` of `TestAction.CreateIssue`), because the three-argument `createIssueInput` it calls is not part of this model.
- `JiraTestAction`'s issue status, colour lookup and `statusesMap` are left out. They are display only.
- The cache fills done as side effects of a lookup are kept when a later step fails. The model threads the stores through and returns them only on success, so a fill lost with a failed step is not modelled.
- When a step's REST call fails, the publisher's logging and its abort reporting are not modelled. The failure becomes the step's `Result`.
- The order of iterating a `HashSet` or `HashMap` is modelled as the order of the given sequence.
- The resolve transition's returned promise is not awaited in the source. The model treats the transition as done once requested.
- The issue-key pattern `projectKey + "-\d+"` is modelled with the project key as a literal prefix. A project key holding regular-expression metacharacters would match differently in Java.
- Gson's details are not modelled: field order, pretty printing, number formats and unknown-field handling. JSON is the `Json` datatype.
- FieldSpecs.Deserialize: a `properties` object without one of its class's members (`fieldKey`, `value` or `values`) is `Malformed`. Gson would leave that field null and load the object, but the model's keys and values are never null. A missing `properties` is `Malformed` too; there the source's `readResolve` on a null object throws.
- TestToIssueMapping.LoadMap: a JSON link file that Gson reads as null (an empty file, or one holding `null`) is treated as an unreadable file, so the job starts with an empty map. In the source, `loadMap` returns that null and `register` stores it. From then on `getTestIssueKey` gives null and every `addTestToIssueMapping` for the job throws a `NullPointerException` at `synchronized (jobMap)`, so the job cannot be linked again until Jenkins restarts. The model's store holds a map for every registered job, so this state is not modelled.
- `Tracker.valueText`, the client library's `toString` of a field value, is an oracle.
- A `ClassCastException` or `ArrayIndexOutOfBoundsException` that escapes `doJson` is the `ServerError` response. The servlet container's error page is not modelled.
- LegacyReporter.CheckServerAddress: `new URL(value)` in `doCheckServerAddress` is approximated as "a well-formed scheme among `http`, `https`, `ftp`, `file`, `jar` and `mailto`". The JVM's other protocol handlers are not modelled. The two disagree on these inputs:
  - `" http://x"`: Java trims the surrounding blanks and accepts it; the model refuses it.
  - `"url:http://x"`: Java skips a leading `url:`; the model refuses it.
  - `"http://h:abc"`: Java refuses the non-numeric port; the model accepts it.
  - `"jar:x"`: Java refuses a `jar` URL without `!/`; the model accepts it.
- The build number in the legacy comment is grouped by `MessageFormat` as in the English locale (`LegacyReporter.GroupedNumber`). Other locales are not modelled.
- In the legacy `resolveJiraIssue`, an I/O failure on a transition request is logged and ends the loop. The model stops the loop there, and its log line is not modelled.
- The HTTP authentication header and the credentials are left out.
- When a Maplesteve body is read back (`MaplesteveReporter.ReadString`), a `\u` escape naming a surrogate makes the text unreadable. Decoding surrogate pairs is not modelled.
- In `FieldConfigsJsonAdapter.deserialize`, a `clazz` naming a class outside the four field kinds is an unknown element type (`FieldSpecs.Deserialize`). `Class.forName` loading some other class of the package is not modelled.
- In `doFillValueItems`, a custom option or identifiable entity whose id is null throws part-way through the list, and the items added so far are returned. The model's ids are never null, so this case is not modelled.
- Jenkins's `EnvVars` class is not among the repository's files. Module `EnvVars` stands in for its case-insensitive map: each name is stored under an upper-case key, so lookups ignore case.
- EnvVars.Canon: only ASCII letters are folded. Java's case-insensitive order folds every Unicode letter, so two names that differ only in the case of a non-ASCII letter are one variable in Jenkins and two in the model.
- JavaStrings.ParseLong: only ASCII digits are read. `Long.parseLong` also accepts the other Unicode decimal digits (Arabic-Indic digits, for example), which the model rejects as a format error.
- In `VariableExpander.Expand`, the recursion through the default-template built-ins is bounded by `fuel`. Running out gives `RecursionTooDeep`, where the source would overflow its stack.
- JiraUtils.Attachments: its own contract states only that every attachment is non-blank. The names and texts of the four attachments are stated by `JiraUtils.AttachmentsOutputs` and `JiraUtils.AttachmentsFailure`.
- LegacyReporter.CreatePayload: the contract states the summary and issue type, not the project and description fields.

## Findings

The operations of the model use the definitions as written. Each corrected definition sits beside its as-written one, with the intended property proved about it.

| source | as written | input that shows it | evidently intended | confidence | as-written member | corrected member |
|---|---|---|---|---|---|---|
| src/main/java/org/jenkinsci/plugins/JiraTestResultReporter/JiraUtils.java:288-301 | `escapeJQL` replaces the literal two-character strings backslash-`+`, backslash-bar and backslash-`*`, so a bare `+`, bar or `*` is not escaped | the summary `a+b` | every Lucene operator escaped with two backslashes, as the method's comment says | not executed | JqlEscape.EscapeJqlLeavesPlusBare | JqlEscape.EscapeJqlIntendedEscapes |
| src/main/java/org/jenkinsci/plugins/JiraTestResultReporter/JiraUtils.java:113-138 | `keysToCheck` maps each issue key to one test, so only the last test linked to a resolved issue is unlinked | two failed tests linked to the same issue, which is now resolved | every test linked to a resolved issue loses its link | not executed | JiraUtils.CleanKeepsStaleLink | JiraUtils.CleanIntendedDropsBoth |
| src/main/java/JiraTestResultReporter/JiraReporter.java:247-308 | the shared HTTP client is shut down in the `finally` of every request inside the loop | two new failures in one build | the client stays open until every failure is posted | not executed | LegacyReporter.CreateSecondFails | LegacyReporter.CreateIntendedPostsAll |
| src/main/java/com/maplesteve/jenkinsci/plugins/JiraTestResultReporter/JiraReporter.java:158 | the JSON body is built by concatenating the summary and description unescaped | a description `E` newline `at` (a two-line stack trace) | the texts escaped so the body reads back as sent | not executed | MaplesteveReporter.RawPayloadUnreadable | MaplesteveReporter.EscapedPayloadReadsBack |

=== FILE: descriptor.dfy ===
/** The global configuration of the publisher (`JiraTestDataPublisherDescriptor`): the
    server address and the configurable summary and description templates. */
module Descriptor {
  import opened Wrappers

  const SummaryFieldName: string := "summary"
  const DescriptionFieldName: string := "description"
  /** The stock templates, `${TEST_FULL_NAME} : ${TEST_ERROR_DETAILS}` and
      `${BUILD_URL}${CRLF}${TEST_STACK_TRACE}`, written placeholder by placeholder. */
  const DefaultSummary: string := "${" + "TEST_FULL_NAME" + "}" + " : " + "${" + "TEST_ERROR_DETAILS" + "}"
  const DefaultDescription: string :=
    "${" + "BUILD_URL" + "}" + "${" + "CRLF" + "}" + "${" + "TEST_STACK_TRACE" + "}"

  datatype Descriptor = Descriptor(
    jiraUrl: Option<string>,
    defaultSummary: Option<string>,
    defaultDescription: Option<string>)

  /** A configured template is used unless it is null or empty. */
  function Template(configured: Option<string>, fallback: string): (r: string)
    requires fallback != ""
    ensures r != ""
    ensures configured.Some? && configured.value != "" ==> r == configured.value
    ensures r != fallback ==> configured == Some(r)
  {
    if configured.Some? && configured.value != "" then configured.value else fallback
  }

  function GetDefaultSummary(d: Descriptor): string {
    Template(d.defaultSummary, DefaultSummary)
  }

  function GetDefaultDescription(d: Descriptor): string {
    Template(d.defaultDescription, DefaultDescription)
  }

  /** Storing the effective template back into the configuration changes nothing. */
  lemma TemplateIdempotent(configured: Option<string>, fallback: string)
    requires fallback != ""
    ensures Template(Some(Template(configured, fallback)), fallback) == Template(configured, fallback)
  {
  }
}

=== FILE: env_vars.dfy ===
/** Jenkins `EnvVars`: a map whose keys compare case-insensitively.  The model keeps each
    key in a canonical (upper-case) spelling, so lookups ignore case as the source's do. */
module EnvVars {
  import opened Wrappers

  function UpperChar(c: char): char {
    if 'a' <= c <= 'z' then (c as int - 32) as char else c
  }

  function Canon(name: string): (r: string)
    ensures |r| == |name|
    ensures forall i :: 0 <= i < |name| ==> r[i] == UpperChar(name[i])
  {
    if |name| == 0 then "" else [UpperChar(name[0])] + Canon(name[1..])
  }

  datatype EnvVars = EnvVars(vars: map<string, string>) {
    predicate Has(name: string) { Canon(name) in vars }

    function Get(name: string): Option<string> {
      if Has(name) then Some(vars[Canon(name)]) else None
    }

    function Put(name: string, value: string): EnvVars {
      EnvVars(vars[Canon(name) := value])
    }
  }

  lemma CanonIdempotent(name: string)
    ensures Canon(Canon(name)) == Canon(name)
  {
  }

  /** Putting a name leaves every name of another canonical spelling as it was. */
  lemma PutGetOther(env: EnvVars, name: string, other: string, value: string)
    requires Canon(name) != Canon(other)
    ensures env.Put(name, value).Get(other) == env.Get(other)
  {
  }

  /** Names that differ only in the case of ASCII letters have the same canonical spelling. */
  lemma CanonCaseBlind(a: string, b: string)
    requires |a| == |b| && forall i :: 0 <= i < |a| ==> UpperChar(a[i]) == UpperChar(b[i])
    ensures Canon(a) == Canon(b)
  {
  }

  /** A value put under one spelling is found under any other spelling of the same name. */
  lemma PutGetIgnoresCase(env: EnvVars, name: string, other: string, value: string)
    requires Canon(name) == Canon(other)
    ensures env.Put(name, value).Get(other) == Some(value)
  {
  }
}

=== FILE: field_pickers.dfy ===
/** The descriptors' `doFillFieldKeyItems` and `doFillValueItems`: the drop-down lists of
    the job configuration page, read from the metadata cache.  A null anywhere along the way
    (no entry, no field map, no such field, no allowed values) yields the fallback list. */
module FieldPickers {
  import opened Wrappers
  import opened JavaStrings
  import opened MetadataCache

  /** `StringFields.DEFAULT_MODEL`: Summary and Description. */
  const DefaultModel: seq<BoxOption> := [BoxOption("Summary", "summary"), BoxOption("Description", "description")]

  /** `StringFields.doFillFieldKeyItems`: the stock model when either key is empty or the
      cache has no entry, else the entry's string box. */
  function StringFieldKeyItems(cache: Cache, projectKey: string, issueType: string, fetch: Fetch)
    : (seq<BoxOption>, Cache)
  {
    if projectKey == "" || issueType == "" then (DefaultModel, cache)
    else
      var (e, cache1) := GetCacheEntry(cache, projectKey, issueType, fetch);
      if e.None? then (DefaultModel, cache1) else (e.value.stringBox, cache1)
  }

  /** The other variants' `doFillFieldKeyItems`: their box of the entry, or an empty list. */
  function FieldKeyItems(cache: Cache, projectKey: string, issueType: string, fetch: Fetch, b: Box)
    : (seq<BoxOption>, Cache)
  {
    var (e, cache1) := GetCacheEntry(cache, projectKey, issueType, fetch);
    if e.None? then ([], cache1) else (e.value.BoxOf(b), cache1)
  }

  /** The field map's entry for a key: the first one with that key. */
  function FieldNamed(fields: seq<(string, FieldInfo)>, key: string): (r: Option<FieldInfo>)
    ensures r.Some? ==> exists i :: 0 <= i < |fields| && fields[i] == (key, r.value)
    ensures r.None? ==> forall i :: 0 <= i < |fields| ==> fields[i].0 != key
  {
    if |fields| == 0 then None
    else if fields[0].0 == key then Some(fields[0].1)
    else
      var r := FieldNamed(fields[1..], key);
      assert forall i :: 1 <= i < |fields| ==> fields[i] == fields[1..][i - 1];
      r
  }

  /** How one allowed value is listed: `(value, id)` for a custom option, `(name, id)` for
      an identifiable named entity, and, for the array variant only, `(name, id)` for a
      named entity whose reflective `getId` gives a non-null id. */
  function ValueItem(v: AllowedValue, arrayVariant: bool): Option<BoxOption> {
    match v
    case CustomOption(value, id) => Some(BoxOption(value, IntToString(id)))
    case IdentifiedNamed(name, id) => Some(BoxOption(name, IntToString(id)))
    case NamedOnly(name, id) =>
      if arrayVariant && id.Some? then Some(BoxOption(name, IntToString(id.value))) else None
    case OtherValue => None
  }

  function ValueItemsOf(values: seq<AllowedValue>, arrayVariant: bool): (r: seq<BoxOption>)
    ensures |r| <= |values|
  {
    if |values| == 0 then []
    else
      var rest := ValueItemsOf(values[1..], arrayVariant);
      match ValueItem(values[0], arrayVariant)
      case None => rest
      case Some(o) => [o] + rest
  }

  /** `doFillValueItems` of `SelectableFields` (`arrayVariant == false`) and of
      `SelectableArrayFields` (`arrayVariant == true`). */
  function ValueItems(cache: Cache, projectKey: string, issueType: string, fieldKey: string,
                      fetch: Fetch, arrayVariant: bool): (seq<BoxOption>, Cache)
  {
    var (e, cache1) := GetCacheEntry(cache, projectKey, issueType, fetch);
    if e.None? || e.value.fieldInfoMap.None? then ([], cache1)
    else
      match FieldNamed(e.value.fieldInfoMap.value, fieldKey)
      case None => ([], cache1)
      case Some(f) =>
        if f.allowed.None? then ([], cache1) else (ValueItemsOf(f.allowed.value, arrayVariant), cache1)
  }

  /** The string-field picker offers the stock list exactly when a key is empty or no entry
      can be had, and the entry's string box otherwise. */
  lemma StringFieldKeyItemsFallback(cache: Cache, projectKey: string, issueType: string, fetch: Fetch)
    ensures var (items, _) := StringFieldKeyItems(cache, projectKey, issueType, fetch);
            var e := GetCacheEntry(cache, projectKey, issueType, fetch).0;
            (projectKey == "" || issueType == "" || e.None? ==> items == DefaultModel)
            && (projectKey != "" && issueType != "" && e.Some? ==> items == e.value.stringBox)
    ensures projectKey == "" || issueType == "" ==>
              StringFieldKeyItems(cache, projectKey, issueType, fetch).1 == cache
  {
  }

  /** Only listed kinds appear, each with the value or name and the id of an allowed value,
      in order; the two variants differ exactly on named entities without the identifiable
      interface. */
  lemma {:induction false} ValueItemsOfListed(values: seq<AllowedValue>, arrayVariant: bool)
    ensures forall o :: o in ValueItemsOf(values, arrayVariant) <==>
              exists i :: 0 <= i < |values| && ValueItem(values[i], arrayVariant) == Some(o)
    decreases |values|
  {
    if |values| > 0 {
      ValueItemsOfListed(values[1..], arrayVariant);
      assert forall i :: 1 <= i < |values| ==> values[i] == values[1..][i - 1];
      forall o | exists i :: 0 <= i < |values| && ValueItem(values[i], arrayVariant) == Some(o)
        ensures o in ValueItemsOf(values, arrayVariant)
      {
        var i :| 0 <= i < |values| && ValueItem(values[i], arrayVariant) == Some(o);
        if i > 0 {
          assert ValueItem(values[1..][i - 1], arrayVariant) == Some(o);
        }
      }
    }
  }

  /** Without reflective-id entities both variants list the same values. */
  lemma {:induction false} ValueItemsVariantsAgree(values: seq<AllowedValue>)
    requires forall i :: 0 <= i < |values| ==> !values[i].NamedOnly?
    ensures ValueItemsOf(values, true) == ValueItemsOf(values, false)
    decreases |values|
  {
    if |values| > 0 {
      ValueItemsVariantsAgree(values[1..]);
    }
  }

  /** A named entity is listed by the array variant only with a non-null id, and never by
      the single-value variant. */
  lemma NamedOnlyListing(name: string, id: Option<int>)
    ensures ValueItemsOf([NamedOnly(name, id)], false) == []
    ensures ValueItemsOf([NamedOnly(name, id)], true) == (if id.Some? then [BoxOption(name, IntToString(id.value))] else [])
  {
  }
}

=== FILE: field_specs.dfy ===
/** The four kinds of configured issue fields (`StringFields`, `StringArrayFields`,
    `SelectableFields`, `SelectableArrayFields`), how each renders to the `FieldInput` sent
    with a new issue, and the tagged `{clazz, properties}` JSON form
    `FieldConfigsJsonAdapter` stores them in. */
module FieldSpecs {
  import opened Wrappers
  import opened Json
  import opened EnvVars
  import opened TestResults
  import opened Descriptor
  import opened VariableExpander

  /** A configured field; the `Entry` wrappers of the array variants are plain strings. */
  datatype FieldSpec =
    | StringField(fieldKey: string, value: string)
    | StringArrayField(fieldKey: string, values: seq<string>)
    | SelectableField(fieldKey: string, value: string)
    | SelectableArrayField(fieldKey: string, values: seq<string>)
  {
    predicate IsSelectable() { SelectableField? || SelectableArrayField? }
  }

  /** `ComplexIssueInputFieldValue.with("id", id)`. */
  datatype IdRef = IdRef(id: string)

  datatype FieldValue =
    | Text(text: string)
    | TextList(texts: seq<string>)
    | Ref(ref: IdRef)
    | RefList(refs: seq<IdRef>)

  datatype FieldInput = FieldInput(id: string, value: FieldValue)

  /** A field object as it lives in memory: the selectable variants carry a transient
      `fieldInput`, `None` until the constructor or `readResolve` builds it. */
  datatype FieldObject = FieldObject(spec: FieldSpec, cached: Option<FieldInput>)

  function IdRefs(values: seq<string>): (r: seq<IdRef>)
    ensures |r| == |values|
    ensures forall i :: 0 <= i < |values| ==> r[i] == IdRef(values[i])
  {
    if |values| == 0 then [] else [IdRef(values[0])] + IdRefs(values[1..])
  }

  /** The input a selectable field builds once, from its key and its value(s). */
  function SelectInput(spec: FieldSpec): FieldInput
    requires spec.IsSelectable()
  {
    if spec.SelectableField? then FieldInput(spec.fieldKey, Ref(IdRef(spec.value)))
    else FieldInput(spec.fieldKey, RefList(IdRefs(spec.values)))
  }

  /** The `@DataBoundConstructor` of each variant. */
  function Construct(spec: FieldSpec): (o: FieldObject)
    ensures o.spec == spec
    ensures spec.IsSelectable() <==> o.cached.Some?
  {
    FieldObject(spec, if spec.IsSelectable() then Some(SelectInput(spec)) else None)
  }

  /** `readResolve`: the string variants return themselves, the selectable ones rebuild
      their transient input from the stored fields. */
  function ReadResolve(o: FieldObject): (r: FieldObject)
    ensures r.spec == o.spec
    ensures !o.spec.IsSelectable() ==> r == o
    ensures r == Construct(o.spec) || !o.spec.IsSelectable()
  {
    if o.spec.IsSelectable() then FieldObject(o.spec, Some(SelectInput(o.spec))) else o
  }

  datatype RenderError =
    | Expansion(cause: ExpandError)
    | NullFieldInput             // a selectable field whose transient input was never built

  /** `expandVariables` over the entries, in order; the first failing entry aborts. */
  function ExpandEach(fuel: nat, g: Descriptor, test: Option<TestResult>, env: EnvVars,
                      values: seq<string>): (r: Result<seq<string>, ExpandError>)
    ensures r.Success? ==> |r.value| == |values|
    ensures r.Success? ==> forall i :: 0 <= i < |values| ==>
              Expand(fuel, g, test, env, values[i]) == Success(r.value[i])
    ensures r.Success? <==> forall i :: 0 <= i < |values| ==> Expand(fuel, g, test, env, values[i]).Success?
  {
    if |values| == 0 then Success([])
    else
      match Expand(fuel, g, test, env, values[0])
      case Failure(e) => Failure(e)
      case Success(v) =>
        match ExpandEach(fuel, g, test, env, values[1..])
        case Failure(e) => Failure(e)
        case Success(vs) =>
          assert forall i :: 1 <= i < |values| ==> values[i] == values[1..][i - 1];
          Success([v] + vs)
  }

  /** `getFieldInput(test, envVars)`. */
  function Render(fuel: nat, g: Descriptor, o: FieldObject, test: Option<TestResult>, env: EnvVars)
    : Result<FieldInput, RenderError>
  {
    match o.spec
    case StringField(k, v) =>
      (match Expand(fuel, g, test, env, v)
       case Success(s) => Success(FieldInput(k, Text(s)))
       case Failure(e) => Failure(Expansion(e)))
    case StringArrayField(k, vs) =>
      (match ExpandEach(fuel, g, test, env, vs)
       case Success(ss) => Success(FieldInput(k, TextList(ss)))
       case Failure(e) => Failure(Expansion(e)))
    case _ =>
      if o.cached.Some? then Success(o.cached.value) else Failure(NullFieldInput)
  }

  /* ---------- Rendering ---------- */

  /** A string field renders under its own key to the expansion of its value; with no
      test the value goes out unexpanded. */
  lemma RenderStringField(fuel: nat, g: Descriptor, k: string, v: string, test: Option<TestResult>, env: EnvVars)
    ensures var r := Render(fuel, g, Construct(StringField(k, v)), test, env);
            r.Success? <==> Expand(fuel, g, test, env, v).Success?
    ensures var r := Render(fuel, g, Construct(StringField(k, v)), test, env);
            r.Success? ==> r.value.id == k && r.value.value == Text(Expand(fuel, g, test, env, v).value)
    ensures test.None? ==> Render(fuel, g, Construct(StringField(k, v)), test, env) == Success(FieldInput(k, Text(v)))
  {
  }

  /** A string-array field renders under its own key to the entries expanded one by one,
      same length, same order. */
  lemma RenderStringArrayField(fuel: nat, g: Descriptor, k: string, vs: seq<string>,
                               test: Option<TestResult>, env: EnvVars)
    ensures var r := Render(fuel, g, Construct(StringArrayField(k, vs)), test, env);
            r.Success? ==> r.value.id == k && r.value.value.TextList?
                           && |r.value.value.texts| == |vs|
                           && forall i :: 0 <= i < |vs| ==>
                                Expand(fuel, g, test, env, vs[i]) == Success(r.value.value.texts[i])
    ensures vs == [] ==> Render(fuel, g, Construct(StringArrayField(k, vs)), test, env)
                         == Success(FieldInput(k, TextList([])))
  {
  }

  /** A selectable field renders to `(fieldKey, {id: value})` whatever the test and the
      environment. */
  lemma RenderSelectableIgnoresTest(fuel: nat, g: Descriptor, spec: FieldSpec,
                                    t1: Option<TestResult>, e1: EnvVars,
                                    t2: Option<TestResult>, e2: EnvVars)
    requires spec.IsSelectable()
    ensures Render(fuel, g, Construct(spec), t1, e1) == Render(fuel, g, Construct(spec), t2, e2)
    ensures spec.SelectableField? ==>
              Render(fuel, g, Construct(spec), t1, e1) == Success(FieldInput(spec.fieldKey, Ref(IdRef(spec.value))))
    ensures spec.SelectableArrayField? ==>
              var r := Render(fuel, g, Construct(spec), t1, e1);
              r.Success? && r.value.id == spec.fieldKey && r.value.value.RefList?
              && |r.value.value.refs| == |spec.values|
              && forall i :: 0 <= i < |spec.values| ==> r.value.value.refs[i].id == spec.values[i]
  {
  }

  /** `readResolve` gives back what the constructor built, and doing it twice changes
      nothing more. */
  lemma ReadResolveRebuilds(spec: FieldSpec, cached: Option<FieldInput>)
    ensures ReadResolve(FieldObject(spec, cached)) == Construct(spec) || (!spec.IsSelectable() && cached.Some?)
    ensures ReadResolve(Construct(spec)) == Construct(spec)
    ensures ReadResolve(ReadResolve(FieldObject(spec, cached))) == ReadResolve(FieldObject(spec, cached))
  {
  }

  /* ---------- The tagged JSON form ---------- */

  /** `getClass().getSimpleName()` of each variant. */
  function ClassName(spec: FieldSpec): string {
    match spec
    case StringField(_, _) => "StringFields"
    case StringArrayField(_, _) => "StringArrayFields"
    case SelectableField(_, _) => "SelectableFields"
    case SelectableArrayField(_, _) => "SelectableArrayFields"
  }

  /** An `Entry` serialises as `{value: …}`. */
  function EntriesJson(values: seq<string>): (r: seq<Json>)
    ensures |r| == |values|
  {
    seq(|values|, i requires 0 <= i < |values| => EntryJson(values[i]))
  }

  function EntryJson(value: string): Json {
    JObj(map["value" := JStr(value)])
  }

  /** Gson's reflective form of a variant: its non-transient fields by name. */
  function PropertiesJson(spec: FieldSpec): Json {
    match spec
    case StringField(k, v) => JObj(map["fieldKey" := JStr(k), "value" := JStr(v)])
    case SelectableField(k, v) => JObj(map["fieldKey" := JStr(k), "value" := JStr(v)])
    case StringArrayField(k, vs) => JObj(map["fieldKey" := JStr(k), "values" := JArr(EntriesJson(vs))])
    case SelectableArrayField(k, vs) => JObj(map["fieldKey" := JStr(k), "values" := JArr(EntriesJson(vs))])
  }

  /** `FieldConfigsJsonAdapter.serialize`. */
  function Serialize(spec: FieldSpec): Json {
    JObj(map["clazz" := JStr(ClassName(spec)), "properties" := PropertiesJson(spec)])
  }

  datatype CodecError =
    | UnknownElementType(clazz: string)   // `Class.forName` finds no such class in the package
    | Malformed                           // the element is not of the shape Gson expects

  function StringMember(j: Json, name: string): Result<string, CodecError> {
    if j.JObj? && name in j.members && j.members[name].JStr? then Success(j.members[name].s)
    else Failure(Malformed)
  }

  function EntriesFrom(items: seq<Json>): (r: Result<seq<string>, CodecError>)
    ensures r.Success? ==> |r.value| == |items|
  {
    if |items| == 0 then Success([])
    else
      match StringMember(items[0], "value")
      case Failure(e) => Failure(e)
      case Success(v) =>
        match EntriesFrom(items[1..])
        case Failure(e) => Failure(e)
        case Success(vs) => Success([v] + vs)
  }

  function EntriesMember(j: Json, name: string): Result<seq<string>, CodecError> {
    if j.JObj? && name in j.members && j.members[name].JArr? then EntriesFrom(j.members[name].items)
    else Failure(Malformed)
  }

  /** The variant `Class.forName` finds for a tag, read from its properties. */
  function SpecFrom(clazz: string, props: Json): Result<FieldSpec, CodecError> {
    if clazz == "StringFields" then
      var k :- StringMember(props, "fieldKey");
      var v :- StringMember(props, "value");
      Success(StringField(k, v))
    else if clazz == "StringArrayFields" then
      var k :- StringMember(props, "fieldKey");
      var vs :- EntriesMember(props, "values");
      Success(StringArrayField(k, vs))
    else if clazz == "SelectableFields" then
      var k :- StringMember(props, "fieldKey");
      var v :- StringMember(props, "value");
      Success(SelectableField(k, v))
    else if clazz == "SelectableArrayFields" then
      var k :- StringMember(props, "fieldKey");
      var vs :- EntriesMember(props, "values");
      Success(SelectableArrayField(k, vs))
    else Failure(UnknownElementType(clazz))
  }

  /** `FieldConfigsJsonAdapter.deserialize`: read the tag, read the properties into that
      class (transient fields left unset), then `readResolve`. */
  function Deserialize(j: Json): Result<FieldObject, CodecError> {
    var clazz :- StringMember(j, "clazz");
    if "properties" !in j.members then Failure(Malformed)
    else
      var spec :- SpecFrom(clazz, j.members["properties"]);
      Success(ReadResolve(FieldObject(spec, None)))
  }

  /** Reading back the entries Gson wrote gives the same values in the same order. */
  lemma {:induction false} EntriesRoundTrip(values: seq<string>)
    ensures EntriesFrom(EntriesJson(values)) == Success(values)
    decreases |values|
  {
    if |values| > 0 {
      EntriesRoundTrip(values[1..]);
      EntriesStep(values);
    }
  }

  /** One entry in front of a list that reads back. */
  lemma EntriesStep(values: seq<string>)
    requires |values| > 0 && EntriesFrom(EntriesJson(values[1..])) == Success(values[1..])
    ensures EntriesFrom(EntriesJson(values)) == Success(values)
  {
    assert EntriesJson(values)[1..] == EntriesJson(values[1..]);
    assert StringMember(EntryJson(values[0]), "value") == Success(values[0]);
    assert [values[0]] + values[1..] == values;
  }

  /** Reading back what was written gives the same variant with the same fields, exactly
      as its constructor would have built it. */
  lemma DeserializeSerialize(spec: FieldSpec)
    ensures Deserialize(Serialize(spec)) == Success(Construct(spec))
  {
    match spec
    case StringArrayField(_, vs) => EntriesRoundTrip(vs);
    case SelectableArrayField(_, vs) => EntriesRoundTrip(vs);
    case _ =>
  }

  /** The tag decides the variant; a tag naming no variant is a parse error. */
  lemma DeserializeDispatch(clazz: string, props: Json)
    ensures var r := Deserialize(JObj(map["clazz" := JStr(clazz), "properties" := props]));
            r.Success? ==> ClassName(r.value.spec) == clazz
    ensures clazz !in {"StringFields", "StringArrayFields", "SelectableFields", "SelectableArrayFields"} ==>
              Deserialize(JObj(map["clazz" := JStr(clazz), "properties" := props])) == Failure(UnknownElementType(clazz))
  {
  }
}

=== FILE: java_strings.dfy ===
/** The few `java.lang.String` and `java.lang.Long` operations the plugin relies on,
    written out with Java's exact semantics (literal, left-to-right, non-overlapping
    `replace`; `split` dropping trailing empty strings; `parseLong` with its range check). */
module JavaStrings {
  import opened Wrappers

  /** `t` occurs in `s` starting at index `i`. */
  predicate OccursAt(s: string, i: nat, t: string) {
    i + |t| <= |s| && s[i..i + |t|] == t
  }

  /** `String.contains`. */
  predicate Contains(s: string, t: string) {
    exists i :: 0 <= i <= |s| && OccursAt(s, i, t)
  }

  predicate EndsWith(s: string, suffix: string) {
    |suffix| <= |s| && s[|s| - |suffix|..] == suffix
  }

  predicate NoChar(s: string, c: char) {
    forall i :: 0 <= i < |s| ==> s[i] != c
  }

  /** `String.replace("", r)` puts `r` before every character and at the end. */
  function InsertEverywhere(s: string, r: string): (res: string)
    ensures |res| == |s| + (|s| + 1) * |r|
  {
    if |s| == 0 then r else r + [s[0]] + InsertEverywhere(s[1..], r)
  }

  /** `String.replace(CharSequence target, CharSequence replacement)`: scans left to right
      and replaces each occurrence of `t` that does not overlap an earlier replaced one. */
  function Replace(s: string, t: string, r: string): string
    decreases |s|
  {
    if |t| == 0 then InsertEverywhere(s, r)
    else if |s| < |t| then s
    else if s[..|t|] == t then r + Replace(s[|t|..], t, r)
    else [s[0]] + Replace(s[1..], t, r)
  }

  /** `parts` joined with `sep` between neighbours (as `String.join`). */
  function Join(parts: seq<string>, sep: string): string {
    if |parts| == 0 then ""
    else if |parts| == 1 then parts[0]
    else parts[0] + sep + Join(parts[1..], sep)
  }

  /** No occurrence of `t` starts inside `p` when `p` is followed by `t`: the left-to-right
      scan over `p + t + ...` finds its first match exactly after `p`. */
  predicate NoEarlyMatch(p: string, t: string) {
    forall j: nat :: j < |p| ==> !OccursAt(p + t, j, t)
  }

  /** The decomposition `Join(parts, t)` is the one Java's scan finds. */
  predicate LeftmostParts(parts: seq<string>, t: string) {
    |parts| >= 1 &&
    (forall i :: 0 <= i < |parts| - 1 ==> NoEarlyMatch(parts[i], t)) &&
    !Contains(parts[|parts| - 1], t)
  }

  lemma {:induction false} ReplaceAbsent(s: string, t: string, r: string)
    requires |t| > 0 && !Contains(s, t)
    ensures Replace(s, t, r) == s
    decreases |s|
  {
    if |s| >= |t| {
      assert !OccursAt(s, 0, t);
      assert s[..|t|] != t;
      forall i | 0 <= i <= |s[1..]| ensures !OccursAt(s[1..], i, t) {
        if OccursAt(s[1..], i, t) {
          assert s[1..][i..i + |t|] == s[i + 1..i + 1 + |t|];
          assert OccursAt(s, i + 1, t);
        }
      }
      ReplaceAbsent(s[1..], t, r);
      assert [s[0]] + s[1..] == s;
    }
  }

  lemma {:induction false} ReplacePrefix(p: string, t: string, r: string, rest: string)
    requires |t| > 0 && NoEarlyMatch(p, t)
    ensures Replace(p + t + rest, t, r) == p + r + Replace(rest, t, r)
    decreases |p|
  {
    var s := p + t + rest;
    if |p| == 0 {
      assert s == t + rest;
      assert s[..|t|] == t;
      assert s[|t|..] == rest;
    } else {
      NoEarlyMatchTail(p, t, rest);
      calc {
        Replace(s, t, r);
        { ReplaceSkipsHead(s, t, r); }
        [s[0]] + Replace(s[1..], t, r);
        { DropHead(p, t + rest);
          assert p + t + rest == p + (t + rest);
          assert p[1..] + t + rest == p[1..] + (t + rest); }
        [p[0]] + Replace(p[1..] + t + rest, t, r);
        { ReplacePrefix(p[1..], t, r, rest); }
        [p[0]] + (p[1..] + r + Replace(rest, t, r));
        { assert [p[0]] + p[1..] == p; }
        p + r + Replace(rest, t, r);
      }
    }
  }

  lemma ConcatAssoc(a: string, b: string, c: string)
    ensures a + (b + c) == (a + b) + c
  {
  }

  /** Dropping the first character of `p` keeps `NoEarlyMatch`, and the scan over
      `p + t + rest` does not match at position 0. */
  lemma NoEarlyMatchTail(p: string, t: string, rest: string)
    requires |t| > 0 && |p| > 0 && NoEarlyMatch(p, t)
    ensures NoEarlyMatch(p[1..], t)
    ensures (p + t + rest)[..|t|] != t
  {
    assert !OccursAt(p + t, 0, t);
    assert (p + t)[..|t|] == (p + t + rest)[..|t|];
    forall j: nat | j < |p[1..]| ensures !OccursAt(p[1..] + t, j, t) {
      assert (p[1..] + t)[j..j + |t|] == (p + t)[j + 1..j + 1 + |t|];
      assert !OccursAt(p + t, j + 1, t);
    }
  }

  lemma DropHead(p: string, q: string)
    requires |p| > 0
    ensures (p + q)[1..] == p[1..] + q
  {
  }

  /** Where `t` does not start the text, the scan keeps the first character. */
  lemma ReplaceSkipsHead(s: string, t: string, r: string)
    requires |t| > 0 && |s| >= |t| && s[..|t|] != t
    ensures Replace(s, t, r) == [s[0]] + Replace(s[1..], t, r)
  {
  }

  /** Every occurrence found by the left-to-right scan is replaced, and nothing else is:
      replacing `t` in `Join(parts, t)` yields `Join(parts, r)`. */
  lemma {:induction false} ReplaceJoin(parts: seq<string>, t: string, r: string)
    requires |t| > 0 && LeftmostParts(parts, t)
    ensures Replace(Join(parts, t), t, r) == Join(parts, r)
    decreases |parts|
  {
    if |parts| == 1 {
      ReplaceAbsent(parts[0], t, r);
    } else {
      var tail := parts[1..];
      assert LeftmostParts(tail, t) by {
        assert tail[|tail| - 1] == parts[|parts| - 1];
        forall i | 0 <= i < |tail| - 1 ensures NoEarlyMatch(tail[i], t) {
          assert tail[i] == parts[i + 1];
        }
      }
      ReplacePrefix(parts[0], t, r, Join(tail, t));
      ReplaceJoin(tail, t, r);
    }
  }

  /** Replacing a string by itself changes nothing. */
  lemma {:induction false} ReplaceSelf(s: string, t: string)
    requires |t| > 0
    ensures Replace(s, t, t) == s
    decreases |s|
  {
    if |s| >= |t| {
      if s[..|t|] == t {
        ReplaceSelf(s[|t|..], t);
        assert s[..|t|] + s[|t|..] == s;
      } else {
        ReplaceSelf(s[1..], t);
        assert [s[0]] + s[1..] == s;
      }
    }
  }

  /** The scan of `x + y` splits at the seam unless a two-character target spans it. */
  predicate Straddles(x: string, y: string, t: string) {
    |t| == 2 && |x| > 0 && |y| > 0 && x[|x| - 1] == t[0] && y[0] == t[1]
  }

  lemma {:induction false} ReplaceConcat(x: string, y: string, t: string, r: string)
    requires 1 <= |t| <= 2 && !Straddles(x, y, t)
    ensures Replace(x + y, t, r) == Replace(x, t, r) + Replace(y, t, r)
    decreases |x|
  {
    if |x| == 0 {
      assert x + y == y;
    } else if |x| < |t| {
      ReplaceConcatShort(x, y, t, r);
    } else if x[..|t|] == t {
      var x' := x[|t|..];
      calc {
        Replace(x + y, t, r);
        { assert (x + y)[..|t|] == t; assert (x + y)[|t|..] == x' + y; }
        r + Replace(x' + y, t, r);
        { ReplaceConcat(x', y, t, r); }
        r + Replace(x', t, r) + Replace(y, t, r);
      }
    } else {
      var x' := x[1..];
      calc {
        Replace(x + y, t, r);
        { assert (x + y)[..|t|] == x[..|t|]; assert (x + y)[1..] == x' + y; }
        [x[0]] + Replace(x' + y, t, r);
        { ReplaceConcat(x', y, t, r); }
        [x[0]] + Replace(x', t, r) + Replace(y, t, r);
      }
    }
  }

  /** The seam case of `ReplaceConcat`: a single character before a two-character target. */
  lemma ReplaceConcatShort(x: string, y: string, t: string, r: string)
    requires |t| == 2 && |x| == 1 && !Straddles(x, y, t)
    ensures Replace(x + y, t, r) == Replace(x, t, r) + Replace(y, t, r)
  {
    assert Replace(x, t, r) == x;
    if |y| > 0 {
      assert (x + y)[..2] == [x[0], y[0]];
      assert (x + y)[..2] != t;
      assert (x + y)[1..] == y;
    } else {
      assert x + y == x;
    }
  }

  /** When the replacement ends like the target, replacing keeps the last character. */
  lemma {:induction false} ReplaceKeepsLast(x: string, t: string, r: string)
    requires |x| > 0 && |t| > 0 && |r| > 0 && r[|r| - 1] == t[|t| - 1]
    ensures EndsWithLastOf(Replace(x, t, r), x)
    decreases |x|
  {
    if |x| < |t| {
    } else if x[..|t|] == t {
      if |x| > |t| {
        ReplaceKeepsLast(x[|t|..], t, r);
      }
      KeepsLastMatchStep(x, t, r);
    } else {
      if |x| > 1 {
        ReplaceKeepsLast(x[1..], t, r);
      }
      KeepsLastSkipStep(x, t, r);
    }
  }

  /** `o` is not empty and ends with the last character of `x`. */
  predicate EndsWithLastOf(o: string, x: string)
    requires |x| > 0
  {
    |o| > 0 && o[|o| - 1] == x[|x| - 1]
  }

  lemma KeepsLastMatchStep(x: string, t: string, r: string)
    requires 0 < |t| <= |x| && x[..|t|] == t && |r| > 0 && r[|r| - 1] == t[|t| - 1]
    requires |x| > |t| ==> EndsWithLastOf(Replace(x[|t|..], t, r), x[|t|..])
    ensures EndsWithLastOf(Replace(x, t, r), x)
  {
    var o := Replace(x[|t|..], t, r);
    assert Replace(x, t, r) == r + o;
    if |x| == |t| {
      assert x[|x| - 1] == t[|t| - 1];
      assert r + o == r;
    }
  }

  lemma KeepsLastSkipStep(x: string, t: string, r: string)
    requires 0 < |t| <= |x| && x[..|t|] != t
    requires |x| > 1 ==> EndsWithLastOf(Replace(x[1..], t, r), x[1..])
    ensures EndsWithLastOf(Replace(x, t, r), x)
  {
    var o := Replace(x[1..], t, r);
    assert Replace(x, t, r) == [x[0]] + o;
    if |x| == 1 {
      assert [x[0]] + o == x;
    }
  }

  /** Replacing can only turn the first character into the replacement's first character. */
  lemma ReplaceFirst(x: string, t: string, r: string)
    requires |x| > 0 && |t| > 0 && |r| > 0
    ensures |Replace(x, t, r)| > 0
    ensures Replace(x, t, r)[0] == x[0] || Replace(x, t, r)[0] == r[0]
  {
  }

  /** `Character.isWhitespace`: the controls U+0009 to U+000D and U+001C to U+001F, and the
      space, line and paragraph separators except the non-breaking spaces U+00A0, U+2007
      and U+202F. */
  predicate IsWhitespace(c: char) {
    ('\t' <= c <= '\r') || ('\U{1C}' <= c <= '\U{1F}') || c == ' ' || c == '\U{1680}'
    || ('\U{2000}' <= c <= '\U{2006}') || ('\U{2008}' <= c <= '\U{200A}')
    || c == '\U{2028}' || c == '\U{2029}' || c == '\U{205F}' || c == '\U{3000}'
  }

  /** `StringUtils.isBlank`: null, empty or whitespace only. */
  predicate IsBlank(s: Option<string>) {
    s.None? || forall i :: 0 <= i < |s.value| ==> IsWhitespace(s.value[i])
  }

  function ToLowerChar(c: char): char {
    if 'A' <= c <= 'Z' then (c as int + 32) as char else c
  }

  /** `String.toLowerCase` on ASCII letters. */
  function ToLower(s: string): (r: string)
    ensures |r| == |s|
    ensures forall i :: 0 <= i < |s| ==> r[i] == ToLowerChar(s[i])
  {
    if |s| == 0 then "" else [ToLowerChar(s[0])] + ToLower(s[1..])
  }

  /* ---------------- Splitting ---------------- */

  /** Splits at every `c`, keeping all pieces (including empty ones). */
  function SplitAll(s: string, c: char): (parts: seq<string>)
    ensures |parts| >= 1
    ensures Join(parts, [c]) == s
    ensures forall k :: 0 <= k < |parts| ==> NoChar(parts[k], c)
    decreases |s|
  {
    if |s| == 0 then [""]
    else if s[0] == c then [""] + SplitAll(s[1..], c)
    else
      var rest := SplitAll(s[1..], c);
      [[s[0]] + rest[0]] + rest[1..]
  }

  function DropTrailingEmpty(parts: seq<string>): (r: seq<string>)
    ensures |r| <= |parts| && r == parts[..|r|]
    ensures |r| > 0 ==> r[|r| - 1] != ""
    ensures forall k :: |r| <= k < |parts| ==> parts[k] == ""
  {
    if |parts| == 0 then []
    else if parts[|parts| - 1] == "" then DropTrailingEmpty(parts[..|parts| - 1])
    else parts
  }

  /** `String.split` with a one-character literal pattern and limit 0: a string without
      the separator (the empty one included) is its own only part; otherwise the trailing
      empty parts are dropped. */
  function Split(s: string, c: char): seq<string> {
    if NoChar(s, c) then [s] else DropTrailingEmpty(SplitAll(s, c))
  }

  /** Splitting `a + c + b` where neither part contains `c` and `b` is non-empty
      gives exactly the two parts. */
  lemma SplitTwo(a: string, b: string, c: char)
    requires NoChar(a, c) && NoChar(b, c) && |b| > 0
    ensures Split(a + [c] + b, c) == [a, b]
  {
    SplitNoChar(b, c);
    SplitPrefix(a, [c] + b, c, [b]);
    assert a + [c] + b == a + ([c] + b);
    assert SplitAll([c] + b, c) == [""] + [b];
    assert (a + [c] + b)[|a|] == c;
  }

  lemma {:induction false} SplitNoChar(s: string, c: char)
    requires NoChar(s, c)
    ensures SplitAll(s, c) == [s]
    decreases |s|
  {
    if |s| > 0 {
      SplitNoChar(s[1..], c);
      assert [s[0]] + s[1..] == s;
    }
  }

  lemma {:induction false} SplitPrefix(a: string, rest: string, c: char, tail: seq<string>)
    requires NoChar(a, c) && |rest| > 0 && rest[0] == c
    requires SplitAll(rest, c) == [""] + tail
    ensures SplitAll(a + rest, c) == [a] + tail
    decreases |a|
  {
    if |a| == 0 {
      assert a + rest == rest;
    } else {
      assert (a + rest)[1..] == a[1..] + rest;
      SplitPrefix(a[1..], rest, c, tail);
      assert [a[0]] + a[1..] == a;
    }
  }

  /* ---------------- Integers ---------------- */

  const LongMin: int := -0x8000_0000_0000_0000
  const LongMax: int := 0x7FFF_FFFF_FFFF_FFFF

  predicate IsDigit(c: char) { '0' <= c <= '9' }

  function DigitChar(d: nat): char
    requires d < 10
  {
    ('0' as int + d) as char
  }

  /** Decimal digits of `n`, most significant first, no leading zero. */
  function Digits(n: nat): (ds: string)
    ensures |ds| >= 1
    ensures forall i :: 0 <= i < |ds| ==> IsDigit(ds[i])
  {
    if n < 10 then [DigitChar(n)] else Digits(n / 10) + [DigitChar(n % 10)]
  }

  /** `String.valueOf(int)` / `String.valueOf(long)`. */
  function IntToString(n: int): string {
    if n < 0 then "-" + Digits(-n) else Digits(n)
  }

  /** The value of a digit string, accumulated left to right. */
  function DigitsValue(ds: string): nat
    requires forall i :: 0 <= i < |ds| ==> IsDigit(ds[i])
  {
    if |ds| == 0 then 0
    else
      var d := ds[|ds| - 1] as int - '0' as int;
      assert IsDigit(ds[|ds| - 1]);
      DigitsValue(ds[..|ds| - 1]) * 10 + d
  }

  predicate AllDigits(ds: string) {
    |ds| >= 1 && forall i :: 0 <= i < |ds| ==> IsDigit(ds[i])
  }

  /** `Long.parseLong` on ASCII digits: an optional sign, at least one digit, and a
      value inside the signed 64-bit range; anything else is a `NumberFormatException`. */
  function ParseLong(s: string): (r: Option<int>)
    ensures r.Some? ==> LongMin <= r.value <= LongMax
    ensures r.Some? ==> |s| > 0 && (IsDigit(s[0]) || s[0] == '-' || s[0] == '+')
  {
    if |s| == 0 then None
    else if s[0] == '-' || s[0] == '+' then
      var ds := s[1..];
      if !AllDigits(ds) then None
      else
        var v: int := if s[0] == '-' then -(DigitsValue(ds) as int) else DigitsValue(ds);
        if LongMin <= v <= LongMax then Some(v) else None
    else if !AllDigits(s) then None
    else if DigitsValue(s) <= LongMax then Some(DigitsValue(s)) else None
  }

  lemma {:induction false} DigitsRoundTrip(n: nat)
    ensures DigitsValue(Digits(n)) == n
    decreases n
  {
    if n >= 10 {
      var ds := Digits(n / 10) + [DigitChar(n % 10)];
      assert ds[..|ds| - 1] == Digits(n / 10);
      DigitsRoundTrip(n / 10);
    }
  }

  /** `Long.parseLong(String.valueOf(n)) == n` for every `long` value. */
  lemma ParseLongIntToString(n: int)
    requires LongMin <= n <= LongMax
    ensures ParseLong(IntToString(n)) == Some(n)
  {
    if n < 0 {
      DigitsRoundTrip(-n);
      assert IntToString(n)[1..] == Digits(-n);
    } else {
      DigitsRoundTrip(n);
    }
  }
}

=== FILE: jira_utils.dfy ===
/** `JiraUtils`: issue URLs, error messages, the JQL queries, building the input of a new
    issue from the templates and the job's configured fields, creating an issue without
    duplicating an open one, finding the issues of a test, and dropping links to issues
    that were resolved meanwhile.  The Jira server is the `Tracker` oracle: each call gives
    a result or a REST error, and `create` gives the key of a new issue. */
module JiraUtils {
  import opened Wrappers
  import opened JavaStrings
  import opened EnvVars
  import opened TestResults
  import opened Descriptor
  import opened VariableExpander
  import opened FieldSpecs
  import opened JqlEscape
  import M = TestToIssueMapping
  import C = JobConfigMapping

  /* ---------- The tracker ---------- */

  /** One `ErrorCollection` of a `RestClientException`; `errors` are the values of its
      error map in iteration order. */
  datatype ErrorCollection = ErrorCollection(status: Option<int>, messages: seq<string>, errors: seq<string>)
  datatype RestError = RestError(collections: seq<ErrorCollection>)

  /** A search hit: the issue's key and summary. */
  datatype Hit = Hit(key: string, summary: string)
  datatype Transition = Transition(id: int, name: string)

  /** What `IssueInputBuilder.build()` yields: project key, issue type and the field
      inputs by id (a later input for the same id replaces the earlier one). */
  datatype IssueInput = IssueInput(projectKey: Option<string>, issueType: Option<int>,
                                   fields: map<string, FieldValue>)

  /** The REST client as an oracle.  `valueText` is the client library's `toString` of
      field values other than plain strings. */
  datatype Tracker = Tracker(
    search: string -> Result<seq<Hit>, RestError>,
    create: IssueInput -> Result<string, RestError>,
    fetch: string -> Result<(), RestError>,
    attach: (string, string, string) -> Result<(), RestError>,
    transitions: string -> Result<seq<Transition>, RestError>,
    valueText: FieldValue -> string)

  /** What can end a call early: a REST error, or one of the null dereferences of the
      source (no configured fields for the job, a matrix project without a map of its own,
      a resolved issue whose key was not asked for) and rendering failures. */
  datatype UtilError =
    | Rest(e: RestError)
    | NoJobConfig
    | RenderFailed(cause: RenderError)
    | NoMapForJob
    | UnknownResolvedKey(key: string)

  /** The two stores the issue logic reads and writes. */
  datatype World = World(links: M.Store, configs: C.Store)

  /* ---------- URLs and messages ---------- */

  /** `getIssueURL`: the server address, a `/` unless it already ends in one, `browse/`
      and the key; an empty address fails (`charAt(-1)`). */
  function GetIssueUrl(serverUrl: string, issueKey: string): (r: Option<string>)
    ensures r.Some? <==> serverUrl != ""
    ensures r.Some? ==> EndsWith(r.value, "/browse/" + issueKey)
    ensures r.Some? ==> |r.value| > |serverUrl| && r.value[..|serverUrl|] == serverUrl
    ensures r.Some? && EndsWith(serverUrl, "/") ==> |r.value| == |serverUrl| + 7 + |issueKey|
  {
    if serverUrl == "" then None
    else
      var r := serverUrl + (if serverUrl[|serverUrl| - 1] == '/' then "" else "/") + "browse/" + issueKey;
      assert r[|r| - |"/browse/" + issueKey|..] == "/browse/" + issueKey;
      assert r[..|serverUrl|] == serverUrl;
      Some(r)
  }

  /** With or without the trailing `/`, the server address gives the same URL. */
  lemma GetIssueUrlSlash(serverUrl: string, issueKey: string)
    requires serverUrl != "" && serverUrl[|serverUrl| - 1] != '/'
    ensures GetIssueUrl(serverUrl + "/", issueKey) == GetIssueUrl(serverUrl, issueKey)
    ensures GetIssueUrl(serverUrl, issueKey) == Some(serverUrl + "/browse/" + issueKey)
  {
    assert (serverUrl + "/")[|serverUrl + "/"| - 1] == '/';
    assert serverUrl + "/" + "" + "browse/" + issueKey == serverUrl + "/browse/" + issueKey;
    assert serverUrl + "/" + "browse/" + issueKey == serverUrl + "/browse/" + issueKey;
  }

  function StatusText(status: Option<int>): string {
    if status.Some? then IntToString(status.value) else "null"
  }

  /** Each line preceded by `newLine`. */
  function Lines(xs: seq<string>, newLine: string): string {
    if |xs| == 0 then "" else newLine + xs[0] + Lines(xs[1..], newLine)
  }

  /** The text of one collection: `Error <status>`, then its messages, then its errors. */
  function CollectionText(c: ErrorCollection, newLine: string): (r: string)
    ensures |r| >= 6 && r[..6] == "Error "
  {
    "Error " + StatusText(c.status) + Lines(c.messages, newLine) + Lines(c.errors, newLine)
  }

  /** `getErrorMessage`: the collections in order, a `newLine` before each but the first
      (the builder is never empty after the first). */
  function ErrorMessage(cs: seq<ErrorCollection>, newLine: string): string
    decreases |cs|
  {
    if |cs| == 0 then ""
    else
      var prefix := ErrorMessage(cs[..|cs| - 1], newLine);
      (if |prefix| != 0 then prefix + newLine else prefix) + CollectionText(cs[|cs| - 1], newLine)
  }

  function Texts(cs: seq<ErrorCollection>, newLine: string): (r: seq<string>)
    ensures |r| == |cs|
    ensures forall i :: 0 <= i < |cs| ==> r[i] == CollectionText(cs[i], newLine)
  {
    if |cs| == 0 then [] else [CollectionText(cs[0], newLine)] + Texts(cs[1..], newLine)
  }

  lemma {:induction false} JoinSnoc(parts: seq<string>, x: string, sep: string)
    ensures Join(parts + [x], sep) == if |parts| == 0 then x else Join(parts, sep) + sep + x
    decreases |parts|
  {
    if |parts| > 1 {
      assert (parts + [x])[1..] == parts[1..] + [x];
      JoinSnoc(parts[1..], x, sep);
    } else if |parts| == 1 {
      assert (parts + [x])[1..] == [x];
    }
  }

  /** The message is the collections' texts joined by `newLine`; no collections give "". */
  lemma {:induction false} ErrorMessageIsJoin(cs: seq<ErrorCollection>, newLine: string)
    ensures ErrorMessage(cs, newLine) == Join(Texts(cs, newLine), newLine)
    decreases |cs|
  {
    if |cs| > 0 {
      var init := cs[..|cs| - 1];
      var t := CollectionText(cs[|cs| - 1], newLine);
      var p := ErrorMessage(init, newLine);
      ErrorMessageIsJoin(init, newLine);
      ErrorMessageEmpty(init, newLine);
      TextsSnoc(cs, newLine);
      JoinSnoc(Texts(init, newLine), t, newLine);
    }
  }

  lemma TextsSnoc(cs: seq<ErrorCollection>, newLine: string)
    requires |cs| > 0
    ensures Texts(cs, newLine) == Texts(cs[..|cs| - 1], newLine) + [CollectionText(cs[|cs| - 1], newLine)]
  {
    var a, b := Texts(cs, newLine), Texts(cs[..|cs| - 1], newLine) + [CollectionText(cs[|cs| - 1], newLine)];
    assert |a| == |b|;
    forall i | 0 <= i < |a| ensures a[i] == b[i] {
      if i < |cs| - 1 {
        assert cs[..|cs| - 1][i] == cs[i];
      }
    }
  }

  /** The message is empty exactly when there are no collections. */
  lemma ErrorMessageEmpty(cs: seq<ErrorCollection>, newLine: string)
    ensures |ErrorMessage(cs, newLine)| == 0 <==> |cs| == 0
  {
    if |cs| > 0 {
      var t := CollectionText(cs[|cs| - 1], newLine);
      assert |t| >= 6;
    }
  }

  /* ---------- JQL ---------- */

  /** `findIssues`: open issues of the project whose text contains the summary, escaped
      by `escapeJQL` as written. */
  function FindIssuesJql(projectKey: Option<string>, summary: string): string {
    "resolution = \"unresolved\" and project = \"" + projectKey.GetOr("null") + "\" and text ~ \""
      + EscapeJql(summary) + "\""
  }

  /** `findUnresolvedJiraIssues`: the listed issues that are NOT unresolved any more. */
  function ResolvedJql(keys: seq<string>): string {
    "key in (" + Join(keys, ",") + ") and resolution != \"unresolved\" "
  }

  function Search(tr: Tracker, jql: string): Result<seq<Hit>, UtilError> {
    match tr.search(jql)
    case Success(hits) => Success(hits)
    case Failure(e) => Failure(Rest(e))
  }

  /* ---------- The issue input ---------- */

  /** `JiraTestDataPublisherDescriptor.templates`: the summary and description fields,
      each the expansion of the matching global template. */
  const Templates: seq<FieldSpec> := [
    StringField(SummaryFieldName, Placeholder("DEFAULT_SUMMARY")),
    StringField(DescriptionFieldName, Placeholder("DEFAULT_DESCRIPTION"))
  ]

  /** Every rendered input carries its field's key. */
  lemma RenderId(fuel: nat, g: Descriptor, spec: FieldSpec, test: Option<TestResult>, env: EnvVars)
    ensures var r := Render(fuel, g, Construct(spec), test, env);
            r.Success? ==> r.value.id == spec.fieldKey
    ensures !spec.IsSelectable() || Render(fuel, g, Construct(spec), test, env).Success?
  {
  }

  /** `setFieldInput` for each field in order. */
  function ApplyFields(fuel: nat, g: Descriptor, fields: map<string, FieldValue>, specs: seq<FieldSpec>,
                       test: Option<TestResult>, env: EnvVars): Result<map<string, FieldValue>, UtilError>
    decreases |specs|
  {
    if |specs| == 0 then Success(fields)
    else
      match Render(fuel, g, Construct(specs[0]), test, env)
      case Failure(e) => Failure(RenderFailed(e))
      case Success(fi) => ApplyFields(fuel, g, fields[fi.id := fi.value], specs[1..], test, env)
  }

  /** The job trigger (a build) versus a request from the test's badge. */
  datatype Trigger = JobRun | Badge

  /** `createIssueInput(project, test, envVars, trigger)`: project key and issue type of the
      job's configuration; the templates first, then, for a build only, the configured
      fields, which override the templates' fields of the same id. */
  function CreateIssueInput(fuel: nat, g: Descriptor, cs: C.Store, project: string, test: TestResult,
                            env: EnvVars, trigger: Trigger): Result<(IssueInput, C.Store), UtilError>
  {
    var (pk, cs1) := C.GetProjectKey(cs, project);
    var (it, cs2) := C.GetIssueType(cs1, project);
    match ApplyFields(fuel, g, map[], Templates, Some(test), env)
    case Failure(e) => Failure(e)
    case Success(base) =>
      if trigger.Badge? then Success((IssueInput(pk, it, base), cs2))
      else
        var (configs, cs3) := C.GetConfig(cs2, project);
        if configs.None? then Failure(NoJobConfig)
        else
          match ApplyFields(fuel, g, base, configs.value, Some(test), env)
          case Failure(e) => Failure(e)
          case Success(fields) => Success((IssueInput(pk, it, fields), cs3))
  }

  /** `issueInput.getField(summary).getValue().toString()`. */
  function SummaryText(tr: Tracker, input: IssueInput): string {
    if SummaryFieldName in input.fields then
      match input.fields[SummaryFieldName]
      case Text(s) => s
      case v => tr.valueText(v)
    else "null"
  }

  /* ---------- Creating an issue ---------- */

  /** `out` is attached under `name` exactly when it is not blank, and with its own text. */
  predicate AttachedAs(r: seq<(string, string)>, name: string, out: Option<string>) {
    ((exists p :: p in r && p.0 == name) <==> !IsBlank(out))
    && forall p :: p in r && p.0 == name ==> out == Some(p.1)
  }

  /** The non-blank outputs of a test, each attached under its file name. */
  function Attachments(t: CaseResult): (r: seq<(string, string)>)
    ensures forall p :: p in r ==> p.1 != "" && !IsBlank(Some(p.1))
  {
    Attach("stderr.out", t.data.stderr) + Attach("stdout.out", t.data.stdout)
    + Attach("stacktrace.out", t.data.errorStackTrace) + Attach("details.out", t.data.errorDetails)
  }

  /** The standard error and output of a test are attached under their own file names
      exactly when they are not blank, with their own text. */
  lemma AttachmentsOutputs(t: CaseResult)
    ensures AttachedAs(Attachments(t), "stderr.out", t.data.stderr)
    ensures AttachedAs(Attachments(t), "stdout.out", t.data.stdout)
  {
    var e := Attach("stderr.out", t.data.stderr);
    var o := Attach("stdout.out", t.data.stdout);
    var s := Attach("stacktrace.out", t.data.errorStackTrace);
    var d := Attach("details.out", t.data.errorDetails);
    assert "stderr.out"[3] != "stdout.out"[3];
    AttachedAmong(e, o + s + d, e + o + s + d, "stderr.out", t.data.stderr);
    AttachedAmong(o, e + s + d, e + o + s + d, "stdout.out", t.data.stdout);
  }

  /** The stack trace and error details of a failure are attached under their own file
      names exactly when they are not blank, with their own text. */
  lemma AttachmentsFailure(t: CaseResult)
    ensures AttachedAs(Attachments(t), "stacktrace.out", t.data.errorStackTrace)
    ensures AttachedAs(Attachments(t), "details.out", t.data.errorDetails)
  {
    var e := Attach("stderr.out", t.data.stderr);
    var o := Attach("stdout.out", t.data.stdout);
    var s := Attach("stacktrace.out", t.data.errorStackTrace);
    var d := Attach("details.out", t.data.errorDetails);
    AttachedAmong(s, e + o + d, e + o + s + d, "stacktrace.out", t.data.errorStackTrace);
    AttachedAmong(d, e + o + s, e + o + s + d, "details.out", t.data.errorDetails);
  }

  /** A file stays attached as it was when the others, under other names, are put around it. */
  lemma AttachedAmong(x: seq<(string, string)>, rest: seq<(string, string)>, r: seq<(string, string)>,
                      name: string, out: Option<string>)
    requires AttachedAs(x, name, out)
    requires forall p :: p in rest ==> p.0 != name
    requires forall p :: p in r <==> p in x || p in rest
    ensures AttachedAs(r, name, out)
  {
  }

  /** The file `name` holding `out`, unless `out` is blank. */
  function Attach(name: string, out: Option<string>): (r: seq<(string, string)>)
    ensures |r| <= 1 && (|r| == 1 <==> !IsBlank(out))
    ensures forall p :: p in r ==> p.0 == name && out == Some(p.1)
    ensures AttachedAs(r, name, out)
  {
    if IsBlank(out) then [] else [(name, out.value)]
  }

  function AttachAll(tr: Tracker, key: string, files: seq<(string, string)>): Result<(), UtilError>
    decreases |files|
  {
    if |files| == 0 then Success(())
    else
      match tr.attach(key, files[0].0, files[0].1)
      case Failure(e) => Failure(Rest(e))
      case Success(_) => AttachAll(tr, key, files[1..])
  }

  /** `createIssueInput(issueInput, test)`: create, read the issue back, attach the outputs. */
  function CreateOnServer(tr: Tracker, input: IssueInput, t: CaseResult): Result<string, UtilError> {
    match tr.create(input)
    case Failure(e) => Failure(Rest(e))
    case Success(key) =>
      match tr.fetch(key)
      case Failure(e) => Failure(Rest(e))
      case Success(_) =>
        match AttachAll(tr, key, Attachments(t))
        case Failure(e) => Failure(e)
        case Success(_) => Success(key)
  }

  /** `addTestToIssueMapping`. */
  function Link(links: M.Store, job: M.Job, testId: string, key: string): Result<M.Store, UtilError> {
    match M.Add(links, job, testId, key)
    case Success(st) => Success(st)
    case Failure(_) => Failure(NoMapForJob)
  }

  /** The keys of the hits whose summary equals the text, in order. */
  function Duplicates(hits: seq<Hit>, text: string): (r: seq<string>)
    ensures |r| <= |hits|
    ensures forall k :: k in r <==> exists i :: 0 <= i < |hits| && hits[i].summary == text && hits[i].key == k
  {
    if |hits| == 0 then []
    else
      var rest := Duplicates(hits[1..], text);
      assert forall i :: 1 <= i < |hits| ==> hits[i] == hits[1..][i - 1];
      if hits[0].summary == text then [hits[0].key] + rest else rest
  }

  /** Each key linked in turn; the last one stays. */
  function LinkAll(links: M.Store, job: M.Job, testId: string, keys: seq<string>): Result<M.Store, UtilError>
    decreases |keys|
  {
    if |keys| == 0 then Success(links)
    else
      match Link(links, job, testId, keys[0])
      case Failure(e) => Failure(e)
      case Success(l1) => LinkAll(l1, job, testId, keys[1..])
  }

  /** `createIssue(job, project, envVars, test, trigger)`: nothing when the test is already
      linked; otherwise the input is built and open issues with the same summary are
      searched for (`Settle` decides what happens next). */
  function CreateIssue(fuel: nat, g: Descriptor, tr: Tracker, w: World, job: M.Job, project: string,
                       env: EnvVars, test: CaseResult, trigger: Trigger): Result<(Option<string>, World), UtilError>
  {
    var (linked, links1) := M.GetTestIssueKey(w.links, job, test.info.id);
    if linked.Some? then Success((None, World(links1, w.configs)))
    else
      match CreateIssueInput(fuel, g, w.configs, project, OfCase(test), env, trigger)
      case Failure(e) => Failure(e)
      case Success((input, cs1)) =>
        var (pk, cs2) := C.GetProjectKey(cs1, project);
        match Search(tr, FindIssuesJql(pk, SummaryText(tr, input)))
        case Failure(e) => Failure(e)
        case Success(hits) => Settle(tr, World(links1, cs2), job, test, input, hits)
  }

  /** The end of `createIssue`: if some hit has exactly the rendered summary, each such hit
      is linked and nothing is created (`None`); else a new issue is created, linked and
      its key returned. */
  function Settle(tr: Tracker, w: World, job: M.Job, test: CaseResult, input: IssueInput, hits: seq<Hit>)
    : Result<(Option<string>, World), UtilError>
  {
    var dups := Duplicates(hits, SummaryText(tr, input));
    if |dups| > 0 then
      match LinkAll(w.links, job, test.info.id, dups)
      case Failure(e) => Failure(e)
      case Success(links2) => Success((None, World(links2, w.configs)))
    else
      match CreateOnServer(tr, input, test)
      case Failure(e) => Failure(e)
      case Success(key) =>
        match Link(w.links, job, test.info.id, key)
        case Failure(e) => Failure(e)
        case Success(links2) => Success((Some(key), World(links2, w.configs)))
  }

  /** `searchIssueKeys(job, envVars, test)`: the stored link when it is not blank, else the
      keys of the open issues whose text contains the summary. The job itself (not its
      parent project) is the one whose configuration is read. */
  function SearchIssueKeys(fuel: nat, g: Descriptor, tr: Tracker, w: World, job: M.Job, env: EnvVars,
                           test: CaseResult): Result<(set<string>, World), UtilError>
  {
    var (linked, links1) := M.GetTestIssueKey(w.links, job, test.info.id);
    if !IsBlank(linked) then Success(({linked.value}, World(links1, w.configs)))
    else
      match CreateIssueInput(fuel, g, w.configs, job.fullName, OfCase(test), env, JobRun)
      case Failure(e) => Failure(e)
      case Success((input, cs1)) =>
        var (pk, cs2) := C.GetProjectKey(cs1, job.fullName);
        match Search(tr, FindIssuesJql(pk, SummaryText(tr, input)))
        case Failure(e) => Failure(e)
        case Success(hits) => Success((set i | 0 <= i < |hits| :: hits[i].key, World(links1, cs2)))
  }

  /* ---------- Dropping links to resolved issues ---------- */

  /** Ids of the failed tests, in order. */
  function FailedIds(results: seq<CaseResult>): (r: seq<string>)
    ensures forall t :: t in r <==> exists i :: 0 <= i < |results| && results[i].IsFailed() && results[i].info.id == t
  {
    if |results| == 0 then []
    else
      var rest := FailedIds(results[1..]);
      assert forall i :: 1 <= i < |results| ==> results[i] == results[1..][i - 1];
      if results[0].IsFailed() then [results[0].info.id] + rest else rest
  }

  /** The loop collecting `jiraIds` and `keysToCheck` (key to test id; a later test linked
      to the same key replaces the earlier one). */
  function Collect(links: M.Store, job: M.Job, tests: seq<string>): (seq<string>, map<string, string>, M.Store)
    decreases |tests|
  {
    if |tests| == 0 then ([], map[], links)
    else
      var (ids, keys, l1) := Collect(links, job, tests[..|tests| - 1]);
      var t := tests[|tests| - 1];
      var (k, l2) := M.GetTestIssueKey(l1, job, t);
      if k.Some? then (ids + [k.value], keys[k.value := t], l2) else (ids, keys, l2)
  }

  /** For each resolved issue, the link of the test `keysToCheck` names for it. */
  function RemoveResolved(links: M.Store, job: string, keys: map<string, string>, hits: seq<Hit>)
    : Result<M.Store, UtilError>
    decreases |hits|
  {
    if |hits| == 0 then Success(links)
    else if hits[0].key !in keys then Failure(UnknownResolvedKey(hits[0].key))
    else RemoveResolved(M.Remove(links, job, keys[hits[0].key], hits[0].key), job, keys, hits[1..])
  }

  /** `cleanJobCacheFile`, as written: `false` when no failed test is linked; otherwise the
      links named by `keysToCheck` for every issue that is resolved are removed. */
  function CleanJobCacheFile(tr: Tracker, links: M.Store, results: seq<CaseResult>, job: M.Job)
    : Result<(bool, M.Store), UtilError>
  {
    var (ids, keys, l1) := Collect(links, job, FailedIds(results));
    if |keys| == 0 then Success((false, l1))
    else
      match Search(tr, ResolvedJql(ids))
      case Failure(e) => Failure(e)
      case Success(hits) =>
        match RemoveResolved(l1, job.fullName, keys, hits)
        case Failure(e) => Failure(e)
        case Success(l2) => Success((true, l2))
  }

  /** The pairs `(test, key)` of the failed tests that are linked, in order. */
  function LinkedPairs(links: M.Store, job: M.Job, tests: seq<string>): (seq<(string, string)>, M.Store)
    decreases |tests|
  {
    if |tests| == 0 then ([], links)
    else
      var (ps, l1) := LinkedPairs(links, job, tests[..|tests| - 1]);
      var t := tests[|tests| - 1];
      var (k, l2) := M.GetTestIssueKey(l1, job, t);
      if k.Some? then (ps + [(t, k.value)], l2) else (ps, l2)
  }

  function RemovePairs(links: M.Store, job: string, pairs: seq<(string, string)>, key: string): M.Store
    decreases |pairs|
  {
    if |pairs| == 0 then links
    else
      var l1 := if pairs[0].1 == key then M.Remove(links, job, pairs[0].0, key) else links;
      RemovePairs(l1, job, pairs[1..], key)
  }

  function RemoveAllResolved(links: M.Store, job: string, pairs: seq<(string, string)>, hits: seq<Hit>)
    : M.Store
    decreases |hits|
  {
    if |hits| == 0 then links
    else RemoveAllResolved(RemovePairs(links, job, pairs, hits[0].key), job, pairs, hits[1..])
  }

  /** `cleanJobCacheFile` as intended: every failed test linked to an issue that is now
      resolved loses its link, however many tests share that issue. */
  function CleanJobCacheFileIntended(tr: Tracker, links: M.Store, results: seq<CaseResult>, job: M.Job)
    : Result<(bool, M.Store), UtilError>
  {
    var (pairs, l1) := LinkedPairs(links, job, FailedIds(results));
    if |pairs| == 0 then Success((false, l1))
    else
      match Search(tr, ResolvedJql(seq(|pairs|, i requires 0 <= i < |pairs| => pairs[i].1)))
      case Failure(e) => Failure(e)
      case Success(hits) => Success((true, RemoveAllResolved(l1, job.fullName, pairs, hits)))
  }

  /* ---------- Properties ---------- */

  /** Field inputs are applied in order: a field is set when some spec has its key, the
      last such spec decides its value, and fields no spec names keep their value. */
  lemma ApplyFieldsLastWins(fuel: nat, g: Descriptor, fields: map<string, FieldValue>,
                            specs: seq<FieldSpec>, test: Option<TestResult>, env: EnvVars)
    requires ApplyFields(fuel, g, fields, specs, test, env).Success?
    ensures var r := ApplyFields(fuel, g, fields, specs, test, env).value;
            forall k :: k in r <==> k in fields || exists i :: 0 <= i < |specs| && specs[i].fieldKey == k
    ensures var r := ApplyFields(fuel, g, fields, specs, test, env).value;
            forall k :: k in fields && (forall i :: 0 <= i < |specs| ==> specs[i].fieldKey != k) ==> r[k] == fields[k]
    ensures var r := ApplyFields(fuel, g, fields, specs, test, env).value;
            forall i :: 0 <= i < |specs| && (forall j :: i < j < |specs| ==> specs[j].fieldKey != specs[i].fieldKey) ==>
              Render(fuel, g, Construct(specs[i]), test, env).Success?
              && r[specs[i].fieldKey] == Render(fuel, g, Construct(specs[i]), test, env).value.value
  {
    ApplyFieldsKeys(fuel, g, fields, specs, test, env);
    ApplyFieldsKeeps(fuel, g, fields, specs, test, env);
    ApplyFieldsLastSpec(fuel, g, fields, specs, test, env);
    forall i | 0 <= i < |specs| && (forall j :: i < j < |specs| ==> specs[j].fieldKey != specs[i].fieldKey)
      ensures LastOfKey(specs, i)
    {
    }
  }

  /** The fields set are the ones given and the ones some spec names. */
  lemma {:induction false} ApplyFieldsKeys(fuel: nat, g: Descriptor, fields: map<string, FieldValue>,
                                           specs: seq<FieldSpec>, test: Option<TestResult>, env: EnvVars)
    requires ApplyFields(fuel, g, fields, specs, test, env).Success?
    ensures var r := ApplyFields(fuel, g, fields, specs, test, env).value;
            forall k :: k in r <==> k in fields || exists i :: 0 <= i < |specs| && specs[i].fieldKey == k
    decreases |specs|
  {
    if |specs| > 0 {
      var fi := Render(fuel, g, Construct(specs[0]), test, env).value;
      RenderId(fuel, g, specs[0], test, env);
      var rest := specs[1..];
      ApplyFieldsKeys(fuel, g, fields[fi.id := fi.value], rest, test, env);
      var r := ApplyFields(fuel, g, fields, specs, test, env).value;
      forall k ensures k in r <==> k in fields || exists i :: 0 <= i < |specs| && specs[i].fieldKey == k {
        if exists i :: 0 <= i < |rest| && rest[i].fieldKey == k {
          var i :| 0 <= i < |rest| && rest[i].fieldKey == k;
          assert specs[i + 1].fieldKey == k;
        }
        if exists i :: 0 <= i < |specs| && specs[i].fieldKey == k {
          var i :| 0 <= i < |specs| && specs[i].fieldKey == k;
          if i > 0 {
            assert rest[i - 1].fieldKey == k;
          }
        }
      }
    }
  }

  /** A field no spec names keeps its value. */
  lemma {:induction false} ApplyFieldsKeeps(fuel: nat, g: Descriptor, fields: map<string, FieldValue>,
                                            specs: seq<FieldSpec>, test: Option<TestResult>, env: EnvVars)
    requires ApplyFields(fuel, g, fields, specs, test, env).Success?
    ensures var r := ApplyFields(fuel, g, fields, specs, test, env).value;
            forall k :: k in fields && (forall i :: 0 <= i < |specs| ==> specs[i].fieldKey != k) ==> k in r && r[k] == fields[k]
    decreases |specs|
  {
    if |specs| > 0 {
      var fi := Render(fuel, g, Construct(specs[0]), test, env).value;
      RenderId(fuel, g, specs[0], test, env);
      var rest := specs[1..];
      ApplyFieldsKeeps(fuel, g, fields[fi.id := fi.value], rest, test, env);
      assert forall i :: 1 <= i < |specs| ==> specs[i] == rest[i - 1];
    }
  }

  /** No spec after the `i`-th has its key. */
  predicate LastOfKey(specs: seq<FieldSpec>, i: nat)
    requires i < |specs|
  {
    forall j :: i < j < |specs| ==> specs[j].fieldKey != specs[i].fieldKey
  }

  /** The last spec of a key decides that field's value. */
  lemma {:induction false} ApplyFieldsLastSpec(fuel: nat, g: Descriptor, fields: map<string, FieldValue>,
                                               specs: seq<FieldSpec>, test: Option<TestResult>, env: EnvVars)
    requires ApplyFields(fuel, g, fields, specs, test, env).Success?
    ensures var r := ApplyFields(fuel, g, fields, specs, test, env).value;
            forall i :: 0 <= i < |specs| && LastOfKey(specs, i) ==>
              Render(fuel, g, Construct(specs[i]), test, env).Success?
              && specs[i].fieldKey in r
              && r[specs[i].fieldKey] == Render(fuel, g, Construct(specs[i]), test, env).value.value
    decreases |specs|
  {
    if |specs| > 0 {
      var fi := Render(fuel, g, Construct(specs[0]), test, env).value;
      RenderId(fuel, g, specs[0], test, env);
      var rest := specs[1..];
      var fields1 := fields[fi.id := fi.value];
      ApplyFieldsLastSpec(fuel, g, fields1, rest, test, env);
      var r := ApplyFields(fuel, g, fields, specs, test, env).value;
      assert r == ApplyFields(fuel, g, fields1, rest, test, env).value;
      forall i | 0 <= i < |specs| && LastOfKey(specs, i)
        ensures Render(fuel, g, Construct(specs[i]), test, env).Success?
                && specs[i].fieldKey in r
                && r[specs[i].fieldKey] == Render(fuel, g, Construct(specs[i]), test, env).value.value
      {
        if i > 0 {
          LastOfKeyTail(specs, i);
        } else {
          LastOfKeyHead(specs);
          ApplyFieldsKeeps(fuel, g, fields1, rest, test, env);
        }
      }
    }
  }

  lemma LastOfKeyTail(specs: seq<FieldSpec>, i: nat)
    requires 0 < i < |specs| && LastOfKey(specs, i)
    ensures specs[1..][i - 1] == specs[i] && LastOfKey(specs[1..], i - 1)
  {
    var rest := specs[1..];
    forall j | i - 1 < j < |rest| ensures rest[j].fieldKey != rest[i - 1].fieldKey {
      assert rest[j] == specs[j + 1];
    }
  }

  lemma LastOfKeyHead(specs: seq<FieldSpec>)
    requires 0 < |specs| && LastOfKey(specs, 0)
    ensures forall j :: 0 <= j < |specs[1..]| ==> specs[1..][j].fieldKey != specs[0].fieldKey
  {
    var rest := specs[1..];
    forall j | 0 <= j < |rest| ensures rest[j].fieldKey != specs[0].fieldKey {
      assert rest[j] == specs[j + 1];
    }
  }

  /** Every field renders exactly when the whole list applies. */
  lemma {:induction false} ApplyFieldsSucceeds(fuel: nat, g: Descriptor, fields: map<string, FieldValue>,
                                               specs: seq<FieldSpec>, test: Option<TestResult>, env: EnvVars)
    ensures ApplyFields(fuel, g, fields, specs, test, env).Success? <==>
              forall i :: 0 <= i < |specs| ==> Render(fuel, g, Construct(specs[i]), test, env).Success?
    decreases |specs|
  {
    if |specs| > 0 {
      var r0 := Render(fuel, g, Construct(specs[0]), test, env);
      assert forall i :: 1 <= i < |specs| ==> specs[i] == specs[1..][i - 1];
      if r0.Success? {
        ApplyFieldsSucceeds(fuel, g, fields[r0.value.id := r0.value.value], specs[1..], test, env);
      }
    }
  }

  /** The input of a new issue: project key and issue type of the job's configuration;
      from the badge exactly the two templates' fields; from a build the templates'
      fields overridden by the configured ones. */
  lemma CreateIssueInputLayers(fuel: nat, g: Descriptor, cs: C.Store, project: string, test: TestResult,
                               env: EnvVars, trigger: Trigger)
    ensures var r := CreateIssueInput(fuel, g, cs, project, test, env, trigger);
            r.Success? ==>
              var input := r.value.0;
              var base := ApplyFields(fuel, g, map[], Templates, Some(test), env);
              base.Success?
              && input.projectKey == C.GetProjectKey(cs, project).0
              && input.issueType == C.GetIssueType(C.GetProjectKey(cs, project).1, project).0
              && (trigger.Badge? ==> input.fields == base.value)
              && (trigger.JobRun? ==>
                    var configs := C.GetConfig(C.GetIssueType(C.GetProjectKey(cs, project).1, project).1, project).0;
                    configs.Some? && ApplyFields(fuel, g, base.value, configs.value, Some(test), env) == Success(input.fields))
  {
  }

  /** The templates set exactly the summary and the description. */
  lemma TemplateFields(fuel: nat, g: Descriptor, test: Option<TestResult>, env: EnvVars)
    requires ApplyFields(fuel, g, map[], Templates, test, env).Success?
    ensures ApplyFields(fuel, g, map[], Templates, test, env).value.Keys == {SummaryFieldName, DescriptionFieldName}
  {
    TwoFields(fuel, g, Templates, test, env);
  }

  lemma TwoFields(fuel: nat, g: Descriptor, specs: seq<FieldSpec>, test: Option<TestResult>, env: EnvVars)
    requires |specs| == 2 && ApplyFields(fuel, g, map[], specs, test, env).Success?
    ensures ApplyFields(fuel, g, map[], specs, test, env).value.Keys == {specs[0].fieldKey, specs[1].fieldKey}
  {
    ApplyFieldsLastWins(fuel, g, map[], specs, test, env);
  }

  /** A test that is already linked gets no new issue, whatever the tracker would say. */
  lemma CreateIssueAlreadyLinked(fuel: nat, g: Descriptor, tr: Tracker, w: World, job: M.Job, project: string,
                                 env: EnvVars, test: CaseResult, trigger: Trigger)
    requires M.GetTestIssueKey(w.links, job, test.info.id).0.Some?
    ensures CreateIssue(fuel, g, tr, w, job, project, env, test, trigger)
            == Success((None, World(M.GetTestIssueKey(w.links, job, test.info.id).1, w.configs)))
  {
  }

  /** Linking keys one after another leaves the last one linked. */
  lemma {:induction false} LinkAllLast(links: M.Store, n: string, shown: string, testId: string, keys: seq<string>)
    requires n in links.jobs && |keys| > 0
    ensures LinkAll(links, M.Plain(n, shown), testId, keys).Success?
    ensures var l := LinkAll(links, M.Plain(n, shown), testId, keys).value;
            n in l.jobs && l.jobs[n] == links.jobs[n][testId := keys[|keys| - 1]]
    decreases |keys|
  {
    var l1 := Link(links, M.Plain(n, shown), testId, keys[0]);
    M.AddPlainFrame(links, n, shown, testId, keys[0]);
    if |keys| > 1 {
      LinkAllLast(l1.value, n, shown, testId, keys[1..]);
    }
  }

  /** When the search finds open issues with exactly the rendered summary, each is linked
      in turn (the last one stays linked) and nothing is created; otherwise the issue the
      tracker creates is linked and its key returned; a failed creation links nothing. */
  lemma SettleDedup(tr: Tracker, w: World, n: string, shown: string, test: CaseResult, input: IssueInput, hits: seq<Hit>)
    requires n in w.links.jobs
    ensures var dups := Duplicates(hits, SummaryText(tr, input));
            var r := Settle(tr, w, M.Plain(n, shown), test, input, hits);
            (|dups| > 0 ==> r.Success? && r.value.0.None? && n in r.value.1.links.jobs
                            && r.value.1.links.jobs[n] == w.links.jobs[n][test.info.id := dups[|dups| - 1]])
            && (|dups| == 0 && CreateOnServer(tr, input, test).Success? ==>
                  var key := CreateOnServer(tr, input, test).value;
                  r.Success? && r.value.0 == Some(key) && tr.create(input) == Success(key)
                  && n in r.value.1.links.jobs && r.value.1.links.jobs[n] == w.links.jobs[n][test.info.id := key])
            && (|dups| == 0 && CreateOnServer(tr, input, test).Failure? ==> r.Failure?)
  {
    var dups := Duplicates(hits, SummaryText(tr, input));
    if |dups| > 0 {
      LinkAllLast(w.links, n, shown, test.info.id, dups);
    } else if CreateOnServer(tr, input, test).Success? {
      M.AddPlainFrame(w.links, n, shown, test.info.id, CreateOnServer(tr, input, test).value);
    }
  }

  /** A test not yet linked goes through the search, then `Settle`. */
  lemma CreateIssueUnlinked(fuel: nat, g: Descriptor, tr: Tracker, w: World, job: M.Job, project: string,
                            env: EnvVars, test: CaseResult, trigger: Trigger, input: IssueInput, cs1: C.Store)
    requires M.GetTestIssueKey(w.links, job, test.info.id).0.None?
    ensures CreateIssueInput(fuel, g, w.configs, project, OfCase(test), env, trigger) == Success((input, cs1)) ==>
              var links1 := M.GetTestIssueKey(w.links, job, test.info.id).1;
              var (pk, cs2) := C.GetProjectKey(cs1, project);
              var r := CreateIssue(fuel, g, tr, w, job, project, env, test, trigger);
              match tr.search(FindIssuesJql(pk, SummaryText(tr, input)))
              case Success(hits) => r == Settle(tr, World(links1, cs2), job, test, input, hits)
              case Failure(e) => r == Failure(Rest(e))
  {
  }

  /** The `i`-th hit has exactly the summary `text`, and no later hit has. */
  predicate LastMatch(hits: seq<Hit>, text: string, i: int) {
    0 <= i < |hits| && hits[i].summary == text && forall j :: i < j < |hits| ==> hits[j].summary != text
  }

  /** The last duplicate is the key of the last hit with the summary. */
  lemma {:induction false} DuplicatesLast(hits: seq<Hit>, text: string)
    requires |Duplicates(hits, text)| > 0
    ensures var d := Duplicates(hits, text);
            exists i :: LastMatch(hits, text, i) && hits[i].key == d[|d| - 1]
    decreases |hits|
  {
    var d, rest := Duplicates(hits, text), Duplicates(hits[1..], text);
    if |rest| == 0 {
      forall j | 0 < j < |hits| ensures hits[j].summary == text ==> hits[j].key in rest {
        assert hits[1..][j - 1] == hits[j];
      }
      assert LastMatch(hits, text, 0);
    } else {
      assert forall i :: 1 <= i < |hits| ==> hits[i] == hits[1..][i - 1];
      DuplicatesLast(hits[1..], text);
      var i :| LastMatch(hits[1..], text, i) && hits[1..][i].key == rest[|rest| - 1];
      assert LastMatch(hits, text, i + 1);
    }
  }

  /** What `createIssue` promises once the search answered `hits`: when some open issue
      has exactly the rendered summary, the test ends linked to the last such hit and
      nothing is created (`None`); otherwise the tracker creates the issue, the test is
      linked to its key and the key is returned, and a failed creation links nothing. */
  ghost predicate Settled(tr: Tracker, m: map<string, string>, n: string, test: CaseResult, input: IssueInput,
                          hits: seq<Hit>, r: Result<(Option<string>, World), UtilError>)
  {
    var text := SummaryText(tr, input);
    ((exists i :: 0 <= i < |hits| && hits[i].summary == text) ==>
       r.Success? && r.value.0.None? && n in r.value.1.links.jobs
       && exists i :: LastMatch(hits, text, i) && r.value.1.links.jobs[n] == m[test.info.id := hits[i].key])
    && ((forall i :: 0 <= i < |hits| ==> hits[i].summary != text) ==>
          (CreateOnServer(tr, input, test).Failure? ==> r.Failure?)
          && (CreateOnServer(tr, input, test).Success? ==>
                var key := CreateOnServer(tr, input, test).value;
                r.Success? && r.value.0 == Some(key) && tr.create(input) == Success(key)
                && n in r.value.1.links.jobs && r.value.1.links.jobs[n] == m[test.info.id := key]))
  }

  /** The end of `createIssue` keeps its promise for a registered job. */
  lemma SettleKeepsPromise(tr: Tracker, w: World, n: string, shown: string, test: CaseResult, input: IssueInput,
                           hits: seq<Hit>)
    requires n in w.links.jobs
    ensures Settled(tr, w.links.jobs[n], n, test, input, hits, Settle(tr, w, M.Plain(n, shown), test, input, hits))
  {
    var text := SummaryText(tr, input);
    SettleDedup(tr, w, n, shown, test, input, hits);
    var d := Duplicates(hits, text);
    assert d == [] || d[0] in d;
    if exists i :: 0 <= i < |hits| && hits[i].summary == text {
      var i :| 0 <= i < |hits| && hits[i].summary == text;
      assert hits[i].key in d;
      DuplicatesLast(hits, text);
    }
  }

  /** `createIssue` end to end, for a test of a registered job that is not linked yet: a
      failing input or search fails the step; otherwise the step keeps the promise of
      `Settled` for the hits of the search for the rendered summary. */
  lemma CreateIssueEndToEnd(fuel: nat, g: Descriptor, tr: Tracker, w: World, n: string, shown: string, project: string,
                            env: EnvVars, test: CaseResult, trigger: Trigger)
    requires n in w.links.jobs && test.info.id !in w.links.jobs[n]
    ensures var r := CreateIssue(fuel, g, tr, w, M.Plain(n, shown), project, env, test, trigger);
            var ci := CreateIssueInput(fuel, g, w.configs, project, OfCase(test), env, trigger);
            (ci.Failure? ==> r == Failure(ci.error))
            && (ci.Success? ==>
                  var s := tr.search(FindIssuesJql(C.GetProjectKey(ci.value.1, project).0, SummaryText(tr, ci.value.0)));
                  (s.Failure? ==> r == Failure(Rest(s.error)))
                  && (s.Success? ==> Settled(tr, w.links.jobs[n], n, test, ci.value.0, s.value, r)))
  {
    var job := M.Plain(n, shown);
    var ci := CreateIssueInput(fuel, g, w.configs, project, OfCase(test), env, trigger);
    if ci.Success? {
      var (input, cs1) := ci.value;
      CreateIssueUnlinked(fuel, g, tr, w, job, project, env, test, trigger, input, cs1);
      var (pk, cs2) := C.GetProjectKey(cs1, project);
      match tr.search(FindIssuesJql(pk, SummaryText(tr, input)))
      case Failure(_) =>
      case Success(hits) => SettleKeepsPromise(tr, World(w.links, cs2), n, shown, test, input, hits);
    }
  }

  /** Once `createIssue` has linked a test of a registered job, searching its issues
      gives exactly the linked key without asking the tracker, unless that key is blank,
      in which case the search falls back to the tracker. */
  lemma CreateThenSearch(fuel: nat, g: Descriptor, tr: Tracker, w: World, n: string, shown: string, project: string,
                         env: EnvVars, test: CaseResult, trigger: Trigger, tr2: Tracker, env2: EnvVars)
    requires n in w.links.jobs && test.info.id !in w.links.jobs[n]
    ensures var r := CreateIssue(fuel, g, tr, w, M.Plain(n, shown), project, env, test, trigger);
            r.Success? ==>
              n in r.value.1.links.jobs && test.info.id in r.value.1.links.jobs[n]
              && var key := r.value.1.links.jobs[n][test.info.id];
              (r.value.0.Some? ==> key == r.value.0.value)
              && (!IsBlank(Some(key)) ==>
                    SearchIssueKeys(fuel, g, tr2, r.value.1, M.Plain(n, shown), env2, test) == Success(({key}, r.value.1)))
  {
    var r := CreateIssue(fuel, g, tr, w, M.Plain(n, shown), project, env, test, trigger);
    if r.Success? {
      CreateIssueEndToEnd(fuel, g, tr, w, n, shown, project, env, test, trigger);
      var ci := CreateIssueInput(fuel, g, w.configs, project, OfCase(test), env, trigger);
      var s := tr.search(FindIssuesJql(C.GetProjectKey(ci.value.1, project).0, SummaryText(tr, ci.value.0)));
      SettledLinked(tr, w.links.jobs[n], n, test, ci.value.0, s.value, r);
      SearchLinked(fuel, g, tr2, r.value.1, n, shown, env2, test);
    }
  }

  /** A successful `createIssue` leaves the test linked, to the returned key if any. */
  lemma SettledLinked(tr: Tracker, m: map<string, string>, n: string, test: CaseResult, input: IssueInput,
                      hits: seq<Hit>, r: Result<(Option<string>, World), UtilError>)
    requires Settled(tr, m, n, test, input, hits, r) && r.Success?
    ensures n in r.value.1.links.jobs && test.info.id in r.value.1.links.jobs[n]
    ensures r.value.0.Some? ==> r.value.1.links.jobs[n][test.info.id] == r.value.0.value
  {
  }

  /** A test linked to a key that is not blank searches exactly that key, without asking
      the tracker. */
  lemma SearchLinked(fuel: nat, g: Descriptor, tr: Tracker, w: World, n: string, shown: string, env: EnvVars,
                     test: CaseResult)
    requires n in w.links.jobs && test.info.id in w.links.jobs[n]
    ensures !IsBlank(Some(w.links.jobs[n][test.info.id])) ==>
              SearchIssueKeys(fuel, g, tr, w, M.Plain(n, shown), env, test) == Success(({w.links.jobs[n][test.info.id]}, w))
  {
  }

  /** The input a badge builds: the project key and issue type of the job's entry, and
      exactly the summary and description, each rendered from its global template. */
  lemma CreateIssueInputBadge(fuel: nat, g: Descriptor, cs: C.Store, project: string, test: TestResult, env: EnvVars)
    ensures var r := CreateIssueInput(fuel, g, cs, project, test, env, Badge);
            r.Success? ==>
              var input := r.value.0;
              var sum := Render(fuel, g, Construct(Templates[0]), Some(test), env);
              var desc := Render(fuel, g, Construct(Templates[1]), Some(test), env);
              input.projectKey == C.GetProjectKey(cs, project).0
              && input.issueType == C.GetIssueType(C.GetProjectKey(cs, project).1, project).0
              && sum.Success? && desc.Success?
              && input.fields == map[SummaryFieldName := sum.value.value, DescriptionFieldName := desc.value.value]
  {
    var r := CreateIssueInput(fuel, g, cs, project, test, env, Badge);
    if r.Success? {
      CreateIssueInputLayers(fuel, g, cs, project, test, env, Badge);
      TemplateRendering(fuel, g, Some(test), env);
    }
  }

  /** The templates' fields, each rendered from its template. */
  lemma TemplateRendering(fuel: nat, g: Descriptor, test: Option<TestResult>, env: EnvVars)
    requires ApplyFields(fuel, g, map[], Templates, test, env).Success?
    ensures var sum := Render(fuel, g, Construct(Templates[0]), test, env);
            var desc := Render(fuel, g, Construct(Templates[1]), test, env);
            sum.Success? && desc.Success?
            && ApplyFields(fuel, g, map[], Templates, test, env).value
               == map[SummaryFieldName := sum.value.value, DescriptionFieldName := desc.value.value]
  {
    assert SummaryFieldName[0] != DescriptionFieldName[0];
    TwoSpecsRendering(fuel, g, Templates, test, env);
  }

  /** Two specs with different keys give exactly their two renderings. */
  lemma TwoSpecsRendering(fuel: nat, g: Descriptor, specs: seq<FieldSpec>, test: Option<TestResult>, env: EnvVars)
    requires |specs| == 2 && specs[0].fieldKey != specs[1].fieldKey
    requires ApplyFields(fuel, g, map[], specs, test, env).Success?
    ensures var r0 := Render(fuel, g, Construct(specs[0]), test, env);
            var r1 := Render(fuel, g, Construct(specs[1]), test, env);
            r0.Success? && r1.Success?
            && ApplyFields(fuel, g, map[], specs, test, env).value
               == map[specs[0].fieldKey := r0.value.value, specs[1].fieldKey := r1.value.value]
  {
    ApplyFieldsLastWins(fuel, g, map[], specs, test, env);
    assert LastOfKey(specs, 0) && LastOfKey(specs, 1);
  }

  /** The input a build creates: a field some configured field names holds the rendering
      of the last configured field with that name; the summary and description fields no
      configured field names keep their template's rendering; there are no other fields. */
  lemma CreateIssueInputJobRun(fuel: nat, g: Descriptor, cs: C.Store, project: string, test: TestResult, env: EnvVars)
    ensures var r := CreateIssueInput(fuel, g, cs, project, test, env, JobRun);
            r.Success? ==>
              var configs := C.GetConfig(C.GetIssueType(C.GetProjectKey(cs, project).1, project).1, project).0;
              configs.Some? && OverTemplates(fuel, g, configs.value, Some(test), env, r.value.0.fields)
  {
    var r := CreateIssueInput(fuel, g, cs, project, test, env, JobRun);
    if r.Success? {
      CreateIssueInputLayers(fuel, g, cs, project, test, env, JobRun);
      var configs := C.GetConfig(C.GetIssueType(C.GetProjectKey(cs, project).1, project).1, project).0;
      ConfiguredOverTemplates(fuel, g, configs.value, Some(test), env);
    }
  }

  /** `fields` layers the configured fields over the templates: a field some configured
      field names holds the rendering of the last configured field with that name; the
      templates' fields no configured field names hold their template's rendering; there
      are no other fields. */
  ghost predicate OverTemplates(fuel: nat, g: Descriptor, configs: seq<FieldSpec>, test: Option<TestResult>, env: EnvVars,
                                fields: map<string, FieldValue>)
  {
    Layered(fuel, g, Templates, configs, test, env, fields)
  }

  ghost predicate Layered(fuel: nat, g: Descriptor, templates: seq<FieldSpec>, configs: seq<FieldSpec>,
                          test: Option<TestResult>, env: EnvVars, fields: map<string, FieldValue>)
  {
    LayeredKeys(templates, configs, fields)
    && ConfiguredWin(fuel, g, configs, test, env, fields)
    && TemplatesStay(fuel, g, templates, configs, test, env, fields)
  }

  /** The fields are those of the templates and of the configured fields. */
  ghost predicate LayeredKeys(templates: seq<FieldSpec>, configs: seq<FieldSpec>, fields: map<string, FieldValue>) {
    forall k :: k in fields <==>
      (exists j :: 0 <= j < |templates| && templates[j].fieldKey == k)
      || exists i :: 0 <= i < |configs| && configs[i].fieldKey == k
  }

  /** A configured field's key holds the rendering of the last configured field with it. */
  ghost predicate ConfiguredWin(fuel: nat, g: Descriptor, configs: seq<FieldSpec>, test: Option<TestResult>,
                                env: EnvVars, fields: map<string, FieldValue>)
  {
    forall i :: 0 <= i < |configs| && LastOfKey(configs, i) ==>
      Render(fuel, g, Construct(configs[i]), test, env).Success?
      && configs[i].fieldKey in fields
      && fields[configs[i].fieldKey] == Render(fuel, g, Construct(configs[i]), test, env).value.value
  }

  /** A template's key no configured field names holds the template's rendering. */
  ghost predicate TemplatesStay(fuel: nat, g: Descriptor, templates: seq<FieldSpec>, configs: seq<FieldSpec>,
                                test: Option<TestResult>, env: EnvVars, fields: map<string, FieldValue>)
  {
    forall j :: 0 <= j < |templates| && (forall i :: 0 <= i < |configs| ==> configs[i].fieldKey != templates[j].fieldKey) ==>
      Render(fuel, g, Construct(templates[j]), test, env).Success?
      && templates[j].fieldKey in fields
      && fields[templates[j].fieldKey] == Render(fuel, g, Construct(templates[j]), test, env).value.value
  }

  /** Applying the configured fields over the rendered templates layers them. */
  lemma ConfiguredOverTemplates(fuel: nat, g: Descriptor, configs: seq<FieldSpec>, test: Option<TestResult>, env: EnvVars)
    requires ApplyFields(fuel, g, map[], Templates, test, env).Success?
    requires ApplyFields(fuel, g, ApplyFields(fuel, g, map[], Templates, test, env).value, configs, test, env).Success?
    ensures OverTemplates(fuel, g, configs, test, env,
                          ApplyFields(fuel, g, ApplyFields(fuel, g, map[], Templates, test, env).value, configs, test, env).value)
  {
    assert SummaryFieldName[0] != DescriptionFieldName[0];
    TwoSpecsRendering(fuel, g, Templates, test, env);
    var base := ApplyFields(fuel, g, map[], Templates, test, env).value;
    LayeredOver(fuel, g, Templates, base, configs, test, env);
  }

  /** Configured fields applied over the templates' renderings layer them. */
  lemma LayeredOver(fuel: nat, g: Descriptor, specs: seq<FieldSpec>, base: map<string, FieldValue>,
                    configs: seq<FieldSpec>, test: Option<TestResult>, env: EnvVars)
    requires |specs| == 2 && specs[0].fieldKey != specs[1].fieldKey
    requires Render(fuel, g, Construct(specs[0]), test, env).Success?
    requires Render(fuel, g, Construct(specs[1]), test, env).Success?
    requires base == map[specs[0].fieldKey := Render(fuel, g, Construct(specs[0]), test, env).value.value,
                         specs[1].fieldKey := Render(fuel, g, Construct(specs[1]), test, env).value.value]
    requires ApplyFields(fuel, g, base, configs, test, env).Success?
    ensures Layered(fuel, g, specs, configs, test, env, ApplyFields(fuel, g, base, configs, test, env).value)
  {
    var fields := ApplyFields(fuel, g, base, configs, test, env).value;
    LayeredOverKeys(fuel, g, specs, base, configs, test, env);
    ApplyFieldsLastSpec(fuel, g, base, configs, test, env);
    LayeredOverStay(fuel, g, specs, base, configs, test, env);
  }

  lemma LayeredOverKeys(fuel: nat, g: Descriptor, specs: seq<FieldSpec>, base: map<string, FieldValue>,
                        configs: seq<FieldSpec>, test: Option<TestResult>, env: EnvVars)
    requires |specs| == 2 && base.Keys == {specs[0].fieldKey, specs[1].fieldKey}
    requires ApplyFields(fuel, g, base, configs, test, env).Success?
    ensures LayeredKeys(specs, configs, ApplyFields(fuel, g, base, configs, test, env).value)
  {
    var fields := ApplyFields(fuel, g, base, configs, test, env).value;
    ApplyFieldsKeys(fuel, g, base, configs, test, env);
    forall k ensures k in fields <==>
                     (exists j :: 0 <= j < |specs| && specs[j].fieldKey == k)
                     || exists i :: 0 <= i < |configs| && configs[i].fieldKey == k
    {
      assert k in base <==> k == specs[0].fieldKey || k == specs[1].fieldKey;
    }
  }

  lemma LayeredOverStay(fuel: nat, g: Descriptor, specs: seq<FieldSpec>, base: map<string, FieldValue>,
                        configs: seq<FieldSpec>, test: Option<TestResult>, env: EnvVars)
    requires |specs| == 2 && specs[0].fieldKey != specs[1].fieldKey
    requires Render(fuel, g, Construct(specs[0]), test, env).Success?
    requires Render(fuel, g, Construct(specs[1]), test, env).Success?
    requires base == map[specs[0].fieldKey := Render(fuel, g, Construct(specs[0]), test, env).value.value,
                         specs[1].fieldKey := Render(fuel, g, Construct(specs[1]), test, env).value.value]
    requires ApplyFields(fuel, g, base, configs, test, env).Success?
    ensures TemplatesStay(fuel, g, specs, configs, test, env, ApplyFields(fuel, g, base, configs, test, env).value)
  {
    var vs := [Render(fuel, g, Construct(specs[0]), test, env).value.value,
               Render(fuel, g, Construct(specs[1]), test, env).value.value];
    UnnamedStay(fuel, g, specs, base, configs, test, env, vs);
  }

  /** The two templates' values stay where no configured field names them. */
  lemma UnnamedStay(fuel: nat, g: Descriptor, specs: seq<FieldSpec>, base: map<string, FieldValue>,
                    configs: seq<FieldSpec>, test: Option<TestResult>, env: EnvVars, vs: seq<FieldValue>)
    requires |specs| == 2 && |vs| == 2 && specs[0].fieldKey != specs[1].fieldKey
    requires base == map[specs[0].fieldKey := vs[0], specs[1].fieldKey := vs[1]]
    requires ApplyFields(fuel, g, base, configs, test, env).Success?
    ensures var fields := ApplyFields(fuel, g, base, configs, test, env).value;
            forall j :: 0 <= j < 2 && (forall i :: 0 <= i < |configs| ==> configs[i].fieldKey != specs[j].fieldKey) ==>
              specs[j].fieldKey in fields && fields[specs[j].fieldKey] == vs[j]
  {
    ApplyFieldsKeeps(fuel, g, base, configs, test, env);
    assert base[specs[0].fieldKey] == vs[0] && base[specs[1].fieldKey] == vs[1];
  }

  /* ---------- Dropping links to resolved issues: as written and as intended ---------- */

  /** Nothing to check: no failed test is linked, so the tracker is not asked. */
  lemma CleanNothingLinked(tr: Tracker, links: M.Store, results: seq<CaseResult>, job: M.Job)
    requires |Collect(links, job, FailedIds(results)).1| == 0
    ensures CleanJobCacheFile(tr, links, results, job) == Success((false, Collect(links, job, FailedIds(results)).2))
  {
  }

  /** `t` is linked to `k` in `m`, and no later test of `tests` is linked to `k`. */
  predicate LastLinked(m: map<string, string>, tests: seq<string>, t: string, k: string) {
    exists i :: 0 <= i < |tests| && tests[i] == t && t in m && m[t] == k
                && forall j :: i < j < |tests| ==> !(tests[j] in m && m[tests[j]] == k)
  }

  /** For a registered job the collection reads the links without changing them: an issue
      key is collected exactly when some test is linked to it, and it remembers the last
      such test. */
  lemma {:induction false} CollectRegistered(links: M.Store, job: M.Job, tests: seq<string>)
    requires job.fullName in links.jobs
    ensures var (ids, keys, l1) := Collect(links, job, tests);
            var m := links.jobs[job.fullName];
            l1 == links
            && (forall k :: k in keys <==> exists i :: 0 <= i < |tests| && tests[i] in m && m[tests[i]] == k)
            && (forall k :: k in keys ==> LastLinked(m, tests, keys[k], k))
    decreases |tests|
  {
    if |tests| > 0 {
      var m := links.jobs[job.fullName];
      var pre := tests[..|tests| - 1];
      var t := tests[|tests| - 1];
      CollectRegistered(links, job, pre);
      var keys0 := Collect(links, job, pre).1;
      var keys := Collect(links, job, tests).1;
      CollectStep(links, job, tests);
      forall k | k in keys ensures LastLinked(m, tests, keys[k], k) {
        LastLinkedStep(m, tests, keys0, keys, k);
      }
      forall k ensures k in keys <==> exists i :: 0 <= i < |tests| && tests[i] in m && m[tests[i]] == k {
        if k !in keys0 && k in keys {
          assert tests[|tests| - 1] in m && m[tests[|tests| - 1]] == k;
        }
        if exists i :: 0 <= i < |tests| && tests[i] in m && m[tests[i]] == k {
          var i :| 0 <= i < |tests| && tests[i] in m && m[tests[i]] == k;
          if i < |pre| { assert pre[i] == tests[i]; }
        }
        if exists i :: 0 <= i < |pre| && pre[i] in m && m[pre[i]] == k {
          var i :| 0 <= i < |pre| && pre[i] in m && m[pre[i]] == k;
          assert tests[i] == pre[i];
        }
      }
    }
  }

  /** One step of the collection for a registered job: the last test, when linked, is
      remembered for its key. */
  lemma CollectStep(links: M.Store, job: M.Job, tests: seq<string>)
    requires job.fullName in links.jobs && |tests| > 0
    requires Collect(links, job, tests[..|tests| - 1]).2 == links
    ensures var m, t := links.jobs[job.fullName], tests[|tests| - 1];
            var keys0 := Collect(links, job, tests[..|tests| - 1]).1;
            Collect(links, job, tests).2 == links
            && Collect(links, job, tests).1 == (if t in m then keys0[m[t] := t] else keys0)
  {
  }

  /** The remembered test stays the last one linked to its key when a test is appended. */
  lemma LastLinkedStep(m: map<string, string>, tests: seq<string>, keys0: map<string, string>,
                       keys: map<string, string>, k: string)
    requires |tests| > 0 && k in keys
    requires forall k :: k in keys0 ==> LastLinked(m, tests[..|tests| - 1], keys0[k], k)
    requires var t := tests[|tests| - 1];
             keys == (if t in m then keys0[m[t] := t] else keys0)
    ensures LastLinked(m, tests, keys[k], k)
  {
    var pre, t := tests[..|tests| - 1], tests[|tests| - 1];
    if t in m && m[t] == k {
      assert tests[|tests| - 1] == t;
    } else {
      var i :| 0 <= i < |pre| && pre[i] == keys0[k] && keys0[k] in m && m[keys0[k]] == k
               && forall j :: i < j < |pre| ==> !(pre[j] in m && m[pre[j]] == k);
      assert tests[i] == keys[k];
      forall j | i < j < |tests| ensures !(tests[j] in m && m[tests[j]] == k) {
        if j < |pre| { assert tests[j] == pre[j]; }
      }
    }
  }

  /** `true` when some hit names `t`'s key and `keysToCheck` remembers `t` for it. */
  predicate ResolvedBy(m: map<string, string>, keys: map<string, string>, hits: seq<Hit>, t: string) {
    exists i :: 0 <= i < |hits| && hits[i].key in keys && keys[hits[i].key] == t && t in m && m[t] == hits[i].key
  }

  /** The removal loop fails exactly when some hit's key was not collected, naming such a
      key; otherwise it unlinks, in the job's map, exactly the tests that `keysToCheck`
      remembers for a hit and that are still linked to it, and changes no other job. */
  lemma {:induction false} RemoveResolvedEffect(links: M.Store, job: string, keys: map<string, string>, hits: seq<Hit>)
    ensures var r := RemoveResolved(links, job, keys, hits);
            (r.Success? <==> forall i :: 0 <= i < |hits| ==> hits[i].key in keys)
            && (r.Failure? ==> exists i :: 0 <= i < |hits| && hits[i].key !in keys && r.error == UnknownResolvedKey(hits[i].key))
            && (r.Success? ==>
                  r.value.jobs.Keys == links.jobs.Keys
                  && (forall j :: j in links.jobs && j != job ==> r.value.jobs[j] == links.jobs[j])
                  && (job in links.jobs ==>
                        forall t :: (t in r.value.jobs[job] <==> t in links.jobs[job] && !ResolvedBy(links.jobs[job], keys, hits, t))
                                    && (t in r.value.jobs[job] ==> r.value.jobs[job][t] == links.jobs[job][t])))
    decreases |hits|
  {
    if |hits| > 0 && hits[0].key in keys {
      var h := hits[0];
      var l1 := M.Remove(links, job, keys[h.key], h.key);
      RemoveResolvedEffect(l1, job, keys, hits[1..]);
      assert forall i :: 1 <= i < |hits| ==> hits[i] == hits[1..][i - 1];
      if job in links.jobs {
        var m := links.jobs[job];
        forall t ensures ResolvedBy(m, keys, hits, t) <==>
                           ((t in m && t == keys[h.key] && m[t] == h.key)
                            || (t in l1.jobs[job] && ResolvedBy(l1.jobs[job], keys, hits[1..], t)))
        {
          if ResolvedBy(m, keys, hits, t) && !(t in m && t == keys[h.key] && m[t] == h.key) {
            var i :| 0 <= i < |hits| && hits[i].key in keys && keys[hits[i].key] == t && t in m && m[t] == hits[i].key;
            assert i > 0 && hits[1..][i - 1] == hits[i];
          }
        }
      }
    }
  }

  /** `cleanJobCacheFile` as written, for a registered job: nothing is asked of the tracker
      when no failed test is linked; a failed search fails the step; an issue the search
      reports but no failed test is linked to fails it with `UnknownResolvedKey`.
      Otherwise the step reports `true`, and a test loses its link exactly when it is the
      last failed test linked to an issue the search reports resolved. */
  lemma CleanAsWritten(tr: Tracker, links: M.Store, results: seq<CaseResult>, job: M.Job)
    requires job.fullName in links.jobs
    ensures var (ids, keys, l1) := Collect(links, job, FailedIds(results));
            var m := links.jobs[job.fullName];
            var r := CleanJobCacheFile(tr, links, results, job);
            var s := Search(tr, ResolvedJql(ids));
            (|keys| == 0 ==> r == Success((false, links)))
            && (|keys| > 0 && s.Failure? ==> r == Failure(s.error))
            && (|keys| > 0 && s.Success? ==>
                  (r.Success? <==> forall i :: 0 <= i < |s.value| ==> s.value[i].key in keys)
                  && (r.Failure? ==> exists i :: 0 <= i < |s.value| && s.value[i].key !in keys
                                                 && r.error == UnknownResolvedKey(s.value[i].key))
                  && (r.Success? ==>
                        r.value.0
                        && r.value.1.jobs.Keys == links.jobs.Keys
                        && (forall j :: j in links.jobs && j != job.fullName ==> r.value.1.jobs[j] == links.jobs[j])
                        && forall t :: (t in r.value.1.jobs[job.fullName] <==>
                                          t in m && !exists i :: 0 <= i < |s.value| && LastLinked(m, FailedIds(results), t, s.value[i].key))
                                       && (t in r.value.1.jobs[job.fullName] ==> r.value.1.jobs[job.fullName][t] == m[t])))
  {
    var tests := FailedIds(results);
    CollectRegistered(links, job, tests);
    var (ids, keys, l1) := Collect(links, job, tests);
    if |keys| > 0 && Search(tr, ResolvedJql(ids)).Success? {
      var hits := Search(tr, ResolvedJql(ids)).value;
      RemoveResolvedEffect(links, job.fullName, keys, hits);
      var m := links.jobs[job.fullName];
      if forall i :: 0 <= i < |hits| ==> hits[i].key in keys {
        forall t ensures ResolvedBy(m, keys, hits, t) <==> exists i :: 0 <= i < |hits| && LastLinked(m, tests, t, hits[i].key)
        {
          if exists i :: 0 <= i < |hits| && LastLinked(m, tests, t, hits[i].key) {
            var i :| 0 <= i < |hits| && LastLinked(m, tests, t, hits[i].key);
            LastLinkedUnique(m, tests, t, keys[hits[i].key], hits[i].key);
          }
        }
      }
    }
  }

  /** Only one test is the last one linked to a key. */
  lemma LastLinkedUnique(m: map<string, string>, tests: seq<string>, t1: string, t2: string, k: string)
    requires LastLinked(m, tests, t1, k) && LastLinked(m, tests, t2, k)
    ensures t1 == t2
  {
    var i1 :| 0 <= i1 < |tests| && tests[i1] == t1 && t1 in m && m[t1] == k
              && forall j :: i1 < j < |tests| ==> !(tests[j] in m && m[tests[j]] == k);
    var i2 :| 0 <= i2 < |tests| && tests[i2] == t2 && t2 in m && m[t2] == k
              && forall j :: i2 < j < |tests| ==> !(tests[j] in m && m[tests[j]] == k);
  }

  /** As written: two failed tests linked to the same issue, which is now resolved; the
      key remembers only the second test, so the first keeps its stale link. */
  lemma CleanKeepsStaleLink(tr: Tracker, links: M.Store, n: string, shown: string, c1: CaseResult, c2: CaseResult,
                            k: string, summary: string)
    requires n in links.jobs
    requires c1.IsFailed() && c2.IsFailed() && c1.info.id != c2.info.id
    requires links.jobs[n] == map[c1.info.id := k, c2.info.id := k]
    requires tr.search(ResolvedJql([k, k])) == Success([Hit(k, summary)])
    ensures var r := CleanJobCacheFile(tr, links, [c1, c2], M.Plain(n, shown));
            r.Success? && r.value.0 && n in r.value.1.jobs && r.value.1.jobs[n] == map[c1.info.id := k]
  {
    var job := M.Plain(n, shown);
    TwoFailedIds(c1, c2);
    var tests := [c1.info.id, c2.info.id];
    assert M.GetTestIssueKey(links, job, c1.info.id) == (Some(k), links);
    assert M.GetTestIssueKey(links, job, c2.info.id) == (Some(k), links);
    assert Collect(links, job, []) == ([], map[], links);
    assert [c1.info.id][..0] == [];
    var one := [c1.info.id];
    assert one[|one| - 1] == c1.info.id;
    assert Collect(links, job, one).0 == [k];
    assert Collect(links, job, one).1 == map[k := c1.info.id];
    assert Collect(links, job, one).2 == links;
    assert tests[..|tests| - 1] == one;
    assert tests[|tests| - 1] == c2.info.id;
    assert Collect(links, job, tests).0 == [k, k];
    assert Collect(links, job, tests).1 == map[k := c1.info.id][k := c2.info.id] == map[k := c2.info.id];
    assert Collect(links, job, tests).2 == links;
    var l2 := M.Remove(links, n, c2.info.id, k);
    assert l2.jobs[n] == map[c1.info.id := k];
    assert RemoveResolved(links, n, map[k := c2.info.id], [Hit(k, summary)]) == Success(l2);
  }

  lemma TwoFailedIds(c1: CaseResult, c2: CaseResult)
    requires c1.IsFailed() && c2.IsFailed()
    ensures FailedIds([c1, c2]) == [c1.info.id, c2.info.id]
  {
    assert [c1, c2][1..] == [c2];
    assert [c2][1..] == [];
    assert FailedIds([c2]) == [c2.info.id];
  }

  /** As intended: the same two tests both lose their link. */
  lemma CleanIntendedDropsBoth(tr: Tracker, links: M.Store, n: string, shown: string, c1: CaseResult, c2: CaseResult,
                               k: string, summary: string)
    requires n in links.jobs
    requires c1.IsFailed() && c2.IsFailed() && c1.info.id != c2.info.id
    requires links.jobs[n] == map[c1.info.id := k, c2.info.id := k]
    requires tr.search(ResolvedJql([k, k])) == Success([Hit(k, summary)])
    ensures var r := CleanJobCacheFileIntended(tr, links, [c1, c2], M.Plain(n, shown));
            r.Success? && r.value.0 && n in r.value.1.jobs && r.value.1.jobs[n] == map[]
  {
    var job := M.Plain(n, shown);
    TwoFailedIds(c1, c2);
    var tests := [c1.info.id, c2.info.id];
    var pairs := [(c1.info.id, k), (c2.info.id, k)];
    assert M.GetTestIssueKey(links, job, c1.info.id) == (Some(k), links);
    assert M.GetTestIssueKey(links, job, c2.info.id) == (Some(k), links);
    assert LinkedPairs(links, job, []) == ([], links);
    assert [c1.info.id][..0] == [];
    var one := [c1.info.id];
    assert one[|one| - 1] == c1.info.id;
    assert LinkedPairs(links, job, one).0 == [(c1.info.id, k)];
    assert LinkedPairs(links, job, one).1 == links;
    assert tests[..|tests| - 1] == one;
    assert tests[|tests| - 1] == c2.info.id;
    assert LinkedPairs(links, job, tests).0 == pairs;
    assert LinkedPairs(links, job, tests).1 == links;
    assert seq(|pairs|, i requires 0 <= i < |pairs| => pairs[i].1) == [k, k];
    RemovePairsClears(links, n, pairs, k);
    var r := RemovePairs(links, n, pairs, k);
    assert RemoveAllResolved(links, n, pairs, [Hit(k, summary)]) == r;
    assert pairs[0].1 == k && pairs[1].1 == k;
    assert c1.info.id !in r.jobs[n] && c2.info.id !in r.jobs[n];
    assert r.jobs[n].Keys <= links.jobs[n].Keys == {c1.info.id, c2.info.id};
  }

  /** Removing the pairs of one key unlinks each of them and nothing else. */
  lemma {:induction false} RemovePairsClears(links: M.Store, n: string, pairs: seq<(string, string)>, key: string)
    requires n in links.jobs
    ensures var r := RemovePairs(links, n, pairs, key);
            n in r.jobs
            && (forall t :: t in r.jobs[n] ==> t in links.jobs[n] && r.jobs[n][t] == links.jobs[n][t])
            && (forall t :: t in links.jobs[n] && links.jobs[n][t] != key ==> t in r.jobs[n])
            && (forall i :: 0 <= i < |pairs| && pairs[i].1 == key ==>
                  !(pairs[i].0 in r.jobs[n] && r.jobs[n][pairs[i].0] == key))
    decreases |pairs|
  {
    if |pairs| > 0 {
      var l1 := if pairs[0].1 == key then M.Remove(links, n, pairs[0].0, key) else links;
      RemovePairsClears(l1, n, pairs[1..], key);
      assert forall i :: 1 <= i < |pairs| ==> pairs[i] == pairs[1..][i - 1];
    }
  }

  /** As intended, every linked failed test whose issue the search reports resolved is
      unlinked, and no link is added or changed. */
  lemma {:induction false} RemoveAllResolvedClears(links: M.Store, n: string, pairs: seq<(string, string)>,
                                                   hits: seq<Hit>)
    requires n in links.jobs
    ensures var r := RemoveAllResolved(links, n, pairs, hits);
            n in r.jobs
            && (forall t :: t in r.jobs[n] ==> t in links.jobs[n] && r.jobs[n][t] == links.jobs[n][t])
            && (forall i, j :: 0 <= i < |pairs| && 0 <= j < |hits| && pairs[i].1 == hits[j].key ==>
                  !(pairs[i].0 in r.jobs[n] && r.jobs[n][pairs[i].0] == pairs[i].1))
    decreases |hits|
  {
    if |hits| > 0 {
      var l1 := RemovePairs(links, n, pairs, hits[0].key);
      RemovePairsClears(links, n, pairs, hits[0].key);
      RemoveAllResolvedClears(l1, n, pairs, hits[1..]);
      assert forall j :: 1 <= j < |hits| ==> hits[j] == hits[1..][j - 1];
    }
  }
}

=== FILE: job_config_mapping.dfy ===
/** `JobConfigMapping`: the last configuration saved on each job's configuration page, one
    entry per job (by full name), written to the job's JSON file on every save and read
    back lazily, from the JSON file or else from the file of the previous plugin version. */
module JobConfigMapping {
  import opened Wrappers
  import opened Json
  import opened JavaStrings
  import FieldSpecs

  /** The compiled issue-key pattern `<projectKey>-\d+`; a null project key prints as
      `null`, as string concatenation does. */
  datatype KeyPattern = KeyPattern(prefix: string)

  function PatternFor(projectKey: Option<string>): KeyPattern {
    KeyPattern(projectKey.GetOr("null"))
  }

  /** `matcher(key).matches()`: the whole key is the prefix, a dash and one or more digits. */
  predicate FullMatch(p: KeyPattern, key: string) {
    |key| > |p.prefix| + 1 && key[..|p.prefix|] == p.prefix && key[|p.prefix|] == '-'
    && AllDigits(key[|p.prefix| + 1..])
  }

  /** `JobConfigEntry`; `pattern` is transient and `None` until it is compiled. */
  datatype ConfigEntry = ConfigEntry(
    projectKey: Option<string>,
    issueType: Option<int>,
    configs: Option<seq<FieldSpecs.FieldSpec>>,
    autoRaiseIssue: bool,
    pattern: Option<KeyPattern>)

  /** The constructor compiles the pattern from the project key. */
  function NewEntry(projectKey: Option<string>, issueType: Option<int>,
                    configs: Option<seq<FieldSpecs.FieldSpec>>, autoRaiseIssue: bool): (e: ConfigEntry)
    ensures Compiled(e)
  {
    ConfigEntry(projectKey, issueType, configs, autoRaiseIssue, Some(PatternFor(projectKey)))
  }

  /** `readResolve`: recompile the transient pattern. */
  function ReadResolve(e: ConfigEntry): (r: ConfigEntry)
    ensures Compiled(r)
    ensures r.(pattern := None) == e.(pattern := None)
  {
    e.(pattern := Some(PatternFor(e.projectKey)))
  }

  /** The pattern is the one the project key gives. */
  predicate Compiled(e: ConfigEntry) {
    e.pattern == Some(PatternFor(e.projectKey))
  }

  /* ---------- The JSON file ---------- */

  /** Gson's reflective form: null fields are left out, the transient pattern is never
      written, each configured field goes through the tagged adapter. */
  function EncodeEntry(e: ConfigEntry): Json {
    var m0 := map["autoRaiseIssue" := JBool(e.autoRaiseIssue)];
    var m1 := if e.projectKey.Some? then m0["projectKey" := JStr(e.projectKey.value)] else m0;
    var m2 := if e.issueType.Some? then m1["issueType" := JNum(e.issueType.value)] else m1;
    var m3 := if e.configs.Some? then m2["configs" := JArr(SerializeAll(e.configs.value))] else m2;
    JObj(m3)
  }

  function SerializeAll(specs: seq<FieldSpecs.FieldSpec>): (r: seq<Json>)
    ensures |r| == |specs|
  {
    seq(|specs|, i requires 0 <= i < |specs| => FieldSpecs.Serialize(specs[i]))
  }

  function DeserializeAll(items: seq<Json>): (r: Result<seq<FieldSpecs.FieldSpec>, FieldSpecs.CodecError>)
    ensures r.Success? ==> |r.value| == |items|
  {
    if |items| == 0 then Success([])
    else
      match FieldSpecs.Deserialize(items[0])
      case Failure(e) => Failure(e)
      case Success(o) =>
        match DeserializeAll(items[1..])
        case Failure(e) => Failure(e)
        case Success(rest) => Success([o.spec] + rest)
  }

  /** A member that is absent or JSON null reads as null. */
  predicate Missing(m: map<string, Json>, name: string) {
    name !in m || m[name].JNull?
  }

  /** Gson reading a `JobConfigEntry`: the transient pattern stays unset, a missing boolean
      stays `false`, a member of the wrong shape is a parse error. */
  function DecodeEntry(j: Json): Result<ConfigEntry, FieldSpecs.CodecError> {
    if !j.JObj? then Failure(FieldSpecs.Malformed)
    else
      var m := j.members;
      var projectKey :-
        if Missing(m, "projectKey") then Success(None)
        else if m["projectKey"].JStr? then Success(Some(m["projectKey"].s))
        else Failure(FieldSpecs.Malformed);
      var issueType :-
        if Missing(m, "issueType") then Success(None)
        else if m["issueType"].JNum? && LongMin <= m["issueType"].n <= LongMax then Success(Some(m["issueType"].n))
        else Failure(FieldSpecs.Malformed);
      var configs :-
        if Missing(m, "configs") then Success(None)
        else if m["configs"].JArr? then
          match DeserializeAll(m["configs"].items)
          case Success(specs) => Success(Some(specs))
          case Failure(e) => Failure(e)
        else Failure(FieldSpecs.Malformed);
      var autoRaise :-
        if Missing(m, "autoRaiseIssue") then Success(false)
        else if m["autoRaiseIssue"].JBool? then Success(m["autoRaiseIssue"].b)
        else Failure(FieldSpecs.Malformed);
      Success(ConfigEntry(projectKey, issueType, configs, autoRaise, None))
  }

  /** An issue type is a Java `long`. */
  predicate InRange(e: ConfigEntry) {
    e.issueType.Some? ==> LongMin <= e.issueType.value <= LongMax
  }

  /* ---------- Store and files ---------- */

  /** Reading a job's JSON file: none, text Gson cannot parse, or a JSON document. */
  datatype JsonFile = NoJsonFile | Unparsable | Doc(j: Json)
  /** Reading the old serialized file: none, unreadable, or the entry it holds. */
  datatype LegacyFile = NoLegacyFile | Unreadable | Serialized(e: ConfigEntry)

  datatype Disk = Disk(json: map<string, JsonFile>, legacy: map<string, LegacyFile>) {
    function Json(job: string): JsonFile { if job in json then json[job] else NoJsonFile }
    function Legacy(job: string): LegacyFile { if job in legacy then legacy[job] else NoLegacyFile }
  }

  /** Entries read from the old files hold `long` issue types, as Java's do. */
  predicate LegacyInRange(disk: Disk) {
    forall job :: job in disk.legacy && disk.legacy[job].Serialized? ==> InRange(disk.legacy[job].e)
  }

  datatype Store = Store(entries: map<string, ConfigEntry>, disk: Disk)

  /** `save`: the entry as the job's JSON file. */
  function Save(disk: Disk, job: string, e: ConfigEntry): Disk {
    disk.(json := disk.json[job := Doc(EncodeEntry(e))])
  }

  /** `load` with `loadBackwardsCompatible`: the JSON file read and resolved; if there is no
      JSON file, the old file (deserialisation resolves it) re-saved as JSON; null when the
      chosen file is missing or cannot be read. */
  function Load(disk: Disk, job: string): (Option<ConfigEntry>, Disk) {
    match disk.Json(job)
    case Doc(j) =>
      (match DecodeEntry(j)
       case Success(e) => (Some(ReadResolve(e)), disk)
       case Failure(_) => (None, disk))
    case Unparsable => (None, disk)
    case NoJsonFile =>
      match disk.Legacy(job)
      case Serialized(e) => (Some(ReadResolve(e)), Save(disk, job, ReadResolve(e)))
      case _ => (None, disk)
  }

  /** The constructor: each job's entry loaded, kept when there is one. */
  function Startup(disk: Disk, jobs: seq<string>): Store
    decreases |jobs|
  {
    if |jobs| == 0 then Store(map[], disk)
    else
      CacheLoad(Startup(disk, jobs[..|jobs| - 1]), jobs[|jobs| - 1])
  }

  /** A job's entry loaded and kept in the cache when it is not null. */
  function CacheLoad(st: Store, job: string): Store {
    var (e, disk1) := Load(st.disk, job);
    if e.Some? then Store(st.entries[job := e.value], disk1) else Store(st.entries, disk1)
  }

  /** `saveConfig`: a new entry replaces the job's entry and is written out. */
  function SaveConfig(st: Store, job: string, projectKey: Option<string>, issueType: Option<int>,
                      configs: Option<seq<FieldSpecs.FieldSpec>>, autoRaiseIssue: bool): Store {
    var e := NewEntry(projectKey, issueType, configs, autoRaiseIssue);
    Store(st.entries[job := e], Save(st.disk, job, e))
  }

  /** `getJobConfigEntry`: a cached entry as is; otherwise a load, cached only if not null. */
  function GetJobConfigEntry(st: Store, job: string): (Option<ConfigEntry>, Store) {
    if job in st.entries then (Some(st.entries[job]), st)
    else (Load(st.disk, job).0, CacheLoad(st, job))
  }

  function GetConfig(st: Store, job: string): (Option<seq<FieldSpecs.FieldSpec>>, Store) {
    var (e, st1) := GetJobConfigEntry(st, job);
    (if e.Some? then e.value.configs else None, st1)
  }

  function GetIssueType(st: Store, job: string): (Option<int>, Store) {
    var (e, st1) := GetJobConfigEntry(st, job);
    (if e.Some? then e.value.issueType else None, st1)
  }

  function GetProjectKey(st: Store, job: string): (Option<string>, Store) {
    var (e, st1) := GetJobConfigEntry(st, job);
    (if e.Some? then e.value.projectKey else None, st1)
  }

  function GetAutoRaiseIssue(st: Store, job: string): (bool, Store) {
    var (e, st1) := GetJobConfigEntry(st, job);
    (if e.Some? then e.value.autoRaiseIssue else false, st1)
  }

  function GetIssueKeyPattern(st: Store, job: string): (Option<KeyPattern>, Store) {
    var (e, st1) := GetJobConfigEntry(st, job);
    (if e.Some? then e.value.pattern else None, st1)
  }

  /* ---------- Properties ---------- */

  /** A key matches exactly when it is the project key, a dash and a digit run; the keys the
      tracker hands out, `<projectKey>-<n>`, always match. */
  lemma FullMatchShape(p: KeyPattern, key: string)
    ensures FullMatch(p, key) <==> exists ds :: key == p.prefix + "-" + ds && AllDigits(ds)
  {
    if FullMatch(p, key) {
      assert key == p.prefix + "-" + key[|p.prefix| + 1..];
    }
  }

  lemma IssuedKeysMatch(projectKey: Option<string>, n: nat)
    ensures FullMatch(PatternFor(projectKey), PatternFor(projectKey).prefix + "-" + IntToString(n))
  {
    var p := PatternFor(projectKey).prefix;
    var key := p + "-" + IntToString(n);
    assert key[|p| + 1..] == IntToString(n);
    assert key[..|p|] == p;
  }

  /** A key of a project whose key extends this one by a letter never matches. */
  lemma LongerProjectKeyRejected(p: string, c: char, rest: string)
    requires c != '-'
    ensures !FullMatch(KeyPattern(p), p + [c] + rest)
  {
    assert (p + [c] + rest)[|p|] == c;
  }

  /** Gson reading back what it wrote gives the entry without its transient pattern. */
  lemma {:induction false} DeserializeAllSerializeAll(specs: seq<FieldSpecs.FieldSpec>)
    ensures DeserializeAll(SerializeAll(specs)) == Success(specs)
    decreases |specs|
  {
    if |specs| > 0 {
      DeserializeAllSerializeAll(specs[1..]);
      DeserializeAllStep(specs);
    }
  }

  /** One configuration in front of a list that reads back. */
  lemma DeserializeAllStep(specs: seq<FieldSpecs.FieldSpec>)
    requires |specs| > 0 && DeserializeAll(SerializeAll(specs[1..])) == Success(specs[1..])
    ensures DeserializeAll(SerializeAll(specs)) == Success(specs)
  {
    FieldSpecs.DeserializeSerialize(specs[0]);
    assert SerializeAll(specs)[1..] == SerializeAll(specs[1..]);
    DeserializeAllCons(SerializeAll(specs), FieldSpecs.Construct(specs[0]), specs[1..]);
    assert [specs[0]] + specs[1..] == specs;
  }

  lemma DeserializeAllCons(items: seq<Json>, o: FieldSpecs.FieldObject, rest: seq<FieldSpecs.FieldSpec>)
    requires |items| > 0 && FieldSpecs.Deserialize(items[0]) == Success(o)
    requires DeserializeAll(items[1..]) == Success(rest)
    ensures DeserializeAll(items) == Success([o.spec] + rest)
  {
  }

  /** The members Gson writes for an entry: each non-null field under its name. */
  lemma EncodedMembers(e: ConfigEntry)
    ensures var m := EncodeEntry(e).members;
            (Missing(m, "projectKey") <==> e.projectKey.None?)
            && (e.projectKey.Some? ==> m["projectKey"] == JStr(e.projectKey.value))
            && (Missing(m, "issueType") <==> e.issueType.None?)
            && (e.issueType.Some? ==> m["issueType"] == JNum(e.issueType.value))
            && (Missing(m, "configs") <==> e.configs.None?)
            && (e.configs.Some? ==> m["configs"] == JArr(SerializeAll(e.configs.value)))
            && "autoRaiseIssue" in m && m["autoRaiseIssue"] == JBool(e.autoRaiseIssue)
  {
  }

  lemma DecodeEncode(e: ConfigEntry)
    requires InRange(e)
    ensures DecodeEntry(EncodeEntry(e)) == Success(e.(pattern := None))
  {
    EncodedMembers(e);
    if e.configs.Some? {
      DeserializeAllSerializeAll(e.configs.value);
    }
  }


  /** Loading follows the chain and never fails: the JSON file if there is one, else the
      old file re-saved as JSON, else null; a loaded entry always has its pattern. */
  lemma LoadChain(disk: Disk, job: string)
    ensures var (e, disk1) := Load(disk, job);
            (e.Some? ==> Compiled(e.value))
            && (!(disk.Json(job).NoJsonFile? && disk.Legacy(job).Serialized?) ==> disk1 == disk)
            && (disk.Json(job).Unparsable? ==> e.None?)
            && (disk.Json(job).NoJsonFile? && !disk.Legacy(job).Serialized? ==> e.None?)
            && (disk.Json(job).NoJsonFile? && disk.Legacy(job).Serialized? ==>
                  e == Some(ReadResolve(disk.Legacy(job).e))
                  && disk1 == Save(disk, job, e.value))
            && (disk.Json(job).Doc? && DecodeEntry(disk.Json(job).j).Success? ==>
                  e == Some(ReadResolve(DecodeEntry(disk.Json(job).j).value)))
  {
  }

  /** Every cached entry is what a restart would load for that job. */
  predicate Synced(st: Store) {
    forall job :: job in st.entries ==> Load(st.disk, job).0 == Some(st.entries[job])
  }

  /** A saved entry loads back as itself. */
  lemma SaveLoad(disk: Disk, job: string, e: ConfigEntry)
    requires Compiled(e) && InRange(e)
    ensures Load(Save(disk, job, e), job) == (Some(e), Save(disk, job, e))
  {
    DecodeEncode(e);
  }

  /** Saving a configuration replaces the job's entry, which later reads give back without
      a reload, and keeps every other entry and file. */
  lemma SaveConfigReplaces(st: Store, job: string, projectKey: Option<string>, issueType: Option<int>,
                           configs: Option<seq<FieldSpecs.FieldSpec>>, autoRaiseIssue: bool, other: string)
    requires other != job
    ensures var st1 := SaveConfig(st, job, projectKey, issueType, configs, autoRaiseIssue);
            GetJobConfigEntry(st1, job) == (Some(NewEntry(projectKey, issueType, configs, autoRaiseIssue)), st1)
            && GetProjectKey(st1, job).0 == projectKey
            && GetIssueType(st1, job).0 == issueType
            && GetConfig(st1, job).0 == configs
            && GetAutoRaiseIssue(st1, job).0 == autoRaiseIssue
            && GetIssueKeyPattern(st1, job).0 == Some(PatternFor(projectKey))
            && (other in st1.entries <==> other in st.entries)
            && (other in st.entries ==> st1.entries[other] == st.entries[other])
            && st1.disk.Json(other) == st.disk.Json(other)
  {
  }

  lemma SaveConfigSynced(st: Store, job: string, projectKey: Option<string>, issueType: Option<int>,
                         configs: Option<seq<FieldSpecs.FieldSpec>>, autoRaiseIssue: bool)
    requires Synced(st)
    requires issueType.Some? ==> LongMin <= issueType.value <= LongMax
    ensures Synced(SaveConfig(st, job, projectKey, issueType, configs, autoRaiseIssue))
  {
    var e := NewEntry(projectKey, issueType, configs, autoRaiseIssue);
    var st1 := SaveConfig(st, job, projectKey, issueType, configs, autoRaiseIssue);
    forall j | j in st1.entries ensures Load(st1.disk, j).0 == Some(st1.entries[j]) {
      if j == job {
        SaveLoad(st.disk, job, e);
      } else {
        assert st1.disk.Json(j) == st.disk.Json(j) && st1.disk.Legacy(j) == st.disk.Legacy(j);
      }
    }
  }

  /** A cached entry is returned without loading; a miss loads, caching only a non-null
      result. */
  lemma GetJobConfigEntryCache(st: Store, job: string)
    ensures job in st.entries ==> GetJobConfigEntry(st, job) == (Some(st.entries[job]), st)
    ensures job !in st.entries ==>
              var (e, st1) := GetJobConfigEntry(st, job);
              e == Load(st.disk, job).0 && st1.disk == Load(st.disk, job).1
              && (e.Some? ==> st1.entries == st.entries[job := e.value])
              && (e.None? ==> st1.entries == st.entries)
  {
  }

  /** With no entry to be had, every getter gives its default: null, or false. */
  lemma GettersDefault(st: Store, job: string)
    requires job !in st.entries && Load(st.disk, job).0.None?
    ensures GetConfig(st, job).0.None? && GetIssueType(st, job).0.None?
    ensures GetProjectKey(st, job).0.None? && GetIssueKeyPattern(st, job).0.None?
    ensures GetAutoRaiseIssue(st, job).0 == false
  {
  }

  /** Every entry handed out carries the pattern of its own project key. */
  lemma GetJobConfigEntryCompiled(st: Store, job: string)
    requires forall j :: j in st.entries ==> Compiled(st.entries[j])
    ensures var (e, st1) := GetJobConfigEntry(st, job);
            (e.Some? ==> Compiled(e.value)) && forall j :: j in st1.entries ==> Compiled(st1.entries[j])
  {
    LoadChain(st.disk, job);
  }

  /** Starting up keeps the cache and the files in step. */
  lemma {:induction false} StartupSynced(disk: Disk, jobs: seq<string>)
    requires LegacyInRange(disk)
    ensures Synced(Startup(disk, jobs))
    decreases |jobs|
  {
    if |jobs| > 0 {
      var st := Startup(disk, jobs[..|jobs| - 1]);
      StartupSynced(disk, jobs[..|jobs| - 1]);
      StartupLegacy(disk, jobs[..|jobs| - 1]);
      CacheLoadSynced(st, jobs[|jobs| - 1]);
    }
  }

  /** Loading a job and caching the result keeps the store in step. */
  lemma CacheLoadSynced(st: Store, job: string)
    requires Synced(st) && LegacyInRange(st.disk)
    ensures Synced(CacheLoad(st, job))
  {
    var st1 := CacheLoad(st, job);
    forall j | j in st1.entries ensures Load(st1.disk, j).0 == Some(st1.entries[j]) {
      if j != job {
        LoadFrame(st.disk, job, j);
      } else {
        LoadAgain(st.disk, job);
      }
    }
  }

  /** A load writes at most the loaded job's own JSON file. */
  lemma LoadFrame(disk: Disk, job: string, other: string)
    requires other != job
    ensures Load(Load(disk, job).1, other).0 == Load(disk, other).0
  {
    var disk1 := Load(disk, job).1;
    assert disk1.Json(other) == disk.Json(other) && disk1.Legacy(other) == disk.Legacy(other);
  }

  /** Loading again after a load gives the same entry. */
  lemma LoadAgain(disk: Disk, job: string)
    requires LegacyInRange(disk)
    ensures var (e, disk1) := Load(disk, job); e.Some? ==> Load(disk1, job).0 == e
  {
    var (e, disk1) := Load(disk, job);
    if e.Some? && disk.Json(job).NoJsonFile? {
      SaveLoad(disk, job, ReadResolve(disk.Legacy(job).e));
    }
  }

  /** Starting up never touches the old files. */
  lemma {:induction false} StartupLegacy(disk: Disk, jobs: seq<string>)
    ensures Startup(disk, jobs).disk.legacy == disk.legacy
    decreases |jobs|
  {
    if |jobs| > 0 {
      StartupLegacy(disk, jobs[..|jobs| - 1]);
    }
  }
}

=== FILE: jql_escape.dfy ===
/** `JiraUtils.escapeJQL`: a chain of nine literal `String.replace` calls followed by a
    cut before the last `[`.  Because `String.replace` is literal, the rules written as
    `"\\+"`, `"\\|"` and `"\\*"` match a backslash followed by `+`, `|` or `*`, not the bare
    operator.  `EscapeJqlIsOnePass` shows what the chain computes, character by character;
    `EscapeJqlIntended` is the escaping the method's documentation describes. */
module JqlEscape {
  import opened JavaStrings

  /** The nine `(target, replacement)` pairs of `escapeJQL`, in source order. */
  const Rules: seq<(string, string)> := [
    ("'", "\\'"),
    ("\"", "\\\""),
    ("\\+", "\\\\+"),
    ("-", "\\\\-"),
    ("&", "\\\\&"),
    ("\\|", "\\\\|"),
    ("~", "\\\\~"),
    ("\\*", "\\\\*"),
    ("?", "\\\\?")
  ]

  /** The replacements applied one after another to the whole string. */
  function ApplyRules(s: string, rules: seq<(string, string)>): string
    decreases |rules|
  {
    if |rules| == 0 then s else ApplyRules(Replace(s, rules[0].0, rules[0].1), rules[1..])
  }

  /** Index of the last occurrence of `c`, when there is one. */
  function LastIndexOf(s: string, c: char): (r: int)
    ensures -1 <= r < |s|
    ensures r == -1 ==> NoChar(s, c)
    ensures r >= 0 ==> s[r] == c && NoChar(s[r + 1..], c)
  {
    if |s| == 0 then -1
    else if s[|s| - 1] == c then |s| - 1
    else
      var k := LastIndexOf(s[..|s| - 1], c);
      assert k >= 0 ==> s[k + 1..] == s[..|s| - 1][k + 1..] + [s[|s| - 1]];
      k
  }

  /** `if (result.contains("[")) result = result.substring(0, result.lastIndexOf("["))`. */
  function CutAtLastBracket(s: string): (r: string)
    ensures |r| <= |s| && r == s[..|r|]
    ensures NoChar(s, '[') ==> r == s
    ensures !NoChar(s, '[') ==> |r| < |s| && s[|r|] == '[' && NoChar(s[|r| + 1..], '[')
  {
    var k := LastIndexOf(s, '[');
    if k < 0 then s else s[..k]
  }

  /** `escapeJQL` as written. */
  function EscapeJql(s: string): string {
    CutAtLastBracket(ApplyRules(s, Rules))
  }

  /* ---------- What the nine replacements compute ---------- */

  predicate IsPairTail(c: char) { c == '+' || c == '|' || c == '*' }

  /** Output for one character that does not start a backslash pair. */
  function AsWrittenChar(c: char): string {
    if c == '\'' then "\\'"
    else if c == '"' then "\\\""
    else if c == '-' || c == '&' || c == '~' || c == '?' then "\\\\" + [c]
    else [c]
  }

  /** One left-to-right pass: quotes get one backslash; `-`, `&`, `~`, `?` get two;
      `+`, `|`, `*` get two only when the input already has a backslash before them. */
  function AsWrittenOnePass(s: string): string
    decreases |s|
  {
    if |s| == 0 then ""
    else if |s| >= 2 && s[0] == '\\' && IsPairTail(s[1]) then "\\\\" + [s[1]] + AsWrittenOnePass(s[2..])
    else AsWrittenChar(s[0]) + AsWrittenOnePass(s[1..])
  }

  /** The shape every rule of `Rules` has, which keeps the seams between characters intact. */
  predicate WellFormedRule(rule: (string, string)) {
    1 <= |rule.0| <= 2 && |rule.1| > 0 && rule.1[0] == '\\' &&
    rule.1[|rule.1| - 1] == rule.0[|rule.0| - 1] && rule.0[|rule.0| - 1] != '\\' &&
    (|rule.0| == 2 ==> rule.0[0] == '\\' && rule.0[1] != '\\')
  }

  predicate NoSeam(x: string, y: string, rules: seq<(string, string)>) {
    forall k :: 0 <= k < |rules| ==> !Straddles(x, y, rules[k].0)
  }

  lemma {:induction false} ApplyRulesEmpty(rules: seq<(string, string)>)
    requires forall k :: 0 <= k < |rules| ==> WellFormedRule(rules[k])
    ensures ApplyRules("", rules) == ""
    decreases |rules|
  {
    if |rules| > 0 {
      assert Replace("", rules[0].0, rules[0].1) == "";
      ApplyRulesEmpty(rules[1..]);
    }
  }

  lemma {:induction false} ApplyRulesConcat(x: string, y: string, rules: seq<(string, string)>)
    requires forall k :: 0 <= k < |rules| ==> WellFormedRule(rules[k])
    requires NoSeam(x, y, rules)
    ensures ApplyRules(x + y, rules) == ApplyRules(x, rules) + ApplyRules(y, rules)
    decreases |rules|
  {
    if |rules| > 0 {
      var t, r := rules[0].0, rules[0].1;
      assert WellFormedRule(rules[0]);
      ReplaceConcat(x, y, t, r);
      var x', y' := Replace(x, t, r), Replace(y, t, r);
      if |x| > 0 { ReplaceKeepsLast(x, t, r); } else { assert x' == ""; }
      if |y| > 0 { ReplaceFirst(y, t, r); } else { assert y' == ""; }
      var rest := rules[1..];
      forall k | 0 <= k < |rest| ensures !Straddles(x', y', rest[k].0) {
        var u := rest[k].0;
        assert u == rules[k + 1].0;
        assert WellFormedRule(rules[k + 1]);
        assert !Straddles(x, y, u);
        if |u| == 2 && |x'| > 0 && |y'| > 0 {
          assert x'[|x'| - 1] == x[|x| - 1];
          assert y'[0] == y[0] || y'[0] == '\\';
        }
      }
      ApplyRulesConcat(x', y', rest);
    }
  }

  lemma RulesWellFormed()
    ensures forall k :: 0 <= k < |Rules| ==> WellFormedRule(Rules[k])
  {
  }

  lemma {:induction false} ApplyRulesSplit(s: string, a: seq<(string, string)>, b: seq<(string, string)>)
    ensures ApplyRules(s, a + b) == ApplyRules(ApplyRules(s, a), b)
    decreases |a|
  {
    if |a| > 0 {
      assert (a + b)[1..] == a[1..] + b;
      ApplyRulesSplit(Replace(s, a[0].0, a[0].1), a[1..], b);
    } else {
      assert a + b == b;
    }
  }

  /** Rules whose target does not occur in `s` leave it alone. */
  lemma {:induction false} ApplyRulesMiss(s: string, rules: seq<(string, string)>)
    requires forall k :: 0 <= k < |rules| ==> |rules[k].0| >= 1 && !Contains(s, rules[k].0)
    ensures ApplyRules(s, rules) == s
    decreases |rules|
  {
    if |rules| > 0 {
      ReplaceAbsent(s, rules[0].0, rules[0].1);
      ApplyRulesMiss(s, rules[1..]);
    }
  }

  lemma NotContainsLonger(s: string, t: string)
    requires |s| < |t|
    ensures !Contains(s, t)
  {
  }

  /** A target misses `s` when one of its characters is absent from `s`. */
  lemma MissingCharMisses(s: string, t: string, m: nat)
    requires m < |t| && NoChar(s, t[m])
    ensures !Contains(s, t)
  {
    forall i | 0 <= i <= |s| ensures !OccursAt(s, i, t) {
      if i + |t| <= |s| {
        assert s[i..i + |t|][m] == s[i + m];
      }
    }
  }

  /** The character each rule escapes: the last character of its target. */
  function RuleChar(rule: (string, string)): char
    requires |rule.0| > 0
  {
    rule.0[|rule.0| - 1]
  }

  lemma RuleChars()
    ensures RuleChar(Rules[0]) == '\''
    ensures RuleChar(Rules[1]) == '"'
    ensures RuleChar(Rules[2]) == '+'
    ensures RuleChar(Rules[3]) == '-'
    ensures RuleChar(Rules[4]) == '&'
    ensures RuleChar(Rules[5]) == '|'
    ensures RuleChar(Rules[6]) == '~'
    ensures RuleChar(Rules[7]) == '*'
    ensures RuleChar(Rules[8]) == '?'
  {
  }

  /** A string made of backslashes and `c` is left alone by the rules for other characters. */
  lemma {:induction false} OtherRulesMiss(s: string, c: char, rules: seq<(string, string)>)
    requires forall i :: 0 <= i < |s| ==> s[i] == '\\' || s[i] == c
    requires forall j :: 0 <= j < |rules| ==> WellFormedRule(rules[j]) && RuleChar(rules[j]) != c
    ensures ApplyRules(s, rules) == s
    decreases |rules|
  {
    if |rules| > 0 {
      var t := rules[0].0;
      assert WellFormedRule(rules[0]);
      MissingCharMisses(s, t, |t| - 1);
      ReplaceAbsent(s, t, rules[0].1);
      OtherRulesMiss(s, c, rules[1..]);
    }
  }

  /** Rule `k` is the only one of `rules` that changes `s`, and it turns it into `out`. */
  lemma OnlyRuleK(s: string, c: char, rules: seq<(string, string)>, k: nat, out: string)
    requires k < |rules| && forall j :: 0 <= j < |rules| ==> WellFormedRule(rules[j])
    requires forall j :: 0 <= j < |rules| && j != k ==> |rules[j].0| > 0 && RuleChar(rules[j]) != c
    requires forall i :: 0 <= i < |s| ==> s[i] == '\\' || s[i] == c
    requires forall i :: 0 <= i < |out| ==> out[i] == '\\' || out[i] == c
    requires Replace(s, rules[k].0, rules[k].1) == out
    ensures ApplyRules(s, rules) == out
  {
    var before, after := rules[..k], rules[k + 1..];
    forall j | 0 <= j < |before| ensures WellFormedRule(before[j]) && RuleChar(before[j]) != c {
      assert before[j] == rules[j];
    }
    forall j | 0 <= j < |after| ensures WellFormedRule(after[j]) && RuleChar(after[j]) != c {
      assert after[j] == rules[k + 1 + j];
    }
    assert rules == before + rules[k..];
    OtherRulesMiss(s, c, before);
    ApplyRulesSplit(s, before, rules[k..]);
    assert rules[k..][1..] == after;
    OtherRulesMiss(out, c, after);
  }

  lemma DistinctRuleChars()
    ensures forall j, k :: 0 <= j < k < |Rules| ==> RuleChar(Rules[j]) != RuleChar(Rules[k])
  {
    RuleChars();
  }

  /** A backslash followed by `+`, `|` or `*` becomes two backslashes and the character. */
  lemma PairToken(c: char)
    requires IsPairTail(c)
    ensures ApplyRules(['\\', c], Rules) == "\\\\" + [c]
  {
    RulesWellFormed();
    DistinctRuleChars();
    RuleChars();
    if c == '+' {
      assert Rules[2].0 == "\\+" && Rules[2].1 == "\\\\+";
      PairRule(c, 2);
    } else if c == '|' {
      assert Rules[5].0 == "\\|" && Rules[5].1 == "\\\\|";
      PairRule(c, 5);
    } else {
      assert Rules[7].0 == "\\*" && Rules[7].1 == "\\\\*";
      PairRule(c, 7);
    }
  }

  lemma PairRule(c: char, k: nat)
    requires k < |Rules| && c != '\\'
    requires Rules[k].0 == ['\\', c] && Rules[k].1 == "\\\\" + [c]
    requires forall j :: 0 <= j < |Rules| ==> WellFormedRule(Rules[j])
    requires forall j :: 0 <= j < |Rules| && j != k ==> RuleChar(Rules[j]) != c
    ensures ApplyRules(['\\', c], Rules) == "\\\\" + [c]
  {
    var s := ['\\', c];
    var out := "\\\\" + [c];
    assert s[..2] == Rules[k].0 && s[2..] == [];
    assert Replace(s, Rules[k].0, Rules[k].1) == out + Replace([], Rules[k].0, Rules[k].1);
    OnlyRuleK(s, c, Rules, k, out);
  }

  lemma SingleRule(c: char, k: nat)
    requires k < |Rules| && c != '\\'
    requires Rules[k].0 == [c] && Rules[k].1 == AsWrittenChar(c)
    requires forall i :: 0 <= i < |AsWrittenChar(c)| ==> AsWrittenChar(c)[i] == '\\' || AsWrittenChar(c)[i] == c
    requires forall j :: 0 <= j < |Rules| ==> WellFormedRule(Rules[j])
    requires forall j :: 0 <= j < |Rules| && j != k ==> RuleChar(Rules[j]) != c
    ensures ApplyRules([c], Rules) == AsWrittenChar(c)
  {
    var out := AsWrittenChar(c);
    assert [c][..1] == Rules[k].0 && [c][1..] == [];
    assert Replace([c], Rules[k].0, Rules[k].1) == out + Replace([], [c], Rules[k].1);
    OnlyRuleK([c], c, Rules, k, out);
  }

  /** A single character (not the start of a backslash pair) is escaped as `AsWrittenChar` says. */
  lemma SingleToken(c: char)
    ensures ApplyRules([c], Rules) == AsWrittenChar(c)
  {
    RulesWellFormed();
    RuleChars();
    DistinctRuleChars();
    if c == '\'' {
      assert Rules[0].0 == "'" && Rules[0].1 == "\\'";
      SingleRule(c, 0);
    } else if c == '"' {
      assert Rules[1].0 == "\"" && Rules[1].1 == "\\\"";
      SingleRule(c, 1);
    } else if c == '-' {
      assert Rules[3].0 == "-" && Rules[3].1 == "\\\\-";
      SingleRule(c, 3);
    } else if c == '&' {
      assert Rules[4].0 == "&" && Rules[4].1 == "\\\\&";
      SingleRule(c, 4);
    } else if c == '~' {
      assert Rules[6].0 == "~" && Rules[6].1 == "\\\\~";
      SingleRule(c, 6);
    } else if c == '?' {
      assert Rules[8].0 == "?" && Rules[8].1 == "\\\\?";
      SingleRule(c, 8);
    } else {
      forall j | 0 <= j < |Rules| ensures |Rules[j].0| >= 1 && !Contains([c], Rules[j].0) {
        assert WellFormedRule(Rules[j]);
        if |Rules[j].0| == 1 {
          MissingCharMisses([c], Rules[j].0, 0);
        } else {
          NotContainsLonger([c], Rules[j].0);
        }
      }
      ApplyRulesMiss([c], Rules);
    }
  }

  /** The nine replacements compute `AsWrittenOnePass`. */
  lemma {:induction false} ApplyRulesIsOnePass(s: string)
    ensures ApplyRules(s, Rules) == AsWrittenOnePass(s)
    decreases |s|
  {
    RulesWellFormed();
    if |s| == 0 {
      ApplyRulesEmpty(Rules);
    } else if |s| >= 2 && s[0] == '\\' && IsPairTail(s[1]) {
      var x, y := s[..2], s[2..];
      assert x == ['\\', s[1]];
      assert x + y == s;
      ApplyRulesConcat(x, y, Rules);
      PairToken(s[1]);
      ApplyRulesIsOnePass(y);
    } else {
      var x, y := s[..1], s[1..];
      assert x == [s[0]];
      assert x + y == s;
      ApplyRulesConcat(x, y, Rules);
      SingleToken(s[0]);
      ApplyRulesIsOnePass(y);
    }
  }

  /** What `escapeJQL` returns, stated as a single pass over its input. */
  lemma EscapeJqlIsOnePass(s: string)
    ensures EscapeJql(s) == CutAtLastBracket(AsWrittenOnePass(s))
  {
    ApplyRulesIsOnePass(s);
  }

  lemma {:induction false} OnePassConcat(x: string, y: string)
    requires |x| == 0 || x[|x| - 1] != '\\'
    ensures AsWrittenOnePass(x + y) == AsWrittenOnePass(x) + AsWrittenOnePass(y)
    decreases |x|
  {
    if |x| == 0 {
      assert x + y == y;
    } else if |x| >= 2 && x[0] == '\\' && IsPairTail(x[1]) {
      OnePassConcat(x[2..], y);
      PairConcatStep(x, y);
    } else {
      OnePassConcat(x[1..], y);
      SingleConcatStep(x, y);
    }
  }

  /** `OnePassConcat` when `x` starts with an escape pair, given it for the rest of `x`. */
  lemma PairConcatStep(x: string, y: string)
    requires |x| >= 2 && x[0] == '\\' && IsPairTail(x[1])
    requires AsWrittenOnePass(x[2..] + y) == AsWrittenOnePass(x[2..]) + AsWrittenOnePass(y)
    ensures AsWrittenOnePass(x + y) == AsWrittenOnePass(x) + AsWrittenOnePass(y)
  {
    var h := "\\\\" + [x[1]];
    calc {
      AsWrittenOnePass(x + y);
      { PairHead(x, y); }
      h + AsWrittenOnePass(x[2..] + y);
      h + (AsWrittenOnePass(x[2..]) + AsWrittenOnePass(y));
      { ConcatAssoc(h, AsWrittenOnePass(x[2..]), AsWrittenOnePass(y)); }
      h + AsWrittenOnePass(x[2..]) + AsWrittenOnePass(y);
      { OnePassPair(x); }
      AsWrittenOnePass(x) + AsWrittenOnePass(y);
    }
  }

  /** `OnePassConcat` when `x` starts with a single character, given it for the rest. */
  lemma SingleConcatStep(x: string, y: string)
    requires |x| >= 1 && x[|x| - 1] != '\\' && !(|x| >= 2 && x[0] == '\\' && IsPairTail(x[1]))
    requires AsWrittenOnePass(x[1..] + y) == AsWrittenOnePass(x[1..]) + AsWrittenOnePass(y)
    ensures AsWrittenOnePass(x + y) == AsWrittenOnePass(x) + AsWrittenOnePass(y)
  {
    var h := AsWrittenChar(x[0]);
    calc {
      AsWrittenOnePass(x + y);
      { SingleHead(x, y); }
      h + AsWrittenOnePass(x[1..] + y);
      h + (AsWrittenOnePass(x[1..]) + AsWrittenOnePass(y));
      { ConcatAssoc(h, AsWrittenOnePass(x[1..]), AsWrittenOnePass(y)); }
      h + AsWrittenOnePass(x[1..]) + AsWrittenOnePass(y);
      { OnePassSingle(x); }
      AsWrittenOnePass(x) + AsWrittenOnePass(y);
    }
  }

  /** An escape pair that starts `x` is also the first token of `x + y`. */
  lemma PairHead(x: string, y: string)
    requires |x| >= 2 && x[0] == '\\' && IsPairTail(x[1])
    ensures AsWrittenOnePass(x + y) == "\\\\" + [x[1]] + AsWrittenOnePass(x[2..] + y)
  {
    var s := x + y;
    assert s[2..] == x[2..] + y && s[0] == x[0] && s[1] == x[1];
    OnePassPair(s);
  }

  /** A single first character of `x` is also the first token of `x + y`. */
  lemma SingleHead(x: string, y: string)
    requires |x| >= 1 && x[|x| - 1] != '\\' && !(|x| >= 2 && x[0] == '\\' && IsPairTail(x[1]))
    ensures AsWrittenOnePass(x + y) == AsWrittenChar(x[0]) + AsWrittenOnePass(x[1..] + y)
  {
    var s := x + y;
    assert s[1..] == x[1..] + y && s[0] == x[0];
    assert |x| >= 2 ==> s[1] == x[1];
    OnePassSingle(s);
  }

  lemma OnePassPair(s: string)
    requires |s| >= 2 && s[0] == '\\' && IsPairTail(s[1])
    ensures AsWrittenOnePass(s) == "\\\\" + [s[1]] + AsWrittenOnePass(s[2..])
  {
  }

  lemma OnePassSingle(s: string)
    requires |s| >= 1 && !(|s| >= 2 && s[0] == '\\' && IsPairTail(s[1]))
    ensures AsWrittenOnePass(s) == AsWrittenChar(s[0]) + AsWrittenOnePass(s[1..])
  {
  }

  lemma {:induction false} OnePassLast(x: string)
    requires |x| > 0
    ensures |AsWrittenOnePass(x)| > 0
    ensures AsWrittenOnePass(x)[|AsWrittenOnePass(x)| - 1] == x[|x| - 1]
    decreases |x|
  {
    if |x| >= 2 && x[0] == '\\' && IsPairTail(x[1]) {
      if |x| > 2 { OnePassLast(x[2..]); }
    } else if |x| > 1 {
      OnePassLast(x[1..]);
    }
  }

  lemma {:induction false} OnePassNoChar(x: string, c: char)
    requires NoChar(x, c) && c != '\\'
    ensures NoChar(AsWrittenOnePass(x), c)
    decreases |x|
  {
    if |x| >= 2 && x[0] == '\\' && IsPairTail(x[1]) {
      OnePassNoChar(x[2..], c);
    } else if |x| > 0 {
      OnePassNoChar(x[1..], c);
    }
  }

  /** A `+` that does not follow a backslash stays bare in the one-pass rewrite. */
  lemma OnePassLeavesPlusBare(a: string, b: string)
    requires |a| == 0 || a[|a| - 1] != '\\'
    ensures var o := AsWrittenOnePass(a + "+" + b);
      |AsWrittenOnePass(a)| < |o| && o[|AsWrittenOnePass(a)|] == '+' &&
      (|AsWrittenOnePass(a)| == 0 || o[|AsWrittenOnePass(a)| - 1] != '\\')
  {
    var s := a + "+" + b;
    assert s == a + ("+" + b);
    OnePassConcat(a, "+" + b);
    assert ("+" + b)[1..] == b;
    assert AsWrittenOnePass("+" + b) == "+" + AsWrittenOnePass(b);
    if |a| > 0 {
      OnePassLast(a);
    }
  }

  /** A `+` that does not follow a backslash stays bare in `escapeJQL`'s result: the
      literal rule `"\\+"` only matches a backslash followed by `+`. */
  lemma EscapeJqlLeavesPlusBare(a: string, b: string)
    requires |a| == 0 || a[|a| - 1] != '\\'
    requires NoChar(a + "+" + b, '[')
    ensures !EverySpecialEscaped(EscapeJql(a + "+" + b))
  {
    var s := a + "+" + b;
    EscapeJqlIsOnePass(s);
    OnePassNoChar(s, '[');
    OnePassLeavesPlusBare(a, b);
    var o := AsWrittenOnePass(s);
    var i := |AsWrittenOnePass(a)|;
    assert IsSpecial(o[i]);
  }

  /* ---------- The escaping the documentation describes ---------- */

  /** The Lucene operators `escapeJQL` is documented to escape. */
  predicate IsSpecial(c: char) {
    c == '+' || c == '-' || c == '&' || c == '|' || c == '~' || c == '*' || c == '?'
  }

  /** Every operator character in `o` is preceded by two backslashes. */
  predicate EverySpecialEscaped(o: string) {
    forall i :: 0 <= i < |o| && IsSpecial(o[i]) ==> 2 <= i && o[i - 2] == '\\' && o[i - 1] == '\\'
  }

  function IntendedChar(c: char): (r: string)
    ensures |r| >= 1 && !IsSpecial(r[0]) && r[0] != '\'' && r[0] != '"'
  {
    if c == '\'' then "\\'"
    else if c == '"' then "\\\""
    else if IsSpecial(c) then "\\\\" + [c]
    else [c]
  }

  function EscapeAll(s: string): (r: string)
    ensures |s| > 0 ==> |r| > 0 && !IsSpecial(r[0]) && r[0] != '\'' && r[0] != '"'
  {
    if |s| == 0 then "" else IntendedChar(s[0]) + EscapeAll(s[1..])
  }

  /** Corrected `escapeJQL`: every operator is escaped, not just the ones after a backslash. */
  function EscapeJqlIntended(s: string): string {
    CutAtLastBracket(EscapeAll(s))
  }

  lemma {:induction false} EscapeAllEscapes(s: string)
    ensures EverySpecialEscaped(EscapeAll(s))
    decreases |s|
  {
    if |s| > 0 {
      EscapeAllEscapes(s[1..]);
      var h, t := IntendedChar(s[0]), EscapeAll(s[1..]);
      forall i | 0 <= i < |h + t| && IsSpecial((h + t)[i])
        ensures 2 <= i && (h + t)[i - 2] == '\\' && (h + t)[i - 1] == '\\'
      {
        if i >= |h| {
          var j := i - |h|;
          assert t[j] == (h + t)[i];
          assert j >= 1;
        }
      }
    }
  }

  /** The corrected escaping leaves no bare operator, even after the cut at `[`. */
  lemma EscapeJqlIntendedEscapes(s: string)
    ensures EverySpecialEscaped(EscapeJqlIntended(s))
  {
    EscapeAllEscapes(s);
    var o := EscapeAll(s);
    var r := EscapeJqlIntended(s);
    forall i | 0 <= i < |r| && IsSpecial(r[i]) ensures 2 <= i && r[i - 2] == '\\' && r[i - 1] == '\\' {
      assert r[i] == o[i];
    }
  }

  lemma EscapeJqlIntendedPlus()
    ensures EscapeJqlIntended("a+b") == "a\\\\+b"
  {
    assert EscapeAll("a+b") == "a" + EscapeAll("+b");
    assert EscapeAll("+b") == "\\\\+" + EscapeAll("b");
    assert EscapeAll("a+b") == "a\\\\+b";
  }

  /** Undoes `EscapeAll`. */
  function Unescape(o: string): string
    decreases |o|
  {
    if |o| >= 3 && o[0] == '\\' && o[1] == '\\' && IsSpecial(o[2]) then [o[2]] + Unescape(o[3..])
    else if |o| >= 2 && o[0] == '\\' && (o[1] == '\'' || o[1] == '"') then [o[1]] + Unescape(o[2..])
    else if |o| == 0 then ""
    else [o[0]] + Unescape(o[1..])
  }

  /** The corrected escaping loses nothing: unescaping gives back the input. */
  lemma {:induction false} UnescapeEscapeAll(s: string)
    ensures Unescape(EscapeAll(s)) == s
    decreases |s|
  {
    if |s| > 0 {
      UnescapeEscapeAll(s[1..]);
      EscapeAllSafeHead(s[1..]);
      UnescapeCons(s[0], EscapeAll(s[1..]));
      assert [s[0]] + s[1..] == s;
    }
  }

  /** `t` starts with nothing `Unescape` would join to an escape written before it. */
  predicate SafeHead(t: string) {
    |t| == 0 || (!IsSpecial(t[0]) && t[0] != '\'' && t[0] != '"' && (|t| >= 2 && t[0] == '\\' ==> !IsSpecial(t[1])))
  }

  lemma EscapeAllSafeHead(s: string)
    ensures SafeHead(EscapeAll(s))
  {
    if |s| > 0 {
      var t := EscapeAll(s);
      assert t == IntendedChar(s[0]) + EscapeAll(s[1..]);
      if s[0] == '\\' && |t| >= 2 {
        assert t[1] == EscapeAll(s[1..])[0];
      }
    }
  }

  /** One escaped character followed by a safe rest unescapes to the character. */
  lemma UnescapeCons(c: char, t: string)
    requires SafeHead(t)
    ensures Unescape(IntendedChar(c) + t) == [c] + Unescape(t)
  {
    var h := IntendedChar(c);
    assert (h + t)[|h|..] == t;
  }
}

=== FILE: json.dfy ===
/** The JSON document shapes Gson reads and writes for the plugin's files. */
module Json {
  datatype Json =
    | JNull
    | JBool(b: bool)
    | JNum(n: int)
    | JStr(s: string)
    | JArr(items: seq<Json>)
    | JObj(members: map<string, Json>)
}

=== FILE: legacy_reporter.dfy ===
/** The first `JiraReporter`, a post-build step that talks to Jira's REST interface over
    plain HTTP: it files a `Bug` for each new failure and, when asked, resolves the open
    issues whose summary names a test that passes now.  The server is an oracle: each
    request gives a status code, or an I/O failure. */
module LegacyReporter {
  import opened Wrappers
  import opened JavaStrings
  import opened Json
  import opened TestResults

  /* ---------- Configuration ---------- */

  /** The server address as stored: with a trailing `/`, added only when missing. */
  function NormalizeServer(address: string): (r: string)
    ensures EndsWith(r, "/")
    ensures EndsWith(address, "/") ==> r == address
    ensures !EndsWith(address, "/") ==> r == address + "/"
  {
    if EndsWith(address, "/") then address
    else
      var r := address + "/";
      assert r[|r| - 1..] == "/";
      r
  }

  /** Normalising twice is normalising once. */
  lemma NormalizeServerIdempotent(address: string)
    ensures NormalizeServer(NormalizeServer(address)) == NormalizeServer(address)
  {
  }

  datatype Config = Config(projectKey: string, serverAddress: string, createAll: bool,
                           debug: bool, verboseDebug: bool, resolveIssues: bool)

  /** The constructor: the address normalised; verbose debugging implies debugging. */
  function NewConfig(projectKey: string, serverAddress: string, createAll: bool, debug: bool,
                     verboseDebug: bool, resolveIssues: bool): (r: Config)
    ensures EndsWith(r.serverAddress, "/")
    ensures r.debug <==> debug || verboseDebug
    ensures r.verboseDebug == verboseDebug && r.createAll == createAll && r.projectKey == projectKey
  {
    Config(projectKey, NormalizeServer(serverAddress), createAll, verboseDebug || debug, verboseDebug, resolveIssues)
  }

  /* ---------- Form checks of the descriptor ---------- */

  const NoProjectKey: string := "You must provide a project key."
  const NoUrl: string := "You must provide an URL."
  const BadUrl: string := "This is not a valid URL."

  /** `doCheckProjectKey`: an error message, or `None` for ok. */
  function CheckProjectKey(value: string): (r: Option<string>)
    ensures r.Some? <==> value == ""
    ensures r.Some? ==> r.value == NoProjectKey
  {
    if value == "" then Some(NoProjectKey) else None
  }

  /** The protocols `java.net.URL` has handlers for. */
  const KnownProtocols: set<string> := {"http", "https", "ftp", "file", "jar", "mailto"}

  predicate IsSchemeChar(c: char) {
    ('a' <= c <= 'z') || ('A' <= c <= 'Z') || ('0' <= c <= '9') || c == '+' || c == '-' || c == '.'
  }

  /** The protocol of a URL: the text before the first `:`, when it is a well-formed
      scheme (a letter, then letters, digits, `+`, `-` or `.`). */
  function Scheme(url: string): (r: Option<string>)
    ensures r.Some? ==> |r.value| > 0 && |r.value| < |url| && url[|r.value|] == ':' && r.value == url[..|r.value|]
  {
    SchemeFrom(url, 0)
  }

  function SchemeFrom(url: string, i: nat): (r: Option<string>)
    requires i <= |url|
    ensures r.Some? ==> |r.value| > 0 && |r.value| < |url| && url[|r.value|] == ':' && r.value == url[..|r.value|]
    decreases |url| - i
  {
    if i == |url| then None
    else if url[i] == ':' then
      if i > 0 && (('a' <= url[0] <= 'z') || ('A' <= url[0] <= 'Z')) then Some(url[..i]) else None
    else if IsSchemeChar(url[i]) then SchemeFrom(url, i + 1)
    else None
  }

  /** `new URL(value)` succeeds: the value has a protocol that has a handler. */
  predicate ValidUrl(value: string) {
    var s := Scheme(value);
    s.Some? && ToLower(s.value) in KnownProtocols
  }

  /** `doCheckServerAddress`. */
  function CheckServerAddress(value: string): (r: Option<string>)
    ensures r.None? <==> value != "" && ValidUrl(value)
    ensures value == "" ==> r == Some(NoUrl)
    ensures value != "" && !ValidUrl(value) ==> r == Some(BadUrl)
  {
    if value == "" then Some(NoUrl)
    else if !ValidUrl(value) then Some(BadUrl)
    else None
  }

  /** The address checks on the inputs of the configuration page's checks: a bare word is
      not a URL, a web address is. */
  lemma CheckServerAddressExamples()
    ensures CheckServerAddress("") == Some(NoUrl)
    ensures CheckServerAddress("bbbb") == Some(BadUrl)
    ensures CheckServerAddress("http://www.google.com") == None
    ensures CheckProjectKey("") == Some(NoProjectKey) && CheckProjectKey("aaaa") == None
  {
    assert SchemeFrom("bbbb", 4) == None;
    var g := "http://www.google.com";
    assert g[4] == ':' && g[..4] == "http";
    assert SchemeFrom(g, 4) == Some("http");
    assert SchemeFrom(g, 0) == SchemeFrom(g, 1) == SchemeFrom(g, 2) == SchemeFrom(g, 3) == SchemeFrom(g, 4);
    assert ToLower("http") == "http";
  }

  /* ---------- The server ---------- */

  /** An HTTP exchange: the response's status code, or an `IOException`. */
  datatype HttpOutcome = Responded(code: int) | IoFailure

  datatype Issue = Issue(key: string, summary: string)

  /** A search: status code and the issues found, or an I/O failure. */
  datatype SearchOutcome = Found(code: int, issues: seq<Issue>) | SearchIoFailure

  /** `transitions` gives the (name, id) pairs of an issue's transitions, `None` on an I/O
      failure. */
  datatype Server = Server(
    create: Json -> HttpOutcome,
    search: string -> SearchOutcome,
    transitions: string -> Option<seq<(string, string)>>,
    transition: (string, Json) -> HttpOutcome)

  /** What ends a run with an exception the step does not catch. */
  datatype ReportError =
    | HttpStatus(message: string)   // an unexpected status code
    | NullStackTrace                // a failure without a stack trace
    | NullTransitionId              // no `Resolve Issue` transition was found
    | ClientShutDown                // a request on an HTTP client already shut down

  const OkCode: int := 200
  const CreatedCode: int := 201
  const NoContentCode: int := 204

  /** `validateHttpResponse`: any code but the expected one is an error. */
  function ValidateHttpResponse(code: int, expected: int): (r: Result<(), ReportError>)
    ensures r.Success? <==> code == expected
    ensures r.Failure? ==> r.error == HttpStatus("[JiraTestResultReporter] [ERROR] Failed : HTTP error code : " + IntToString(code))
  {
    if code != expected then Failure(HttpStatus("[JiraTestResultReporter] [ERROR] Failed : HTTP error code : " + IntToString(code)))
    else Success(())
  }

  /* ---------- Creating issues ---------- */

  /** `issueSummary`: `Test <name> failed`. */
  function IssueSummary(name: Option<string>): string {
    "Test " + name.GetOr("null") + " failed"
  }

  /** Different test names give different summaries, so a summary names one test. */
  lemma IssueSummaryInjective(a: Option<string>, b: Option<string>)
    requires IssueSummary(a) == IssueSummary(b)
    ensures a.GetOr("null") == b.GetOr("null")
  {
    var x, y := a.GetOr("null"), b.GetOr("null");
    assert |x| == |y|;
    assert x == IssueSummary(a)[5..5 + |x|];
    assert y == IssueSummary(b)[5..5 + |y|];
  }

  /** A failed test is reported when it is new (age 1) or when every failure is wanted. */
  predicate Reportable(c: Config, t: CaseResult) {
    t.info.age == 1 || c.createAll
  }

  /** The description of a new issue; the workspace path is cut out of the stack trace. */
  function Description(t: CaseResult, buildUrl: string, workspace: string): Option<string> {
    if t.data.errorStackTrace.None? then None
    else
      Some("Test class: " + t.info.className.GetOr("null") + "\n\n" +
           "Jenkins job: " + buildUrl + "\n\n" +
           "{noformat}\n" + t.data.errorDetails.GetOr("null") + "\n{noformat}\n\n" +
           "{noformat}\n" + Replace(t.data.errorStackTrace.value, workspace, "") + "\n{noformat}\n\n")
  }

  /** The body of the create request. */
  function CreatePayload(c: Config, t: CaseResult, description: string): (r: Json)
    ensures r.JObj? && "fields" in r.members && r.members["fields"].JObj?
    ensures var f := r.members["fields"].members;
            "summary" in f && f["summary"] == JStr(IssueSummary(t.info.name))
            && "issuetype" in f && f["issuetype"] == JObj(map["name" := JStr("Bug")])
  {
    JObj(map["fields" := JObj(map[
      "project" := JObj(map["key" := JStr(c.projectKey)]),
      "summary" := JStr(IssueSummary(t.info.name)),
      "description" := JStr(description),
      "issuetype" := JObj(map["name" := JStr("Bug")])])])
  }

  /** The loop of `createJiraIssue` over the failed tests; the value is the bodies posted.
      `open` says whether the shared HTTP client still works, `closeEach` whether each
      request shuts it down afterwards.  An I/O failure is logged and the loop goes on. */
  function CreateLoop(c: Config, srv: Server, failed: seq<CaseResult>, buildUrl: string, workspace: string,
                      open: bool, closeEach: bool): Result<seq<Json>, ReportError>
    decreases |failed|
  {
    if |failed| == 0 then Success([])
    else
      var t := failed[0];
      if !Reportable(c, t) then CreateLoop(c, srv, failed[1..], buildUrl, workspace, open, closeEach)
      else
        match Description(t, buildUrl, workspace)
        case None => Failure(NullStackTrace)
        case Some(d) =>
          if !open then Failure(ClientShutDown)
          else
            var payload := CreatePayload(c, t, d);
            var stillOpen := !closeEach;
            var sent := srv.create(payload);
            if sent.Responded? && sent.code != CreatedCode then
              Failure(ValidateHttpResponse(sent.code, CreatedCode).error)
            else
              match CreateLoop(c, srv, failed[1..], buildUrl, workspace, stillOpen, closeEach)
              case Failure(e) => Failure(e)
              case Success(rest) => Success([payload] + rest)
  }

  /** `createJiraIssue` as written: one client for the whole loop, shut down in the
      `finally` of every request. */
  function CreateJiraIssue(c: Config, srv: Server, failed: seq<CaseResult>, buildUrl: string, workspace: string)
    : Result<seq<Json>, ReportError>
  {
    CreateLoop(c, srv, failed, buildUrl, workspace, true, true)
  }

  /** `createJiraIssue` as intended: the client is shut down once, after the loop. */
  function CreateJiraIssueIntended(c: Config, srv: Server, failed: seq<CaseResult>, buildUrl: string, workspace: string)
    : Result<seq<Json>, ReportError>
  {
    CreateLoop(c, srv, failed, buildUrl, workspace, true, false)
  }

  /** The tests that are reported, in order. */
  function ReportedTests(c: Config, failed: seq<CaseResult>): (r: seq<CaseResult>)
    ensures |r| <= |failed|
    ensures forall i :: 0 <= i < |r| ==> Reportable(c, r[i]) && r[i] in failed
    ensures forall t :: t in r <==> t in failed && Reportable(c, t)
  {
    if |failed| == 0 then []
    else if Reportable(c, failed[0]) then [failed[0]] + ReportedTests(c, failed[1..])
    else ReportedTests(c, failed[1..])
  }

  /** As written: once one new failure has been posted, the next new failure meets a
      client that was shut down, and the step fails. */
  lemma CreateSecondFails(c: Config, srv: Server, t1: CaseResult, t2: CaseResult, buildUrl: string, workspace: string)
    requires Reportable(c, t1) && Reportable(c, t2)
    requires t1.data.errorStackTrace.Some? && t2.data.errorStackTrace.Some?
    requires srv.create(CreatePayload(c, t1, Description(t1, buildUrl, workspace).value)) == Responded(CreatedCode)
    ensures CreateJiraIssue(c, srv, [t1, t2], buildUrl, workspace) == Failure(ClientShutDown)
  {
    assert [t1, t2][1..] == [t2];
    assert CreateLoop(c, srv, [t2], buildUrl, workspace, false, true) == Failure(ClientShutDown);
  }

  /** The create bodies of the given tests, in order. */
  function Bodies(c: Config, ts: seq<CaseResult>, buildUrl: string, workspace: string): (r: seq<Json>)
    ensures |r| == |ts|
  {
    if |ts| == 0 then []
    else [CreatePayload(c, ts[0], Description(ts[0], buildUrl, workspace).GetOr(""))]
         + Bodies(c, ts[1..], buildUrl, workspace)
  }

  /** As intended: when the server accepts every request, each reportable failure is
      posted once, in order; the others are skipped as old. */
  lemma {:induction false} CreateIntendedPostsAll(c: Config, srv: Server, failed: seq<CaseResult>,
                                                  buildUrl: string, workspace: string)
    requires forall i :: 0 <= i < |failed| ==> failed[i].data.errorStackTrace.Some?
    requires forall j :: srv.create(j) == Responded(CreatedCode)
    ensures CreateJiraIssueIntended(c, srv, failed, buildUrl, workspace)
            == Success(Bodies(c, ReportedTests(c, failed), buildUrl, workspace))
    decreases |failed|
  {
    if |failed| > 0 {
      assert failed[0].data.errorStackTrace.Some?;
      assert forall i :: 0 <= i < |failed[1..]| ==> failed[1..][i] == failed[i + 1];
      CreateIntendedPostsAll(c, srv, failed[1..], buildUrl, workspace);
      if Reportable(c, failed[0]) {
        var rs := ReportedTests(c, failed);
        assert rs[0] == failed[0] && rs[1..] == ReportedTests(c, failed[1..]);
      }
    }
  }

  /** A failure that is not new is never posted unless every failure is wanted. */
  lemma OldFailuresSkipped(c: Config, srv: Server, failed: seq<CaseResult>, buildUrl: string, workspace: string)
    requires !c.createAll
    requires forall i :: 0 <= i < |failed| ==> failed[i].info.age != 1
    ensures CreateJiraIssue(c, srv, failed, buildUrl, workspace) == Success([])
    ensures CreateJiraIssueIntended(c, srv, failed, buildUrl, workspace) == Success([])
  {
    OldFailuresSkippedFrom(c, srv, failed, buildUrl, workspace, true);
    OldFailuresSkippedFrom(c, srv, failed, buildUrl, workspace, false);
  }

  lemma {:induction false} OldFailuresSkippedFrom(c: Config, srv: Server, failed: seq<CaseResult>, buildUrl: string,
                                                  workspace: string, closeEach: bool)
    requires !c.createAll
    requires forall i :: 0 <= i < |failed| ==> failed[i].info.age != 1
    ensures CreateLoop(c, srv, failed, buildUrl, workspace, true, closeEach) == Success([])
    decreases |failed|
  {
    if |failed| > 0 {
      assert forall i :: 1 <= i < |failed| ==> failed[i] == failed[1..][i - 1];
      OldFailuresSkippedFrom(c, srv, failed[1..], buildUrl, workspace, closeEach);
    }
  }

  /* ---------- Resolving issues ---------- */

  const ResolveTransitionName: string := "Resolve Issue"

  /** The search for open issues of the project. */
  function SearchJql(projectKey: string): string {
    "project = " + projectKey + " AND status = Open"
  }

  /** The id of the last transition named exactly `Resolve Issue`. */
  function LastResolveId(ts: seq<(string, string)>): (r: Option<string>)
    ensures IsLastResolve(ts, r)
    decreases |ts|
  {
    if |ts| == 0 then None
    else if ts[|ts| - 1].0 == ResolveTransitionName then
      LastResolveHere(ts);
      Some(ts[|ts| - 1].1)
    else
      var r := LastResolveId(ts[..|ts| - 1]);
      LastResolveBefore(ts, r);
      r
  }

  /** `r` is `None` when no transition is named `Resolve Issue`, and otherwise the id of
      the last one that is. */
  predicate IsLastResolve(ts: seq<(string, string)>, r: Option<string>) {
    (r.None? <==> forall i :: 0 <= i < |ts| ==> ts[i].0 != ResolveTransitionName)
    && (r.Some? ==> exists i :: 0 <= i < |ts| && ts[i] == (ResolveTransitionName, r.value)
                      && forall j :: i < j < |ts| ==> ts[j].0 != ResolveTransitionName)
  }

  lemma LastResolveHere(ts: seq<(string, string)>)
    requires |ts| > 0 && ts[|ts| - 1].0 == ResolveTransitionName
    ensures IsLastResolve(ts, Some(ts[|ts| - 1].1))
  {
    assert ts[|ts| - 1] == (ResolveTransitionName, ts[|ts| - 1].1);
  }

  lemma LastResolveBefore(ts: seq<(string, string)>, r: Option<string>)
    requires |ts| > 0 && ts[|ts| - 1].0 != ResolveTransitionName
    requires IsLastResolve(ts[..|ts| - 1], r)
    ensures IsLastResolve(ts, r)
  {
    var p := ts[..|ts| - 1];
    if r.Some? {
      var i :| 0 <= i < |p| && p[i] == (ResolveTransitionName, r.value)
               && forall j :: i < j < |p| ==> p[j].0 != ResolveTransitionName;
      assert ts[i] == p[i];
      forall j | i < j < |ts| ensures ts[j].0 != ResolveTransitionName {
        if j < |p| { assert ts[j] == p[j]; }
      }
    } else {
      forall i | 0 <= i < |ts| ensures ts[i].0 != ResolveTransitionName {
        if i < |p| { assert ts[i] == p[i]; }
      }
    }
  }

  /** The transition id, looked up on the first issue and remembered from then on (an I/O
      failure leaves it unknown). */
  function TransitionId(srv: Server, issueKey: string, cached: Option<string>): (r: Option<string>)
    ensures cached.Some? ==> r == cached
    ensures cached.None? && srv.transitions(issueKey).Some? ==> r == LastResolveId(srv.transitions(issueKey).value)
  {
    if cached.Some? then cached
    else
      match srv.transitions(issueKey)
      case None => None
      case Some(ts) => LastResolveId(ts)
  }

  /** The comment added on resolving; `MessageFormat` writes the build number with
      grouping separators (English locale). */
  function FixedComment(buildNumber: nat): string {
    "Test case fixed in build# " + GroupedNumber(buildNumber) + "."
  }

  /** A number as `MessageFormat` writes it: its digits, a `,` before each group of three
      counted from the right. */
  function GroupedNumber(n: nat): string {
    Group(Digits(n))
  }

  function Group(ds: string): (r: string)
    decreases |ds|
  {
    if |ds| <= 3 then ds else Group(ds[..|ds| - 3]) + "," + ds[|ds| - 3..]
  }

  /** The text without any `c`. */
  function Strip(s: string, c: char): string
    decreases |s|
  {
    if |s| == 0 then [] else (if s[0] == c then [] else [s[0]]) + Strip(s[1..], c)
  }

  lemma {:induction false} StripConcat(a: string, b: string, c: char)
    ensures Strip(a + b, c) == Strip(a, c) + Strip(b, c)
    decreases |a|
  {
    if |a| == 0 {
      assert a + b == b;
    } else {
      assert (a + b)[0] == a[0];
      assert (a + b)[1..] == a[1..] + b;
      StripConcat(a[1..], b, c);
    }
  }

  lemma {:induction false} StripNone(s: string, c: char)
    requires NoChar(s, c)
    ensures Strip(s, c) == s
    decreases |s|
  {
    if |s| > 0 {
      StripNone(s[1..], c);
    }
  }

  /** Grouping only inserts separators: without them the digits are as they were, and a
      short number has none. */
  lemma {:induction false} GroupOnlyInserts(ds: string)
    requires NoChar(ds, ',')
    ensures Strip(Group(ds), ',') == ds
    ensures |ds| <= 3 ==> Group(ds) == ds
    decreases |ds|
  {
    if |ds| <= 3 {
      StripNone(ds, ',');
    } else {
      var a, b := ds[..|ds| - 3], ds[|ds| - 3..];
      NoCharSplit(ds, |ds| - 3, ',');
      GroupOnlyInserts(a);
      calc {
        Strip(Group(ds), ',');
        Strip(Group(a) + "," + b, ',');
        { StripSeparator(Group(a), b); }
        Strip(Group(a), ',') + b;
        a + b;
        { assert a + b == ds; }
        ds;
      }
    }
  }

  /** Both sides of a cut of a text without `c` are without `c`. */
  lemma NoCharSplit(s: string, k: nat, c: char)
    requires k <= |s| && NoChar(s, c)
    ensures NoChar(s[..k], c) && NoChar(s[k..], c)
  {
    assert forall i :: 0 <= i < k ==> s[..k][i] == s[i];
    assert forall i :: 0 <= i < |s| - k ==> s[k..][i] == s[k + i];
  }

  /** Dropping the separators of `x + "," + b`, where `b` has none. */
  lemma StripSeparator(x: string, b: string)
    requires NoChar(b, ',')
    ensures Strip(x + "," + b, ',') == Strip(x, ',') + b
  {
    StripConcat(x + ",", b, ',');
    StripConcat(x, ",", ',');
    StripNone(b, ',');
    StripOnly(',');
    calc {
      Strip(x + "," + b, ',');
      Strip(x + ",", ',') + Strip(b, ',');
      Strip(x, ',') + Strip(",", ',') + b;
      Strip(x, ',') + b;
    }
  }

  lemma StripOnly(c: char)
    ensures Strip([c], c) == []
  {
    assert [c][1..] == [];
  }

  /** The build number in the comment reads as the number once the separators are
      dropped. */
  lemma GroupedNumberDigits(n: nat)
    ensures Strip(GroupedNumber(n), ',') == IntToString(n)
    ensures n < 1000 ==> GroupedNumber(n) == IntToString(n)
  {
    var ds := Digits(n);
    assert NoChar(ds, ',') by {
      forall i | 0 <= i < |ds| ensures ds[i] != ',' {
        assert IsDigit(ds[i]);
      }
    }
    GroupOnlyInserts(ds);
    if n < 1000 {
      DigitsShort(n);
    }
  }

  lemma DigitsShort(n: nat)
    requires n < 1000
    ensures |Digits(n)| <= 3
  {
    if n >= 10 {
      assert |Digits(n / 10)| <= 2 by {
        if n / 10 >= 10 {
          assert Digits(n / 10) == Digits(n / 100) + [DigitChar(n / 10 % 10)];
        }
      }
    }
  }

  /** `getTransitionPayload`: the transition and a comment naming the build; no id is an
      error (the JSON builder refuses a null value). */
  function TransitionPayload(id: Option<string>, buildNumber: nat): (r: Result<Json, ReportError>)
    ensures r.Failure? <==> id.None?
    ensures r.Success? ==>
              r.value.JObj? && "transition" in r.value.members
              && r.value.members["transition"] == JObj(map["id" := JStr(id.value)])
  {
    if id.None? then Failure(NullTransitionId)
    else
      Success(JObj(map[
        "transition" := JObj(map["id" := JStr(id.value)]),
        "update" := JObj(map["comment" := JArr([JObj(map["add" := JObj(map["body" := JStr(FixedComment(buildNumber))])])])])]))
  }

  /** The summaries of the passed tests. */
  function Wanted(passed: seq<CaseResult>): set<string> {
    set i | 0 <= i < |passed| :: IssueSummary(passed[i].info.name)
  }

  /** The result of a request together with the transition id the reporter remembers
      afterwards: Java keeps the id in a field, so it survives a failed run too. */
  datatype Outcome<T> = Outcome(result: Result<T, ReportError>, transitionId: Option<string>)

  /** The loop over the open issues: each one whose summary is wanted is transitioned.
      The value is the (key, body) of each transition posted; an I/O failure ends the
      loop quietly. */
  function ResolveLoop(srv: Server, issues: seq<Issue>, wanted: set<string>, cached: Option<string>,
                       buildNumber: nat): Outcome<seq<(string, Json)>>
    decreases |issues|
  {
    if |issues| == 0 then Outcome(Success([]), cached)
    else
      var issue := issues[0];
      if issue.summary !in wanted then ResolveLoop(srv, issues[1..], wanted, cached, buildNumber)
      else
        var id := TransitionId(srv, issue.key, cached);
        match TransitionPayload(id, buildNumber)
        case Failure(e) => Outcome(Failure(e), id)
        case Success(body) =>
          var sent := srv.transition(issue.key, body);
          if sent.IoFailure? then Outcome(Success([(issue.key, body)]), id)
          else if sent.code != NoContentCode then Outcome(Failure(ValidateHttpResponse(sent.code, NoContentCode).error), id)
          else
            var rest := ResolveLoop(srv, issues[1..], wanted, id, buildNumber);
            match rest.result
            case Failure(_) => rest
            case Success(posted) => Outcome(Success([(issue.key, body)] + posted), rest.transitionId)
  }

  /** `resolveJiraIssue`: nothing is asked of the server without passed tests; a search
      that is not answered with 200 is an error. */
  function ResolveJiraIssue(c: Config, srv: Server, passed: seq<CaseResult>, cached: Option<string>,
                            buildNumber: nat): (r: Outcome<seq<(string, Json)>>)
    ensures |Wanted(passed)| > 0 && srv.search(SearchJql(c.projectKey)).Found? ==>
              var code := srv.search(SearchJql(c.projectKey)).code;
              (code != OkCode ==> r == Outcome(Failure(ValidateHttpResponse(code, OkCode).error), cached))
              && (code == OkCode ==> r == ResolveLoop(srv, srv.search(SearchJql(c.projectKey)).issues,
                                                      Wanted(passed), cached, buildNumber))
    ensures |Wanted(passed)| == 0 || srv.search(SearchJql(c.projectKey)).SearchIoFailure? ==>
              r == Outcome(Success([]), cached)
  {
    var wanted := Wanted(passed);
    if |wanted| == 0 then Outcome(Success([]), cached)
    else
      match srv.search(SearchJql(c.projectKey))
      case SearchIoFailure => Outcome(Success([]), cached)
      case Found(code, issues) =>
        match ValidateHttpResponse(code, OkCode)
        case Failure(e) => Outcome(Failure(e), cached)
        case Success(_) => ResolveLoop(srv, issues, wanted, cached, buildNumber)
  }

  /** The keys of the open issues whose summary names a passed test. */
  function WantedKeys(issues: seq<Issue>, wanted: set<string>): set<string> {
    set i | 0 <= i < |issues| && issues[i].summary in wanted :: issues[i].key
  }

  /** The keys of the transitions posted. */
  function PostedKeys(posted: seq<(string, Json)>): set<string> {
    set k | 0 <= k < |posted| :: posted[k].0
  }

  /** Only open issues whose summary names a passed test are transitioned, each with a
      transition in its body. */
  lemma {:induction false} ResolveOnlyWanted(srv: Server, issues: seq<Issue>, wanted: set<string>,
                                             cached: Option<string>, buildNumber: nat)
    ensures var r := ResolveLoop(srv, issues, wanted, cached, buildNumber).result;
            r.Success? ==> forall k :: 0 <= k < |r.value| ==>
              r.value[k].0 in WantedKeys(issues, wanted)
              && r.value[k].1.JObj? && "transition" in r.value[k].1.members
    decreases |issues|
  {
    if |issues| > 0 {
      var issue := issues[0];
      var next := if issue.summary in wanted then TransitionId(srv, issue.key, cached) else cached;
      ResolveOnlyWanted(srv, issues[1..], wanted, next, buildNumber);
      WantedKeysCons(issues, wanted);
    }
  }

  /** The wanted keys of a list are those of its tail, plus the head's when it is wanted. */
  lemma WantedKeysCons(issues: seq<Issue>, wanted: set<string>)
    requires |issues| > 0
    ensures WantedKeys(issues, wanted)
            == WantedKeys(issues[1..], wanted) + (if issues[0].summary in wanted then {issues[0].key} else {})
  {
    var tail := issues[1..];
    forall key | key in WantedKeys(tail, wanted) ensures key in WantedKeys(issues, wanted) {
      var i :| 0 <= i < |tail| && tail[i].summary in wanted && tail[i].key == key;
      assert issues[i + 1] == tail[i];
    }
    forall key | key in WantedKeys(issues, wanted)
      ensures key in WantedKeys(tail, wanted) || (issues[0].summary in wanted && key == issues[0].key)
    {
      var i :| 0 <= i < |issues| && issues[i].summary in wanted && issues[i].key == key;
      if i > 0 {
        assert tail[i - 1] == issues[i];
      }
    }
    if issues[0].summary in wanted {
      assert issues[0].key in WantedKeys(issues, wanted);
    }
  }

  /** The transition id is known once the loop starts, or the server names a `Resolve
      Issue` transition for every issue. */
  ghost predicate IdAvailable(srv: Server, cached: Option<string>) {
    cached.Some? || forall key :: srv.transitions(key).Some? && LastResolveId(srv.transitions(key).value).Some?
  }

  /** Every open issue whose summary names a passed test is transitioned: with the id
      available and a server that accepts every transition, the loop posts exactly the
      wanted keys. */
  lemma {:induction false} ResolveAllWanted(srv: Server, issues: seq<Issue>, wanted: set<string>,
                                            cached: Option<string>, buildNumber: nat)
    requires forall key, body :: srv.transition(key, body) == Responded(NoContentCode)
    requires IdAvailable(srv, cached)
    ensures var r := ResolveLoop(srv, issues, wanted, cached, buildNumber);
            r.result.Success? && PostedKeys(r.result.value) == WantedKeys(issues, wanted)
            && (cached.Some? ==> r.transitionId == cached)
            && IdAvailable(srv, r.transitionId)
    decreases |issues|
  {
    if |issues| > 0 {
      var issue := issues[0];
      WantedKeysCons(issues, wanted);
      if issue.summary !in wanted {
        ResolveAllWanted(srv, issues[1..], wanted, cached, buildNumber);
      } else {
        var id := TransitionId(srv, issue.key, cached);
        assert id.Some?;
        var body := TransitionPayload(id, buildNumber).value;
        assert srv.transition(issue.key, body) == Responded(NoContentCode);
        ResolveAllWanted(srv, issues[1..], wanted, id, buildNumber);
        var posted := ResolveLoop(srv, issues[1..], wanted, id, buildNumber).result.value;
        var all := [(issue.key, body)] + posted;
        assert ResolveLoop(srv, issues, wanted, cached, buildNumber).result == Success(all);
        forall key | key in PostedKeys(posted) ensures key in PostedKeys(all) {
          var k :| 0 <= k < |posted| && posted[k].0 == key;
          assert all[k + 1] == posted[k];
        }
        forall key | key in PostedKeys(all) ensures key in PostedKeys(posted) || key == issue.key {
          var k :| 0 <= k < |all| && all[k].0 == key;
          if k > 0 {
            assert all[k] == posted[k - 1];
          }
        }
        assert all[0].0 == issue.key;
      }
    }
  }

  /** A transition the server refuses still leaves the id it looked up remembered, so the
      next run does not look it up again. */
  lemma RefusedTransitionKeepsId(srv: Server, issue: Issue, rest: seq<Issue>, wanted: set<string>,
                                 buildNumber: nat, ts: seq<(string, string)>, code: int)
    requires issue.summary in wanted
    requires srv.transitions(issue.key) == Some(ts) && LastResolveId(ts).Some?
    requires forall body :: srv.transition(issue.key, body) == Responded(code)
    requires code != NoContentCode
    ensures ResolveLoop(srv, [issue] + rest, wanted, None, buildNumber)
            == Outcome(Failure(ValidateHttpResponse(code, NoContentCode).error), LastResolveId(ts))
  {
    assert ([issue] + rest)[0] == issue;
  }

  /** Without passed tests the server is not asked. */
  lemma ResolveNoPassed(c: Config, srv: Server, cached: Option<string>, buildNumber: nat)
    ensures ResolveJiraIssue(c, srv, [], cached, buildNumber) == Outcome(Success([]), cached)
  {
  }

  /** A search answered with 200 and a server that accepts every transition: exactly the
      open issues whose summary names a passed test are transitioned. */
  lemma ResolveAllPassed(c: Config, srv: Server, passed: seq<CaseResult>, cached: Option<string>,
                         buildNumber: nat, issues: seq<Issue>)
    requires srv.search(SearchJql(c.projectKey)) == Found(OkCode, issues)
    requires forall key, body :: srv.transition(key, body) == Responded(NoContentCode)
    requires IdAvailable(srv, cached)
    ensures var r := ResolveJiraIssue(c, srv, passed, cached, buildNumber).result;
            r.Success? && PostedKeys(r.value) == WantedKeys(issues, Wanted(passed))
  {
    if |Wanted(passed)| > 0 {
      ResolveAllWanted(srv, issues, Wanted(passed), cached, buildNumber);
    } else {
      assert Wanted(passed) == {};
      assert WantedKeys(issues, {}) == {};
    }
  }

  /** Once known, the transition id is never looked up again, even by a failing run, and
      every request carries it. */
  lemma {:induction false} TransitionIdKept(srv: Server, issues: seq<Issue>, wanted: set<string>, id: string,
                                            buildNumber: nat)
    ensures var r := ResolveLoop(srv, issues, wanted, Some(id), buildNumber);
            r.transitionId == Some(id)
            && (r.result.Success? ==>
                  forall k :: 0 <= k < |r.result.value| ==>
                    r.result.value[k].1.JObj? && "transition" in r.result.value[k].1.members
                    && r.result.value[k].1.members["transition"] == JObj(map["id" := JStr(id)]))
    decreases |issues|
  {
    if |issues| > 0 {
      TransitionIdKept(srv, issues[1..], wanted, id, buildNumber);
    }
  }

  /* ---------- The build step ---------- */

  /** The debug listing of the failed tests cuts the workspace out of each stack trace,
      so with debugging on every failed test needs one. */
  predicate ListingFails(c: Config, failed: seq<CaseResult>) {
    c.debug && exists i :: 0 <= i < |failed| && failed[i].data.errorStackTrace.None?
  }

  /** What a run did: the create bodies posted and the transitions posted. */
  datatype Report = Report(created: seq<Json>, resolved: seq<(string, Json)>)

  /** `perform`: without test results nothing happens; otherwise the failures are
      reported, then, when asked, the passed tests' issues are resolved.  An error
      escapes the step; the transition id learned so far is remembered either way. */
  function Perform(c: Config, srv: Server, results: Option<(seq<CaseResult>, seq<CaseResult>)>, buildUrl: string,
                   workspace: string, cached: Option<string>, buildNumber: nat): Outcome<Report>
  {
    match results
    case None => Outcome(Success(Report([], [])), cached)
    case Some((failed, passed)) =>
      if ListingFails(c, failed) then Outcome(Failure(NullStackTrace), cached)
      else
        match CreateJiraIssue(c, srv, failed, buildUrl, workspace)
        case Failure(e) => Outcome(Failure(e), cached)
        case Success(created) =>
          if !c.resolveIssues then Outcome(Success(Report(created, [])), cached)
          else
            var resolved := ResolveJiraIssue(c, srv, passed, cached, buildNumber);
            match resolved.result
            case Failure(e) => Outcome(Failure(e), resolved.transitionId)
            case Success(posted) => Outcome(Success(Report(created, posted)), resolved.transitionId)
  }

  /** Failures are reported before anything is resolved, resolving happens only when
      asked, and a failing report stops the step before any resolving.  The id the
      resolving learned is remembered whether or not it succeeds. */
  lemma PerformOrder(c: Config, srv: Server, failed: seq<CaseResult>, passed: seq<CaseResult>, buildUrl: string,
                     workspace: string, cached: Option<string>, buildNumber: nat)
    requires !ListingFails(c, failed)
    ensures var r := Perform(c, srv, Some((failed, passed)), buildUrl, workspace, cached, buildNumber);
            var created := CreateJiraIssue(c, srv, failed, buildUrl, workspace);
            var resolved := ResolveJiraIssue(c, srv, passed, cached, buildNumber);
            (created.Failure? ==> r == Outcome(Failure(created.error), cached))
            && (created.Success? && !c.resolveIssues ==> r == Outcome(Success(Report(created.value, [])), cached))
            && (r.result.Success? ==> r.result.value.created == created.value)
            && (created.Success? && c.resolveIssues ==>
                  r.transitionId == resolved.transitionId
                  && (r.result.Success? <==> resolved.result.Success?)
                  && (r.result.Success? ==> r.result.value.resolved == resolved.result.value)
                  && (r.result.Failure? ==> r.result.error == resolved.result.error))
  {
  }

  /** Without test results nothing is sent. */
  lemma PerformNoResults(c: Config, srv: Server, buildUrl: string, workspace: string, cached: Option<string>,
                         buildNumber: nat)
    ensures Perform(c, srv, None, buildUrl, workspace, cached, buildNumber) == Outcome(Success(Report([], [])), cached)
  {
  }
}

=== FILE: maplesteve_reporter.dfy ===
/** The original `JiraReporter` of the `com.maplesteve` package: it files a `Bug` for each
    failure that is new in the build, with a JSON body written by string concatenation.
    The server is an oracle from the body posted to the outcome. */
module MaplesteveReporter {
  import opened Wrappers
  import opened JavaStrings
  import opened TestResults
  import L = LegacyReporter

  /* ---------- Configuration ---------- */

  datatype Config = Config(projectKey: string, serverAddress: string, debug: bool, verboseDebug: bool)

  /** The constructor: the address gets a trailing `/`; verbose debugging switches
      debugging on, otherwise the debug flag is kept. */
  function NewConfig(projectKey: string, serverAddress: string, debugFlag: bool, verboseDebugFlag: bool): (r: Config)
    ensures EndsWith(r.serverAddress, "/")
    ensures EndsWith(serverAddress, "/") ==> r.serverAddress == serverAddress
    ensures r.debug <==> debugFlag || verboseDebugFlag
    ensures r.verboseDebug == verboseDebugFlag && r.projectKey == projectKey
  {
    Config(projectKey, L.NormalizeServer(serverAddress), if verboseDebugFlag then true else debugFlag, verboseDebugFlag)
  }

  /* ---------- JSON string literals ---------- */

  /** The character a JSON escape letter stands for. */
  function Unescape(c: char): Option<char> {
    match c
    case '"' => Some('"')
    case '\\' => Some('\\')
    case '/' => Some('/')
    case 'b' => Some('\U{8}')
    case 'f' => Some('\U{C}')
    case 'n' => Some('\n')
    case 'r' => Some('\r')
    case 't' => Some('\t')
    case _ => None
  }

  function HexValue(c: char): Option<nat> {
    if '0' <= c <= '9' then Some(c as nat - '0' as nat)
    else if 'a' <= c <= 'f' then Some(c as nat - 'a' as nat + 10)
    else if 'A' <= c <= 'F' then Some(c as nat - 'A' as nat + 10)
    else None
  }

  function HexDigit(d: nat): (c: char)
    requires d < 16
    ensures HexValue(c) == Some(d)
  {
    if d < 10 then ('0' as nat + d) as char else ('a' as nat + d - 10) as char
  }

  /** The character of a `\uXXXX` escape, when its four digits are hex and name a
      character outside the surrogate range. */
  function UnicodeEscape(h: string): Option<char>
    requires |h| == 4
  {
    var a, b, c, d := HexValue(h[0]), HexValue(h[1]), HexValue(h[2]), HexValue(h[3]);
    if a.None? || b.None? || c.None? || d.None? then None
    else
      var v := ((a.value * 16 + b.value) * 16 + c.value) * 16 + d.value;
      if 0xD800 <= v < 0xE000 || v >= 0x11_0000 then None else Some(v as char)
  }

  /** The text of a JSON string literal whose opening quote is just before `s`: read up to
      the first unescaped `"`.  A raw control character, a bad escape or a missing closing
      quote make the literal unreadable (`None`). */
  function ReadString(s: string): Option<string>
    decreases |s|
  {
    if |s| == 0 then None
    else if s[0] == '"' then Some([])
    else if s[0] < ' ' then None
    else if s[0] != '\\' then
      var rest := ReadString(s[1..]);
      if rest.None? then None else Some([s[0]] + rest.value)
    else if |s| >= 6 && s[1] == 'u' then
      var ch := UnicodeEscape(s[2..6]);
      var rest := ReadString(s[6..]);
      if ch.None? || rest.None? then None else Some([ch.value] + rest.value)
    else if |s| >= 2 && Unescape(s[1]).Some? then
      var rest := ReadString(s[2..]);
      if rest.None? then None else Some([Unescape(s[1]).value] + rest.value)
    else None
  }

  /** How a character is written inside a JSON string literal. */
  function EscapeChar(c: char): string {
    if c == '"' then "\\\""
    else if c == '\\' then "\\\\"
    else if c == '\n' then "\\n"
    else if c == '\r' then "\\r"
    else if c == '\t' then "\\t"
    else if c < ' ' then "\\u00" + [HexDigit(c as nat / 16), HexDigit(c as nat % 16)]
    else [c]
  }

  /** A text written as the inside of a JSON string literal. */
  function Escape(s: string): string
    decreases |s|
  {
    if |s| == 0 then [] else EscapeChar(s[0]) + Escape(s[1..])
  }

  /** Reading an escaped character gives the character back and goes on after it. */
  lemma ReadEscapeChar(c: char, rest: string)
    ensures var r := ReadString(rest);
            ReadString(EscapeChar(c) + rest) == if r.None? then None else Some([c] + r.value)
  {
    if c == '"' {
      ReadShortEscape('"', c, rest);
    } else if c == '\\' {
      ReadShortEscape('\\', c, rest);
    } else if c == '\n' {
      ReadShortEscape('n', c, rest);
    } else if c == '\r' {
      ReadShortEscape('r', c, rest);
    } else if c == '\t' {
      ReadShortEscape('t', c, rest);
    } else if c < ' ' {
      ReadUnicodeEscape(c, rest);
    } else {
      assert ([c] + rest)[1..] == rest;
    }
  }

  lemma ReadShortEscape(x: char, c: char, rest: string)
    requires x != 'u' && Unescape(x) == Some(c)
    ensures var r := ReadString(rest);
            ReadString(['\\', x] + rest) == if r.None? then None else Some([c] + r.value)
  {
    var s := ['\\', x] + rest;
    assert s[0] == '\\' && s[1] == x;
    assert s[2..] == rest;
  }

  lemma ReadUnicodeEscape(c: char, rest: string)
    requires c < ' '
    ensures var r := ReadString(rest);
            ReadString(EscapeChar(c) + rest) == if r.None? then None else Some([c] + r.value)
  {
    var h := [HexDigit(c as nat / 16), HexDigit(c as nat % 16)];
    var e := ['\\', 'u', '0', '0'] + h;
    assert c != '"' && c != '\\' ==> EscapeChar(c) == e || c == '\n' || c == '\r' || c == '\t';
    if c != '\n' && c != '\r' && c != '\t' {
      var s := e + rest;
      assert s[0] == '\\' && s[1] == 'u' && |s| >= 6;
      assert s[2..6] == ['0', '0'] + h;
      assert UnicodeEscape(s[2..6]) == Some(c);
      assert s[6..] == rest;
    } else if c == '\n' {
      ReadShortEscape('n', c, rest);
    } else if c == '\r' {
      ReadShortEscape('r', c, rest);
    } else {
      ReadShortEscape('t', c, rest);
    }
  }

  /** Escaping round-trips: the literal written from a text reads back as that text. */
  lemma {:induction false} EscapeReadsBack(t: string, rest: string)
    ensures ReadString(Escape(t) + ("\"" + rest)) == Some(t)
    decreases |t|
  {
    if |t| == 0 {
      assert Escape(t) + ("\"" + rest) == "\"" + rest;
    } else {
      EscapeReadsBack(t[1..], rest);
      assert Escape(t) + ("\"" + rest) == EscapeChar(t[0]) + (Escape(t[1..]) + ("\"" + rest));
      ReadEscapeChar(t[0], Escape(t[1..]) + ("\"" + rest));
      assert [t[0]] + t[1..] == t;
    }
  }

  /** A character JSON does not allow raw inside a string literal. */
  predicate NeedsEscape(c: char) {
    c == '"' || c < ' '
  }

  /** Written raw, a text with a `"` or a control character (and no `\`) does not read
      back as itself. */
  lemma {:induction false} RawDoesNotReadBack(t: string, rest: string)
    requires NoChar(t, '\\')
    requires exists i :: 0 <= i < |t| && NeedsEscape(t[i])
    ensures ReadString(t + rest) != Some(t)
    decreases |t|
  {
    var s := t + rest;
    assert s[0] == t[0];
    if !NeedsEscape(t[0]) {
      var i :| 0 <= i < |t| && NeedsEscape(t[i]);
      assert t[1..][i - 1] == t[i];
      assert s[1..] == t[1..] + rest;
      RawDoesNotReadBack(t[1..], rest);
    }
  }

  /* ---------- The request body ---------- */

  const PayloadStart: string := "{\"fields\": {\"project\": {\"key\": \""
  const AfterKey: string := "\"},\"summary\": \""
  /** What follows the closing quote of the summary, and of the description. */
  const BeforeDescription: string := ",\"description\": \""
  const PayloadEnd: string := ",\"issuetype\": {\"name\": \"Bug\"}}}"

  /** The body up to the opening quote of the summary. */
  function Head(projectKey: string): string {
    PayloadStart + projectKey + AfterKey
  }

  /** The body from the closing quote of the description. */
  function Tail(): string {
    "\"" + PayloadEnd
  }

  /** The body from the closing quote of the summary. */
  function Middle(description: string): string {
    "\"" + (BeforeDescription + (description + Tail()))
  }

  /** The body around the three texts, pasted in as they are. */
  function Payload(projectKey: string, summary: string, description: string): string {
    Head(projectKey) + (summary + Middle(description))
  }

  /** Where the summary literal starts, and where the description literal starts. */
  function SummaryAt(projectKey: string): nat {
    |Head(projectKey)|
  }

  function DescriptionAt(projectKey: string, summary: string): nat {
    |Head(projectKey)| + |summary| + 1 + |BeforeDescription|
  }

  /** The body with the three texts escaped. */
  function PayloadEscaped(projectKey: string, summary: string, description: string): string {
    Payload(Escape(projectKey), Escape(summary), Escape(description))
  }

  /** The summary of a new issue. */
  function SummaryText(t: CaseResult): string {
    "The test " + t.info.name.GetOr("null") + " failed " + t.info.className.GetOr("null") + ": "
      + t.data.errorDetails.GetOr("null")
  }

  /** The description of a new issue; the workspace path is cut out of the stack trace,
      which must be there. */
  function DescriptionText(t: CaseResult, workspace: string): Option<string> {
    if t.data.errorStackTrace.None? then None
    else Some("Test class: " + t.info.className.GetOr("null") + " -- " + Replace(t.data.errorStackTrace.value, workspace, ""))
  }

  lemma DropPrefix(a: string, b: string)
    ensures (a + b)[|a|..] == b
  {
  }

  lemma SplitPayload(projectKey: string, summary: string, description: string)
    ensures var p := Payload(projectKey, summary, description);
            SummaryAt(projectKey) <= |p| && DescriptionAt(projectKey, summary) <= |p|
            && p[SummaryAt(projectKey)..] == summary + Middle(description)
            && p[DescriptionAt(projectKey, summary)..] == description + Tail()
  {
    var h := Head(projectKey);
    var rest := description + Tail();
    DropPrefix(h, summary + Middle(description));
    var u := h + summary + "\"" + BeforeDescription;
    assert Payload(projectKey, summary, description) == u + rest by {
      calc {
        Payload(projectKey, summary, description);
        h + (summary + ("\"" + (BeforeDescription + rest)));
        { ConcatAssoc(summary, "\"", BeforeDescription + rest); }
        h + ((summary + "\"") + (BeforeDescription + rest));
        { ConcatAssoc(summary + "\"", BeforeDescription, rest); }
        h + ((summary + "\"" + BeforeDescription) + rest);
        { ConcatAssoc(h, summary + "\"" + BeforeDescription, rest); }
        (h + (summary + "\"" + BeforeDescription)) + rest;
        { ConcatAssoc(h, summary, "\"" + BeforeDescription); ConcatAssoc(h + summary, "\"", BeforeDescription);
          ConcatAssoc(summary, "\"", BeforeDescription); }
        u + rest;
      }
    }
    DropPrefix(u, rest);
  }

  /** As written: a description with a quote or a control character in it (a stack trace
      of more than one line has a line break) and no backslash cannot be read back from
      the body; the summary likewise. */
  lemma RawPayloadUnreadable(projectKey: string, summary: string, description: string)
    ensures var p := Payload(projectKey, summary, description);
            DescriptionAt(projectKey, summary) <= |p|
            && (NoChar(description, '\\') && (exists i :: 0 <= i < |description| && NeedsEscape(description[i])) ==>
                  ReadString(p[DescriptionAt(projectKey, summary)..]) != Some(description))
    ensures var p := Payload(projectKey, summary, description);
            SummaryAt(projectKey) <= |p|
            && (NoChar(summary, '\\') && (exists i :: 0 <= i < |summary| && NeedsEscape(summary[i])) ==>
                  ReadString(p[SummaryAt(projectKey)..]) != Some(summary))
  {
    SplitPayload(projectKey, summary, description);
    if NoChar(description, '\\') && (exists i :: 0 <= i < |description| && NeedsEscape(description[i])) {
      RawDoesNotReadBack(description, Tail());
    }
    if NoChar(summary, '\\') && (exists i :: 0 <= i < |summary| && NeedsEscape(summary[i])) {
      RawDoesNotReadBack(summary, Middle(description));
    }
  }

  /** A two-line stack trace is enough: its description does not read back. */
  lemma TwoLineTraceUnreadable(projectKey: string, summary: string)
    ensures var d := "E\nat";
            ReadString(Payload(projectKey, summary, d)[DescriptionAt(projectKey, summary)..]) != Some(d)
  {
    var d := "E\nat";
    assert d[1] == '\n' && NeedsEscape(d[1]);
    assert NoChar(d, '\\') by {
      assert d == ['E', '\n', 'a', 't'];
    }
    RawPayloadUnreadable(projectKey, summary, d);
  }

  /** As intended: with the texts escaped, the summary and the description read back from
      the body exactly. */
  lemma EscapedPayloadReadsBack(projectKey: string, summary: string, description: string)
    ensures var p := PayloadEscaped(projectKey, summary, description);
            var s := SummaryAt(Escape(projectKey));
            var d := DescriptionAt(Escape(projectKey), Escape(summary));
            s <= |p| && d <= |p|
            && ReadString(p[s..]) == Some(summary)
            && ReadString(p[d..]) == Some(description)
  {
    var k, s, d := Escape(projectKey), Escape(summary), Escape(description);
    SplitPayload(k, s, d);
    EscapeReadsBack(summary, BeforeDescription + (d + Tail()));
    EscapeReadsBack(description, PayloadEnd);
  }

  /* ---------- Creating issues ---------- */

  /** Why the step fails: an unexpected status code, a failure without a stack trace, or
      a build without test results. */
  datatype ReportError = HttpStatus(message: string) | NullStackTrace | NoTestResults

  /** The body posted for a test, as written or escaped. */
  function PayloadFor(c: Config, summary: string, description: string, escaped: bool): string {
    if escaped then PayloadEscaped(c.projectKey, summary, description) else Payload(c.projectKey, summary, description)
  }

  /** The loop of `createJiraIssue`: only failures new in this build (age 1) are posted,
      each with a client of its own; any status but 201 ends the step, an I/O failure is
      logged and the loop goes on.  The value is the bodies posted. */
  function CreateLoop(c: Config, post: string -> L.HttpOutcome, failed: seq<CaseResult>, workspace: string,
                      escaped: bool): Result<seq<string>, ReportError>
    decreases |failed|
  {
    if |failed| == 0 then Success([])
    else
      var t := failed[0];
      if t.info.age != 1 then CreateLoop(c, post, failed[1..], workspace, escaped)
      else
        match DescriptionText(t, workspace)
        case None => Failure(NullStackTrace)
        case Some(d) =>
          var body := PayloadFor(c, SummaryText(t), d, escaped);
          var sent := post(body);
          if sent.Responded? && sent.code != L.CreatedCode then
            Failure(HttpStatus("[ERROR] Failed : HTTP error code : " + IntToString(sent.code)))
          else
            match CreateLoop(c, post, failed[1..], workspace, escaped)
            case Failure(e) => Failure(e)
            case Success(rest) => Success([body] + rest)
  }

  /** `createJiraIssue` as written: the texts go into the body unescaped. */
  function CreateJiraIssue(c: Config, post: string -> L.HttpOutcome, failed: seq<CaseResult>, workspace: string)
    : Result<seq<string>, ReportError>
  {
    CreateLoop(c, post, failed, workspace, false)
  }

  /** `createJiraIssue` as intended: the texts are escaped. */
  function CreateJiraIssueIntended(c: Config, post: string -> L.HttpOutcome, failed: seq<CaseResult>, workspace: string)
    : Result<seq<string>, ReportError>
  {
    CreateLoop(c, post, failed, workspace, true)
  }

  /** The failures new in this build, in order. */
  function NewFailures(failed: seq<CaseResult>): (r: seq<CaseResult>)
    ensures |r| <= |failed|
    ensures forall i :: 0 <= i < |r| ==> r[i].info.age == 1 && r[i] in failed
    ensures forall t :: t in r <==> t in failed && t.info.age == 1
  {
    if |failed| == 0 then []
    else if failed[0].info.age == 1 then [failed[0]] + NewFailures(failed[1..])
    else NewFailures(failed[1..])
  }

  /** The bodies of the given tests, in order. */
  function Bodies(c: Config, ts: seq<CaseResult>, workspace: string, escaped: bool): (r: seq<string>)
    ensures |r| == |ts|
  {
    if |ts| == 0 then []
    else [PayloadFor(c, SummaryText(ts[0]), DescriptionText(ts[0], workspace).GetOr(""), escaped)]
         + Bodies(c, ts[1..], workspace, escaped)
  }

  /** When the server accepts every body, exactly the new failures are posted, in order. */
  lemma {:induction false} CreatePostsNewFailures(c: Config, post: string -> L.HttpOutcome, failed: seq<CaseResult>,
                                                  workspace: string, escaped: bool)
    requires forall i :: 0 <= i < |failed| ==> failed[i].data.errorStackTrace.Some?
    requires forall b :: post(b) == L.Responded(L.CreatedCode)
    ensures CreateLoop(c, post, failed, workspace, escaped) == Success(Bodies(c, NewFailures(failed), workspace, escaped))
    decreases |failed|
  {
    if |failed| > 0 {
      assert failed[0].data.errorStackTrace.Some?;
      assert forall i :: 0 <= i < |failed[1..]| ==> failed[1..][i] == failed[i + 1];
      CreatePostsNewFailures(c, post, failed[1..], workspace, escaped);
      if failed[0].info.age == 1 {
        var news := NewFailures(failed);
        assert news[0] == failed[0] && news[1..] == NewFailures(failed[1..]);
      }
    }
  }

  /** A status other than 201 on the first new failure ends the step with its code. */
  lemma CreateRejected(c: Config, post: string -> L.HttpOutcome, t: CaseResult, rest: seq<CaseResult>,
                       workspace: string, code: int)
    requires t.info.age == 1 && t.data.errorStackTrace.Some? && code != L.CreatedCode
    requires post(Payload(c.projectKey, SummaryText(t), DescriptionText(t, workspace).value)) == L.Responded(code)
    ensures CreateJiraIssue(c, post, [t] + rest, workspace) == Failure(HttpStatus("[ERROR] Failed : HTTP error code : " + IntToString(code)))
  {
    assert ([t] + rest)[0] == t;
  }

  /** An I/O failure on one test does not stop the others. */
  lemma CreateIoContinues(c: Config, post: string -> L.HttpOutcome, t: CaseResult, rest: seq<CaseResult>,
                          workspace: string)
    requires t.info.age == 1 && t.data.errorStackTrace.Some?
    requires post(Payload(c.projectKey, SummaryText(t), DescriptionText(t, workspace).value)) == L.IoFailure
    ensures var r := CreateJiraIssue(c, post, [t] + rest, workspace);
            var r1 := CreateJiraIssue(c, post, rest, workspace);
            (r1.Failure? ==> r == r1)
            && (r1.Success? ==> r.Success? && r.value[1..] == r1.value)
  {
    assert ([t] + rest)[0] == t;
    assert ([t] + rest)[1..] == rest;
  }

  /** `perform`: a build without test results fails; the debug listing needs every
      failed test's stack trace; then the failures are reported. */
  function Perform(c: Config, post: string -> L.HttpOutcome, failed: Option<seq<CaseResult>>, workspace: string)
    : (r: Result<seq<string>, ReportError>)
    ensures failed.None? ==> r == Failure(NoTestResults)
    ensures failed.Some? && c.debug && (exists i :: 0 <= i < |failed.value| && failed.value[i].data.errorStackTrace.None?)
            ==> r == Failure(NullStackTrace)
    ensures failed.Some? && (!c.debug || forall i :: 0 <= i < |failed.value| ==> failed.value[i].data.errorStackTrace.Some?)
            ==> r == CreateJiraIssue(c, post, failed.value, workspace)
  {
    match failed
    case None => Failure(NoTestResults)
    case Some(ts) =>
      if c.debug && exists i :: 0 <= i < |ts| && ts[i].data.errorStackTrace.None? then Failure(NullStackTrace)
      else CreateJiraIssue(c, post, ts, workspace)
  }
}

=== FILE: mapping_api.dfy ===
/** `TestToIssueMappingApi.doJson`: the links of one job as JSON, chosen by the `job`
    request parameter.  A name with a `/` is either `matrix/configuration` or the full name
    of a job inside a folder; a name without one is a top-level job. */
module MappingApi {
  import opened Wrappers
  import opened JavaStrings
  import opened Json
  import M = TestToIssueMapping

  /** What Jenkins finds under a name: a job (a matrix project is a `Matrix` job), or an
      item that is not a job (a folder, say). */
  datatype Item = JobItem(job: M.Job) | OtherItem

  /** The items Jenkins knows, by top-level name and by full name. */
  datatype Jenkins = Jenkins(top: map<string, Item>, byFullName: map<string, Item>)

  /** The response: a plain message, a JSON body, `404 Not Found`, or a server error for
      the exceptions the source lets escape (an index past the parts of the name, a cast of
      an item that is not a job). */
  datatype Response = Message(text: string) | Body(json: Json) | NotFound | ServerError

  const MissingJobMessage: string := "You need to set the \"job\" parameter"

  /** The map of a job, found or not. */
  function MapOf(links: M.Store, item: Option<Item>): Response {
    match item
    case None => NotFound
    case Some(OtherItem) => ServerError
    case Some(JobItem(job)) => Body(M.GetMap(links, job))
  }

  function Lookup(items: map<string, Item>, name: string): Option<Item> {
    if name in items then Some(items[name]) else None
  }

  /** `doJson`. */
  function DoJson(links: M.Store, jenkins: Jenkins, jobName: Option<string>): (r: Response)
    ensures r.Message? <==> jobName.None?
    ensures r.Message? ==> r.text == MissingJobMessage
    ensures r.Body? && !Contains(jobName.value, "/") ==>
              jobName.value in jenkins.top && jenkins.top[jobName.value].JobItem?
              && r.json == M.GetMap(links, jenkins.top[jobName.value].job)
    ensures jobName.Some? && !Contains(jobName.value, "/") && jobName.value !in jenkins.top ==> r == NotFound
  {
    if jobName.None? then Message(MissingJobMessage)
    else
      var name := jobName.value;
      if Contains(name, "/") then
        var parts := Split(name, '/');
        if |parts| < 2 then ServerError
        else
          var item := Lookup(jenkins.top, parts[0]);
          if item.Some? && item.value.JobItem? && item.value.job.Matrix? then
            match M.GetSubJobMap(links, item.value.job.configurations, parts[1])
            case None => NotFound
            case Some(j) => Body(j)
          else MapOf(links, Lookup(jenkins.byFullName, name))
      else MapOf(links, Lookup(jenkins.top, name))
  }

  /** `matrix/configuration`: the configuration's map, or `404` when the matrix project has
      no configuration of that name. */
  lemma MatrixRoute(links: M.Store, jenkins: Jenkins, parent: string, child: string,
                    fullName: string, shown: string, cs: seq<M.Job>)
    requires NoChar(parent, '/') && NoChar(child, '/') && |child| > 0
    requires parent in jenkins.top && jenkins.top[parent] == JobItem(M.Matrix(fullName, shown, cs))
    ensures var r := DoJson(links, jenkins, Some(parent + "/" + child));
            (r == NotFound <==> forall i :: 0 <= i < |cs| ==> cs[i].name != child)
            && (r.Body? ==> exists i :: 0 <= i < |cs| && cs[i].name == child && r.json == M.GetMap(links, cs[i]))
            && (r == NotFound || r.Body?)
  {
    SplitTwo(parent, child, '/');
    assert parent + "/" + child == parent + ['/'] + child;
    assert OccursAt(parent + "/" + child, |parent|, "/");
  }

  /** A folder path whose first part is not a matrix project is looked up by full name;
      an unknown job gives `404`. */
  lemma FolderRoute(links: M.Store, jenkins: Jenkins, folder: string, rest: string)
    requires NoChar(folder, '/') && NoChar(rest, '/') && |rest| > 0
    requires folder !in jenkins.top || !(jenkins.top[folder].JobItem? && jenkins.top[folder].job.Matrix?)
    ensures var name := folder + "/" + rest;
            var r := DoJson(links, jenkins, Some(name));
            (name !in jenkins.byFullName ==> r == NotFound)
            && (name in jenkins.byFullName && jenkins.byFullName[name].JobItem? ==>
                  r == Body(M.GetMap(links, jenkins.byFullName[name].job)))
  {
    SplitTwo(folder, rest, '/');
    assert folder + "/" + rest == folder + ['/'] + rest;
    assert OccursAt(folder + "/" + rest, |folder|, "/");
  }

  /** A name that ends in its only `/` has one part and fails. */
  lemma TrailingSlashFails(links: M.Store, jenkins: Jenkins, name: string)
    requires NoChar(name, '/')
    ensures DoJson(links, jenkins, Some(name + "/")) == ServerError
  {
    assert OccursAt(name + "/", |name|, "/");
    SplitTrailing(name, '/');
  }

  /** Splitting `a + c` where `a` has no `c` gives at most `[a]`. */
  lemma SplitTrailing(a: string, c: char)
    requires NoChar(a, c)
    ensures |Split(a + [c], c)| <= 1
  {
    SplitNoChar(a, c);
    SplitPrefix(a, [c], c, [""]);
  }

  /** An unregistered plain top-level job gives an empty object, not `404`. */
  lemma UnregisteredTopLevel(links: M.Store, jenkins: Jenkins, name: string, shown: string)
    requires NoChar(name, '/')
    requires name in jenkins.top && jenkins.top[name] == JobItem(M.Plain(name, shown))
    requires name !in links.jobs
    ensures DoJson(links, jenkins, Some(name)) == Body(JObj(map[]))
  {
    NoCharNotContains(name, '/');
  }

  lemma NoCharNotContains(s: string, c: char)
    requires NoChar(s, c)
    ensures !Contains(s, [c])
  {
    forall i | 0 <= i <= |s| ensures !OccursAt(s, i, [c]) {
      if i < |s| {
        assert s[i..i + 1][0] == s[i];
      }
    }
  }
}

=== FILE: metadata_cache.dfy ===
/** `MetadataCache`: the create-issue metadata of one (project, issue type) pair, sorted into
    the five lists the field pickers offer, kept in a two-level cache that fetches on a miss.
    The tracker's metadata request is the `fetch` parameter. */
module MetadataCache {
  import opened Wrappers
  import opened JavaStrings

  /** An allowed value, by the interfaces the pickers test for. */
  datatype AllowedValue =
    | CustomOption(optionValue: string, optionId: int)     // `CustomFieldOption`
    | IdentifiedNamed(name: string, id: int)              // `IdentifiableEntity` and `NamedEntity`
    | NamedOnly(name: string, idGetter: Option<int>)      // `NamedEntity` whose `getId` is found by reflection
    | OtherValue

  /** `CimFieldInfo`: the display name, the schema type, and the allowed values (`None`
      when the field has none). */
  datatype FieldInfo = FieldInfo(name: string, schemaType: string, allowed: Option<seq<AllowedValue>>)

  /** One issue type's fields, in the order the field map iterates them. */
  datatype IssueTypeMeta = IssueTypeMeta(fields: seq<(string, FieldInfo)>)

  datatype ProjectMeta = ProjectMeta(issueTypes: seq<IssueTypeMeta>)

  /** A `ListBoxModel.Option`: display name and value. */
  datatype BoxOption = BoxOption(display: string, value: string)

  datatype Box = StringBox | SelectableBox | StringArrayBox | SelectableArrayBox | UserBox

  /** The `else if` chain of the `CacheEntry` constructor. */
  function Bucket(f: FieldInfo): Option<Box> {
    if f.schemaType == "string" && f.allowed.None? then Some(StringBox)
    else if f.schemaType != "array" && f.allowed.Some? then Some(SelectableBox)
    else if f.schemaType == "array" && f.allowed.None? then Some(StringArrayBox)
    else if f.schemaType == "array" && f.allowed.Some? then Some(SelectableArrayBox)
    else if f.schemaType == "user" then Some(UserBox)
    else None
  }

  /** The options of one box, in field order: each field whose bucket it is, as (name, key). */
  function OptionsFor(fields: seq<(string, FieldInfo)>, b: Box): (r: seq<BoxOption>)
    ensures |r| <= |fields|
  {
    if |fields| == 0 then []
    else
      var rest := OptionsFor(fields[..|fields| - 1], b);
      var (key, f) := fields[|fields| - 1];
      if Bucket(f) == Some(b) then rest + [BoxOption(f.name, key)] else rest
  }

  datatype CacheEntry = CacheEntry(
    fieldInfoMap: Option<seq<(string, FieldInfo)>>,
    stringBox: seq<BoxOption>,
    selectableBox: seq<BoxOption>,
    stringArrayBox: seq<BoxOption>,
    selectableArrayBox: seq<BoxOption>,
    userBox: seq<BoxOption>)
  {
    function BoxOf(b: Box): seq<BoxOption> {
      match b
      case StringBox => stringBox
      case SelectableBox => selectableBox
      case StringArrayBox => stringArrayBox
      case SelectableArrayBox => selectableArrayBox
      case UserBox => userBox
    }
  }

  /** The fields the constructor reads: those of the first issue type of the first project,
      if there is one. */
  function FirstFields(metadata: seq<ProjectMeta>): Option<seq<(string, FieldInfo)>> {
    if |metadata| == 0 || |metadata[0].issueTypes| == 0 then None
    else Some(metadata[0].issueTypes[0].fields)
  }

  /** What `new CacheEntry(metadata)` holds. */
  function EntryOf(metadata: seq<ProjectMeta>): CacheEntry {
    var fields := FirstFields(metadata).GetOr([]);
    CacheEntry(FirstFields(metadata),
               OptionsFor(fields, StringBox), OptionsFor(fields, SelectableBox),
               OptionsFor(fields, StringArrayBox), OptionsFor(fields, SelectableArrayBox),
               OptionsFor(fields, UserBox))
  }

  /** The constructor's loop over the fields, one bucket test per field. */
  method BuildCacheEntry(metadata: seq<ProjectMeta>) returns (e: CacheEntry)
    ensures e.fieldInfoMap == FirstFields(metadata)
    ensures forall b: Box :: e.BoxOf(b) == OptionsFor(FirstFields(metadata).GetOr([]), b)
  {
    var stringBox, selectableBox, stringArrayBox, selectableArrayBox, userBox := [], [], [], [], [];
    var fields := FirstFields(metadata).GetOr([]);
    var i := 0;
    while i < |fields|
      invariant 0 <= i <= |fields|
      invariant stringBox == OptionsFor(fields[..i], StringBox)
      invariant selectableBox == OptionsFor(fields[..i], SelectableBox)
      invariant stringArrayBox == OptionsFor(fields[..i], StringArrayBox)
      invariant selectableArrayBox == OptionsFor(fields[..i], SelectableArrayBox)
      invariant userBox == OptionsFor(fields[..i], UserBox)
    {
      var (key, f) := fields[i];
      var o := BoxOption(f.name, key);
      assert fields[..i + 1][..i] == fields[..i];
      if f.schemaType == "string" && f.allowed.None? {
        stringBox := stringBox + [o];
      } else if f.schemaType != "array" && f.allowed.Some? {
        selectableBox := selectableBox + [o];
      } else if f.schemaType == "array" && f.allowed.None? {
        stringArrayBox := stringArrayBox + [o];
      } else if f.schemaType == "array" && f.allowed.Some? {
        selectableArrayBox := selectableArrayBox + [o];
      } else if f.schemaType == "user" {
        userBox := userBox + [o];
      }
      i := i + 1;
    }
    assert fields[..i] == fields;
    e := CacheEntry(FirstFields(metadata), stringBox, selectableBox, stringArrayBox, selectableArrayBox, userBox);
  }

  /** The buckets, stated one by one: which (schema type, allowed values) pairs land where. */
  lemma BucketCases(f: FieldInfo)
    ensures Bucket(f) == Some(StringBox) <==> f.schemaType == "string" && f.allowed.None?
    ensures Bucket(f) == Some(SelectableBox) <==> f.schemaType != "array" && f.allowed.Some?
    ensures Bucket(f) == Some(StringArrayBox) <==> f.schemaType == "array" && f.allowed.None?
    ensures Bucket(f) == Some(SelectableArrayBox) <==> f.schemaType == "array" && f.allowed.Some?
    ensures Bucket(f) == Some(UserBox) <==> f.schemaType == "user" && f.allowed.None?
    ensures Bucket(f).None? <==>
              f.allowed.None? && f.schemaType != "string" && f.schemaType != "array" && f.schemaType != "user"
  {
  }

  /** The number of fields that land in some bucket. */
  function Kept(fields: seq<(string, FieldInfo)>): nat {
    if |fields| == 0 then 0
    else Kept(fields[..|fields| - 1]) + (if Bucket(fields[|fields| - 1].1).Some? then 1 else 0)
  }

  /** Every kept field appears in exactly one box: the boxes' sizes add up to the number of
      kept fields. */
  lemma {:induction false} BoxesPartition(fields: seq<(string, FieldInfo)>)
    ensures |OptionsFor(fields, StringBox)| + |OptionsFor(fields, SelectableBox)|
            + |OptionsFor(fields, StringArrayBox)| + |OptionsFor(fields, SelectableArrayBox)|
            + |OptionsFor(fields, UserBox)| == Kept(fields)
    decreases |fields|
  {
    if |fields| > 0 {
      BoxesPartition(fields[..|fields| - 1]);
    }
  }

  /** A field is offered in box `b` exactly when `b` is its bucket. */
  lemma {:induction false} OptionsForMembers(fields: seq<(string, FieldInfo)>, b: Box, o: BoxOption)
    ensures o in OptionsFor(fields, b) <==>
              exists i :: 0 <= i < |fields| && Bucket(fields[i].1) == Some(b)
                          && o == BoxOption(fields[i].1.name, fields[i].0)
    decreases |fields|
  {
    if |fields| > 0 {
      var init := fields[..|fields| - 1];
      OptionsForMembers(init, b, o);
      assert forall i :: 0 <= i < |init| ==> init[i] == fields[i];
      if o in OptionsFor(fields, b) && o !in OptionsFor(init, b) {
        assert Bucket(fields[|fields| - 1].1) == Some(b);
      }
    }
  }

  /* ---------- The two-level cache ---------- */

  type Cache = map<string, map<string, CacheEntry>>

  /** The tracker's create-metadata request for one project and one numeric issue type;
      `None` is a failed request. */
  type Fetch = (string, int) -> Option<seq<ProjectMeta>>

  function Lookup(cache: Cache, projectKey: string, issueType: string): Option<CacheEntry> {
    if projectKey in cache && issueType in cache[projectKey] then Some(cache[projectKey][issueType])
    else None
  }

  /** `getCacheEntry`: a cached entry is returned as is; on a miss the project's inner map
      is created if absent, the issue type is parsed (`Long.parseLong`) and the metadata
      fetched; a parse or fetch failure returns null and stores nothing more. */
  function GetCacheEntry(cache: Cache, projectKey: string, issueType: string, fetch: Fetch)
    : (Option<CacheEntry>, Cache)
  {
    if Lookup(cache, projectKey, issueType).Some? then (Lookup(cache, projectKey, issueType), cache)
    else
      var inner := if projectKey in cache then cache[projectKey] else map[];
      var cache1 := cache[projectKey := inner];
      match ParseLong(issueType)
      case None => (None, cache1)
      case Some(id) =>
        match fetch(projectKey, id)
        case None => (None, cache1)
        case Some(metadata) =>
          var e := EntryOf(metadata);
          (Some(e), cache1[projectKey := inner[issueType := e]])
  }

  /** `removeCacheEntry`: drops the one (project, issue type) entry, if present. */
  function RemoveCacheEntry(cache: Cache, projectKey: string, issueType: string): Cache {
    if projectKey in cache && issueType in cache[projectKey] then
      cache[projectKey := cache[projectKey] - {issueType}]
    else cache
  }

  /** A hit neither consults the tracker nor changes the cache. */
  lemma GetCacheEntryHit(cache: Cache, projectKey: string, issueType: string, fetch: Fetch, other: Fetch)
    requires Lookup(cache, projectKey, issueType).Some?
    ensures GetCacheEntry(cache, projectKey, issueType, fetch) == (Lookup(cache, projectKey, issueType), cache)
    ensures GetCacheEntry(cache, projectKey, issueType, fetch) == GetCacheEntry(cache, projectKey, issueType, other)
  {
  }

  /** On a miss the result is null exactly when the fetch fails; a successful fetch is
      stored and returned; either way no other entry changes. */
  lemma GetCacheEntryMiss(cache: Cache, projectKey: string, issueType: string, fetch: Fetch)
    requires Lookup(cache, projectKey, issueType).None?
    ensures var (r, c) := GetCacheEntry(cache, projectKey, issueType, fetch);
            (r.None? <==> ParseLong(issueType).None? || fetch(projectKey, ParseLong(issueType).value).None?)
            && (r.Some? ==> r == Some(EntryOf(fetch(projectKey, ParseLong(issueType).value).value))
                            && Lookup(c, projectKey, issueType) == r)
            && (r.None? ==> Lookup(c, projectKey, issueType).None?)
            && projectKey in c
            && forall p, t :: (p, t) != (projectKey, issueType) ==> Lookup(c, p, t) == Lookup(cache, p, t)
  {
  }

  /** Removal forgets exactly the one entry. */
  lemma RemoveCacheEntryOnly(cache: Cache, projectKey: string, issueType: string)
    ensures Lookup(RemoveCacheEntry(cache, projectKey, issueType), projectKey, issueType).None?
    ensures forall p, t :: (p, t) != (projectKey, issueType) ==>
              Lookup(RemoveCacheEntry(cache, projectKey, issueType), p, t) == Lookup(cache, p, t)
  {
  }

  /** Fetching after a removal asks the tracker again. */
  lemma RemoveThenGetRefetches(cache: Cache, projectKey: string, issueType: string, fetch: Fetch, id: int)
    requires ParseLong(issueType) == Some(id) && fetch(projectKey, id).Some?
    ensures GetCacheEntry(RemoveCacheEntry(cache, projectKey, issueType), projectKey, issueType, fetch).0
            == Some(EntryOf(fetch(projectKey, id).value))
  {
    RemoveCacheEntryOnly(cache, projectKey, issueType);
  }
}

=== FILE: publisher.dfy ===
/** `JiraTestDataPublisher`: what a build does with its test results.  In order it may drop
    links to issues resolved meanwhile, raise issues for failed tests, resolve the issues
    of tests that pass again, and unlink passed tests; the test data is handed to Jenkins
    once per build, when one of these steps (or manual linking) applies.

    The flags `autoResolve`, `autoUnlink`, `overrideResolved` and `manualAdd` belong to a
    newer job configuration than the one modelled in `JobConfigMapping`; they are an input
    here (`Flags`). */
module Publisher {
  import opened Wrappers
  import opened JavaStrings
  import opened EnvVars
  import opened TestResults
  import opened Descriptor
  import opened FieldSpecs
  import opened JiraUtils
  import M = TestToIssueMapping
  import C = JobConfigMapping
  import R = TestDataRegistry

  /* ---------- Attachments and the issue type ---------- */

  /** Extra attachments gathered from the workspace: class name, then test name. */
  type AttachmentMap = map<string, map<string, seq<string>>>

  /** `getAttachments(className, name)`: the files recorded for the test, or none when its
      class or its name is not in the map (a null name is never a key). */
  function GetAttachments(attachments: AttachmentMap, className: Option<string>, name: Option<string>)
    : (r: seq<string>)
    ensures className.None? || name.None? ==> r == []
    ensures className.Some? && className.value !in attachments ==> r == []
    ensures className.Some? && name.Some? && className.value in attachments ==>
              (name.value !in attachments[className.value] ==> r == [])
    ensures r != [] ==> exists c, n :: c in attachments && n in attachments[c] && r == attachments[c][n]
  {
    if className.None? || className.value !in attachments then []
    else
      var byName := attachments[className.value];
      if name.None? || name.value !in byName then [] else byName[name.value]
  }

  /** The constructor's `Long.parseLong(issueType)`, with 1 when it is not a number. */
  function ParseIssueType(issueType: Option<string>): (r: int)
    ensures LongMin <= r <= LongMax
    ensures issueType.None? ==> r == 1
  {
    if issueType.None? then 1
    else
      match ParseLong(issueType.value)
      case Some(v) => v
      case None => 1
  }

  predicate StartsLikeNumber(s: string) {
    |s| > 0 && (IsDigit(s[0]) || s[0] == '-' || s[0] == '+')
  }

  /** Any `long` written out is read back; text that does not start like a number gives 1. */
  lemma ParseIssueTypeCases(issueType: Option<string>, n: int)
    requires LongMin <= n <= LongMax
    ensures ParseIssueType(Some(IntToString(n))) == n
    ensures issueType.Some? && !StartsLikeNumber(issueType.value) ==> ParseIssueType(issueType) == 1
  {
    ParseLongIntToString(n);
  }

  /* ---------- The publisher ---------- */

  /** The job configuration flags the modelled store does not keep. */
  datatype Flags = Flags(autoResolve: bool, autoUnlink: bool, overrideResolved: bool, manualAdd: bool)

  /** A configured publisher: the job configuration it was built with, whether it runs in
      a pipeline (built without a request from the job's configuration page) and the
      attachments gathered for the current build. */
  datatype Publisher = Publisher(projectKey: Option<string>, issueType: int, configs: seq<FieldSpec>,
                                 autoRaise: bool, flags: Flags, pipeline: bool, attachments: AttachmentMap)

  /** The publisher's configuration written to the job configuration store. */
  function SaveTo(cs: C.Store, job: M.Job, p: Publisher): C.Store {
    C.SaveConfig(cs, job.fullName, p.projectKey, Some(p.issueType), Some(p.configs), p.autoRaise)
  }

  /** The constructor: from the job's configuration page (`request` names the job) the
      job is registered and its configuration saved at once; otherwise, in a pipeline, both
      wait for the first build.  A null list of fields is an empty one. */
  function NewPublisher(w: World, configs: Option<seq<FieldSpec>>, projectKey: Option<string>,
                        issueType: Option<string>, autoRaise: bool, flags: Flags, request: Option<M.Job>)
    : (r: (Publisher, World))
    ensures r.0.pipeline <==> request.None?
    ensures r.0.issueType == ParseIssueType(issueType) && r.0.configs == configs.GetOr([])
    ensures request.None? ==> r.1 == w
    ensures request.Some? ==>
              var n := request.value.fullName;
              n in r.1.configs.entries
              && r.1.configs.entries[n] == C.NewEntry(projectKey, Some(ParseIssueType(issueType)), Some(configs.GetOr([])), autoRaise)
              && r.1.links == M.Register(w.links, request.value)
  {
    var p := Publisher(projectKey, ParseIssueType(issueType), configs.GetOr([]), autoRaise, flags,
                       request.None?, map[]);
    if request.None? then (p, w)
    else (p, World(M.Register(w.links, request.value), SaveTo(w.configs, request.value, p)))
  }

  /* ---------- The loops over the test results ---------- */

  /** How a loop over the results ended: it ran to completion; a REST error was caught
      (the stores as they were when it happened); or another error escaped. */
  datatype Run<T> = Done(value: T, w: World) | Aborted(w: World) | Thrown(e: UtilError)

  predicate PassedId(results: seq<CaseResult>, t: string) {
    exists i :: 0 <= i < |results| && results[i].IsPassed() && results[i].info.id == t
  }

  /** `unlinkIssuesForPassedTests`: each passed test with a link loses it, whatever the
      tracker says; `true` when some link was removed. */
  function UnlinkPassed(links: M.Store, job: M.Job, results: seq<CaseResult>): (bool, M.Store)
    decreases |results|
  {
    if |results| == 0 then (false, links)
    else
      var t := results[0];
      var (linked, l1) := if t.IsPassed() then M.GetTestIssueKey(links, job, t.info.id) else (None, links);
      if linked.Some? then
        var (_, l2) := UnlinkPassed(M.Remove(l1, job.fullName, t.info.id, linked.value), job, results[1..]);
        (true, l2)
      else UnlinkPassed(l1, job, results[1..])
  }

  /** The transitions `resolveIssues` looks for: the lower-cased name contains `resolve`. */
  predicate IsResolve(t: Transition) {
    Contains(ToLower(t.name), "resolve")
  }

  /** The index of the first resolving transition at or after `i`. */
  function FirstResolveFrom(ts: seq<Transition>, i: nat): (r: Option<nat>)
    requires i <= |ts|
    ensures r.Some? ==> i <= r.value < |ts| && IsResolve(ts[r.value])
                        && forall j :: i <= j < r.value ==> !IsResolve(ts[j])
    ensures r.None? ==> forall j :: i <= j < |ts| ==> !IsResolve(ts[j])
    decreases |ts| - i
  {
    if i == |ts| then None
    else if IsResolve(ts[i]) then Some(i)
    else FirstResolveFrom(ts, i + 1)
  }

  /** The id of the first resolving transition: the loop of `resolveIssues` stops there. */
  function FirstResolve(ts: seq<Transition>): (r: Option<int>)
    ensures r.Some? <==> exists i :: 0 <= i < |ts| && IsResolve(ts[i])
    ensures r.Some? ==> exists i :: 0 <= i < |ts| && IsResolve(ts[i]) && ts[i].id == r.value
                           && forall j :: 0 <= j < i ==> !IsResolve(ts[j])
  {
    match FirstResolveFrom(ts, 0)
    case None => None
    case Some(i) => Some(ts[i].id)
  }

  /** One issue: read it, read its transitions, pick the first resolving one (if any). */
  function ResolveKey(tr: Tracker, key: string): Result<Option<int>, RestError> {
    match tr.fetch(key)
    case Failure(e) => Failure(e)
    case Success(_) =>
      match tr.transitions(key)
      case Failure(e) => Failure(e)
      case Success(ts) => Success(FirstResolve(ts))
  }

  /** All the issues of one test: `None` when some REST call fails, else the transition
      executed for each issue that has a resolving one. */
  function ResolveAll(tr: Tracker, keys: set<string>): (r: Option<map<string, int>>)
    ensures r.None? <==> exists k :: k in keys && ResolveKey(tr, k).Failure?
    ensures r.Some? ==> forall k :: k in keys ==>
              ((k in r.value) <==> ResolveKey(tr, k).value.Some?)
              && (k in r.value ==> ResolveKey(tr, k).value == Some(r.value[k]))
    ensures r.Some? ==> r.value.Keys <= keys
  {
    if exists k :: k in keys && ResolveKey(tr, k).Failure? then None
    else Some(map k | k in keys && ResolveKey(tr, k).Success? && ResolveKey(tr, k).value.Some?
                    :: ResolveKey(tr, k).value.value)
  }

  /** A test whose issues get resolved: it passes now and failed in the previous build. */
  predicate Recovered(t: CaseResult) {
    t.IsPassed() && t.info.previous == Some(Status.Failed)
  }

  /** The loop of `resolveIssues`; the value is the transition executed per issue. */
  function ResolveLoop(fuel: nat, g: Descriptor, tr: Tracker, w: World, job: M.Job, env: EnvVars,
                       results: seq<CaseResult>): Run<map<string, int>>
    decreases |results|
  {
    if |results| == 0 then Done(map[], w)
    else
      var t := results[0];
      if !Recovered(t) then ResolveLoop(fuel, g, tr, w, job, env, results[1..])
      else
        match SearchIssueKeys(fuel, g, tr, w, job, env, t)
        case Failure(Rest(_)) => Aborted(w)
        case Failure(e) => Thrown(e)
        case Success((keys, w1)) =>
          match ResolveAll(tr, keys)
          case None => Aborted(w1)
          case Some(done) =>
            match ResolveLoop(fuel, g, tr, w1, job, env, results[1..])
            case Done(more, w2) => Done(done + more, w2)
            case other => other
  }

  /** `resolveIssues`: `true` when some transition was executed and no REST error ended
      the loop; the transitions executed; the stores. */
  function ResolveIssues(fuel: nat, g: Descriptor, tr: Tracker, w: World, job: M.Job, env: EnvVars,
                         results: seq<CaseResult>): Result<(bool, map<string, int>, World), UtilError>
  {
    match ResolveLoop(fuel, g, tr, w, job, env, results)
    case Done(done, w1) => Success((|done| > 0, done, w1))
    case Aborted(w1) => Success((false, map[], w1))
    case Thrown(e) => Failure(e)
  }

  /** The loop of `raiseIssues`: an issue for each failed test (linked to `job`, configured
      by `project`); the value says whether some failed test was handled. */
  function RaiseLoop(fuel: nat, g: Descriptor, tr: Tracker, w: World, job: M.Job, project: string,
                     env: EnvVars, results: seq<CaseResult>): Run<bool>
    decreases |results|
  {
    if |results| == 0 then Done(false, w)
    else
      var t := results[0];
      if !t.IsFailed() then RaiseLoop(fuel, g, tr, w, job, project, env, results[1..])
      else
        match CreateIssue(fuel, g, tr, w, job, project, env, t, JobRun)
        case Failure(Rest(_)) => Aborted(w)
        case Failure(e) => Thrown(e)
        case Success((_, w1)) =>
          match RaiseLoop(fuel, g, tr, w1, job, project, env, results[1..])
          case Done(_, w2) => Done(true, w2)
          case other => other
  }

  /** `raiseIssues`: `false` as soon as a REST error ends the loop. */
  function RaiseIssues(fuel: nat, g: Descriptor, tr: Tracker, w: World, job: M.Job, project: string,
                       env: EnvVars, results: seq<CaseResult>): Result<(bool, World), UtilError>
  {
    match RaiseLoop(fuel, g, tr, w, job, project, env, results)
    case Done(raised, w1) => Success((raised, w1))
    case Aborted(w1) => Success((false, w1))
    case Thrown(e) => Failure(e)
  }

  /* ---------- contributeTestData ---------- */

  /** A build: the job that ran (a matrix configuration or the job itself) and the project
      whose configuration applies (the matrix parent, or the job itself). */
  datatype Build = Build(job: M.Job, project: M.Job, env: EnvVars)

  datatype PublishError = StepFailed(cause: UtilError) | NoBuildUrl

  /** The enabled steps in order; `true` when one of them reported something, which
      manual linking always counts as.  A pipeline first registers the project and saves
      its configuration; the clean-up runs only with `overrideResolved` and counts only
      then; a disabled clean-up leaves the links alone. */
  function Steps(fuel: nat, g: Descriptor, tr: Tracker, w: World, p: Publisher, b: Build,
                 results: seq<CaseResult>): (r: Result<(bool, World), UtilError>)
    ensures p.flags.manualAdd && r.Success? ==> r.value.0
    ensures r.Success? ==>
              var w0 := if p.pipeline then World(M.Register(w.links, b.project), SaveTo(w.configs, b.project, p)) else w;
              var cl := CleanJobCacheFile(tr, w0.links, results, b.job);
              var links1 := if p.flags.overrideResolved && cl.Success? then cl.value.1 else w0.links;
              var later := StepsAfterClean(fuel, g, tr, w0.configs, p, b, results, false, links1);
              (p.flags.overrideResolved ==> cl.Success?)
              && later.Success? && r.value.1 == later.value.1
              && (r.value.0 <==> (p.flags.overrideResolved && cl.value.0) || later.value.0)
    ensures !p.pipeline && !p.flags.overrideResolved ==>
              r == StepsAfterClean(fuel, g, tr, w.configs, p, b, results, false, w.links)
  {
    var w0 := if p.pipeline then World(M.Register(w.links, b.project), SaveTo(w.configs, b.project, p)) else w;
    var cleaned := if p.flags.overrideResolved then CleanJobCacheFile(tr, w0.links, results, b.job)
                   else Success((false, w0.links));
    match cleaned
    case Failure(e) => Failure(e)
    case Success((c, links1)) => StepsAfterClean(fuel, g, tr, w0.configs, p, b, results, c, links1)
  }

  /** Raising, once the stale links are cleaned (`c` says whether some were).  Raising
      runs only when the project's stored entry asks for it (reading the entry may fill the
      configuration cache) and counts only then; disabled, it leaves the links alone. */
  function StepsAfterClean(fuel: nat, g: Descriptor, tr: Tracker, cs: C.Store, p: Publisher, b: Build,
                           results: seq<CaseResult>, c: bool, links1: M.Store)
    : (r: Result<(bool, World), UtilError>)
    ensures (c || p.flags.manualAdd) && r.Success? ==> r.value.0
    ensures r.Success? ==>
              var (autoRaise, cs1) := C.GetAutoRaiseIssue(cs, b.project.fullName);
              var ra := RaiseIssues(fuel, g, tr, World(links1, cs1), b.job, b.project.fullName, b.env, results);
              var w2 := if autoRaise && ra.Success? then ra.value.1 else World(links1, cs1);
              var later := StepsAfterRaise(fuel, g, tr, w2, p, b, results, false);
              (autoRaise ==> ra.Success?)
              && later.Success? && r.value.1 == later.value.1
              && (r.value.0 <==> c || (autoRaise && ra.value.0) || later.value.0)
    ensures !C.GetAutoRaiseIssue(cs, b.project.fullName).0 ==>
              r == StepsAfterRaise(fuel, g, tr, World(links1, C.GetAutoRaiseIssue(cs, b.project.fullName).1), p, b,
                                   results, c)
  {
    var (autoRaise, cs1) := C.GetAutoRaiseIssue(cs, b.project.fullName);
    var raised := if autoRaise then RaiseIssues(fuel, g, tr, World(links1, cs1), b.job, b.project.fullName, b.env, results)
                  else Success((false, World(links1, cs1)));
    match raised
    case Failure(e) => Failure(e)
    case Success((r, w2)) => StepsAfterRaise(fuel, g, tr, w2, p, b, results, c || r)
  }

  /** Resolving and unlinking, once the earlier steps reported `reported`.  Each runs and
      counts only when its flag is set; with both disabled the stores stay as they are. */
  function StepsAfterRaise(fuel: nat, g: Descriptor, tr: Tracker, w2: World, p: Publisher, b: Build,
                           results: seq<CaseResult>, reported: bool)
    : (r: Result<(bool, World), UtilError>)
    ensures (reported || p.flags.manualAdd) && r.Success? ==> r.value.0
    ensures r.Success? ==>
              var re := ResolveIssues(fuel, g, tr, w2, b.job, b.env, results);
              var w3 := if p.flags.autoResolve && re.Success? then re.value.2 else w2;
              var un := UnlinkPassed(w3.links, b.job, results);
              (p.flags.autoResolve ==> re.Success?)
              && r.value.1 == World(if p.flags.autoUnlink then un.1 else w3.links, w3.configs)
              && (r.value.0 <==> reported || (p.flags.autoResolve && re.value.0)
                                 || (p.flags.autoUnlink && un.0) || p.flags.manualAdd)
    ensures !p.flags.autoResolve && !p.flags.autoUnlink ==> r == Success((reported || p.flags.manualAdd, w2))
  {
    var resolved := if p.flags.autoResolve then ResolveIssues(fuel, g, tr, w2, b.job, b.env, results)
                    else Success((false, map[], w2));
    match resolved
    case Failure(e) => Failure(e)
    case Success((s, _, w3)) =>
      var (u, links4) := if p.flags.autoUnlink then UnlinkPassed(w3.links, b.job, results) else (false, w3.links);
      Success((reported || s || u || p.flags.manualAdd, World(links4, w3.configs)))
  }

  /** `contributeTestData`: the test data of the build, once per `BUILD_URL`, when some
      step reported; `None` otherwise. */
  function ContributeTestData(fuel: nat, g: Descriptor, tr: Tracker, w: World, reg: R.Registry, p: Publisher,
                              b: Build, results: seq<CaseResult>)
    : Result<(Option<R.TestData>, World, R.Registry), PublishError>
  {
    match Steps(fuel, g, tr, w, p, b, results)
    case Failure(e) => Failure(StepFailed(e))
    case Success((has, w1)) => Handover(has, w1, reg, b.env)
  }

  /** The registry part of `contributeTestData`, once the steps have reported `has`: the
      data goes to Jenkins only the first time the build's URL is seen. */
  function Handover(has: bool, w1: World, reg: R.Registry, env: EnvVars)
    : (r: Result<(Option<R.TestData>, World, R.Registry), PublishError>)
    ensures r.Success? ==> r.value.1 == w1
    ensures r.Success? && r.value.0.Some? ==>
              has && R.Get(reg, env) == Success(None)
              && r.value.0.value == R.TestData(env)
              && R.Get(r.value.2, env) == Success(Some(R.TestData(env)))
    ensures R.Get(reg, env).Success? && R.Get(reg, env).value.Some? && r.Success? ==>
              r.value.0.None? && r.value.2 == reg
    ensures has && R.Get(reg, env) == Success(None) ==> r.Success? && r.value.0 == Some(R.TestData(env))
    ensures !has ==> r == Success((None, w1, reg))
  {
    if !has then Success((None, w1, reg))
    else
      match R.Get(reg, env)
      case Failure(_) => Failure(NoBuildUrl)
      case Success(Some(_)) => Success((None, w1, reg))
      case Success(None) =>
        match R.Put(reg, env)
        case Failure(_) => Failure(NoBuildUrl)
        case Success(reg1) =>
          match R.Get(reg1, env)
          case Failure(_) => Failure(NoBuildUrl)
          case Success(d) => Success((d, w1, reg1))
  }

  /* ---------- Properties ---------- */

  /** For a registered job: every passed test loses its link, the links of the other tests
      and of the other jobs stay, none is added, and `true` exactly when some passed test
      was linked. */
  lemma {:induction false} UnlinkPassedEffect(links: M.Store, n: string, shown: string, results: seq<CaseResult>)
    requires n in links.jobs
    ensures var (u, r) := UnlinkPassed(links, M.Plain(n, shown), results);
            n in r.jobs
            && (forall i :: 0 <= i < |results| && results[i].IsPassed() ==> results[i].info.id !in r.jobs[n])
            && (forall t :: t in links.jobs[n] && !PassedId(results, t) ==> t in r.jobs[n] && r.jobs[n][t] == links.jobs[n][t])
            && (forall t :: t in r.jobs[n] ==> t in links.jobs[n] && r.jobs[n][t] == links.jobs[n][t])
            && (forall j :: j in links.jobs && j != n ==> j in r.jobs && r.jobs[j] == links.jobs[j])
            && (u <==> exists i :: 0 <= i < |results| && results[i].IsPassed() && results[i].info.id in links.jobs[n])
    decreases |results|
  {
    var job := M.Plain(n, shown);
    if |results| > 0 {
      var t := results[0];
      var rest := results[1..];
      assert forall i :: 1 <= i < |results| ==> results[i] == rest[i - 1];
      if t.IsPassed() && t.info.id in links.jobs[n] {
        var l3 := M.Remove(links, n, t.info.id, links.jobs[n][t.info.id]);
        UnlinkPassedEffect(l3, n, shown, rest);
      } else {
        UnlinkPassedEffect(links, n, shown, rest);
      }
    }
  }

  /** The failed tests, in order. */
  function FailedOnly(results: seq<CaseResult>): (r: seq<CaseResult>)
    ensures forall i :: 0 <= i < |r| ==> r[i].IsFailed()
    ensures forall t :: t in r <==> t in results && t.IsFailed()
    ensures |r| <= |results|
  {
    if |results| == 0 then []
    else if results[0].IsFailed() then [results[0]] + FailedOnly(results[1..])
    else FailedOnly(results[1..])
  }

  /** Raising issues looks at the failed tests only. */
  lemma {:induction false} RaiseOnlyFailed(fuel: nat, g: Descriptor, tr: Tracker, w: World, job: M.Job,
                                           project: string, env: EnvVars, results: seq<CaseResult>)
    ensures RaiseLoop(fuel, g, tr, w, job, project, env, results)
            == RaiseLoop(fuel, g, tr, w, job, project, env, FailedOnly(results))
    decreases |results|
  {
    if |results| > 0 {
      if results[0].IsFailed() {
        var c := CreateIssue(fuel, g, tr, w, job, project, env, results[0], JobRun);
        if c.Success? {
          RaiseOnlyFailed(fuel, g, tr, c.value.1, job, project, env, results[1..]);
        }
        RaiseFailedStep(fuel, g, tr, w, job, project, env, results);
      } else {
        RaiseOnlyFailed(fuel, g, tr, w, job, project, env, results[1..]);
        RaiseSkipStep(fuel, g, tr, w, job, project, env, results);
      }
    }
  }

  /** A test that did not fail is passed over by the loop and by the filter. */
  lemma RaiseSkipStep(fuel: nat, g: Descriptor, tr: Tracker, w: World, job: M.Job,
                      project: string, env: EnvVars, results: seq<CaseResult>)
    requires |results| > 0 && !results[0].IsFailed()
    ensures RaiseLoop(fuel, g, tr, w, job, project, env, results)
            == RaiseLoop(fuel, g, tr, w, job, project, env, results[1..])
    ensures FailedOnly(results) == FailedOnly(results[1..])
  {
  }

  /** A failed test is the head of the filtered list, so both loops raise its issue and
      continue from the same stores. */
  lemma RaiseFailedStep(fuel: nat, g: Descriptor, tr: Tracker, w: World, job: M.Job,
                        project: string, env: EnvVars, results: seq<CaseResult>)
    requires |results| > 0 && results[0].IsFailed()
    requires var c := CreateIssue(fuel, g, tr, w, job, project, env, results[0], JobRun);
             c.Success? ==>
               RaiseLoop(fuel, g, tr, c.value.1, job, project, env, results[1..])
               == RaiseLoop(fuel, g, tr, c.value.1, job, project, env, FailedOnly(results[1..]))
    ensures RaiseLoop(fuel, g, tr, w, job, project, env, results)
            == RaiseLoop(fuel, g, tr, w, job, project, env, FailedOnly(results))
  {
    var f := FailedOnly(results);
    assert f[0] == results[0] && f[1..] == FailedOnly(results[1..]);
  }

  /** When the loop completes, it reports `true` exactly when some test failed. */
  lemma {:induction false} RaiseReportsFailures(fuel: nat, g: Descriptor, tr: Tracker, w: World, job: M.Job,
                                                project: string, env: EnvVars, results: seq<CaseResult>)
    ensures var r := RaiseLoop(fuel, g, tr, w, job, project, env, results);
            r.Done? ==> (r.value <==> exists i :: 0 <= i < |results| && results[i].IsFailed())
    decreases |results|
  {
    if |results| > 0 {
      assert forall i :: 1 <= i < |results| ==> results[i] == results[1..][i - 1];
      if results[0].IsFailed() {
        match CreateIssue(fuel, g, tr, w, job, project, env, results[0], JobRun)
        case Failure(_) =>
        case Success((_, w1)) => RaiseReportsFailures(fuel, g, tr, w1, job, project, env, results[1..]);
      } else {
        RaiseReportsFailures(fuel, g, tr, w, job, project, env, results[1..]);
      }
    }
  }

  /** A REST error while raising the first failed test's issue ends the loop: `false`,
      nothing else tried, the stores as they were. */
  lemma RaiseRestErrorAborts(fuel: nat, g: Descriptor, tr: Tracker, w: World, job: M.Job, project: string,
                             env: EnvVars, t: CaseResult, rest: seq<CaseResult>, e: RestError)
    requires t.IsFailed()
    ensures CreateIssue(fuel, g, tr, w, job, project, env, t, JobRun) == Failure(Rest(e)) ==>
              RaiseIssues(fuel, g, tr, w, job, project, env, [t] + rest) == Success((false, w))
  {
    assert ([t] + rest)[0] == t;
  }

  /** The recovered tests, in order. */
  function RecoveredOnly(results: seq<CaseResult>): (r: seq<CaseResult>)
    ensures forall i :: 0 <= i < |r| ==> Recovered(r[i])
    ensures forall t :: t in r <==> t in results && Recovered(t)
    ensures |r| <= |results|
  {
    if |results| == 0 then []
    else if Recovered(results[0]) then [results[0]] + RecoveredOnly(results[1..])
    else RecoveredOnly(results[1..])
  }

  /** Resolving looks only at tests that pass now and failed before. */
  lemma {:induction false} ResolveOnlyRecovered(fuel: nat, g: Descriptor, tr: Tracker, w: World, job: M.Job,
                                                env: EnvVars, results: seq<CaseResult>)
    ensures ResolveLoop(fuel, g, tr, w, job, env, results) == ResolveLoop(fuel, g, tr, w, job, env, RecoveredOnly(results))
    decreases |results|
  {
    if |results| > 0 {
      if Recovered(results[0]) {
        var k := SearchIssueKeys(fuel, g, tr, w, job, env, results[0]);
        if k.Success? {
          ResolveOnlyRecovered(fuel, g, tr, k.value.1, job, env, results[1..]);
        }
        ResolveRecoveredStep(fuel, g, tr, w, job, env, results);
      } else {
        ResolveOnlyRecovered(fuel, g, tr, w, job, env, results[1..]);
        ResolveSkipStep(fuel, g, tr, w, job, env, results);
      }
    }
  }

  /** A test that has not recovered is passed over by the loop and by the filter. */
  lemma ResolveSkipStep(fuel: nat, g: Descriptor, tr: Tracker, w: World, job: M.Job,
                        env: EnvVars, results: seq<CaseResult>)
    requires |results| > 0 && !Recovered(results[0])
    ensures ResolveLoop(fuel, g, tr, w, job, env, results) == ResolveLoop(fuel, g, tr, w, job, env, results[1..])
    ensures RecoveredOnly(results) == RecoveredOnly(results[1..])
  {
  }

  /** A recovered test is the head of the filtered list, so both loops search its issues
      and continue from the same stores. */
  lemma ResolveRecoveredStep(fuel: nat, g: Descriptor, tr: Tracker, w: World, job: M.Job,
                             env: EnvVars, results: seq<CaseResult>)
    requires |results| > 0 && Recovered(results[0])
    requires var k := SearchIssueKeys(fuel, g, tr, w, job, env, results[0]);
             k.Success? ==>
               ResolveLoop(fuel, g, tr, k.value.1, job, env, results[1..])
               == ResolveLoop(fuel, g, tr, k.value.1, job, env, RecoveredOnly(results[1..]))
    ensures ResolveLoop(fuel, g, tr, w, job, env, results) == ResolveLoop(fuel, g, tr, w, job, env, RecoveredOnly(results))
  {
    var f := RecoveredOnly(results);
    assert f[0] == results[0] && f[1..] == RecoveredOnly(results[1..]);
  }

  /** Every transition the loop executes is the first resolving transition of its issue,
      one per issue. */
  lemma {:induction false} ResolveExecutesFirst(fuel: nat, g: Descriptor, tr: Tracker, w: World, job: M.Job,
                                                env: EnvVars, results: seq<CaseResult>)
    ensures var r := ResolveLoop(fuel, g, tr, w, job, env, results);
            r.Done? ==> forall k :: k in r.value ==> ResolveKey(tr, k) == Success(Some(r.value[k]))
    decreases |results|
  {
    if |results| > 0 && Recovered(results[0]) {
      match SearchIssueKeys(fuel, g, tr, w, job, env, results[0])
      case Failure(_) =>
      case Success((keys, w1)) => ResolveExecutesFirst(fuel, g, tr, w1, job, env, results[1..]);
    } else if |results| > 0 {
      ResolveExecutesFirst(fuel, g, tr, w, job, env, results[1..]);
    }
  }

  /** Test data is handed over only when some step reported and the build's URL had no
      entry yet; it then holds the build's environment and is registered. */
  lemma ContributeOnce(fuel: nat, g: Descriptor, tr: Tracker, w: World, reg: R.Registry, p: Publisher,
                       b: Build, results: seq<CaseResult>)
    ensures var r := ContributeTestData(fuel, g, tr, w, reg, p, b, results);
            r.Success? && r.value.0.Some? ==>
              Steps(fuel, g, tr, w, p, b, results).Success? && Steps(fuel, g, tr, w, p, b, results).value.0
              && R.Get(reg, b.env) == Success(None)
              && r.value.0.value == R.TestData(b.env)
              && R.Get(r.value.2, b.env) == Success(Some(R.TestData(b.env)))
    ensures var r := ContributeTestData(fuel, g, tr, w, reg, p, b, results);
            R.Get(reg, b.env).Success? && R.Get(reg, b.env).value.Some? && r.Success? ==>
              r.value.0.None? && r.value.2 == reg
  {
  }

  /** With every step disabled and no pipeline, the steps report nothing, ask the tracker
      nothing and leave the links as they were; only reading the project's entry may fill
      the configuration cache. */
  lemma StepsAllDisabled(fuel: nat, g: Descriptor, tr: Tracker, w: World, p: Publisher, b: Build,
                         results: seq<CaseResult>)
    requires !p.pipeline && p.flags == Flags(false, false, false, false)
    ensures var (autoRaise, cs1) := C.GetAutoRaiseIssue(w.configs, b.project.fullName);
            !autoRaise ==> Steps(fuel, g, tr, w, p, b, results) == Success((false, World(w.links, cs1)))
  {
  }

  /** With manual linking enabled, a build whose steps succeed always hands its data over
      the first time. */
  lemma ManualAddReports(fuel: nat, g: Descriptor, tr: Tracker, w: World, reg: R.Registry, p: Publisher,
                         b: Build, results: seq<CaseResult>)
    requires p.flags.manualAdd
    requires Steps(fuel, g, tr, w, p, b, results).Success?
    requires R.Get(reg, b.env) == Success(None)
    ensures var r := ContributeTestData(fuel, g, tr, w, reg, p, b, results);
            r.Success? && r.value.0 == Some(R.TestData(b.env))
  {
  }
}

=== FILE: test_action.dfy ===
/** `JiraTestAction`: the badge next to a test on the build page.  It shows the linked
    issue and lets the user link an existing issue, unlink it, or create a new one. */
module TestAction {
  import opened Wrappers
  import opened JavaStrings
  import opened Descriptor
  import opened JiraUtils
  import M = TestToIssueMapping
  import C = JobConfigMapping

  /** The action of one test: the job whose links it reads (for a matrix project, the
      configuration that ran), the project whose configuration applies, the test id and
      the key the badge shows. */
  datatype Action = Action(job: M.Job, project: string, testId: string, issueKey: Option<string>)

  datatype ActionError =
    | NoPattern       // the project has no configuration, so no key pattern
    | LinkFailed      // the job has no map of its own

  const InvalidKeyMessage: string := "Not a valid issue key"

  /** The constructor: the badge starts with the test's current link. */
  function NewAction(links: M.Store, job: M.Job, project: string, testId: string): (r: (Action, M.Store))
    ensures r.0.issueKey == M.GetTestIssueKey(links, job, testId).0
    ensures r.0.job == job && r.0.testId == testId && r.0.project == project
  {
    var (key, links1) := M.GetTestIssueKey(links, job, testId);
    (Action(job, project, testId, key), links1)
  }

  /** `getIssueUrl`: the issue's address on the configured server; a missing key reads as
      `null`, and a missing or empty server address fails. */
  function IssueUrl(g: Descriptor, a: Action): (r: Option<string>)
    ensures r.Some? <==> g.jiraUrl.Some? && g.jiraUrl.value != ""
    ensures r.Some? ==> EndsWith(r.value, "/browse/" + a.issueKey.GetOr("null"))
  {
    if g.jiraUrl.None? then None else GetIssueUrl(g.jiraUrl.value, a.issueKey.GetOr("null"))
  }

  /** `isValidIssueKey`: the key must fully match the project's pattern and the issue must
      exist on the server. */
  function IsValidIssueKey(tr: Tracker, cs: C.Store, project: string, key: string)
    : (r: Result<(bool, C.Store), ActionError>)
    ensures r.Failure? <==> C.GetIssueKeyPattern(cs, project).0.None?
    ensures r.Success? ==>
              (r.value.0 <==> C.FullMatch(C.GetIssueKeyPattern(cs, project).0.value, key) && tr.fetch(key).Success?)
  {
    var (pattern, cs1) := C.GetIssueKeyPattern(cs, project);
    if pattern.None? then Failure(NoPattern)
    else if !C.FullMatch(pattern.value, key) then Success((false, cs1))
    else Success((tr.fetch(key).Success?, cs1))
  }

  /** `setIssueKey`: nothing when the test is already linked; a valid key is shown and
      linked; an invalid one gives an error message and changes nothing.  The result is
      the message (`None` for success), the action and the stores. */
  function SetIssueKey(tr: Tracker, w: World, a: Action, key: string)
    : Result<(Option<string>, Action, World), ActionError>
  {
    var (linked, links1) := M.GetTestIssueKey(w.links, a.job, a.testId);
    if linked.Some? then Success((None, a, World(links1, w.configs)))
    else
      match IsValidIssueKey(tr, w.configs, a.project, key)
      case Failure(e) => Failure(e)
      case Success((false, cs1)) => Success((Some(InvalidKeyMessage), a, World(links1, cs1)))
      case Success((true, cs1)) =>
        match M.Add(links1, a.job, a.testId, key)
        case Failure(_) => Failure(LinkFailed)
        case Success(links2) => Success((None, a.(issueKey := Some(key)), World(links2, cs1)))
  }

  /** `clearIssueKey`: the link goes only if it is the key the badge shows; the badge then
      shows none. */
  function ClearIssueKey(links: M.Store, a: Action): (r: (Action, M.Store))
    ensures r.0 == a.(issueKey := None)
    ensures a.issueKey.None? ==> r.1 == links
  {
    (a.(issueKey := None), if a.issueKey.None? then links else M.Remove(links, a.job.fullName, a.testId, a.issueKey.value))
  }

  /** `createIssue`: nothing when the test is already linked; otherwise the new issue the
      server made (`created`) is linked as by `setIssueKey`, or the REST error becomes the
      message. */
  function CreateIssue(tr: Tracker, w: World, a: Action, created: Result<string, RestError>)
    : Result<(Option<string>, Action, World), ActionError>
  {
    var (linked, links1) := M.GetTestIssueKey(w.links, a.job, a.testId);
    if linked.Some? then Success((None, a, World(links1, w.configs)))
    else
      match created
      case Failure(e) => Success((Some(ErrorMessage(e.collections, "\n")), a, World(links1, w.configs)))
      case Success(key) => SetIssueKey(tr, World(links1, w.configs), a, key)
  }

  /* ---------- Properties ---------- */

  /** A linked test keeps its link: setting and creating do nothing. */
  lemma LinkedIsNoOp(tr: Tracker, w: World, a: Action, key: string, created: Result<string, RestError>)
    requires a.job.fullName in w.links.jobs && a.testId in w.links.jobs[a.job.fullName]
    ensures SetIssueKey(tr, w, a, key) == Success((None, a, w))
    ensures CreateIssue(tr, w, a, created) == Success((None, a, w))
  {
  }

  /** A key that does not match the pattern is refused with a message, and neither the
      links nor the badge change. */
  lemma SetInvalidKey(tr: Tracker, w: World, a: Action, key: string)
    requires a.job.fullName in w.links.jobs && a.testId !in w.links.jobs[a.job.fullName]
    requires C.GetIssueKeyPattern(w.configs, a.project).0.Some?
    requires !C.FullMatch(C.GetIssueKeyPattern(w.configs, a.project).0.value, key)
    ensures var r := SetIssueKey(tr, w, a, key);
            r.Success? && r.value.0 == Some(InvalidKeyMessage) && r.value.1 == a && r.value.2.links == w.links
  {
  }

  /** A valid key for an unlinked test of a job that has a map is shown and linked; no
      other test's link changes. */
  lemma SetValidKey(tr: Tracker, w: World, a: Action, key: string)
    requires a.job.fullName in w.links.jobs && a.testId !in w.links.jobs[a.job.fullName]
    requires C.GetIssueKeyPattern(w.configs, a.project).0.Some?
    requires C.FullMatch(C.GetIssueKeyPattern(w.configs, a.project).0.value, key)
    requires tr.fetch(key).Success?
    ensures var r := SetIssueKey(tr, w, a, key);
            r.Success? && r.value.0.None? && r.value.1.issueKey == Some(key)
            && r.value.2.links.jobs == w.links.jobs[a.job.fullName := w.links.jobs[a.job.fullName][a.testId := key]]
  {
  }

  /** Clearing removes the link exactly when it is the key the badge shows. */
  lemma ClearRemovesShownKey(links: M.Store, a: Action)
    requires a.job.fullName in links.jobs && a.issueKey.Some?
    ensures var (_, l) := ClearIssueKey(links, a);
            var m := links.jobs[a.job.fullName];
            a.job.fullName in l.jobs
            && (a.testId in m && m[a.testId] == a.issueKey.value ==> l.jobs[a.job.fullName] == m - {a.testId})
            && (!(a.testId in m && m[a.testId] == a.issueKey.value) ==> l == links)
  {
  }

  /** Linking a valid key and clearing it again leaves the links as they were. */
  lemma SetThenClear(tr: Tracker, w: World, a: Action, key: string)
    requires a.job.fullName in w.links.jobs && a.testId !in w.links.jobs[a.job.fullName]
    requires C.GetIssueKeyPattern(w.configs, a.project).0.Some?
    requires C.FullMatch(C.GetIssueKeyPattern(w.configs, a.project).0.value, key)
    requires tr.fetch(key).Success?
    ensures SetIssueKey(tr, w, a, key).Success?
    ensures var (_, a1, w1) := SetIssueKey(tr, w, a, key).value;
            ClearIssueKey(w1.links, a1).1.jobs == w.links.jobs && ClearIssueKey(w1.links, a1).0 == a.(issueKey := None)
  {
    SetValidKey(tr, w, a, key);
    var n := a.job.fullName;
    var m := w.links.jobs[n];
    assert m[a.testId := key] - {a.testId} == m;
    assert w.links.jobs[n := m] == w.links.jobs;
  }

  /** A REST error while creating gives its message and changes nothing. */
  lemma CreateErrorMessage(tr: Tracker, w: World, a: Action, e: RestError)
    requires a.job.fullName in w.links.jobs && a.testId !in w.links.jobs[a.job.fullName]
    ensures CreateIssue(tr, w, a, Failure(e)) == Success((Some(ErrorMessage(e.collections, "\n")), a, w))
  {
  }
}

=== FILE: test_data_registry.dfy ===
/** `JiraTestDataRegistry`: the test data already handed to Jenkins, one entry per build,
    keyed by the build's `BUILD_URL` environment variable and nothing else.  A build
    without that variable makes both calls fail (the source locks on the null key). */
module TestDataRegistry {
  import opened Wrappers
  import opened EnvVars

  const BuildUrl: string := "BUILD_URL"

  /** `JiraTestData`: the environment of the build it was made for. */
  datatype TestData = TestData(env: EnvVars)

  datatype Registry = Registry(byUrl: map<string, TestData>)

  datatype RegistryError = NoBuildUrl

  const Empty := Registry(map[])

  /** `getJiraTestData`: the entry of the build's URL, if any. */
  function Get(reg: Registry, env: EnvVars): (r: Result<Option<TestData>, RegistryError>)
    ensures r.Failure? <==> env.Get(BuildUrl).None?
    ensures r.Success? ==> (r.value.Some? <==> env.Get(BuildUrl).value in reg.byUrl)
    ensures r.Success? && r.value.Some? ==> r.value.value in reg.byUrl.Values
  {
    match env.Get(BuildUrl)
    case None => Failure(NoBuildUrl)
    case Some(url) => Success(if url in reg.byUrl then Some(reg.byUrl[url]) else None)
  }

  /** `putJiraTestData`: a new entry holding the environment, replacing any earlier one
      of the same URL. */
  function Put(reg: Registry, env: EnvVars): (r: Result<Registry, RegistryError>)
    ensures r.Failure? <==> env.Get(BuildUrl).None?
    ensures r.Success? ==> r.value.byUrl.Keys == reg.byUrl.Keys + {env.Get(BuildUrl).value}
    ensures r.Success? ==> forall u :: u in reg.byUrl && u != env.Get(BuildUrl).value ==> r.value.byUrl[u] == reg.byUrl[u]
  {
    match env.Get(BuildUrl)
    case None => Failure(NoBuildUrl)
    case Some(url) => Success(Registry(reg.byUrl[url := TestData(env)]))
  }

  /** Nothing is found for a URL never put. */
  lemma GetNeverPut(env: EnvVars)
    requires env.Get(BuildUrl).Some?
    ensures Get(Empty, env) == Success(None)
  {
  }

  /** After a put, any environment with the same URL finds the entry holding the put
      environment. */
  lemma PutThenGet(reg: Registry, env: EnvVars, other: EnvVars)
    requires env.Get(BuildUrl).Some? && other.Get(BuildUrl) == env.Get(BuildUrl)
    ensures Put(reg, env).Success?
    ensures Get(Put(reg, env).value, other) == Success(Some(TestData(env)))
  {
  }

  /** A second put for the same URL replaces the first. */
  lemma PutReplaces(reg: Registry, env1: EnvVars, env2: EnvVars)
    requires env1.Get(BuildUrl).Some? && env2.Get(BuildUrl) == env1.Get(BuildUrl)
    ensures Put(reg, env1).Success?
    ensures Put(Put(reg, env1).value, env2) == Put(reg, env2)
  {
    var url := env1.Get(BuildUrl).value;
    assert reg.byUrl[url := TestData(env1)][url := TestData(env2)] == reg.byUrl[url := TestData(env2)];
  }

  /** Lookups see nothing of an environment but its URL. */
  lemma KeyedByUrlOnly(reg: Registry, env1: EnvVars, env2: EnvVars)
    requires env1.Get(BuildUrl) == env2.Get(BuildUrl)
    ensures Get(reg, env1) == Get(reg, env2)
  {
  }

  /** A put leaves the entries of other URLs as they were. */
  lemma PutOtherUrl(reg: Registry, env: EnvVars, other: EnvVars)
    requires env.Get(BuildUrl).Some? && other.Get(BuildUrl).Some?
    requires env.Get(BuildUrl) != other.Get(BuildUrl)
    ensures Put(reg, env).Success?
    ensures Get(Put(reg, env).value, other) == Get(reg, other)
  {
  }
}

=== FILE: test_results.dfy ===
/** The parts of a Jenkins JUnit `TestResult` / `CaseResult` the plugin reads.
    `None` stands for a getter that returns null. */
module TestResults {
  import opened Wrappers

  datatype Status = Passed | Failed | Skipped

  /** Getters every `TestResult` has. */
  datatype TestData = TestData(
    displayName: Option<string>,
    fullDisplayName: Option<string>,
    errorStackTrace: Option<string>,
    errorDetails: Option<string>,
    durationString: Option<string>,
    stderr: Option<string>,
    stdout: Option<string>,
    prettyString: Option<string>,
    passCount: int,
    failCount: int,
    skipCount: int,
    failedSince: int,
    buildResult: Option<string>)

  /** Getters only a `CaseResult` has; `previous` is the result of the same case in the
      previous build, when there is one. */
  datatype CaseData = CaseData(
    id: string,
    className: Option<string>,
    name: Option<string>,
    packageName: Option<string>,
    age: int,
    status: Status,
    regression: bool,
    previous: Option<Status>)

  datatype CaseResult = CaseResult(data: TestData, info: CaseData) {
    predicate IsPassed() { info.status == Passed }
    predicate IsFailed() { info.status == Failed }
    predicate IsSkipped() { info.status == Skipped }
  }

  datatype TestResult = OfCase(c: CaseResult) | Aggregate(data: TestData, passed: bool) {
    function Data(): TestData {
      if OfCase? then c.data else data
    }

    predicate IsPassed() {
      if OfCase? then c.IsPassed() else passed
    }
  }
}

=== FILE: test_to_issue_mapping.dfy ===
/** `TestToIssueMapping`: for every registered job, the map from test id to the key of the
    issue linked to it.  Every change is written through to the job's JSON file; a job is
    loaded from that file, else from the file of the previous plugin version (which is then
    saved in the new format), else starts empty.  The files are the `Disk`, keyed by job. */
module TestToIssueMapping {
  import opened Wrappers
  import opened Json

  type IssueMap = map<string, string>

  /** What reading one file gives.  A file Gson reads as null (empty, or holding `null`)
      is taken as `Corrupt`. */
  datatype MapFile = Absent | Corrupt | Stored(m: IssueMap)

  /** The JSON files and the serialized files of the previous version, by job. */
  datatype Disk = Disk(json: map<string, MapFile>, legacy: map<string, MapFile>) {
    function Json(job: string): MapFile { if job in json then json[job] else Absent }
    function Legacy(job: string): MapFile { if job in legacy then legacy[job] else Absent }
  }

  /** A job: a matrix project lists the other jobs `getAllJobs` gives besides itself. */
  datatype Job =
    | Plain(fullName: string, name: string)
    | Matrix(fullName: string, name: string, configurations: seq<Job>)

  datatype Store = Store(jobs: map<string, IssueMap>, disk: Disk)

  /** `saveMap`: the job's whole map becomes its JSON file. */
  function SaveMap(disk: Disk, job: string, m: IssueMap): Disk {
    disk.(json := disk.json[job := Stored(m)])
  }

  /** `loadMap` with `loadBackwardsCompatible`: the JSON file; if it does not exist, the old
      file, re-saved as JSON; an unreadable file of either kind gives an empty map. */
  function LoadMap(disk: Disk, job: string): (IssueMap, Disk) {
    match disk.Json(job)
    case Stored(m) => (m, disk)
    case Corrupt => (map[], disk)
    case Absent =>
      match disk.Legacy(job)
      case Stored(m) => (m, SaveMap(disk, job, m))
      case _ => (map[], disk)
  }

  /** `register` of a job that is not a matrix project. */
  function RegisterPlain(st: Store, job: string): Store {
    if job in st.jobs then st
    else
      var (m, disk) := LoadMap(st.disk, job);
      Store(st.jobs[job := m], disk)
  }

  /** `register`: a matrix project registers its configurations that are not themselves
      matrix projects, and never itself. */
  function Register(st: Store, job: Job): Store {
    match job
    case Plain(n, _) => RegisterPlain(st, n)
    case Matrix(_, _, cs) => RegisterChildren(st, cs)
  }

  function RegisterChildren(st: Store, cs: seq<Job>): Store
    decreases |cs|
  {
    if |cs| == 0 then st
    else
      var st1 := if cs[0].Plain? then RegisterPlain(st, cs[0].fullName) else st;
      RegisterChildren(st1, cs[1..])
  }

  datatype MappingError = NullJobMap   // a matrix project has no map of its own

  /** `addTestToIssueMapping`: registers an unknown job first, then links and saves. */
  function Add(st: Store, job: Job, testId: string, issueKey: string): Result<Store, MappingError> {
    var st1 := if job.fullName in st.jobs then st else Register(st, job);
    if job.fullName !in st1.jobs then Failure(NullJobMap)
    else
      var m := st1.jobs[job.fullName][testId := issueKey];
      Success(Store(st1.jobs[job.fullName := m], SaveMap(st1.disk, job.fullName, m)))
  }

  /** `removeTestToIssueMapping`: unlinks and saves only when the stored key is the given
      one; an unknown job is left unregistered. */
  function Remove(st: Store, job: string, testId: string, issueKey: string): Store {
    if job !in st.jobs then st
    else
      var m := st.jobs[job];
      if testId in m && m[testId] == issueKey then
        var m1 := m - {testId};
        Store(st.jobs[job := m1], SaveMap(st.disk, job, m1))
      else st
  }

  /** `getTestIssueKey`: registers an unknown job first. */
  function GetTestIssueKey(st: Store, job: Job, testId: string): (Option<string>, Store) {
    var st1 := if job.fullName in st.jobs then st else Register(st, job);
    if job.fullName in st1.jobs && testId in st1.jobs[job.fullName] then
      (Some(st1.jobs[job.fullName][testId]), st1)
    else (None, st1)
  }

  function MapJson(m: IssueMap): Json {
    JObj(map k | k in m :: JStr(m[k]))
  }

  /** `getMap(job)`: a job's map as JSON without registering it (an unknown job gives `{}`);
      a matrix project gives an object from each configuration's name to its map. */
  function GetMap(st: Store, job: Job): Json
    decreases job
  {
    match job
    case Plain(n, _) => MapJson(if n in st.jobs then st.jobs[n] else map[])
    case Matrix(_, _, cs) => JObj(ChildMaps(st, cs, |cs|))
  }

  /** The members for the first `k` configurations; a later name overwrites an earlier one,
      as `JsonObject.add` does. */
  function ChildMaps(st: Store, cs: seq<Job>, k: nat): map<string, Json>
    requires k <= |cs|
    decreases cs, k
  {
    if k == 0 then map[]
    else
      assert cs[k - 1] in cs;
      ChildMaps(st, cs, k - 1)[cs[k - 1].name := GetMap(st, cs[k - 1])]
  }

  /** `getMap(matrixProject, subJobName)`: the map of the named configuration, or null
      when there is none. */
  function GetSubJobMap(st: Store, cs: seq<Job>, subJobName: string): (r: Option<Json>)
    ensures r.None? <==> forall i :: 0 <= i < |cs| ==> cs[i].name != subJobName
    ensures r.Some? ==> exists i :: 0 <= i < |cs| && cs[i].name == subJobName && r.value == GetMap(st, cs[i])
  {
    if |cs| == 0 then None
    else if cs[0].name == subJobName then Some(GetMap(st, cs[0]))
    else
      var r := GetSubJobMap(st, cs[1..], subJobName);
      assert forall i :: 1 <= i < |cs| ==> cs[i] == cs[1..][i - 1];
      r
  }

  /** The constructor: every top-level job registered in turn. */
  function Startup(disk: Disk, jobs: seq<Job>): Store {
    RegisterAll(Store(map[], disk), jobs)
  }

  function RegisterAll(st: Store, jobs: seq<Job>): Store
    decreases |jobs|
  {
    if |jobs| == 0 then st else RegisterAll(Register(st, jobs[0]), jobs[1..])
  }

  /* ---------- Persistence ---------- */

  /** What a restart would load for each registered job is what is in memory. */
  predicate Synced(st: Store) {
    forall job :: job in st.jobs ==> LoadMap(st.disk, job).0 == st.jobs[job]
  }

  /** Loading again after a load gives the same map and writes nothing more. */
  lemma LoadMapStable(disk: Disk, job: string)
    ensures var (m, disk1) := LoadMap(disk, job); LoadMap(disk1, job) == (m, disk1)
  {
  }

  /** A load writes at most the loaded job's own JSON file. */
  lemma LoadMapFrame(disk: Disk, job: string, other: string)
    requires other != job
    ensures LoadMap(disk, job).1.Json(other) == disk.Json(other)
    ensures LoadMap(disk, job).1.Legacy(other) == disk.Legacy(other)
    ensures LoadMap(LoadMap(disk, job).1, other).0 == LoadMap(disk, other).0
  {
  }

  lemma RegisterPlainSynced(st: Store, job: string)
    requires Synced(st)
    ensures Synced(RegisterPlain(st, job))
  {
    if job !in st.jobs {
      forall j | j in RegisterPlain(st, job).jobs
        ensures LoadMap(RegisterPlain(st, job).disk, j).0 == RegisterPlain(st, job).jobs[j]
      {
        if j != job {
          LoadMapFrame(st.disk, job, j);
        } else {
          LoadMapStable(st.disk, job);
        }
      }
    }
  }

  lemma {:induction false} RegisterChildrenSynced(st: Store, cs: seq<Job>)
    requires Synced(st)
    ensures Synced(RegisterChildren(st, cs))
    decreases |cs|
  {
    if |cs| > 0 {
      var st1 := if cs[0].Plain? then RegisterPlain(st, cs[0].fullName) else st;
      if cs[0].Plain? {
        RegisterPlainSynced(st, cs[0].fullName);
      }
      RegisterChildrenSynced(st1, cs[1..]);
    }
  }

  lemma RegisterSynced(st: Store, job: Job)
    requires Synced(st)
    ensures Synced(Register(st, job))
  {
    match job
    case Plain(n, _) => RegisterPlainSynced(st, n);
    case Matrix(_, _, cs) => RegisterChildrenSynced(st, cs);
  }

  /** Saving a job's map keeps every other registered job in step. */
  lemma SaveSynced(st: Store, job: string, m: IssueMap)
    requires Synced(st)
    ensures Synced(Store(st.jobs[job := m], SaveMap(st.disk, job, m)))
  {
    var st1 := Store(st.jobs[job := m], SaveMap(st.disk, job, m));
    forall j | j in st1.jobs ensures LoadMap(st1.disk, j).0 == st1.jobs[j] {
      if j != job {
        assert st1.disk.Json(j) == st.disk.Json(j) && st1.disk.Legacy(j) == st.disk.Legacy(j);
      }
    }
  }

  /** Starting up, linking and unlinking all keep memory and files in step. */
  lemma {:induction false} StartupSynced(disk: Disk, jobs: seq<Job>)
    ensures Synced(Startup(disk, jobs))
  {
    RegisterAllSynced(Store(map[], disk), jobs);
  }

  lemma {:induction false} RegisterAllSynced(st: Store, jobs: seq<Job>)
    requires Synced(st)
    ensures Synced(RegisterAll(st, jobs))
    decreases |jobs|
  {
    if |jobs| > 0 {
      RegisterSynced(st, jobs[0]);
      RegisterAllSynced(Register(st, jobs[0]), jobs[1..]);
    }
  }

  lemma AddSynced(st: Store, job: Job, testId: string, issueKey: string)
    requires Synced(st) && Add(st, job, testId, issueKey).Success?
    ensures Synced(Add(st, job, testId, issueKey).value)
  {
    var st1 := if job.fullName in st.jobs then st else Register(st, job);
    if job.fullName !in st.jobs {
      RegisterSynced(st, job);
    }
    SaveSynced(st1, job.fullName, st1.jobs[job.fullName][testId := issueKey]);
  }

  lemma RemoveSynced(st: Store, job: string, testId: string, issueKey: string)
    requires Synced(st)
    ensures Synced(Remove(st, job, testId, issueKey))
  {
    if job in st.jobs && testId in st.jobs[job] && st.jobs[job][testId] == issueKey {
      SaveSynced(st, job, st.jobs[job] - {testId});
    }
  }

  /* ---------- Linking ---------- */

  /** After linking, the lookup gives the new key, whatever was linked before; nothing else
      in memory changes, and the job's file holds its whole map. */
  lemma AddThenLookup(st: Store, job: Job, testId: string, issueKey: string)
    requires Add(st, job, testId, issueKey).Success?
    ensures var st1 := Add(st, job, testId, issueKey).value;
            GetTestIssueKey(st1, job, testId) == (Some(issueKey), st1)
            && st1.disk.Json(job.fullName) == Stored(st1.jobs[job.fullName])
  {
  }

  /** Linking an ordinary job always succeeds and changes only that job's map. */
  lemma AddPlainFrame(st: Store, n: string, shown: string, testId: string, issueKey: string)
    requires n in st.jobs
    ensures Add(st, Plain(n, shown), testId, issueKey).Success?
    ensures var st1 := Add(st, Plain(n, shown), testId, issueKey).value;
            st1.jobs == st.jobs[n := st.jobs[n][testId := issueKey]]
            && forall j :: j != n ==> st1.disk.Json(j) == st.disk.Json(j)
  {
  }

  /** A second link for the same test replaces the first. */
  lemma AddOverwrites(st: Store, job: Job, testId: string, k1: string, k2: string)
    requires Add(st, job, testId, k1).Success?
    ensures Add(Add(st, job, testId, k1).value, job, testId, k2).Success?
    ensures GetTestIssueKey(Add(Add(st, job, testId, k1).value, job, testId, k2).value, job, testId).0 == Some(k2)
  {
  }

  /** A matrix project has no map of its own: linking to it fails unless one of its
      configurations shares its name. */
  lemma AddToMatrixFails(st: Store, fullName: string, shown: string, cs: seq<Job>, testId: string, issueKey: string)
    requires fullName !in st.jobs
    requires forall i :: 0 <= i < |cs| ==> cs[i].fullName != fullName
    ensures Add(st, Matrix(fullName, shown, cs), testId, issueKey) == Failure(NullJobMap)
  {
    RegisterChildrenKeys(st, cs);
  }

  /** Unlinking deletes the link only when the stored key is the given one; with any other
      key, or for a job never registered, nothing changes. */
  lemma RemoveOnlyMatching(st: Store, job: string, testId: string, issueKey: string)
    ensures job in st.jobs && testId in st.jobs[job] && st.jobs[job][testId] == issueKey ==>
              var st1 := Remove(st, job, testId, issueKey);
              testId !in st1.jobs[job] && st1.jobs == st.jobs[job := st.jobs[job] - {testId}]
              && st1.disk.Json(job) == Stored(st1.jobs[job])
    ensures !(job in st.jobs && testId in st.jobs[job] && st.jobs[job][testId] == issueKey) ==>
              Remove(st, job, testId, issueKey) == st
  {
  }

  /** Linking and looking up register an unknown ordinary job; unlinking does not. */
  lemma UnregisteredJob(st: Store, n: string, shown: string, testId: string, issueKey: string)
    requires n !in st.jobs
    ensures n in Add(st, Plain(n, shown), testId, issueKey).value.jobs
    ensures n in GetTestIssueKey(st, Plain(n, shown), testId).1.jobs
    ensures Remove(st, n, testId, issueKey) == st
  {
  }

  /** `register` never reloads or replaces the map of a registered job. */
  lemma RegisterIdempotent(st: Store, job: Job)
    ensures forall j :: j in st.jobs ==> j in Register(st, job).jobs && Register(st, job).jobs[j] == st.jobs[j]
    ensures job.Plain? && job.fullName in st.jobs ==> Register(st, job) == st
    ensures Register(Register(st, job), job) == Register(st, job)
  {
    match job
    case Plain(n, _) =>
    case Matrix(_, _, cs) =>
      RegisterChildrenKeys(st, cs);
      RegisterChildrenAgain(st, cs);
  }

  /** Registering configurations keeps existing maps, adds exactly the ordinary ones. */
  lemma {:induction false} RegisterChildrenKeys(st: Store, cs: seq<Job>)
    ensures forall j :: j in st.jobs ==>
              j in RegisterChildren(st, cs).jobs && RegisterChildren(st, cs).jobs[j] == st.jobs[j]
    ensures forall j :: j in RegisterChildren(st, cs).jobs <==>
              j in st.jobs || exists i :: 0 <= i < |cs| && cs[i].Plain? && cs[i].fullName == j
    decreases |cs|
  {
    if |cs| > 0 {
      var st1 := if cs[0].Plain? then RegisterPlain(st, cs[0].fullName) else st;
      RegisterChildrenKeys(st1, cs[1..]);
      forall j ensures j in RegisterChildren(st, cs).jobs <==>
                       j in st.jobs || exists i :: 0 <= i < |cs| && cs[i].Plain? && cs[i].fullName == j
      {
        if exists i :: 0 <= i < |cs[1..]| && cs[1..][i].Plain? && cs[1..][i].fullName == j {
          var i :| 0 <= i < |cs[1..]| && cs[1..][i].Plain? && cs[1..][i].fullName == j;
          assert cs[i + 1] == cs[1..][i];
        }
        if exists i :: 0 <= i < |cs| && cs[i].Plain? && cs[i].fullName == j {
          var i :| 0 <= i < |cs| && cs[i].Plain? && cs[i].fullName == j;
          if i > 0 {
            assert cs[1..][i - 1] == cs[i];
          }
        }
      }
    }
  }

  /** Registering the same configurations twice changes nothing the second time. */
  lemma {:induction false} RegisterChildrenAgain(st: Store, cs: seq<Job>)
    ensures RegisterChildren(RegisterChildren(st, cs), cs) == RegisterChildren(st, cs)
    decreases |cs|
  {
    RegisterChildrenKeys(st, cs);
    RegisterChildrenNoop(RegisterChildren(st, cs), cs);
  }

  lemma {:induction false} RegisterChildrenNoop(st: Store, cs: seq<Job>)
    requires forall i :: 0 <= i < |cs| && cs[i].Plain? ==> cs[i].fullName in st.jobs
    ensures RegisterChildren(st, cs) == st
    decreases |cs|
  {
    if |cs| > 0 {
      RegisterChildrenNoop(st, cs[1..]);
    }
  }

  /** Registering a matrix project registers each ordinary configuration and never the
      project itself. */
  lemma RegisterMatrix(st: Store, fullName: string, shown: string, cs: seq<Job>)
    requires forall i :: 0 <= i < |cs| ==> cs[i].fullName != fullName
    ensures forall i :: 0 <= i < |cs| && cs[i].Plain? ==> cs[i].fullName in Register(st, Matrix(fullName, shown, cs)).jobs
    ensures fullName in Register(st, Matrix(fullName, shown, cs)).jobs <==> fullName in st.jobs
  {
    RegisterChildrenKeys(st, cs);
  }

  /** The export of an unregistered ordinary job is an empty object, and it stays
      unregistered. */
  lemma GetMapUnregistered(st: Store, n: string, shown: string)
    requires n !in st.jobs
    ensures GetMap(st, Plain(n, shown)) == JObj(map[])
  {
  }

  /** The export of an ordinary job holds exactly its links. */
  lemma GetMapLinks(st: Store, n: string, shown: string, testId: string)
    requires n in st.jobs
    ensures var j := GetMap(st, Plain(n, shown));
            (testId in j.members <==> testId in st.jobs[n])
            && (testId in st.jobs[n] ==> j.members[testId] == JStr(st.jobs[n][testId]))
  {
  }
}

=== FILE: variable_expander.dfy ===
/** `VariableExpander.expandVariables`: every `${NAME}` placeholder found in the template
    is replaced, in the order found, by the environment variable of that name, or else by
    the plugin's built-in of that name; unknown names are left as they are.  The two
    built-ins that expand the configured default templates recurse into the expander; the
    model bounds that recursion with `fuel` and reports `RecursionTooDeep` beyond it, where
    the source would overflow its stack. */
module VariableExpander {
  import opened Wrappers
  import opened JavaStrings
  import opened EnvVars
  import opened TestResults
  import opened Descriptor

  datatype ExpandError =
    | RecursionTooDeep        // DEFAULT_SUMMARY / DEFAULT_DESCRIPTION nested deeper than the fuel
    | NullBuildResult         // `test.getBuildResult().toString()` on a null result

  /** `[\w_]`: ASCII letters, digits and underscore. */
  predicate IsWordChar(c: char) {
    ('a' <= c <= 'z') || ('A' <= c <= 'Z') || ('0' <= c <= '9') || c == '_'
  }

  predicate IsName(n: string) {
    |n| > 0 && forall i :: 0 <= i < |n| ==> IsWordChar(n[i])
  }

  /** `${` + name + `}`. */
  function Placeholder(name: string): string {
    "${" + name + "}"
  }

  /** Length of the run of word characters at the start of `s`. */
  function WordRun(s: string): (n: nat)
    ensures n <= |s|
    ensures forall i :: 0 <= i < n ==> IsWordChar(s[i])
    ensures n < |s| ==> !IsWordChar(s[n])
  {
    if |s| == 0 || !IsWordChar(s[0]) then 0 else 1 + WordRun(s[1..])
  }

  /** The names `Matcher.find` reports for `\$\{([\w\_]+)\}`, in order, duplicates kept. */
  function FindNames(s: string): (names: seq<string>)
    ensures forall k :: 0 <= k < |names| ==> IsName(names[k]) && Contains(s, Placeholder(names[k]))
    decreases |s|
  {
    if |s| < 2 then []
    else if s[0] == '$' && s[1] == '{' && 0 < WordRun(s[2..]) && 2 + WordRun(s[2..]) < |s|
            && s[2 + WordRun(s[2..])] == '}' then
      var n := WordRun(s[2..]);
      var name := s[2..2 + n];
      var rest := FindNames(s[3 + n..]);
      assert OccursAt(s, 0, Placeholder(name)) by {
        assert s[..3 + n] == Placeholder(name);
      }
      forall k | 0 <= k < |rest| ensures Contains(s, Placeholder(rest[k])) {
        var i :| 0 <= i <= |s[3 + n..]| && OccursAt(s[3 + n..], i, Placeholder(rest[k]));
        assert s[3 + n..][i..i + |Placeholder(rest[k])|] == s[3 + n + i..3 + n + i + |Placeholder(rest[k])|];
        assert OccursAt(s, 3 + n + i, Placeholder(rest[k]));
      }
      [name] + rest
    else
      var rest := FindNames(s[1..]);
      forall k | 0 <= k < |rest| ensures Contains(s, Placeholder(rest[k])) {
        var i :| 0 <= i <= |s[1..]| && OccursAt(s[1..], i, Placeholder(rest[k]));
        assert s[1..][i..i + |Placeholder(rest[k])|] == s[1 + i..1 + i + |Placeholder(rest[k])|];
        assert OccursAt(s, 1 + i, Placeholder(rest[k]));
      }
      rest
  }

  /** The built-in expanders of the `expanders` table. */
  datatype Builtin =
    | Crlf | TestResultB | TestName | TestFullName | TestStackTrace | TestErrorDetails
    | TestDuration | TestPackageName | TestStderr | TestStdout | TestOverview | TestAge
    | TestPassCount | TestFailCount | TestSkippedCount | TestFailSince | TestIsRegression
    | TestPackageClassMethodName | BuildResult | DefaultSummaryB | DefaultDescriptionB
  {
    predicate IsTemplate() { this == DefaultSummaryB || this == DefaultDescriptionB }
  }

  /** The key each built-in is registered under. */
  function BuiltinName(b: Builtin): string {
    match b
    case Crlf => "CRLF"
    case TestResultB => "TEST_RESULT"
    case TestName => "TEST_NAME"
    case TestFullName => "TEST_FULL_NAME"
    case TestStackTrace => "TEST_STACK_TRACE"
    case TestErrorDetails => "TEST_ERROR_DETAILS"
    case TestDuration => "TEST_DURATION"
    case TestPackageName => "TEST_PACKAGE_NAME"
    case TestStderr => "TEST_STDERR"
    case TestStdout => "TEST_STDOUT"
    case TestOverview => "TEST_OVERVIEW"
    case TestAge => "TEST_AGE"
    case TestPassCount => "TEST_PASS_COUNT"
    case TestFailCount => "TEST_FAIL_COUNT"
    case TestSkippedCount => "TEST_SKIPPED_COUNT"
    case TestFailSince => "TEST_FAIL_SINCE"
    case TestIsRegression => "TEST_IS_REGRESSION"
    case TestPackageClassMethodName => "TEST_PACKAGE_CLASS_METHOD_NAME"
    case BuildResult => "BUILD_RESULT"
    case DefaultSummaryB => "DEFAULT_SUMMARY"
    case DefaultDescriptionB => "DEFAULT_DESCRIPTION"
  }

  /** `expanders.get(name)`: the lookup is exact (case-sensitive), unlike `EnvVars`.  The
      table is read in three parts. */
  function BuiltinOf(name: string): Option<Builtin> {
    if name == "CRLF" then Some(Crlf)
    else if name == "TEST_RESULT" then Some(TestResultB)
    else if name == "TEST_NAME" then Some(TestName)
    else if name == "TEST_FULL_NAME" then Some(TestFullName)
    else if name == "TEST_STACK_TRACE" then Some(TestStackTrace)
    else if name == "TEST_ERROR_DETAILS" then Some(TestErrorDetails)
    else if name == "TEST_DURATION" then Some(TestDuration)
    else BuiltinOfMiddle(name)
  }

  function BuiltinOfMiddle(name: string): Option<Builtin> {
    if name == "TEST_PACKAGE_NAME" then Some(TestPackageName)
    else if name == "TEST_STDERR" then Some(TestStderr)
    else if name == "TEST_STDOUT" then Some(TestStdout)
    else if name == "TEST_OVERVIEW" then Some(TestOverview)
    else if name == "TEST_AGE" then Some(TestAge)
    else if name == "TEST_PASS_COUNT" then Some(TestPassCount)
    else if name == "TEST_FAIL_COUNT" then Some(TestFailCount)
    else BuiltinOfLast(name)
  }

  function BuiltinOfLast(name: string): Option<Builtin> {
    if name == "TEST_SKIPPED_COUNT" then Some(TestSkippedCount)
    else if name == "TEST_FAIL_SINCE" then Some(TestFailSince)
    else if name == "TEST_IS_REGRESSION" then Some(TestIsRegression)
    else if name == "TEST_PACKAGE_CLASS_METHOD_NAME" then Some(TestPackageClassMethodName)
    else if name == "BUILD_RESULT" then Some(BuildResult)
    else if name == "DEFAULT_SUMMARY" then Some(DefaultSummaryB)
    else if name == "DEFAULT_DESCRIPTION" then Some(DefaultDescriptionB)
    else None
  }

  /** `Util.fixNull`. */
  function FixNull(v: Option<string>): string {
    v.GetOr("")
  }

  /** `String.valueOf(Object)` / `String.format("%s")`: a null renders as "null". */
  function ShowNullable(v: Option<string>): string {
    v.GetOr("null")
  }

  function ShowBool(b: bool): string {
    if b then "true" else "false"
  }

  /** The value of every built-in except the two template ones; `None` is a null result. */
  function PlainBuiltin(t: TestResult, b: Builtin): (r: Result<Option<string>, ExpandError>)
    requires !b.IsTemplate()
    ensures r.Failure? ==> r.error == NullBuildResult
  {
    var d := t.Data();
    match b
    case Crlf => Success(Some("\n"))
    case TestResultB =>
      if t.OfCase? && t.c.IsSkipped() then Success(Some("SKIPPED"))
      else Success(Some(if t.IsPassed() then "FAILED" else "PASSED"))
    case TestName => Success(d.displayName)
    case TestFullName => Success(d.fullDisplayName)
    case TestStackTrace => Success(d.errorStackTrace)
    case TestErrorDetails => Success(d.errorDetails)
    case TestDuration => Success(d.durationString)
    case TestPackageName =>
      Success(if t.OfCase? then t.c.info.packageName else Some("{TEST_PACKAGE_NAME}"))
    case TestStderr => Success(d.stderr)
    case TestStdout => Success(d.stdout)
    case TestOverview => Success(d.prettyString)
    case TestAge => Success(Some(if t.OfCase? then IntToString(t.c.info.age) else "{TEST_AGE}"))
    case TestPassCount => Success(Some(IntToString(d.passCount)))
    case TestFailCount => Success(Some(IntToString(d.failCount)))
    case TestSkippedCount => Success(Some(IntToString(d.skipCount)))
    case TestFailSince => Success(Some(IntToString(d.failedSince)))
    case TestIsRegression =>
      Success(Some(if t.OfCase? then ShowBool(t.c.info.regression) else "{TEST_IS_REGRESSION}"))
    case TestPackageClassMethodName =>
      Success(Some(if t.OfCase? then ShowNullable(t.c.info.className) + "." + ShowNullable(t.c.info.name)
                   else "{TEST_PACKAGE_CLASS_METHOD_NAME}"))
    case BuildResult =>
      if d.buildResult.None? then Failure(NullBuildResult) else Success(d.buildResult)
  }

  /** The configured (or stock) template a template built-in stands for. */
  function TemplateOf(g: Descriptor, b: Builtin): string
    requires b.IsTemplate()
  {
    if b == DefaultSummaryB then GetDefaultSummary(g) else GetDefaultDescription(g)
  }

  /** A template built-in: its template expanded one level down, or too deep once the
      fuel is spent. */
  function ExpandTemplate(fuel: nat, g: Descriptor, t: TestResult, env: EnvVars, b: Builtin)
    : Result<string, ExpandError>
    requires b.IsTemplate()
    decreases fuel, 0, 0
  {
    if fuel == 0 then Failure(RecursionTooDeep) else Expand(fuel - 1, g, Some(t), env, TemplateOf(g, b))
  }

  /** `expandVariables(test, envVars, text)`; `test == None` returns the text unchanged. */
  function Expand(fuel: nat, g: Descriptor, test: Option<TestResult>, env: EnvVars, text: string)
    : Result<string, ExpandError>
    decreases fuel, 1, 0
  {
    if test.None? then Success(text) else SubstituteAll(fuel, g, test.value, env, text, FindNames(text))
  }

  /** The loop over the names found, each replacing every occurrence of its placeholder in
      the text as it stands after the previous names.  An environment variable wins over a
      built-in; the two template built-ins expand their template one level down. */
  function SubstituteAll(fuel: nat, g: Descriptor, t: TestResult, env: EnvVars, text: string,
                         names: seq<string>): Result<string, ExpandError>
    decreases fuel, 0, |names|
  {
    if |names| == 0 then Success(text)
    else
      var n := names[0];
      if env.Has(n) then
        SubstituteAll(fuel, g, t, env, Replace(text, Placeholder(n), env.Get(n).value), names[1..])
      else
        match BuiltinOf(n)
        case None => SubstituteAll(fuel, g, t, env, text, names[1..])
        case Some(b) =>
          if b.IsTemplate() then
            match ExpandTemplate(fuel, g, t, env, b)
            case Success(r) => SubstituteAll(fuel, g, t, env, Replace(text, Placeholder(n), r), names[1..])
            case Failure(e) => Failure(e)
          else
            match PlainBuiltin(t, b)
            case Success(v) => SubstituteAll(fuel, g, t, env, Replace(text, Placeholder(n), FixNull(v)), names[1..])
            case Failure(e) => Failure(e)
  }
}

/** Properties of the expander. */
module VariableExpanderProofs {
  import opened Wrappers
  import opened JavaStrings
  import opened EnvVars
  import opened TestResults
  import opened Descriptor
  import opened VariableExpander

  function Repeat(n: string, k: nat): (r: seq<string>)
    ensures |r| == k && forall i :: 0 <= i < k ==> r[i] == n
  {
    if k == 0 then [] else [n] + Repeat(n, k - 1)
  }

  predicate AllDollarFree(parts: seq<string>) {
    forall i :: 0 <= i < |parts| ==> NoChar(parts[i], '$')
  }

  lemma {:induction false} WordRunName(n: string, rest: string)
    requires IsName(n)
    ensures WordRun(n + "}" + rest) == |n|
    decreases |n|
  {
    if |n| > 0 {
      assert (n + "}" + rest)[1..] == n[1..] + "}" + rest;
      if |n| > 1 {
        WordRunName(n[1..], rest);
      } else {
        assert n[1..] + "}" + rest == "}" + rest;
      }
    }
  }

  /** A placeholder at the start of the text is found first. */
  lemma FindNamesPlaceholder(n: string, rest: string)
    requires IsName(n)
    ensures FindNames(Placeholder(n) + rest) == [n] + FindNames(rest)
  {
    var s := Placeholder(n) + rest;
    assert s[2..] == n + "}" + rest;
    WordRunName(n, rest);
    assert s[2..2 + |n|] == n;
    assert s[3 + |n|..] == rest;
  }

  /** Text without a `$` contributes no names. */
  lemma {:induction false} FindNamesDollarFree(p: string, rest: string)
    requires NoChar(p, '$')
    ensures FindNames(p + rest) == FindNames(rest)
    decreases |p|
  {
    if |p| > 0 {
      var s := p + rest;
      if |s| >= 2 {
        assert s[1..] == p[1..] + rest;
        FindNamesDollarFree(p[1..], rest);
      } else {
        assert rest == [] && p[1..] == [];
      }
    } else {
      assert p + rest == rest;
    }
  }

  /** Every occurrence of one placeholder between `$`-free pieces is found. */
  lemma {:induction false} FindNamesJoin(parts: seq<string>, n: string)
    requires |parts| >= 1 && AllDollarFree(parts) && IsName(n)
    ensures FindNames(Join(parts, Placeholder(n))) == Repeat(n, |parts| - 1)
    decreases |parts|
  {
    if |parts| == 1 {
      FindNamesDollarFree(parts[0], "");
      assert parts[0] + "" == parts[0];
    } else {
      var tail := Join(parts[1..], Placeholder(n));
      assert Join(parts, Placeholder(n)) == parts[0] + (Placeholder(n) + tail);
      FindNamesDollarFree(parts[0], Placeholder(n) + tail);
      FindNamesPlaceholder(n, tail);
      FindNamesJoin(parts[1..], n);
    }
  }

  lemma DollarFreeMisses(s: string, n: string)
    requires NoChar(s, '$')
    ensures !Contains(s, Placeholder(n))
  {
    forall i | 0 <= i <= |s| ensures !OccursAt(s, i, Placeholder(n)) {
      if i + |Placeholder(n)| <= |s| {
        assert s[i..i + |Placeholder(n)|][0] == s[i];
      }
    }
  }

  /** `$`-free pieces split by a placeholder are exactly how `String.replace` sees them. */
  lemma DollarFreeLeftmost(parts: seq<string>, n: string)
    requires |parts| >= 1 && AllDollarFree(parts)
    ensures LeftmostParts(parts, Placeholder(n))
  {
    var t := Placeholder(n);
    forall i | 0 <= i < |parts| - 1 ensures NoEarlyMatch(parts[i], t) {
      forall j: nat | j < |parts[i]| ensures !OccursAt(parts[i] + t, j, t) {
        assert (parts[i] + t)[j] == parts[i][j];
        if j + |t| <= |parts[i] + t| {
          assert (parts[i] + t)[j..j + |t|][0] == (parts[i] + t)[j];
        }
      }
    }
    DollarFreeMisses(parts[|parts| - 1], n);
  }

  lemma {:induction false} JoinDollarFree(parts: seq<string>, sep: string)
    requires AllDollarFree(parts) && NoChar(sep, '$')
    ensures NoChar(Join(parts, sep), '$')
    decreases |parts|
  {
    if |parts| > 1 {
      JoinDollarFree(parts[1..], sep);
    }
  }

  /** `expanders` maps each built-in's key back to it... */
  lemma BuiltinOfName(b: Builtin)
    ensures BuiltinOf(BuiltinName(b)) == Some(b)
  {
    if b.Crlf? || b.TestResultB? || b.TestName? || b.TestFullName? || b.TestStackTrace?
       || b.TestErrorDetails? || b.TestDuration? {
      BuiltinOfNameFirst(b);
    } else {
      BuiltinOfNameMiddle(b);
    }
  }

  lemma BuiltinOfNameFirst(b: Builtin)
    requires b.Crlf? || b.TestResultB? || b.TestName? || b.TestFullName? || b.TestStackTrace?
             || b.TestErrorDetails? || b.TestDuration?
    ensures BuiltinOf(BuiltinName(b)) == Some(b)
  {
    match b
    case Crlf => case TestResultB => case TestName => case TestFullName =>
    case TestStackTrace => case TestErrorDetails => case TestDuration =>
  }

  lemma BuiltinOfNameMiddle(b: Builtin)
    requires !(b.Crlf? || b.TestResultB? || b.TestName? || b.TestFullName? || b.TestStackTrace?
               || b.TestErrorDetails? || b.TestDuration?)
    ensures BuiltinOfMiddle(BuiltinName(b)) == Some(b)
  {
    match b
    case TestPackageName => case TestStderr => case TestStdout => case TestOverview =>
    case TestAge => case TestPassCount => case TestFailCount =>
    case _ => BuiltinOfNameLast(b);
  }

  lemma BuiltinOfNameLast(b: Builtin)
    requires b.TestSkippedCount? || b.TestFailSince? || b.TestIsRegression? || b.TestPackageClassMethodName?
             || b.BuildResult? || b.DefaultSummaryB? || b.DefaultDescriptionB?
    ensures BuiltinOfLast(BuiltinName(b)) == Some(b)
  {
    match b
    case TestSkippedCount => case TestFailSince => case TestIsRegression =>
    case TestPackageClassMethodName => case BuildResult => case DefaultSummaryB => case DefaultDescriptionB =>
  }

  /** ... and knows no other key. */
  lemma BuiltinOfOnly(n: string)
    ensures BuiltinOf(n).Some? ==> n == BuiltinName(BuiltinOf(n).value)
  {
    if BuiltinOf(n) == BuiltinOfMiddle(n) {
      BuiltinOfMiddleOnly(n);
    }
  }

  lemma BuiltinOfMiddleOnly(n: string)
    ensures BuiltinOfMiddle(n).Some? ==> n == BuiltinName(BuiltinOfMiddle(n).value)
  {
    if BuiltinOfMiddle(n) == BuiltinOfLast(n) {
      BuiltinOfLastOnly(n);
    }
  }

  lemma BuiltinOfLastOnly(n: string)
    ensures BuiltinOfLast(n).Some? ==> n == BuiltinName(BuiltinOfLast(n).value)
  {
  }

  /** A name that `expanders` knows, but not one of the two templates. */
  predicate PlainName(n: string) {
    BuiltinOf(n).Some? && !BuiltinOf(n).value.IsTemplate()
  }

  /** Once the placeholder is gone, the later copies of its name change nothing. */
  lemma {:induction false} SubstituteRepeatGone(fuel: nat, g: Descriptor, t: TestResult, env: EnvVars,
                                                text: string, n: string, k: nat)
    requires NoChar(text, '$')
    requires env.Has(n) || (PlainName(n) && PlainBuiltin(t, BuiltinOf(n).value).Success?)
    ensures SubstituteAll(fuel, g, t, env, text, Repeat(n, k)) == Success(text)
    decreases k
  {
    if k > 0 {
      DollarFreeMisses(text, n);
      if env.Has(n) {
        ReplaceAbsent(text, Placeholder(n), env.Get(n).value);
      } else {
        ReplaceAbsent(text, Placeholder(n), FixNull(PlainBuiltin(t, BuiltinOf(n).value).value));
      }
      assert Repeat(n, k)[1..] == Repeat(n, k - 1);
      SubstituteRepeatGone(fuel, g, t, env, text, n, k - 1);
    }
  }

  /** An environment variable wins over a built-in of the same name, and every occurrence
      of its placeholder is replaced by its value. */
  lemma ExpandEnvEveryOccurrence(fuel: nat, g: Descriptor, t: TestResult, env: EnvVars,
                                 parts: seq<string>, n: string)
    requires |parts| >= 2 && AllDollarFree(parts) && IsName(n)
    requires env.Has(n) && NoChar(env.Get(n).value, '$')
    ensures Expand(fuel, g, Some(t), env, Join(parts, Placeholder(n))) == Success(Join(parts, env.Get(n).value))
  {
    var v := env.Get(n).value;
    FindNamesJoin(parts, n);
    DollarFreeLeftmost(parts, n);
    ReplaceJoin(parts, Placeholder(n), v);
    JoinDollarFree(parts, v);
    var names := Repeat(n, |parts| - 1);
    assert names[1..] == Repeat(n, |parts| - 2);
    SubstituteRepeatGone(fuel, g, t, env, Join(parts, v), n, |parts| - 2);
  }

  /** Without an environment variable of that name, a built-in supplies the value, a null
      value becoming the empty string. */
  lemma ExpandBuiltinEveryOccurrence(fuel: nat, g: Descriptor, t: TestResult, env: EnvVars,
                                     parts: seq<string>, b: Builtin, v: Option<string>)
    requires |parts| >= 2 && AllDollarFree(parts) && !b.IsTemplate()
    requires IsName(BuiltinName(b)) && !env.Has(BuiltinName(b))
    requires PlainBuiltin(t, b) == Success(v) && NoChar(FixNull(v), '$')
    ensures Expand(fuel, g, Some(t), env, Join(parts, Placeholder(BuiltinName(b))))
            == Success(Join(parts, FixNull(v)))
  {
    var n := BuiltinName(b);
    BuiltinOfName(b);
    FindNamesJoin(parts, n);
    DollarFreeLeftmost(parts, n);
    ReplaceJoin(parts, Placeholder(n), FixNull(v));
    JoinDollarFree(parts, FixNull(v));
    var names := Repeat(n, |parts| - 1);
    assert names[1..] == Repeat(n, |parts| - 2);
    assert SubstituteAll(fuel, g, t, env, Join(parts, Placeholder(n)), names)
        == SubstituteAll(fuel, g, t, env, Join(parts, FixNull(v)), names[1..]);
    SubstituteRepeatGone(fuel, g, t, env, Join(parts, FixNull(v)), n, |parts| - 2);
  }

  /** A placeholder that names neither an environment variable nor a built-in stays. */
  lemma {:induction false} ExpandUnknownUntouched(fuel: nat, g: Descriptor, t: TestResult, env: EnvVars,
                                                 parts: seq<string>, n: string)
    requires |parts| >= 1 && AllDollarFree(parts) && IsName(n)
    requires !env.Has(n) && BuiltinOf(n).None?
    ensures Expand(fuel, g, Some(t), env, Join(parts, Placeholder(n))) == Success(Join(parts, Placeholder(n)))
  {
    FindNamesJoin(parts, n);
    UnknownNamesSkipped(fuel, g, t, env, Join(parts, Placeholder(n)), n, |parts| - 1);
  }

  lemma {:induction false} UnknownNamesSkipped(fuel: nat, g: Descriptor, t: TestResult, env: EnvVars,
                                              text: string, n: string, k: nat)
    requires !env.Has(n) && BuiltinOf(n).None?
    ensures SubstituteAll(fuel, g, t, env, text, Repeat(n, k)) == Success(text)
    decreases k
  {
    if k > 0 {
      assert Repeat(n, k)[1..] == Repeat(n, k - 1);
      UnknownNamesSkipped(fuel, g, t, env, text, n, k - 1);
    }
  }

  /* ---------- The recursion through the configured templates ---------- */

  /** More fuel never changes an expansion that did not run out of it. */
  lemma {:induction false} ExpandFuelMonotone(fuel: nat, g: Descriptor, test: Option<TestResult>,
                                             env: EnvVars, text: string)
    requires Expand(fuel, g, test, env, text) != Failure(RecursionTooDeep)
    ensures Expand(fuel + 1, g, test, env, text) == Expand(fuel, g, test, env, text)
    decreases fuel, 1, 0
  {
    if test.Some? {
      SubstituteFuelMonotone(fuel, g, test.value, env, text, FindNames(text));
    }
  }

  lemma {:induction false} SubstituteFuelMonotone(fuel: nat, g: Descriptor, t: TestResult, env: EnvVars,
                                                 text: string, names: seq<string>)
    requires SubstituteAll(fuel, g, t, env, text, names) != Failure(RecursionTooDeep)
    ensures SubstituteAll(fuel + 1, g, t, env, text, names) == SubstituteAll(fuel, g, t, env, text, names)
    decreases fuel, 0, |names|, 1
  {
    if |names| > 0 {
      var n := names[0];
      if env.Has(n) {
        EnvFuelMonotone(fuel, g, t, env, text, names);
      } else if BuiltinOf(n).None? || PlainName(n) {
        PlainFuelMonotone(fuel, g, t, env, text, names);
      } else {
        TemplateFuelMonotone(fuel, g, t, env, text, names);
      }
    }
  }

  /** A name the environment defines is replaced the same way whatever the fuel. */
  lemma EnvFuelMonotone(fuel: nat, g: Descriptor, t: TestResult, env: EnvVars, text: string, names: seq<string>)
    requires |names| > 0 && env.Has(names[0])
    requires SubstituteAll(fuel, g, t, env, text, names) != Failure(RecursionTooDeep)
    ensures SubstituteAll(fuel + 1, g, t, env, text, names) == SubstituteAll(fuel, g, t, env, text, names)
    decreases fuel, 0, |names|, 0
  {
    var next := Replace(text, Placeholder(names[0]), env.Get(names[0]).value);
    EnvStepUnfold(fuel, g, t, env, text, names);
    EnvStepUnfold(fuel + 1, g, t, env, text, names);
    SubstituteFuelMonotone(fuel, g, t, env, next, names[1..]);
  }

  /** One name the environment defines. */
  lemma EnvStepUnfold(fuel: nat, g: Descriptor, t: TestResult, env: EnvVars, text: string, names: seq<string>)
    requires |names| > 0 && env.Has(names[0])
    ensures SubstituteAll(fuel, g, t, env, text, names)
            == SubstituteAll(fuel, g, t, env, Replace(text, Placeholder(names[0]), env.Get(names[0]).value), names[1..])
  {
  }

  /** A name that is not a template built-in is handled the same way whatever the fuel. */
  lemma PlainFuelMonotone(fuel: nat, g: Descriptor, t: TestResult, env: EnvVars, text: string, names: seq<string>)
    requires |names| > 0 && (BuiltinOf(names[0]).None? || PlainName(names[0]))
    requires SubstituteAll(fuel, g, t, env, text, names) != Failure(RecursionTooDeep)
    ensures SubstituteAll(fuel + 1, g, t, env, text, names) == SubstituteAll(fuel, g, t, env, text, names)
    decreases fuel, 0, |names|, 0
  {
    PlainStepUnfold(fuel, g, t, env, text, names);
    PlainStepUnfold(fuel + 1, g, t, env, text, names);
    var s := PlainStep(t, env, text, names[0]);
    if s.Success? {
      SubstituteFuelMonotone(fuel, g, t, env, s.value, names[1..]);
    }
  }

  /** The case of a template name: its expansion one level down does not change with more
      fuel, nor does the rest of the loop. */
  lemma TemplateFuelMonotone(fuel: nat, g: Descriptor, t: TestResult, env: EnvVars, text: string, names: seq<string>)
    requires |names| > 0 && !env.Has(names[0])
    requires BuiltinOf(names[0]).Some? && BuiltinOf(names[0]).value.IsTemplate()
    requires SubstituteAll(fuel, g, t, env, text, names) != Failure(RecursionTooDeep)
    ensures SubstituteAll(fuel + 1, g, t, env, text, names) == SubstituteAll(fuel, g, t, env, text, names)
    decreases fuel, 0, |names|, 0
  {
    var b := BuiltinOf(names[0]).value;
    TemplateStepAt(fuel, g, t, env, text, names);
    TemplateStepAt(fuel + 1, g, t, env, text, names);
    var e := ExpandTemplate(fuel, g, t, env, b);
    ExpandTemplateFuelMonotone(fuel, g, t, env, b);
    if e.Success? {
      SubstituteFuelMonotone(fuel, g, t, env, Replace(text, Placeholder(names[0]), e.value), names[1..]);
    }
  }

  /** A template's expansion one level down does not change with more fuel. */
  lemma ExpandTemplateFuelMonotone(fuel: nat, g: Descriptor, t: TestResult, env: EnvVars, b: Builtin)
    requires b.IsTemplate()
    requires ExpandTemplate(fuel, g, t, env, b) != Failure(RecursionTooDeep)
    ensures ExpandTemplate(fuel + 1, g, t, env, b) == ExpandTemplate(fuel, g, t, env, b)
    decreases fuel, 0, 0, 0
  {
    var f: nat := fuel - 1;
    var tpl := TemplateOf(g, b);
    calc {
      ExpandTemplate(fuel + 1, g, t, env, b);
      { ExpandTemplateUnfold(f + 1, g, t, env, b); }
      Expand(fuel, g, Some(t), env, tpl);
      { ExpandTemplateUnfold(f, g, t, env, b); ExpandFuelMonotone(f, g, Some(t), env, tpl); }
      Expand(f, g, Some(t), env, tpl);
      { ExpandTemplateUnfold(f, g, t, env, b); }
      ExpandTemplate(fuel, g, t, env, b);
    }
  }

  /** With fuel `f + 1` a template is expanded with `f`. */
  lemma ExpandTemplateUnfold(f: nat, g: Descriptor, t: TestResult, env: EnvVars, b: Builtin)
    requires b.IsTemplate()
    ensures ExpandTemplate(f + 1, g, t, env, b) == Expand(f, g, Some(t), env, TemplateOf(g, b))
  {
  }

  predicate NoTemplateNames(names: seq<string>) {
    forall i :: 0 <= i < |names| ==> BuiltinOf(names[i]).None? || PlainName(names[i])
  }

  /** One name of the loop that is not a template built-in: the text after it, or the
      error of its built-in. */
  function PlainStep(t: TestResult, env: EnvVars, text: string, n: string): (r: Result<string, ExpandError>)
    requires BuiltinOf(n).None? || PlainName(n)
    ensures r.Failure? ==> r.error == NullBuildResult
  {
    if env.Has(n) then Success(Replace(text, Placeholder(n), env.Get(n).value))
    else
      match BuiltinOf(n)
      case None => Success(text)
      case Some(b) =>
        match PlainBuiltin(t, b)
        case Success(v) => Success(Replace(text, Placeholder(n), FixNull(v)))
        case Failure(e) => Failure(e)
  }

  lemma PlainStepUnfold(fuel: nat, g: Descriptor, t: TestResult, env: EnvVars, text: string, names: seq<string>)
    requires |names| > 0 && (BuiltinOf(names[0]).None? || PlainName(names[0]))
    ensures var s := PlainStep(t, env, text, names[0]);
            SubstituteAll(fuel, g, t, env, text, names)
            == if s.Success? then SubstituteAll(fuel, g, t, env, s.value, names[1..]) else Failure(s.error)
  {
  }

  /** Names other than the two template built-ins never recurse. */
  lemma {:induction false} NoTemplateNamesTerminate(fuel: nat, g: Descriptor, t: TestResult, env: EnvVars,
                                                   text: string, names: seq<string>)
    requires NoTemplateNames(names)
    ensures SubstituteAll(fuel, g, t, env, text, names) != Failure(RecursionTooDeep)
    decreases |names|
  {
    if |names| > 0 {
      assert NoTemplateNames(names[1..]);
      PlainStepUnfold(fuel, g, t, env, text, names);
      var s := PlainStep(t, env, text, names[0]);
      if s.Success? {
        NoTemplateNamesTerminate(fuel, g, t, env, s.value, names[1..]);
      }
    }
  }

  /** The names found in two placeholders around `$`-free text. */
  lemma FindNamesTwo(a: string, sep: string, b: string)
    requires IsName(a) && IsName(b) && NoChar(sep, '$')
    ensures FindNames(Placeholder(a) + sep + Placeholder(b)) == [a, b]
  {
    var tail := sep + Placeholder(b);
    assert Placeholder(a) + sep + Placeholder(b) == Placeholder(a) + tail;
    FindNamesPlaceholder(a, tail);
    FindNamesDollarFree(sep, Placeholder(b));
    FindNamesPlaceholder(b, "");
    assert Placeholder(b) + "" == Placeholder(b);
  }

  /** The names found in three adjacent placeholders. */
  lemma FindNamesThree(a: string, b: string, c: string)
    requires IsName(a) && IsName(b) && IsName(c)
    ensures FindNames(Placeholder(a) + Placeholder(b) + Placeholder(c)) == [a, b, c]
  {
    assert Placeholder(a) + Placeholder(b) + Placeholder(c) == Placeholder(a) + (Placeholder(b) + "" + Placeholder(c));
    FindNamesPlaceholder(a, Placeholder(b) + "" + Placeholder(c));
    FindNamesTwo(b, "", c);
  }

  /** A text that is one placeholder names just that. */
  lemma OnlyPlaceholderNames(n: string)
    requires IsName(n)
    ensures FindNames(Placeholder(n)) == [n]
  {
    FindNamesPlaceholder(n, "");
    assert Placeholder(n) + "" == Placeholder(n);
    assert FindNames("") == [];
  }

  /** The names in the stock summary template. */
  lemma StockSummaryNames()
    ensures FindNames(DefaultSummary) == ["TEST_FULL_NAME", "TEST_ERROR_DETAILS"]
  {
    StockSummaryShape();
    StockSummaryShapeNames(DefaultSummary);
  }

  lemma StockSummaryShape()
    ensures DefaultSummary == Placeholder("TEST_FULL_NAME") + " : " + Placeholder("TEST_ERROR_DETAILS")
  {
  }

  lemma StockSummaryShapeNames(x: string)
    requires x == Placeholder("TEST_FULL_NAME") + " : " + Placeholder("TEST_ERROR_DETAILS")
    ensures FindNames(x) == ["TEST_FULL_NAME", "TEST_ERROR_DETAILS"]
  {
    assert IsName("TEST_FULL_NAME") && IsName("TEST_ERROR_DETAILS");
    FindNamesTwo("TEST_FULL_NAME", " : ", "TEST_ERROR_DETAILS");
  }

  /** The names in the stock description template. */
  lemma StockDescriptionNames()
    ensures FindNames(DefaultDescription) == ["BUILD_URL", "CRLF", "TEST_STACK_TRACE"]
  {
    StockDescriptionShape();
    StockDescriptionShapeNames(DefaultDescription);
  }

  lemma StockDescriptionShape()
    ensures DefaultDescription == Placeholder("BUILD_URL") + Placeholder("CRLF") + Placeholder("TEST_STACK_TRACE")
  {
  }

  lemma StockDescriptionShapeNames(x: string)
    requires x == Placeholder("BUILD_URL") + Placeholder("CRLF") + Placeholder("TEST_STACK_TRACE")
    ensures FindNames(x) == ["BUILD_URL", "CRLF", "TEST_STACK_TRACE"]
  {
    StockDescriptionNamesAreNames();
    FindNamesThree("BUILD_URL", "CRLF", "TEST_STACK_TRACE");
  }

  lemma StockDescriptionNamesAreNames()
    ensures IsName("BUILD_URL") && IsName("CRLF") && IsName("TEST_STACK_TRACE")
  {
  }

  /** None of the names in the stock templates is a template built-in. */
  lemma StockNamesPlain()
    ensures NoTemplateNames(["TEST_FULL_NAME", "TEST_ERROR_DETAILS"])
    ensures NoTemplateNames(["BUILD_URL", "CRLF", "TEST_STACK_TRACE"])
  {
    StockSummaryNamesPlain();
    StockDescriptionNamesPlain();
  }

  lemma StockSummaryNamesPlain()
    ensures NoTemplateNames(["TEST_FULL_NAME", "TEST_ERROR_DETAILS"])
  {
    BuiltinOfName(TestFullName);
    BuiltinOfName(TestErrorDetails);
  }

  lemma StockDescriptionNamesPlain()
    ensures NoTemplateNames(["BUILD_URL", "CRLF", "TEST_STACK_TRACE"])
  {
    BuiltinOfName(Crlf);
    BuiltinOfName(TestStackTrace);
    BuildUrlNotBuiltin();
  }

  /** `BUILD_URL` comes from the environment only. */
  lemma BuildUrlNotBuiltin()
    ensures BuiltinOf("BUILD_URL").None?
  {
  }

  /** The configured templates name no template built-in. */
  predicate PlainTemplates(g: Descriptor) {
    NoTemplateNames(FindNames(GetDefaultSummary(g))) && NoTemplateNames(FindNames(GetDefaultDescription(g)))
  }

  /** The stock templates name only plain built-ins and `BUILD_URL`. */
  lemma StockTemplatesPlain(g: Descriptor)
    requires GetDefaultSummary(g) == DefaultSummary && GetDefaultDescription(g) == DefaultDescription
    ensures PlainTemplates(g)
  {
    StockNamesPlain();
    StockSummaryNames();
    StockDescriptionNames();
  }

  /** Templates that name no template built-in expand without recursing. */
  lemma PlainTemplatesTerminate(fuel: nat, g: Descriptor, t: TestResult, env: EnvVars, b: Builtin)
    requires b.IsTemplate() && PlainTemplates(g)
    ensures Expand(fuel, g, Some(t), env, TemplateOf(g, b)) != Failure(RecursionTooDeep)
  {
    var text := TemplateOf(g, b);
    NoTemplateNamesTerminate(fuel, g, t, env, text, FindNames(text));
  }

  /** One template name of the loop: its template is expanded one level down. */
  lemma TemplateStepAt(fuel: nat, g: Descriptor, t: TestResult, env: EnvVars, text: string, names: seq<string>)
    requires |names| > 0 && !env.Has(names[0])
    requires BuiltinOf(names[0]).Some? && BuiltinOf(names[0]).value.IsTemplate()
    ensures var e := ExpandTemplate(fuel, g, t, env, BuiltinOf(names[0]).value);
            SubstituteAll(fuel, g, t, env, text, names)
            == if e.Success? then SubstituteAll(fuel, g, t, env, Replace(text, Placeholder(names[0]), e.value), names[1..])
               else Failure(e.error)
  {
  }

  /** One template name of the loop with fuel `f + 1`: its template is expanded with `f`. */
  lemma TemplateStepUnfold(f: nat, g: Descriptor, t: TestResult, env: EnvVars, text: string, names: seq<string>)
    requires |names| > 0 && !env.Has(names[0])
    requires BuiltinOf(names[0]).Some? && BuiltinOf(names[0]).value.IsTemplate()
    ensures var e := Expand(f, g, Some(t), env, TemplateOf(g, BuiltinOf(names[0]).value));
            SubstituteAll(f + 1, g, t, env, text, names)
            == if e.Success? then SubstituteAll(f + 1, g, t, env, Replace(text, Placeholder(names[0]), e.value), names[1..])
               else Failure(e.error)
  {
  }

  /** A template name with no fuel left fails. */
  lemma TemplateStepNoFuel(g: Descriptor, t: TestResult, env: EnvVars, text: string, names: seq<string>)
    requires |names| > 0 && !env.Has(names[0])
    requires BuiltinOf(names[0]).Some? && BuiltinOf(names[0]).value.IsTemplate()
    ensures SubstituteAll(0, g, t, env, text, names) == Failure(RecursionTooDeep)
  {
  }


  /** With the stock templates one level of recursion is enough: a field template that is
      `${DEFAULT_SUMMARY}` or `${DEFAULT_DESCRIPTION}` never runs out of any fuel `f + 1`. */
  lemma StockTemplatesOneLevel(f: nat, g: Descriptor, t: TestResult, env: EnvVars, b: Builtin)
    requires b.IsTemplate()
    requires GetDefaultSummary(g) == DefaultSummary && GetDefaultDescription(g) == DefaultDescription
    ensures Expand(f + 1, g, Some(t), env, Placeholder(BuiltinName(b))) != Failure(RecursionTooDeep)
  {
    StockTemplatesPlain(g);
    PlainTemplatesOneLevel(f, g, t, env, b);
  }

  /** The same for any templates that name no template built-in: one level above the
      template is enough. */
  lemma PlainTemplatesOneLevel(f: nat, g: Descriptor, t: TestResult, env: EnvVars, b: Builtin)
    requires b.IsTemplate()
    requires PlainTemplates(g)
    ensures Expand(f + 1, g, Some(t), env, Placeholder(BuiltinName(b))) != Failure(RecursionTooDeep)
  {
    var n := BuiltinName(b);
    TemplateBuiltinName(b);
    OnlyPlaceholderNames(n);
    if env.Has(n) {
      EnvNameStep(f + 1, g, t, env, Placeholder(n), n);
    } else {
      PlainTemplatesTerminate(f, g, t, env, b);
      TemplateNameStep(f, g, t, env, Placeholder(n), b);
    }
  }

  /** The key of a template built-in is a name, and it names that built-in. */
  lemma TemplateBuiltinName(b: Builtin)
    requires b.IsTemplate()
    ensures IsName(BuiltinName(b)) && BuiltinOf(BuiltinName(b)) == Some(b)
  {
    BuiltinOfName(b);
    TemplateKeyIsName(b);
  }

  lemma TemplateKeyIsName(b: Builtin)
    requires b.IsTemplate()
    ensures IsName(BuiltinName(b))
  {
    if b == DefaultSummaryB {
      assert IsName("DEFAULT_SUMMARY");
    } else {
      assert IsName("DEFAULT_DESCRIPTION");
    }
  }

  /** A lone name the environment defines is replaced by its value. */
  lemma EnvNameStep(fuel: nat, g: Descriptor, t: TestResult, env: EnvVars, text: string, n: string)
    requires env.Has(n)
    ensures SubstituteAll(fuel, g, t, env, text, [n]).Success?
  {
    assert [n][1..] == [];
  }

  /** A lone template name fails for lack of fuel only if its template does. */
  lemma TemplateNameStep(f: nat, g: Descriptor, t: TestResult, env: EnvVars, text: string, b: Builtin)
    requires b.IsTemplate() && !env.Has(BuiltinName(b))
    ensures Expand(f, g, Some(t), env, TemplateOf(g, b)) != Failure(RecursionTooDeep) ==>
              SubstituteAll(f + 1, g, t, env, text, [BuiltinName(b)]) != Failure(RecursionTooDeep)
  {
    var n := BuiltinName(b);
    TemplateBuiltinName(b);
    assert [n][1..] == [];
    TemplateStepUnfold(f, g, t, env, text, [n]);
  }

  /** A template made of its own placeholder never finishes: in the source the recursion
      overflows the stack, here every amount of fuel runs out. */
  lemma SelfReferentialTemplateDiverges(fuel: nat, g: Descriptor, t: TestResult, env: EnvVars, b: Builtin)
    requires b.IsTemplate()
    requires TemplateOf(g, b) == Placeholder(BuiltinName(b)) && !env.Has(BuiltinName(b))
    ensures Expand(fuel, g, Some(t), env, Placeholder(BuiltinName(b))) == Failure(RecursionTooDeep)
  {
    var n := BuiltinName(b);
    TemplateBuiltinName(b);
    OnlyPlaceholderNames(n);
    TemplateStepNoFuel(g, t, env, Placeholder(n), [n]);
    var k: nat := 0;
    while k < fuel
      invariant k <= fuel
      invariant Expand(k, g, Some(t), env, Placeholder(n)) == Failure(RecursionTooDeep)
    {
      SelfReferentialStep(k, g, t, env, b);
      k := k + 1;
    }
  }

  /** One more level of fuel does not help a template made of its own placeholder. */
  lemma SelfReferentialStep(f: nat, g: Descriptor, t: TestResult, env: EnvVars, b: Builtin)
    requires b.IsTemplate()
    requires TemplateOf(g, b) == Placeholder(BuiltinName(b)) && !env.Has(BuiltinName(b))
    ensures Expand(f, g, Some(t), env, Placeholder(BuiltinName(b))) == Failure(RecursionTooDeep) ==>
              Expand(f + 1, g, Some(t), env, Placeholder(BuiltinName(b))) == Failure(RecursionTooDeep)
  {
    var n := BuiltinName(b);
    TemplateBuiltinName(b);
    OnlyPlaceholderNames(n);
    TemplateStepUnfold(f, g, t, env, Placeholder(n), [n]);
  }
}

=== FILE: wrappers.dfy ===
/** Failure-compatible wrappers used throughout the model: `Option` stands for a
    Java reference that may be null, `Result` for a call that may throw. */
module Wrappers {

  datatype Option<+T> = None | Some(value: T) {
    predicate IsFailure() { None? }

    function PropagateFailure<U>(): Option<U>
      requires None?
    {
      None
    }

    function Extract(): T
      requires Some?
    {
      value
    }

    function GetOr(default: T): T {
      if Some? then value else default
    }
  }

  datatype Result<+R, +E> = Success(value: R) | Failure(error: E) {
    predicate IsFailure() { Failure? }

    function PropagateFailure<U>(): Result<U, E>
      requires Failure?
    {
      Failure(error)
    }

    function Extract(): R
      requires Success?
    {
      value
    }
  }
}
